=== FILE: README.md ===
# A Dafny model of the engine core

This project models the core of a small OpenGL game engine in Dafny:

- the fixed-size vectors (`Vec<N>`) and the quaternion helpers;
- the collision geometry of `Mesh` and its shapes (`Rectangle2D`, `Polygon2D`, `Sphere2D`);
- the scene graph of `Object`, with its deferred destruction, its sub-stepped collision pass and its recursive update;
- the per-window callback lists of `Event`;
- the timeout table and tick counter of `Window`;
- the channel pool of `Audio` and the playback flags of `Sound`;
- the program stack of `Shader::Program`;
- the byte-to-unit conversion of `Color`.

Vectors are sequences of reals. A `Vec` whose operators rewrite its storage in place is a class over an `array<real>`.

Objects live in an arena. `Objects.World` maps handles to records, and handle 0 stands for `nullptr`. The class keeps the engine's static state: the `invalid` set, the `marked` set, the `moving` list, the `collided` memo and the `destroy_shared` flag. The user-overridable hooks (`onCollision`, `beforeDestroy`, `afterDestroy`, `beforeUpdate`, `afterUpdate`) are oracles. Each hook is given as the list of objects it destroys, and the world records every hook call in a ghost `log`.

The engine leans on several outside services, and each becomes a parameter:

- the clock (`glfwGetTime`) becomes a parameter `now`;
- a timeout callback's answer becomes a function `answer`;
- the outcome of `Mix_OpenAudio` becomes a flag `deviceUp`;
- the outcome of reading a sound file becomes a flag `readable`;
- the GL shader name returned by `glCreateShader` becomes a parameter `created`.

Square roots are never taken. A distance test `sqrt(d2) <= r` is modelled as `r >= 0 && d2 <= r * r`. The values that `getCollisionSpace` obtains through `atan2`, `sin`, `cos` and `sqrt` come from an oracle datatype `Shapes.Trig`.

Several quirks of the code are modelled as written and shown by lemmas rather than corrected:

- `Geometry.TopLeftRejectedByBottomEdge`: `collisionRectangleCircle2D` (mesh.h:356) and the vertex fallback of `collisionRectangles2D` (mesh.cc:132-137) call `collisionPointRectangle2D` with the rectangle's top-left corner in the point slot. The polygon it builds is then (bottom-left, bottom-right, top-right, X), where X is the circle's centre or the other rectangle's vertex. For a rectangle of positive width and height, that polygon's first edge rejects the top-left corner, whatever X is. Neither branch ever fires.
- `Geometry.CircleInsideRectangleMissed`: as a consequence, a circle strictly inside an unrotated rectangle and clear of its four edges is not detected. `RectanglePairs.VertexFallbackNeverFires` states the same for the vertex fallback.
- `Geometry.RectangleCornerOrderRejectsEveryPoint`: even with the arguments in their declared order, the edges (top-left, bottom-left, bottom-right, top-right) reject every point, because they run counter-clockwise while the test keeps the right-hand side of each edge. No call in the core builds that polygon.
- `RectanglePairs.IdentityOrientationNeverCollides`: the axis-aligned branch of `collisionRectangles2D` compares the y coordinates in the order that a y-up rectangle never satisfies. Two unrotated rectangles with non-negative heights therefore never collide there.
- `Shapes.DetectPairUnhandled`: the pairs that no `_detectCollision` override handles answer false.
- `Audio.Sound.Free`: `free()` leaves the chunk pointer set.
- `Audio.Audio.Init`: when the device fails to open, the pool is still flagged initialized but has no channels.

## Model

| member | source | states |
|---|---|---|
| Vectors.AxisShape | vec.h:75-88 | the axis vector is 1 at `position` and 0 elsewhere; an out-of-range position gives the zero vector |
| Vectors.ZeroIsAllZero | vec.h:482-483 | every component of `zero` is 0 |
| Vectors.CopyFill | vec.h:104-112 | the constructor copies the given values and fills the remaining components with the fill value, keeping size N |
| Vectors.IsNonZeroIffSomeComponent | vec.h:138 | `operator bool` holds iff some component is non-zero |
| Vectors.Index | vec.h:148-166 | indexing succeeds iff `-N <= i < N`; a negative index counts from the end; otherwise an out-of-range error |
| Vectors.SpanValuesOk | vec.h:189-198 | one span of `range` succeeds iff it is empty or both ends are valid indices, and it yields `end - start + 1` values read through `operator[]` |
| Vectors.RangeSize | vec.h:189-198 | `range<Ranges>` succeeds iff every span's ends are in range, and its length is the full size of the spans |
| Vectors.RangeOneDropsEnd | vec.h:200-203 | the single-span `range<Range>` fails exactly when the span's ends are out of range; otherwise it holds the first END - START values of the span, read through `operator[]`, and drops the value at END that the inclusive read also fetched |
| Vectors.SumOfSum | vec.h:207-213 | the sum of a component-wise sum is the sum of the sums |
| Vectors.ProdWithZeroFactor | vec.h:215-221 | the product of the components is 0 when one component is 0 |
| Vectors.DotSymmetric | vec.h:225-231 | the dot product is symmetric |
| Vectors.DotAxis | vec.h:225-231 | the dot product with an axis vector picks out that component |
| Vectors.DotAdd | vec.h:225-231 | the dot product distributes over `+` |
| Vectors.DotSub | vec.h:225-231 | the dot product distributes over `-` |
| Vectors.DotScale | vec.h:225-231 | a scalar factor moves out of the dot product |
| Vectors.CrossProperties | vec.h:236-247 | the cross product is perpendicular to both operands and anti-commutes |
| Vectors.Distance2Properties | vec.h:251-258 | the squared distance is symmetric, non-negative, zero from a point to itself, and equals the squared length of the difference |
| Vectors.Length2NonNegative | vec.h:266-268 | the squared length is never negative |
| Vectors.LerpedEndpoints | vec.h:317-323 | `lerped` gives the first vector at t = 0 and the second at t = 1 |
| Vectors.AddSubInverse | vec.h:345-392 | subtracting what was added gives the original vector back |
| Vectors.AddScaledTwice | vec.h:345-425 | two moves along one direction add up: `p + s*x + s*y == p + s*(x+y)` |
| Vectors.AddZeroScale | vec.h:345-425 | moving by 0 times a speed leaves the point where it is |
| Vectors.Vec.constructor | vec.h:104-112 | the storage holds the given values |
| Vectors.Vec.AddAssign | vec.h:361-374 | `+=` leaves the component-wise sum in place |
| Vectors.Vec.AddAssignScalar | vec.h:361-374 | `+= x` adds x to every component in place |
| Vectors.Vec.SubAssign | vec.h:394-407 | `-=` leaves the component-wise difference in place |
| Vectors.Vec.SubAssignScalar | vec.h:394-407 | `-= x` subtracts x from every component in place |
| Vectors.Vec.MulAssign | vec.h:427-440 | `*=` as written: leaves the component-wise difference, not the product |
| Vectors.Vec.MulAssignScalar | vec.h:427-440 | `*= x` as written: subtracts x from every component |
| Vectors.MulAssignIsNotProduct | vec.h:427-440 | for [2] and 2, what `*=` computes differs from the product |
| Vectors.Vec.MulAssignIntended | vec.h:427-440 | the corrected `*=` leaves the component-wise product in place |
| Vectors.Vec.MulAssignScalarIntended | vec.h:427-440 | the corrected `*= x` scales every component by x |
| Vectors.Vec.DivAssign | vec.h:452-457 | `/= x` divides every component by x in place |
| Vectors.Vec.Negate | vec.h:180-185 | unary `-` negates the storage in place and returns the same object |
| Vectors.Vec.Lerp | vec.h:325-330 | `lerp` replaces the storage by the interpolated vector |
| Quaternions.RotationShape | quaternion.h:59-81 | the last row and column are those of an affine matrix, and the identity quaternion gives the identity matrix |
| Quaternions.RotationEven | quaternion.h:59-81 | q and -q give the same matrix |
| Quaternions.RotationProducts | quaternion.h:59-81 | the matrix depends on q only through the pairwise products of its components |
| Quaternions.RotatedIdentity | quaternion.h:85-115 | rotating by the identity leaves the vector unchanged |
| Quaternions.RotatedIgnoresThirdComponent | quaternion.h:85-98 | as written, the result of a real rotation does not depend on the vector's z component |
| Quaternions.RotatedHalfTurnAboutX | quaternion.h:85-98 | as written, a half turn about x sends (0,0,1) to (0,0,0) |
| Quaternions.RotatedNegIdentityMoves | quaternion.h:85-115 | as written, -identity gives the identity matrix, yet it sends (0,0,1) to (0,0,0) |
| Quaternions.RotatedIntended | quaternion.h:85-98 | the corrected `rotated` returns a 3-vector and leaves it unchanged for the identity |
| Quaternions.RotatedIntendedEven | quaternion.h:85-98 | the corrected `rotated` gives the same result for q and -q |
| Quaternions.RotatedIntendedHalfTurnAboutX | quaternion.h:85-98 | the corrected `rotated` sends (0,0,1) to (0,0,-1) under a half turn about x |
| Quaternions.Rotate | quaternion.h:100-111 | `rotate` overwrites the vector in place with what `rotated` returns |
| Quaternions.DifferenceProperties | quaternion.h:28-55 | nearly parallel vectors give the identity; a half turn's axis is perpendicular to the first vector; otherwise the raw quaternion is (v1 x v2, 1 + v1.v2) before normalisation |
| Geometry.EqualScan | mesh.h:39-49 | the component scan of `equal` answers true iff the sizes match and every component is equal |
| Geometry.EqualIsEquality | mesh.h:39-53 | `equal` is equality and `diff` is its negation |
| Geometry.Clamp | mesh.h:63-71 | the result lies in [lo, hi]; a value inside is unchanged; otherwise the nearer bound |
| Geometry.Quat2MatrixProperties | mesh.h:138-166 | `quat2matrix` is affine, maps the identity to the identity matrix, is the same for q and -q, and agrees with `Quaternion::rotation` |
| Geometry.RotateVecProperties | mesh.h:168-175 | `rotate` with the identity leaves a vector unchanged and is the same for q and -q |
| Geometry.EdgesTriangle2D | mesh.h:202-212 | three edges forming a closed loop through the given points in order |
| Geometry.EdgesRectangle2D | mesh.h:222-234 | four edges forming a closed loop through the given corners in order |
| Geometry.NearestOnRay | mesh.h:236-259 | the reported point lies on the segment (on the whole line when `infinite`) at the reported parameter, and no point of the segment (of the line) is closer to the given point |
| Geometry.CollisionPointConvexPolygon2D | mesh.h:261-276 | the point is inside iff it lies outside no edge |
| Geometry.EdgeKeepsItsEndpoints | mesh.h:261-276 | an edge's endpoints never lie outside that edge |
| Geometry.RectangleCornerOrderRejectsEveryPoint | mesh.h:222-276 | with the corner order a rectangle is built with, no point is inside |
| Geometry.CollisionSpheresSymmetric | mesh.h:297-305 | two spheres collide regardless of argument order |
| Geometry.CollisionSpheresByDistance | mesh.h:297-305 | for any two centres at distance d, the spheres collide iff d is at most the sum of the radii (when that sum is negative, iff d is at most its magnitude, since the sum is squared) |
| Geometry.CollisionRaySphereMeaning | mesh.h:330-337 | a hit iff the radius is not negative and some point of the segment (of the line when `infinite`) lies within the radius of the centre |
| Geometry.SegmentClearOnAxis | mesh.h:330-337 | a segment that keeps one coordinate fixed, more than the radius away from the centre's, is not hit |
| Geometry.CollisionRectangleCircle2DSpec | mesh.h:339-362 | a hit iff some edge comes within the radius of the centre, or the point test with the top-left corner as the point and the centre as fourth corner passes; an edge hit reports a point within the radius, a point-test hit the centre |
| Geometry.TopLeftRejectedByBottomEdge | mesh.h:354-359 | for a rectangle of positive size, the point test as called rejects the top-left corner whatever the fourth corner is |
| Geometry.CircleInsideRectangleMissed | mesh.h:339-362 | a circle strictly inside an unrotated rectangle, clear of its edges, is not detected |
| RectanglePairs.ClosestParameters | mesh.cc:12-75 | both parameters lie in [0, 1], and a degenerate segment gets parameter 0 |
| RectanglePairs.DistanceRays | mesh.cc:12-75 | the two reported points lie on their segments at the reported parameters; two degenerate segments give their start points (minimality is `RectanglePairs.DistanceRaysClosest`) |
| RectanglePairs.DistanceRaysOneDegenerate | mesh.cc:12-75 | with one degenerate segment, the other's point is the projection of its start point |
| RectanglePairs.DistanceRaysParameters | mesh.cc:12-75 | the parameters are those of the closest-point formula on the segments' dot products |
| RectanglePairs.InteriorResidualsVanish | mesh.cc:12-75 | an interior answer satisfies both normal equations of the closest-point problem |
| RectanglePairs.FirstParameter | mesh.cc:51-55 | the first guess lies in [0, 1] and is 0 for parallel segments |
| RectanglePairs.FinishParameters | mesh.cc:57-67 | both parameters lie in [0, 1]; strictly between the clamps the first guess is kept and `mub` times the second squared length is `numer` |
| RectanglePairs.SegmentsDistance2 | mesh.cc:20-27 | the squared distance of two segment points is the quadratic in the two parameters built from the dot products `distanceRays` computes |
| RectanglePairs.ParallelProportional | mesh.cc:46-55 | for parallel directions (`denom == 0`), a never-negative quadratic has a f == b c, so the guess 0 loses nothing |
| RectanglePairs.StationaryIsMinimal | mesh.cc:46-67 | parameters meeting the first-order conditions over [0, 1]^2 minimise the squared distance over the square |
| RectanglePairs.GeneralStationary | mesh.cc:57-67 | whichever branch `numer` selects, the resulting parameters meet the first-order conditions over [0, 1]^2 |
| RectanglePairs.FirstGuessHolds | mesh.cc:51-55 | the first guess is the lines' closest parameter, or clamped to 0 or 1 with the lines' closest parameter beyond it, or 0 for parallel lines |
| RectanglePairs.ClosestParametersStationary | mesh.cc:46-67 | when neither segment is degenerate, the parameters meet the first-order conditions over [0, 1]^2 |
| RectanglePairs.DistanceRaysClosest | mesh.cc:12-75 | when both segments are longer than `EPSILON`, no point of the first segment is nearer to any point of the second than `ray_start` is to `ray_end` |
| RectanglePairs.CollisionRectangles2DHitIgnoresPoint | mesh.cc:77-141 | whether two rectangles collide does not depend on the point passed in |
| RectanglePairs.EdgeCalls | mesh.cc:118-130 | the 16 edge pairs are compared in row-major order |
| RectanglePairs.ScanCalls | mesh.cc:118-130 | a hit iff some edge pair is close; the point is the first close pair's point, else the last pair's |
| RectanglePairs.ScanVertices | mesh.cc:132-137 | a hit iff some vertex of the other rectangle passes the point test, and the point is the first vertex that passes |
| RectanglePairs.VertexFallbackNeverFires | mesh.cc:132-137 | against an unrotated rectangle of positive size, no vertex passes the point test, so the fallback never reports a hit |
| RectanglePairs.CollisionRectangles2D | mesh.cc:77-141 | equal orientations leave the point untouched |
| RectanglePairs.CollisionRectangles2DDifferingHit | mesh.cc:101-137 | with differing orientations, a hit iff an edge pair is close or a vertex is inside |
| RectanglePairs.CollisionRectangles2DDifferingPoint | mesh.cc:101-137 | with differing orientations, the point is the first close edge pair's, else the first vertex that passes the point test, else the last pair's |
| RectanglePairs.IdentityOrientationNeverCollides | mesh.cc:93-99 | two unrotated rectangles with non-negative heights never collide |
| RectanglePairs.SameOrientationSignIrrelevant | mesh.cc:93-115 | equal non-identity orientations reduce to the overlap test on the rotated corners |
| Shapes.RectCornersIdentity | mesh.h:476-485 | without rotation the corners are the axis-aligned rectangle hanging down and right from the position |
| Shapes.Rectangle2D.constructor | mesh.h:471-474 | the fields hold the arguments and the corners are derived from them |
| Shapes.Rectangle2D.UpdatePositions | mesh.h:476-485 | the corners are recomputed and nothing else changes |
| Shapes.Rectangle2D.SetWidth | mesh.h:490-493 | the width is set and the corners follow |
| Shapes.Rectangle2D.SetHeight | mesh.h:490-493 | the height is set and the corners follow |
| Shapes.Rectangle2D.SetOrientation | mesh.h:456-457 | the orientation is set and the corners follow |
| Shapes.Rectangle2D.SetPosition | mesh.h:459-460 | the position is set and the corners follow |
| Shapes.Rectangle2D.Value | mesh.h:495-550 | the mesh as a value is a well-formed "rectangle2d" with the object's position, orientation, width, height and corners |
| Shapes.Trunc | mesh.h:645-651 | conversion to `int` truncates toward zero |
| Shapes.Polygon2D | mesh.h:561-562 | a polygon has type "polygon2d", is not a sphere, and keeps the given position, orientation, radius and number of sides |
| Shapes.Sphere2D | mesh.h:645-651 | a sphere is a polygon flagged as a sphere, at the given position, with the identity orientation and `radius * 20` sides, truncated |
| Shapes.GetCollisionSpaceSpec | mesh.h:592-609 | only a polygon has a collision space, and only when its squared speed exceeds its squared radius; the space is twice the radius high and as wide as the speed is long |
| Shapes.DetectPairUnhandled | mesh.h:402-408 | pairs no override handles answer false and leave the point alone |
| Shapes.DetectPairCircles | mesh.h:619-624 | two polygons collide iff their offset circles overlap, reporting the midpoint of their positions, and the test is symmetric |
| Shapes.IdentityRectanglesNeverCollide | mesh.h:522-548 | two unrotated rectangle meshes with non-negative heights never collide |
| Shapes.DetectCollisionInverseOnce | mesh.h:450-453 | the inverse call happens once, only when the direct test fails, and makes no inverse call of its own |
| Shapes.DetectCollisionAtRest | mesh.h:410-454 | for meshes at rest, the answer is the direct test in either order |
| Shapes.DetectCollisionHitIgnoresPoint | mesh.h:410-454 | whether two meshes collide does not depend on the point passed in, for the direct and the inverse test |
| Records.Destroyed | object.h:79-85 | `destroy()` hides the object and drops its collider, leaving its other fields alone |
| Records.DestroyedIdempotent | object.h:79-85 | destroying twice is destroying once |
| Records.DestroyedAll | object.h:79-85 | after `destroy()` on several ids, exactly the listed live objects are destroyed |
| Records.DestroyedAllKept | object.h:79-85 | destroy calls change nothing outside the newly marked objects |
| Records.Without | object.h:65 | `std::list::remove` drops every occurrence and keeps the count of every other element |
| Records.WithoutAppend | object.h:65 | removal works on each part of a list alone, so the remaining elements keep their order |
| Records.WithoutSingle | object.h:65 | a one-element list keeps its element unless it is the one removed |
| Records.Linked | object.h:64 | `addChild` sets the child's parent and appends it to the parent's children, changing no other record |
| Records.Unlinked | object.h:65 | `removeChild` clears the child's parent and removes it from the parent's children, changing no other record |
| Records.TeardownLog | object.cc:20-32 | each teardown calls `beforeDestroy` then `afterDestroy`, in teardown order |
| Records.TrackedComplete | object.cc:8-38 | once nothing is pending, every object marked and live at the start has been torn down, every child a torn-down object had is gone, and survivors keep all fields but their children lists |
| Objects.World.constructor | object.cc:5-6 | the arena starts empty, with `invalid = {nullptr}` and nothing marked |
| Objects.World.NewObject | object.h:41-52 | a handle not in use, either a new one or a deleted object's address handed out again, holding the given fields, no children and no parent; it leaves `invalid` |
| Objects.IsValidSpec | object.h:37-39 | a handle is valid iff it is live; a valid handle is also valid with `is_marked`; null is never valid |
| Objects.World.Destroy | object.h:79-85 | a live object is hidden, loses its collider and is marked; otherwise nothing changes |
| Objects.World.DestroyAll | object.h:79-85 | several `destroy()` calls: exactly the listed live objects are destroyed and marked |
| Objects.World.AddChild | object.h:64 | between two live objects, links the child under the parent; otherwise nothing changes |
| Objects.World.RemoveChild | object.h:65 | between two live objects, unlinks the child; otherwise nothing changes |
| Objects.World.SetParent | object.h:67 | adds `obj` as a child of this object's parent when all three are live; otherwise nothing changes |
| Objects.World.RemoveParent | object.h:68 | unlinks this object from a live parent; otherwise nothing changes |
| Objects.World.ClearChildren | object.cc:28 | the children list becomes empty |
| Objects.World.Detach | object.cc:20-28 | `beforeDestroy` is logged; a live parent no longer lists the object and its parent field is null; its children list is empty; every child it held and still live is marked; no other link changes |
| Objects.World.TearDown | object.cc:18-34 | the record goes and the handle becomes invalid; a live parent no longer lists it; every child it held and still live is marked; no other link changes; the two hooks are logged in order |
| Objects.World.DelayedDestroy | object.cc:8-38 | on return nothing is marked; exactly the torn-down objects (distinct, all once live) are gone and invalid; every object marked at the start is among them; the children of torn objects are gone too; survivors keep their parent fields and lose only torn-down children; no parent still lists a torn-down child; hooks are logged per teardown |
| Objects.World.Glide | object.cc:117-121 | without detection every child moves by one whole step of its speed |
| Objects.World.Collect | object.cc:46-54 | moving collidable children are queued in order, and moving non-collidable ones advance a whole step |
| Objects.World.Probe | object.h:56-58 | the collision test is the colliders' `detectCollision` at the objects' positions |
| Objects.World.Encounter | object.cc:68-98 | the inner loop for one mover: the contacts found are, in the order of the children, hits the test reports where the objects stood, each logged with its two `onCollision` calls; while the mover can still collide, every collidable child outside its memo that it collides with has been hit; every live object a hook destroys is marked; when no hook destroys anything, nothing changes |
| Objects.World.Meet | object.cc:81-95 | a reported hit is recorded as a contact at the objects' positions and `Engage` runs; every live object a hook destroys is marked |
| Objects.World.Collide | object.cc:83-87 | the mover's `onCollision`, then the other's, are logged in that order; every live object they destroy is marked and only colliders are dropped |
| Objects.World.React | object.cc:83-86 | one `onCollision` call is logged and every live object it destroys is marked; a call that destroys nothing changes nothing |
| Objects.World.Hit | object.h:79-85 | the `destroy()` calls of a hook: the listed live objects are destroyed and exactly they join `marked` |
| Objects.World.Try | object.cc:68-98 | a collidable mover's turn: the result says whether it can still collide; if it can, it is paired with every collidable child it collides with; new contacts are hits where the objects stand, and every live object a hook destroys is marked |
| Objects.World.Turn | object.cc:65-105 | one queued mover's turn: it stays queued and is paired with every collidable child it collides with, or it leaves the queue having moved all the quarters it was owed; every live object a hook destroys is marked; with hooks that destroy nothing, a collidable mover stays and nothing changes |
| Objects.World.Scan | object.cc:63-110 | a sub-step read against the collision pass: its contacts are one-sided hits where `units` quarter steps put the objects, and every live target of their hooks is marked; when no hook destroys anything and every queued mover can collide, nothing changes and its contacts pair every two objects colliding where `4 - left` quarter steps take them |
| Objects.World.Sample | object.cc:63-110 | the sub-step of a quarter: the rounds gain exactly its contacts, the earlier rounds unchanged; in the case where nothing is destroyed, that round is the `4 - left`-th thorough one and nothing is marked |
| Objects.World.Quarter | object.cc:63-112 | one sub-step and its quarter step: the rounds grow by one, the earlier ones unchanged, and the sweep's invariant holds with one quarter fewer to go |
| Objects.World.Step | object.cc:135-136 | `move` and the acceleration step tear nothing down, and every live object a collision hook destroys is marked; without detection no hook runs |
| Objects.World.Advance | object.cc:133-136 | `beforeUpdate`, `move` and the acceleration step: every live object `beforeUpdate` destroys is marked, and so is every one a collision hook destroys |
| Objects.World.Close | object.cc:142 | `afterUpdate` is logged and every live object it destroys is marked |
| Motion.AllCaughtMeans | object.cc:63-113 | the rounds are all caught iff every round's contacts are hits the test reports on the objects' paths |
| Motion.AllThoroughMeans | object.cc:63-113 | the rounds are all thorough iff round r pairs every two colliding objects where r quarter steps take them, for every r |
| Motion.RoundFromStep | object.cc:65-110 | a sub-step that pairs every collision where the objects stand, after r quarter steps each, is the r-th thorough round |
| Motion.ProbedIgnoresPoint | object.cc:81 | whether the test between two objects reports a hit does not depend on the point passed to it |
| Motion.CollectedRounds | object.cc:46-54 | what the sweep shows about the world after the first pass of `move` holds of the world before it, since that pass moves no collidable object |
| Objects.World.Engage | object.cc:83-95 | a contact calls the mover's `onCollision`, then the other's, and every live object either call destroys is marked; the pair is remembered while the mover can still collide, and otherwise the mover's memo is cleared |
| Objects.World.SubStep | object.cc:65-110 | one of the four sub-steps: every queued child advances a quarter step or leaves the queue with all it is owed; every contact is a hit the test reports where the objects stand, logged, one-sided, between a queued child and a child; every live object a collision hook destroys is marked; when no hook destroys anything and every queued child can collide, nothing changes and every queued child is paired with every collidable child it collides with |
| Objects.World.CloseQuarter | object.cc:108-112 | the end of a sub-step: every child still queued is one more quarter step along, so the ledger of quarters owed drops by one, and the `collided` memo is empty |
| Objects.World.Sweep | object.cc:56-113 | after four sub-steps every queued child has moved exactly one whole step (or been destroyed on the way); at most four rounds of contacts, each one-sided, between children, and made of hits the test reports on the objects' paths; every live object a collision hook destroys is marked; when no hook destroys anything, round r pairs every two colliding objects where r quarter steps take them |
| Objects.World.Move | object.cc:40-122 | every child of the object moves by exactly its speed times `delta_time`; only objects destroyed by hooks change otherwise; without detection no hook runs; contacts come from the children only and are hits on their paths; every live object a collision hook destroys is marked; with detection and hooks that destroy nothing, there are four rounds (none without movers) and round r pairs every two colliding children where r quarter steps take them |
| Objects.World.Accelerate | object.cc:136 | the speed grows by `acceleration * delta_time` |
| Objects.World.Update | object.cc:124-149 | a live object's hooks bracket its update; an invalid one does nothing; without detection no `onCollision` runs; every live object that a hook call of the pass destroys (update hooks and collision hooks of the whole subtree) is in `doomed`; only the outermost call runs `delayedDestroy`, after which nothing is marked and every object of `doomed` is gone; exactly the torn-down objects leave the arena and join `invalid` |
| Objects.World.Pass | object.cc:131-143 | `beforeUpdate` first and `afterUpdate` last; every live object a hook call of the pass destroys is marked; without detection no `onCollision` runs; no object is torn down during the pass |
| Objects.World.UpdateAll | object.cc:138-140 | updating the children in turn tears nothing down, and every live object a hook call of those updates destroys is marked |
| Events.Tick | event.h:116-131 | an entry leaves at most one survivor, and it is unmarked |
| Events.SurvivorsAppend | event.h:114-132 | triggering works entry by entry: the survivors and calls of a concatenation are concatenated |
| Events.SurvivorsCome | event.h:114-132 | no marked entry survives a trigger, and a trigger never lengthens a list |
| Events.SurvivorsCount | event.h:116-131 | an unlimited entry survives as often as it occurs; a limited one survives with its counter one lower |
| Events.FiredAreUnmarked | event.h:119-120 | the callbacks invoked are those of the unmarked entries, in list order |
| Events.Unmarked | event.h:119 | the unmarked entries of a list are the entries with a false flag |
| Events.LimitHonoured | event.h:114-140 | a callback added with limit n > 0 runs on exactly the next n triggers and then is gone |
| Events.ErasedKeeps | event.h:146-162 | erasing marks the selected entries and changes nothing else; erasing twice is erasing once |
| Events.ErasedUnselected | event.h:146-162 | whatever an erase leaves unmarked, it did not select |
| Events.ErasedFuncNeverFires | event.cc:8-15 | once erased by function, a callback is never invoked again and leaves no survivor |
| Events.ErasedIdNeverFires | event.cc:17-26 | once erased by a non-empty id, no entry with that id survives or runs |
| Events.TriggerList.constructor | event.cc:6 | no window has a list yet |
| Events.TriggerList.Add | event.h:138-140 | the entry is appended, unmarked, with its id and limit |
| Events.TriggerList.AddLimited | event.h:142-144 | the entry is appended with the empty id |
| Events.TriggerList.Trigger | event.h:103-136 | the list becomes its survivors, and the callbacks invoked are those of the unmarked entries, in order |
| Events.TriggerList.EraseFunc | event.cc:8-15 | the entries holding the function are marked |
| Events.TriggerList.EraseId | event.cc:17-26 | the entries with the id are marked, unless the id is empty |
| Events.Mouse.constructor | event.cc:3-4 | the stored cursor position starts at (0, 0) |
| Windows.Bump | window.h:52-60 | the `unsigned` increment stays below 2^32 and is `n + 1` when that fits |
| Windows.Rearmed | window.cc:4-6 | a callback that answers true is due again one interval later |
| Windows.Ascending | window.cc:16-32 | the keys of a `std::map` are visited in strictly increasing order, each exactly once |
| Windows.SweptPart | window.cc:23-32 | after the sweep, an entry not due is unchanged; a due entry is rearmed if its callback answers true and removed otherwise |
| Windows.Ceil | window.cc:46-48 | `ceil(x)` is the least integer not below x |
| Windows.Steps | window.cc:46-48 | an animation uses `total_steps` steps, or when that is 0 the ceiling of `total_time / 0.01` |
| Windows.IntervalsSpan | window.cc:50-59 | the steps of an animation span its whole duration (steps times interval is `total_time`); when `total_time` is positive, the interval lies in (0, `total_time`] |
| Windows.AnimationCall | window.cc:52-58 | before the end the closure passes the eased time to `func` and returns its answer; at the end it passes 1 and returns false |
| Windows.AnimationRetires | window.cc:23-58 | an animation whose time is up is removed by the next sweep that finds it due |
| Windows.Window.constructor | window.h:14-34 | the two roots are distinct live objects without children, which may reuse deleted addresses, and nothing is scheduled |
| Windows.Window.GetTick | window.h:102 | `getTick` returns the tick counter |
| Windows.Window.AddObject | window.h:38 | `object_root.addChild(obj)` |
| Windows.Window.AddGui | window.h:39 | `gui_root.addChild(gui)` |
| Windows.Window.SetTimeout | window.h:52-60 | the id is the counter's old value; the entry is due at `now + interval`; until the counter wraps, the id is fresh |
| Windows.Window.ClearTimeout | window.h:62 | the entry with that id is gone |
| Windows.Window.Execute | window.cc:3-10 | a true answer rearms the entry, and a false one erases it |
| Windows.Window.ExecuteTimeout | window.h:64-70 | an unknown id gives false and changes nothing; otherwise as the private overload |
| Windows.Window.CompleteAnimation | window.h:79-84 | the callback runs until its first false answer, and then the entry is gone |
| Windows.Window.Sweep | window.cc:23-32 | the table becomes the swept table; the executed ids are exactly the due ones, in increasing order |
| Windows.Window.Update | window.cc:12-35 | both roots are updated in that order, each bracketed by its own hooks, the gui pass without collision calls; every live object that a hook call of either pass destroys is gone afterwards; every object marked before the frame is in the first pass's doomed set and is gone afterwards; every object marked is torn down and exactly those leave the arena; the due timeouts are swept in increasing order; `first_time` becomes now; the tick counter advances with wrap-around |
| Windows.Window.Animate | window.cc:37-60 | registers one timeout holding the animation closure, due one interval from now |
| Audio.Channels | audio.cc:9-22 | `AddChannels` appends the new channel numbers in increasing order |
| Audio.Clamp | audio.h:84 | the volume is clamped into [0, 128] |
| Audio.Audio.constructor | audio.cc:5-7 | the pool starts uninitialized and empty |
| Audio.Audio.AddChannels | audio.cc:9-22 | an initialized pool grows by n channels, numbered from the old count; an uninitialized one is left alone |
| Audio.Audio.Init | audio.h:38-53 | a second call succeeds and changes nothing; a first call opens 128 channels, or none when the device fails |
| Audio.Audio.End | audio.h:55-61 | the pool is closed and emptied |
| Audio.Audio.GetChannel | audio.h:20-30 | initializes on demand; hands out the first free channel; an empty pool gives "no channels"; a failed device gives an error |
| Audio.Audio.FreeChannel | audio.h:32 | a valid channel returns to the front of the free list; anything else is ignored |
| Audio.Audio.FreeThenGet | audio.h:20-32 | a freed channel is the next one handed out, and the pool ends as it began |
| Audio.Sound.constructor | audio.h:65-71 | a new sound has no chunk, no channel, full volume and is stopped |
| Audio.Sound.SetVolume | audio.h:84 | with a valid channel the volume becomes the clamped value; otherwise unchanged |
| Audio.Sound.Mute | audio.h:85 | with a valid channel the volume becomes 0 |
| Audio.Sound.MaxVolume | audio.h:86 | with a valid channel the volume becomes the maximum |
| Audio.Sound.FreeChannel | audio.h:81 | the channel goes back to the pool and the sound has none |
| Audio.Sound.GetChannel | audio.h:78 | a sound that holds a valid channel keeps it; otherwise it takes one from the pool, or holds none on error |
| Audio.Sound.Load | audio.h:89-95 | a sound with a channel only reloads its chunk; otherwise it takes a channel first and loads only if that succeeds |
| Audio.Sound.Start | audio.h:97-103 | the sound is started and not paused |
| Audio.Sound.Play | audio.h:105-112 | the sound is started (or resumed) and not paused |
| Audio.Sound.Pause | audio.h:114-119 | the sound is paused |
| Audio.Sound.Stop | audio.h:121-127 | the sound is neither started nor paused |
| Audio.Sound.Free | audio.h:82 | the sound stops and returns its channel; the chunk flag is left as it was |
| Shaders.Program.constructor | shader.h:23-32 | no program name, no shaders of any type, not linked, not usable |
| Shaders.Program.AttachShader | shader.h:77-90 | the program name is created once; a null shader, an unknown type or a linked program attach nothing; a single-shader program refuses a second shader of a type |
| Shaders.Program.DetachShader | shader.h:188-192 | the shader leaves its type's set, which is created if absent, and no other set changes |
| Shaders.Program.Link | shader.h:194-201 | a complete program becomes linked; an incomplete one reports an error and is unchanged |
| Shaders.Program.Use | shader.h:203-216 | a complete program becomes the current one; otherwise nothing changes |
| Shaders.Binding.constructor | shader.h:20-21 | no current program and an empty stack |
| Shaders.Binding.PushShader | shader.h:94-99 | as written: pushes the program but re-uses the current one |
| Shaders.Binding.PopShader | shader.h:101-112 | as written: pops, and the current program changes only when the stack empties |
| Shaders.Binding.PushShaderIntended | shader.h:94-99 | the corrected push makes the pushed program current when it is usable |
| Shaders.Binding.PopShaderIntended | shader.h:101-112 | the corrected pop makes the new top current when it is usable, and none when the stack empties |
| Shaders.Binding.PushThenPop | shader.h:94-112 | with the corrected pair, a push followed by a pop restores the stack and makes the old top current |
| Shaders.Binding.UseShader | shader.h:114-123 | using a program clears the stack; a null program with `clear` clears everything, and without it changes nothing |
| Colors.Unit | color.h:15-17 | a byte maps into [0, 1] as byte / 255 |
| Colors.Rgba | color.h:15-17 | each colour channel is its byte divided by 255, and alpha is kept |
| Colors.Rgb | color.h:19-21 | `rgb` is `rgba` with alpha 1 |
| Colors.DefaultAlpha | color.h:12-13 | the constructor's alpha defaults to 1 |
| Colors.RgbaInjective | color.h:15-17 | different bytes give different colours |

## Left out

- Rendering is not modelled: every `draw`, `_draw`, `Draw::*` and GL/GLFW/SDL call, `Window::draw`, `makeCurrentContext`, `shouldClose`, `swapBuffers`, `getFramebufferSize` and `Window::get`.
- Floating point is modelled as real arithmetic. The model has no rounding, no NaN and no infinities. Division by zero is excluded by preconditions where the code would produce an infinity.
- `sqrt`, `atan2`, `sin` and `cos` are not evaluated. Distances are compared on their squares, and the collision space of a polygon takes these values from an oracle.
- The `EPSILON` that `Quaternion::difference` reads comes from `defaults.h`, which is not part of this model. It is a parameter here. `Mesh::EPSILON` (mesh.h:23-24) is a constant.
- `RectanglePairs.DistanceRaysClosest`: requires both squared segment lengths above `EPSILON`. A segment whose squared length is positive but at most `EPSILON` is treated as a point, and the reported pair is then the closest only up to that segment's length.
- `Vectors.Cross`: requires two three-component vectors. The source throws for a vector of any other size (vec.h:244-247), and that error path is not modelled. Every caller in the engine (quaternion.h:35-41) passes three components.
- `Geometry.DistanceRayToPoint`: its own ensures only bound the parameter and place the point on the line. That the point is the nearest one of the segment (or line) is stated by the lemma `Geometry.NearestOnRay`.
- `Objects.World.Update`: the recursion over children carries a fuel bound. `addChild` can build cyclic child graphs, and the source would then recurse forever. With fuel 0 the model does nothing.
- `Objects.World.DelayedDestroy`: `marked` and `swapper` are `std::set<Object *>`, which `delayedDestroy` visits in address order. Addresses are not modelled, so each round visits the swapped-out objects in any order, and the contract holds for every order.
- `Objects.World.Move`: the children and the `moving` queue are `std::list`s, and the model keeps their order. The `collided` memo (an `std::unordered_map` of `std::unordered_set`s) is only looked up and is a map of sets here.
- Hooks only destroy objects in the model. A hook that moves, re-parents or creates objects is not modelled.
- The reentrant calls of `update` from inside a hook are not modelled.
- `Events.TriggerList.Trigger`: a callback has no effect on the lists in the model; `fired` and the new list are computed from the list as it was before the walk. In the source the loop compares against `trigger_list[window].end()` afresh on every step (event.h:113), so an entry that a callback appends to the same window's list is invoked in the same `trigger`, and an entry that a callback erases further down the list is found marked, skipped and removed (event.h:127-129).
- `Events.TriggerList.EraseFunc` and `Events.TriggerList.EraseId`: the source as written would not compile. `erase` assigns the flag through `const auto &ev` (event.h:147, event.cc:10 and event.cc:20), `std::function` has no `operator==`, and event.cc defines again the member templates that event.h already defines inline. The model gives the evident meaning: the selected entries are marked.
- `std::function` identity is modelled as equality of handles. Erasing by function matches exactly the entries registered with that handle.
- `MouseMove::beforeEvents` is not modelled. It depends on the framebuffer size, and the stored position is kept only as its initial value.
- The function-static `first_time` of `Window::update` is a field of the window.
- `Windows.Window.Sweep`: a timeout callback has no side effects in the model; `answer` only says whether it rearms. In the source a callback may itself call `setTimeout` or `clearTimeout` while `update` sweeps the table, and clearing the entry that `next` points to (window.cc:25) leaves a dangling iterator.
- `Windows.Window.CompleteAnimation`: requires that some call answers false. The source loops forever (`while (executeTimeout(timeout));`, window.h:79-84) when the callback always answers true.
- `Windows.Window.Animate`: requires `total_steps > 0` or `total_time > 0`. With both 0 the source divides by zero.
- `Windows.Steps`: the `unsigned` conversion of `ceil(total_time / 0.01)` is not truncated. An animation longer than 2^32 hundredths of a second is outside the model.
- `Window::sync` is not modelled: it sleeps and reads the clock.
- `Window::event` only forwards to `Event::add` and is not modelled separately.
- `Object::alwaysUpdate`, `debugInfo`, `Mesh::addChild`, `setShader`/`getShader`, the getters and `areaTriangle` are not modelled: they draw, print, or only read or forward a field.
- The shader compilation and loading wrappers are not modelled: `compile`, `readFile`, and `attachVertexShader` and its siblings call the GL compiler. As written, the tessellation wrappers compile their source as compute shaders.
- `Program` hooks `before_use`/`after_use`, `getProgramID`, `getUniformLocationARB`, `operator!=` and `operator GLuint` are not modelled.
- `fadeIn`, `fadeOut`, `getVolume` and the `Sound(file)` constructor are not modelled. They only forward to SDL_mixer or combine `load` with the default constructor.
- `Audio.Sound.GetChannel`: only states the result of a re-request, and for a fresh request only that the channel is valid. The exact pool change is stated by `Audio.Audio.GetChannel`.
- `Audio.Audio.AddChannels`: the `int` overflow of `max_channels` is not modelled.
- `Shaders.Binding.PushShader`: requires that a null current program is not dereferenced. That case is undefined behaviour in the source.
- `Shaders.Binding.PopShader`: requires that a null current program is not dereferenced. That case is undefined behaviour in the source.
- `Shaders.Binding.PopShader` and `Shaders.Binding.PopShaderIntended`: require a non-empty stack. `programs.pop()` on an empty `std::stack` (shader.h:102) is undefined behaviour in the source.
- `Color::apply` is not modelled: it only calls `glColor4d`.

## Findings

| source | as written | input that shows it | evidently intended | confidence | as-written member | corrected member |
|---|---|---|---|---|---|---|
| vec.h:427-440 | `operator*=` subtracts, for vectors and for scalars | `[2] *= [2]` gives `[0]`, not `[4]` | component-wise multiplication, as `operator*` at vec.h:411-425 does | high, not executed | Vectors.Vec.MulAssign, Vectors.Vec.MulAssignScalar, Vectors.MulAssignIsNotProduct | Vectors.Vec.MulAssignIntended, Vectors.Vec.MulAssignScalarIntended |
| quaternion.h:92-94 | the third column of the rotation matrix is multiplied by `diff[1]` instead of `diff[2]`; `rotate` at 106-108 repeats it | the half turn (1,0,0,0) sends (0,0,1) to (0,0,0); -identity moves (0,0,1) although its matrix is the identity | the matrix times (x, y, z) relative to the pivot | high, not executed | Quaternions.RotatedIgnoresThirdComponent, Quaternions.RotatedHalfTurnAboutX, Quaternions.RotatedNegIdentityMoves | Quaternions.RotatedIntended, Quaternions.RotatedIntendedEven, Quaternions.RotatedIntendedHalfTurnAboutX |
| shader.h:94-112 | `pushShader` and `popShader` call `use()` on the current program rather than on the pushed program or the new top | pushing a complete program P while Q is current leaves Q current | the pushed program (or the new top after a pop) becomes current | medium, not executed | Shaders.Binding.PushShader, Shaders.Binding.PopShader | Shaders.Binding.PushShaderIntended, Shaders.Binding.PopShaderIntended, Shaders.Binding.PushThenPop |

=== FILE: audio.dfy ===
/** The audio channel pool (the static state of class `Audio`) and the flags
    of `Audio::Sound`.  The SDL mixer itself is left out: whether the device
    opens (`deviceUp`: `SDL_Init` and `Mix_OpenAudio` both succeed) and
    whether a sound file loads are parameters. */
module Audio {
  import opened Common

  /** `MIX_MAX_VOLUME` of SDL_mixer. */
  const MixMaxVolume: int := 128

  /** The number of channels `Init` allocates. */
  const InitialChannels: int := 128

  /** The channel numbers `lo`, `lo + 1`, ..., `hi - 1` in ascending order. */
  function Channels(lo: int, hi: int): (r: seq<int>)
    ensures |r| == if hi <= lo then 0 else hi - lo
    ensures forall i :: 0 <= i < |r| ==> r[i] == lo + i
    decreases hi - lo
  {
    if hi <= lo then [] else Channels(lo, hi - 1) + [hi - 1]
  }

  /** `std::min(std::max(0, v), MIX_MAX_VOLUME)`. */
  function Clamp(v: int): (r: int)
    ensures 0 <= r <= MixMaxVolume
    ensures 0 <= v <= MixMaxVolume ==> r == v
    ensures v < 0 ==> r == 0
    ensures v > MixMaxVolume ==> r == MixMaxVolume
  {
    if v < 0 then 0 else if v > MixMaxVolume then MixMaxVolume else v
  }

  /** The static members of `Audio`: one instance stands for the process-wide state. */
  class Audio {
    var initialized: bool
    var maxChannels: int
    /** `next_channel`: the free channels, the next one to hand out first. */
    var nextChannel: seq<int>

    /** Every free channel is allocated, and nothing is allocated before `Init`. */
    ghost predicate Valid()
      reads this
    {
      && maxChannels >= 0
      && (forall c :: c in nextChannel ==> 0 <= c < maxChannels)
      && (!initialized ==> maxChannels == 0 && nextChannel == [])
    }

    /** The static initial state: not initialised, no channels. */
    constructor()
      ensures !initialized && maxChannels == 0 && nextChannel == []
      ensures Valid()
    {
      initialized, maxChannels, nextChannel := false, 0, [];
    }

    /** `AddChannels(n)`: once initialised, the next `n` channel numbers are
        allocated and queued behind the free ones; otherwise nothing happens. */
    method AddChannels(n: int)
      modifies this`maxChannels, this`nextChannel
      ensures old(initialized) ==> maxChannels == old(maxChannels) + n
      ensures old(initialized) ==> nextChannel == old(nextChannel) + Channels(old(maxChannels), old(maxChannels) + n)
      ensures !old(initialized) ==> maxChannels == old(maxChannels) && nextChannel == old(nextChannel)
      ensures n >= 0 && old(Valid()) ==> Valid()
    {
      if initialized {
        var next := maxChannels;
        maxChannels := maxChannels + n;
        while next < maxChannels
          invariant maxChannels == old(maxChannels) + n
          invariant old(maxChannels) <= next
          invariant next <= maxChannels || next == old(maxChannels)
          invariant nextChannel == old(nextChannel) + Channels(old(maxChannels), next)
          decreases maxChannels - next
        {
          nextChannel := nextChannel + [next];
          next := next + 1;
        }
      }
    }

    /** `Init()`: from the uninitialised state, marks the pool initialised and,
        when the device opens, allocates 128 channels; `ok` is false when it
        throws, which leaves the pool initialised but empty.  A no-op once
        initialised. */
    method Init(deviceUp: bool) returns (ok: bool)
      requires Valid()
      modifies this`initialized, this`maxChannels, this`nextChannel
      ensures Valid() && initialized
      ensures old(initialized) ==> ok && maxChannels == old(maxChannels) && nextChannel == old(nextChannel)
      ensures !old(initialized) ==> ok == deviceUp
      ensures !old(initialized) && deviceUp ==> maxChannels == InitialChannels && nextChannel == Channels(0, InitialChannels)
      ensures !old(initialized) && !deviceUp ==> maxChannels == 0 && nextChannel == []
    {
      if initialized {
        return true;
      }
      initialized := true;
      if !deviceUp {
        return false;
      }
      AddChannels(InitialChannels);
      ok := true;
    }

    /** `End()`: everything released and back to the uninitialised state. */
    method End()
      modifies this`initialized, this`maxChannels, this`nextChannel
      ensures !initialized && maxChannels == 0 && nextChannel == []
      ensures Valid()
    {
      maxChannels := 0;
      nextChannel := [];
      initialized := false;
    }

    /** `GetChannel()`: initialises the pool if needed, then hands out the
        front free channel; throws when the device fails to open or when no
        channel is free. */
    method GetChannel(deviceUp: bool) returns (r: Result<int>)
      requires Valid()
      modifies this`initialized, this`maxChannels, this`nextChannel
      ensures Valid() && initialized
      ensures !old(initialized) && !deviceUp ==> r == Err(DeviceFailure) && maxChannels == 0 && nextChannel == []
      ensures old(initialized) || deviceUp ==>
                var pool := if old(initialized) then old(nextChannel) else Channels(0, InitialChannels);
                && maxChannels == (if old(initialized) then old(maxChannels) else InitialChannels)
                && (pool == [] ==> r == Err(NoChannels) && nextChannel == [])
                && (pool != [] ==> r == Ok(pool[0]) && nextChannel == pool[1..])
      ensures r.Ok? ==> 0 <= r.value < maxChannels
    {
      if !initialized {
        var ok := Init(deviceUp);
        if !ok {
          return Err(DeviceFailure);
        }
      }
      if nextChannel != [] {
        var channel := nextChannel[0];
        assert channel in nextChannel;
        assert forall c :: c in nextChannel[1..] ==> c in nextChannel;
        nextChannel := nextChannel[1..];
        return Ok(channel);
      }
      return Err(NoChannels);
    }

    /** `FreeChannel(c)`: an allocated channel goes back to the front of the
        free list, so it is the next one handed out; anything else is ignored. */
    method FreeChannel(c: int)
      requires Valid()
      modifies this`nextChannel
      ensures Valid()
      ensures initialized && 0 <= c < maxChannels ==> nextChannel == [c] + old(nextChannel)
      ensures !(initialized && 0 <= c < maxChannels) ==> nextChannel == old(nextChannel)
    {
      if initialized && c >= 0 && c < maxChannels {
        nextChannel := [c] + nextChannel;
      }
    }

    /** Freeing an allocated channel and asking for one returns that channel
        and leaves the free list as it was. */
    method FreeThenGet(c: int) returns (r: Result<int>)
      requires Valid() && initialized && 0 <= c < maxChannels
      modifies this`initialized, this`maxChannels, this`nextChannel
      ensures r == Ok(c) && Valid()
      ensures initialized && maxChannels == old(maxChannels) && nextChannel == old(nextChannel)
    {
      FreeChannel(c);
      r := GetChannel(true);
    }
  }

  /** `Audio::Sound`: a chunk (present or not), the channel it plays on
      (`-1` for none), its volume and its playback flags. */
  class Sound {
    const audio: Audio
    /** `sound != nullptr`. */
    var loaded: bool
    var channel: int
    var volume: int
    var paused: bool
    var started: bool

    /** The volume stays in range and the channel is `-1` or a channel number. */
    ghost predicate Consistent()
      reads this
    {
      0 <= volume <= MixMaxVolume && -1 <= channel
    }

    predicate ValidSound()
      reads this
    {
      loaded
    }

    predicate ValidChannel()
      reads this
    {
      channel >= 0
    }

    /** `valid()`: a chunk is loaded and a channel is held. */
    predicate IsValid()
      reads this
    {
      ValidSound() && ValidChannel()
    }

    /** `Sound()`: no chunk, no channel, full volume, neither started nor paused. */
    constructor(audio: Audio)
      ensures this.audio == audio
      ensures !IsValid() && !ValidSound() && !ValidChannel() && channel == -1
      ensures volume == MixMaxVolume && !paused && !started
      ensures Consistent()
    {
      this.audio := audio;
      loaded, channel, volume := false, -1, MixMaxVolume;
      paused, started := false, false;
    }

    /** `setVolume(v)`: with a channel, the volume becomes `v` clamped to
        `[0, MIX_MAX_VOLUME]`; without one nothing changes. */
    method SetVolume(v: int)
      requires Consistent()
      modifies this`volume
      ensures Consistent()
      ensures ValidChannel() ==> volume == Clamp(v)
      ensures !ValidChannel() ==> volume == old(volume)
    {
      if channel >= 0 {
        volume := Clamp(v);
      }
    }

    /** `mute()`: volume 0 when a channel is held. */
    method Mute()
      requires Consistent()
      modifies this`volume
      ensures Consistent()
      ensures volume == if ValidChannel() then 0 else old(volume)
    {
      SetVolume(0);
    }

    /** `maxVolume()`: full volume when a channel is held. */
    method MaxVolume()
      requires Consistent()
      modifies this`volume
      ensures Consistent()
      ensures volume == if ValidChannel() then MixMaxVolume else old(volume)
    {
      SetVolume(MixMaxVolume);
    }

    /** `freeChannel()`: a held channel goes back to the pool and the sound
        holds none afterwards. */
    method FreeChannel()
      requires Consistent() && audio.Valid()
      modifies this`channel, audio`nextChannel
      ensures Consistent() && audio.Valid() && channel == -1
      ensures audio.nextChannel ==
                if 0 <= old(channel) < audio.maxChannels && audio.initialized
                then [old(channel)] + old(audio.nextChannel) else old(audio.nextChannel)
    {
      if channel >= 0 {
        audio.FreeChannel(channel);
        channel := -1;
      }
    }

    /** `getChannel()`: gives back the channel held, takes the front free one
        (when `GetChannel` throws, the sound is left with none) and reapplies
        the volume.  A held channel comes straight back. */
    method GetChannel(deviceUp: bool) returns (r: Result<int>)
      requires Consistent() && audio.Valid()
      modifies this`channel, this`volume, audio`initialized, audio`maxChannels, audio`nextChannel
      ensures Consistent() && audio.Valid() && audio.initialized
      ensures r.Ok? ==> channel == r.value && 0 <= channel < audio.maxChannels
      ensures r.Err? ==> channel == -1
      ensures volume == old(volume)
      ensures old(channel) >= 0 && old(audio.initialized) && old(channel) < old(audio.maxChannels) ==>
                r == Ok(old(channel)) && audio.nextChannel == old(audio.nextChannel)
                && audio.maxChannels == old(audio.maxChannels)
    {
      FreeChannel();
      r := audio.GetChannel(deviceUp);
      if r.Ok? {
        channel := r.value;
        SetVolume(volume);
      }
    }

    /** `load(file)`: takes a channel when none is held (when that throws,
        nothing is loaded), then the chunk is whatever the file yields. */
    method Load(deviceUp: bool, readable: bool) returns (r: Result<int>)
      requires Consistent() && audio.Valid()
      modifies this`channel, this`loaded, audio`initialized, audio`maxChannels, audio`nextChannel
      ensures Consistent() && audio.Valid()
      ensures old(channel) >= 0 ==> r == Ok(old(channel)) && channel == old(channel) && loaded == readable
      ensures old(channel) >= 0 ==> unchanged(audio)
      ensures r.Ok? ==> channel == r.value && loaded == readable
      ensures r.Err? ==> channel == old(channel) && loaded == old(loaded)
    {
      if channel < 0 {
        r := audio.GetChannel(deviceUp);
        if r.Err? {
          return;
        }
        channel := r.value;
      } else {
        r := Ok(channel);
      }
      loaded := readable;
    }

    /** `start()`: started and not paused, whether or not anything plays. */
    method Start()
      modifies this`started, this`paused
      ensures started && !paused
    {
      started := true;
      paused := false;
    }

    /** `play()`: resumes a paused started sound, starts it otherwise; either
        way it ends started and not paused. */
    method Play()
      modifies this`started, this`paused
      ensures started && !paused
    {
      if !started || !paused {
        Start();
      }
      paused := false;
    }

    /** `pause()`: paused, with or without a channel. */
    method Pause()
      modifies this`paused
      ensures paused && started == old(started)
    {
      paused := true;
    }

    /** `stop()`: neither started nor paused. */
    method Stop()
      modifies this`started, this`paused
      ensures !started && !paused
    {
      started := false;
      paused := false;
    }

    /** `free()`: stops, gives the channel back and frees the chunk, which
        does not clear the chunk pointer, so `validSound()` keeps its value. */
    method Free()
      requires Consistent() && audio.Valid()
      modifies this`started, this`paused, this`channel, audio`nextChannel
      ensures Consistent() && audio.Valid()
      ensures !started && !paused && channel == -1 && loaded == old(loaded)
      ensures audio.nextChannel ==
                if 0 <= old(channel) < audio.maxChannels && audio.initialized
                then [old(channel)] + old(audio.nextChannel) else old(audio.nextChannel)
    {
      Stop();
      FreeChannel();
    }
  }
}

=== FILE: color.dfy ===
/** `Color`: four double channels, built from unit values or from bytes. */
module Colors {

  newtype Byte = x: int | 0 <= x < 256

  /** `Color(r, g, b, a = 1.0)`. */
  datatype Color = Color(r: real, g: real, b: real, a: real := 1.0)

  /** The red, green and blue channels lie in the unit interval. */
  predicate InUnitRange(c: Color)
  {
    0.0 <= c.r <= 1.0 && 0.0 <= c.g <= 1.0 && 0.0 <= c.b <= 1.0
  }

  /** A byte scaled to the unit interval (`x / 255.0`); scaling back gives the byte. */
  function Unit(x: Byte): (u: real)
    ensures 0.0 <= u <= 1.0
    ensures u * 255.0 == x as real
  {
    x as real / 255.0
  }

  /** `Color::rgba(r, g, b, a)`: the colour bytes scaled to the unit
      interval, the alpha taken as given. */
  function Rgba(r: Byte, g: Byte, b: Byte, a: real): (c: Color)
    ensures InUnitRange(c) && c.a == a
    ensures c.r * 255.0 == r as real && c.g * 255.0 == g as real && c.b * 255.0 == b as real
  {
    Color(Unit(r), Unit(g), Unit(b), a)
  }

  /** `Color::rgb(r, g, b)`: opaque. */
  function Rgb(r: Byte, g: Byte, b: Byte): (c: Color)
    ensures c == Rgba(r, g, b, 1.0)
    ensures InUnitRange(c) && c.a == 1.0
  {
    Color(Unit(r), Unit(g), Unit(b), 1.0)
  }

  /** The constructor's alpha defaults to opaque. */
  lemma DefaultAlpha(r: real, g: real, b: real)
    ensures Color(r, g, b) == Color(r, g, b, 1.0)
    ensures Color(r, g, b).a == 1.0
  {
  }

  /** Different bytes give different colours: the byte form loses nothing. */
  lemma RgbaInjective(r: Byte, g: Byte, b: Byte, a: real, r': Byte, g': Byte, b': Byte, a': real)
    requires Rgba(r, g, b, a) == Rgba(r', g', b', a')
    ensures r == r' && g == g' && b == b' && a == a'
  {
    var c := Rgba(r, g, b, a);
    assert r as real == c.r * 255.0 == r' as real;
    assert g as real == c.g * 255.0 == g' as real;
    assert b as real == c.b * 255.0 == b' as real;
  }
}

=== FILE: common.dfy ===
/** Small shared datatypes: optional values and results that carry a thrown error. */
module Common {

  datatype Option<T> = None | Some(value: T)

  /** The exceptions the engine throws, named after their cause. */
  datatype Error =
    | OutOfRange(position: int)
    | NoChannels
    | DeviceFailure
    | SingleShaderPerType
    | IncompleteProgram

  datatype Result<T> = Ok(value: T) | Err(error: Error)

  /** A sequence with no repeated element. */
  predicate NoDup<T(==)>(s: seq<T>)
  {
    forall i, j :: 0 <= i < j < |s| ==> s[i] != s[j]
  }
}

=== FILE: events.dfy ===
/** `Event<EventType>`: per-window lists of registered callbacks, each with an
    id, a countdown limit (0 means unlimited) and a lazy-removal flag.  A
    callback is a handle compared by equality; the arguments a trigger passes on
    and the framebuffer query of `MouseMove::beforeEvents` are not modelled, and
    a trigger reports the callbacks it invokes, in order. */
module Events {

  /** A `GLFWwindow *`. */
  type Window = nat

  /** A registered `std::function`, compared by identity. */
  type Func = nat

  /** One `(func, id, counter, marked)` tuple of a trigger list. */
  datatype Entry = Entry(func: Func, id: string, counter: nat, marked: bool)

  // ---------------------------------------------------------------- trigger

  /** What `trigger` leaves of one entry: a marked entry is erased unseen; an
      unlimited one stays as it is; a limited one counts down and is erased when
      its count reaches zero. */
  function Tick(e: Entry): (r: seq<Entry>)
    ensures |r| <= 1 && forall x :: x in r ==> !x.marked
  {
    if e.marked then []
    else if e.counter == 0 then [e]
    else if e.counter == 1 then []
    else [e.(counter := e.counter - 1)]
  }

  /** The list `trigger` leaves behind. */
  function Survivors(l: seq<Entry>): seq<Entry>
  {
    if l == [] then [] else Survivors(l[..|l| - 1]) + Tick(l[|l| - 1])
  }

  /** The callbacks `trigger` invokes, in list order. */
  function Fired(l: seq<Entry>): seq<Func>
  {
    if l == [] then [] else Fired(l[..|l| - 1]) + (if l[|l| - 1].marked then [] else [l[|l| - 1].func])
  }

  lemma {:induction false} SurvivorsAppend(a: seq<Entry>, b: seq<Entry>)
    ensures Survivors(a + b) == Survivors(a) + Survivors(b)
    ensures Fired(a + b) == Fired(a) + Fired(b)
    decreases |b|
  {
    if b == [] {
      assert a + b == a;
    } else {
      var b' := b[..|b| - 1];
      assert (a + b)[..|a + b| - 1] == a + b';
      assert (a + b)[|a + b| - 1] == b[|b| - 1];
      SurvivorsAppend(a, b');
    }
  }

  /** Triggering keeps the order of the entries it keeps: the survivors of a list
      are the survivors of its parts, one part after the other. */
  lemma {:induction false} SurvivorsOfCons(e: Entry, l: seq<Entry>)
    ensures Survivors([e] + l) == Tick(e) + Survivors(l)
    ensures Fired([e] + l) == (if e.marked then [] else [e.func]) + Fired(l)
  {
    SurvivorsAppend([e], l);
    assert [e][..0] == [];
  }

  /** No marked entry survives and triggering never lengthens a list. */
  lemma {:induction false} SurvivorsCome(l: seq<Entry>)
    ensures forall s :: s in Survivors(l) ==> !s.marked
    ensures |Survivors(l)| <= |l|
  {
    if l != [] {
      var init, last := l[..|l| - 1], l[|l| - 1];
      SurvivorsCome(init);
    }
  }

  /** How often `Tick(last)` holds `e`. */
  lemma TickCount(last: Entry, e: Entry)
    ensures multiset(Tick(last))[e] ==
              if e.marked then 0
              else if e.counter == 0 then multiset{last}[e]
              else multiset{last}[e.(counter := e.counter + 1)]
  {
    if !last.marked && last.counter > 1 {
      assert last == e.(counter := e.counter + 1) <==> e == last.(counter := last.counter - 1);
    }
  }

  /** The survivors counted: an unlimited unmarked entry survives as often as it
      occurs; an entry with counter c > 0 survives once for each unmarked entry
      with counter c + 1; a marked entry never survives.  With the order kept
      (`SurvivorsAppend`) this says all of what `trigger` leaves. */
  lemma {:induction false} SurvivorsCount(l: seq<Entry>, e: Entry)
    ensures multiset(Survivors(l))[e] ==
              if e.marked then 0
              else if e.counter == 0 then multiset(l)[e]
              else multiset(l)[e.(counter := e.counter + 1)]
  {
    if l != [] {
      var init, last := l[..|l| - 1], l[|l| - 1];
      SurvivorsCount(init, e);
      TickCount(last, e);
      SplitLast(l);
      assert multiset(l) == multiset(init) + multiset{last};
      assert multiset(Survivors(l)) == multiset(Survivors(init)) + multiset(Tick(last));
    }
  }

  /** A non-empty list is its front followed by its last entry. */
  lemma SplitLast(l: seq<Entry>)
    requires l != []
    ensures l == l[..|l| - 1] + [l[|l| - 1]]
  {
  }

  /** Each unmarked entry is invoked once, in list order, and no marked one. */
  lemma {:induction false} FiredAreUnmarked(l: seq<Entry>)
    ensures |Fired(l)| == |Unmarked(l)|
    ensures forall k :: 0 <= k < |Fired(l)| ==> Fired(l)[k] == Unmarked(l)[k].func
  {
    if l != [] {
      FiredAreUnmarked(l[..|l| - 1]);
    }
  }

  /** The unmarked entries of a list, in order. */
  function Unmarked(l: seq<Entry>): (r: seq<Entry>)
    ensures forall e :: e in r <==> e in l && !e.marked
  {
    if l == [] then []
    else
      assert forall e :: e in l <==> e in l[..|l| - 1] || e == l[|l| - 1] by {
        assert l == l[..|l| - 1] + [l[|l| - 1]];
      }
      Unmarked(l[..|l| - 1]) + (if l[|l| - 1].marked then [] else [l[|l| - 1]])
  }

  /** The next `k` triggers: what they leave and what they invoke. */
  function Rounds(l: seq<Entry>, k: nat): seq<Entry>
    decreases k
  {
    if k == 0 then l else Rounds(Survivors(l), k - 1)
  }

  function FiredRounds(l: seq<Entry>, k: nat): seq<Func>
    decreases k
  {
    if k == 0 then [] else Fired(l) + FiredRounds(Survivors(l), k - 1)
  }

  /** A callback added with limit n > 0 is invoked by exactly the next n
      triggers and is then gone. */
  lemma {:induction false} LimitHonoured(e: Entry)
    requires !e.marked && e.counter > 0
    ensures Rounds([e], e.counter) == []
    ensures FiredRounds([e], e.counter) == seq(e.counter, _ => e.func)
    decreases e.counter
  {
    SingleSurvivor(e);
    if e.counter == 1 {
      assert Rounds([e], 1) == Rounds([], 0);
      assert FiredRounds([e], 1) == [e.func] + FiredRounds([], 0);
    } else {
      var e' := e.(counter := e.counter - 1);
      assert Survivors([e]) == [e'];
      LimitHonoured(e');
      assert Rounds([e], e.counter) == Rounds([e'], e'.counter);
      assert FiredRounds([e], e.counter) == Fired([e]) + FiredRounds([e'], e'.counter);
      RepeatCons(e.func, e.counter);
    }
  }

  /** A list of one entry. */
  lemma SingleSurvivor(e: Entry)
    ensures Survivors([e]) == Tick(e)
    ensures Fired([e]) == if e.marked then [] else [e.func]
  {
    assert [e][..0] == [];
  }

  lemma RepeatCons(f: Func, n: nat)
    requires n > 0
    ensures seq(n, _ => f) == [f] + seq(n - 1, _ => f)
  {
  }

  // ---------------------------------------------------------------- erase

  /** The list after `erase`: the entries `hit` selects are marked, nothing else
      changes. */
  function Erased(l: seq<Entry>, hit: Entry -> bool): (r: seq<Entry>)
  {
    seq(|l|, k requires 0 <= k < |l| => if hit(l[k]) then l[k].(marked := true) else l[k])
  }

  function ByFunc(f: Func): Entry -> bool
  {
    (e: Entry) => e.func == f
  }

  /** `erase(window, id)` with the empty id selects nothing. */
  function ById(id: string): Entry -> bool
  {
    (e: Entry) => id != "" && e.id == id
  }

  /** Erasing keeps length, order, callbacks, ids and counters; an entry ends up
      marked exactly when it was already or is selected; erasing twice is
      erasing once. */
  lemma ErasedKeeps(l: seq<Entry>, hit: Entry -> bool)
    ensures |Erased(l, hit)| == |l|
    ensures forall k :: 0 <= k < |l| ==>
              && Erased(l, hit)[k].func == l[k].func && Erased(l, hit)[k].id == l[k].id
              && Erased(l, hit)[k].counter == l[k].counter
              && (Erased(l, hit)[k].marked <==> l[k].marked || hit(l[k]))
    ensures Erased(Erased(l, hit), hit) == Erased(l, hit)
  {
  }

  /** What an erase leaves unmarked is what it did not select. */
  lemma ErasedUnselected(l: seq<Entry>, hit: Entry -> bool)
    ensures forall e :: e in Erased(l, hit) && !e.marked ==> !hit(e)
  {
    forall e | e in Erased(l, hit) && !e.marked
      ensures !hit(e)
    {
      var k :| 0 <= k < |l| && Erased(l, hit)[k] == e;
    }
  }

  /** Once `erase(window, func)` has run, `func` is never invoked again and is
      gone after the next trigger. */
  lemma ErasedFuncNeverFires(l: seq<Entry>, f: Func)
    ensures forall s :: s in Survivors(Erased(l, ByFunc(f))) ==> s.func != f
    ensures f !in Fired(Erased(l, ByFunc(f)))
  {
    var m := Erased(l, ByFunc(f));
    ErasedUnselected(l, ByFunc(f));
    SurvivorsCome(m);
    FiredAreUnmarked(m);
    forall s | s in Survivors(m)
      ensures s.func != f
    {
      SurvivorsCount(m, s);
      if s.counter > 0 {
        assert s.(counter := s.counter + 1) in m;
      } else {
        assert s in m;
      }
    }
    forall k | 0 <= k < |Fired(m)|
      ensures Fired(m)[k] != f
    {
      assert Unmarked(m)[k] in Unmarked(m);
    }
  }

  /** Likewise for `erase(window, id)` with a non-empty id. */
  lemma ErasedIdNeverFires(l: seq<Entry>, id: string)
    requires id != ""
    ensures forall s :: s in Survivors(Erased(l, ById(id))) ==> s.id != id
    ensures forall e :: e in Unmarked(Erased(l, ById(id))) ==> e.id != id
  {
    var m := Erased(l, ById(id));
    ErasedUnselected(l, ById(id));
    SurvivorsCome(m);
    forall s | s in Survivors(m)
      ensures s.id != id
    {
      SurvivorsCount(m, s);
      if s.counter > 0 {
        assert s.(counter := s.counter + 1) in m;
      } else {
        assert s in m;
      }
    }
  }

  // ---------------------------------------------------------------- the lists

  /** `EventType::trigger_list` of one event type. */
  class TriggerList {
    var lists: map<Window, seq<Entry>>

    /** The list of `window`; `trigger_list[window]` creates an empty one. */
    function ListOf(w: Window): seq<Entry>
      reads this
    {
      if w in lists then lists[w] else []
    }

    /** The static initial state: no window has a list. */
    constructor()
      ensures lists == map[]
    {
      lists := map[];
    }

    /** `add(window, func, id, limit)`: appended at the end, unmarked. */
    method Add(w: Window, func: Func, id: string, limit: nat)
      modifies this
      ensures lists == old(lists)[w := old(ListOf(w)) + [Entry(func, id, limit, false)]]
    {
      lists := lists[w := ListOf(w) + [Entry(func, id, limit, false)]];
    }

    /** `add(window, func, limit)`: the empty id. */
    method AddLimited(w: Window, func: Func, limit: nat)
      modifies this
      ensures lists == old(lists)[w := old(ListOf(w)) + [Entry(func, "", limit, false)]]
    {
      Add(w, func, "", limit);
    }

    /** `trigger(window, ...)`: walks the list once, erasing in place the
        entries that are marked or whose limit runs out, and counting the
        others down. */
    method Trigger(w: Window) returns (fired: seq<Func>)
      modifies this
      ensures lists == old(lists)[w := Survivors(old(ListOf(w)))]
      ensures fired == Fired(old(ListOf(w)))
    {
      var l := ListOf(w);
      lists := lists[w := l];
      var i, j := 0, 0;
      fired := [];
      assert l[..0] == [] && l[0..] == l && Survivors(l[..0]) + l[0..] == l;
      while i < |l|
        invariant 0 <= i <= |l| && j == |Survivors(l[..i])|
        invariant lists == old(lists)[w := Survivors(l[..i]) + l[i..]]
        invariant fired == Fired(l[..i])
      {
        var f;
        ghost var before := lists;
        j, f := Handle(w, j, l, i);
        Overwrite(old(lists), w, before[w], lists[w]);
        fired := fired + f;
        i := i + 1;
      }
      assert l[..|l|] == l && l[|l|..] == [];
      assert Survivors(l[..i]) + l[i..] == Survivors(l);
    }

    /** One iteration of `trigger`: the entry under the cursor `j` is erased,
        counted down or stepped over; `f` is the callback invoked, if any. */
    method Handle(w: Window, j: nat, ghost l: seq<Entry>, ghost i: nat) returns (j': nat, f: seq<Func>)
      requires i < |l| && j == |Survivors(l[..i])|
      requires w in lists && lists[w] == Survivors(l[..i]) + l[i..]
      modifies this
      ensures lists == old(lists)[w := Survivors(l[..i + 1]) + l[i + 1..]]
      ensures j' == |Survivors(l[..i + 1])|
      ensures Fired(l[..i]) + f == Fired(l[..i + 1])
    {
      var cur := lists[w];
      TriggerStep(l, i);
      Splice(Survivors(l[..i]), l[i], l[i + 1..]);
      var e := cur[j];
      f, j' := [], j;
      if !e.marked {
        f := [e.func];
        if e.counter != 0 {
          var counter := e.counter - 1;
          if counter == 0 {
            lists := lists[w := cur[..j] + cur[j + 1..]];
          } else {
            lists := lists[w := cur[j := e.(counter := counter)]];
            j' := j + 1;
          }
        } else {
          j' := j + 1;
        }
      } else {
        lists := lists[w := cur[..j] + cur[j + 1..]];
      }
    }

    /** `erase(window, func)`: marks every entry holding `func`. */
    method EraseFunc(w: Window, func: Func)
      modifies this
      ensures lists == old(lists)[w := Erased(old(ListOf(w)), ByFunc(func))]
    {
      Mark(w, ByFunc(func));
    }

    /** `erase(window, id)`: marks every entry with that id, unless it is empty. */
    method EraseId(w: Window, id: string)
      modifies this
      ensures lists == old(lists)[w := Erased(old(ListOf(w)), ById(id))]
    {
      if id != "" {
        Mark(w, ById(id));
      } else {
        lists := lists[w := ListOf(w)];
        assert Erased(old(ListOf(w)), ById(id)) == old(ListOf(w));
      }
    }

    /** The loop both `erase` overloads run. */
    method Mark(w: Window, hit: Entry -> bool)
      modifies this
      ensures lists == old(lists)[w := Erased(old(ListOf(w)), hit)]
    {
      var l := ListOf(w);
      lists := lists[w := l];
      assert Erased(l[..0], hit) + l[0..] == l;
      for k := 0 to |l|
        invariant lists == old(lists)[w := Erased(l[..k], hit) + l[k..]]
      {
        var cur := lists[w];
        MarkStep(l, hit, k);
        if hit(cur[k]) {
          lists := lists[w := cur[k := cur[k].(marked := true)]];
        }
      }
      assert l[..|l|] == l;
      assert Erased(l[..|l|], hit) + l[|l|..] == Erased(l, hit);
    }
  }

  /** One more entry handled by `trigger`. */
  lemma TriggerStep(l: seq<Entry>, i: nat)
    requires i < |l|
    ensures Survivors(l[..i + 1]) == Survivors(l[..i]) + Tick(l[i])
    ensures Fired(l[..i + 1]) == Fired(l[..i]) + (if l[i].marked then [] else [l[i].func])
    ensures Survivors(l[..i]) + l[i..] == Survivors(l[..i]) + [l[i]] + l[i + 1..]
    ensures Survivors(l[..i + 1]) + l[i + 1..] == Survivors(l[..i]) + Tick(l[i]) + l[i + 1..]
  {
    assert l[..i + 1][..i] == l[..i];
    assert l[i..] == [l[i]] + l[i + 1..];
  }

  /** The list under `trigger`'s cursor, `done + [x] + rest`, after the entry
      `x` under it is erased, counted down or stepped over: `done + Tick(x) + rest`. */
  lemma Splice(done: seq<Entry>, x: Entry, rest: seq<Entry>)
    ensures var cur := done + [x] + rest;
            && cur[|done|] == x
            && (Tick(x) == [] ==> cur[..|done|] + cur[|done| + 1..] == done + Tick(x) + rest)
            && (Tick(x) == [x] ==> cur == done + Tick(x) + rest)
            && (!x.marked && x.counter > 1 ==> cur[|done| := x.(counter := x.counter - 1)] == done + Tick(x) + rest)
  {
    var cur := done + [x] + rest;
    assert cur[..|done|] == done && cur[|done| + 1..] == rest;
  }

  /** Writing a key twice is writing it once. */
  lemma Overwrite(m: map<Window, seq<Entry>>, w: Window, a: seq<Entry>, b: seq<Entry>)
    ensures m[w := a][w := b] == m[w := b]
  {
  }

  /** One step of the `erase` loop. */
  lemma MarkStep(l: seq<Entry>, hit: Entry -> bool, k: nat)
    requires k < |l|
    ensures var cur := Erased(l[..k], hit) + l[k..];
            && k < |cur| && cur[k] == l[k]
            && (hit(l[k]) ==> Erased(l[..k + 1], hit) + l[k + 1..] == cur[k := l[k].(marked := true)])
            && (!hit(l[k]) ==> Erased(l[..k + 1], hit) + l[k + 1..] == cur)
  {
    assert l[..k + 1][..k] == l[..k];
  }

  // ---------------------------------------------------------------- mouse

  /** `MouseMove`'s stored cursor position, both 0.0 initially. */
  class Mouse {
    var posx: real
    var posy: real

    constructor()
      ensures posx == 0.0 && posy == 0.0
    {
      posx, posy := 0.0, 0.0;
    }
  }
}

=== FILE: geometry.dfy ===
/** The static helpers of `Mesh`: vector predicates, the quaternion matrix, edge
    lists and the point/segment/sphere collision predicates.  Points are 3-vectors;
    distances are compared through their squares, so no square root is taken. */
module Geometry {
  import opened Vectors
  import Quaternions

  /** `Mesh::EPSILON`. */
  const EPSILON: real := 0.0000000000000001

  /** `Mesh::zero`, `Mesh::axisX`, `Mesh::axisY`. */
  const ZeroVec: Vector := [0.0, 0.0, 0.0]
  const AxisX: Vector := [1.0, 0.0, 0.0]
  const AxisY: Vector := [0.0, 1.0, 0.0]

  // ---------------------------------------------------------------- equal / diff

  /** `equal(vec_1, vec_2)`: same size and the same value at every index. */
  predicate Equal(a: Vector, b: Vector)
  {
    |a| == |b| && forall i :: 0 <= i < |a| ==> a[i] == b[i]
  }

  /** `diff`, the negation of `equal`. */
  predicate Diff(a: Vector, b: Vector)
  {
    !Equal(a, b)
  }

  /** The early-exit loop of `equal`. */
  method EqualScan(a: Vector, b: Vector) returns (r: bool)
    ensures r <==> |a| == |b| && a == b
  {
    if |a| != |b| {
      return false;
    }
    var i := 0;
    while i < |a|
      invariant i <= |a|
      invariant a[..i] == b[..i]
    {
      if a[i] != b[i] {
        return false;
      }
      i := i + 1;
    }
    assert a == a[..i] && b == b[..i];
    return true;
  }

  /** Componentwise equality is sequence equality. */
  lemma EqualIsEquality(a: Vector, b: Vector)
    ensures Equal(a, b) <==> a == b
    ensures Diff(a, b) <==> a != b
  {
    if Equal(a, b) {
      assert a == b;
    }
  }

  // ---------------------------------------------------------------- clamp

  /** `clamp(value, min, max)`: the upper bound is checked first. */
  function Clamp(value: real, lo: real, hi: real): (r: real)
    ensures lo <= hi ==> lo <= r <= hi
    ensures lo <= value <= hi ==> r == value
    ensures r == value || r == lo || r == hi
  {
    if value > hi then hi else if value < lo then lo else value
  }

  // ---------------------------------------------------------------- quaternion matrix

  /** `quat2matrix(quat)`: column-major 4x4 matrix of a (x, y, z, w) quaternion. */
  function Quat2Matrix(q: Vector): (m: seq<real>)
    requires |q| == 4
    ensures |m| == 16
  {
    var qi, qj, qk, qr := q[0], q[1], q[2], q[3];
    var qii, qjj, qkk := qi * qi, qj * qj, qk * qk;
    var qij, qik, qir := qi * qj, qi * qk, qi * qr;
    var qjk, qjr, qkr := qj * qk, qj * qr, qk * qr;
    var qiiii, qjjjj, qkkkk := qii + qii - 0.5, qjj + qjj - 0.5, qkk + qkk - 0.5;
    var aijkr, ajkir, aikjr := qij + qkr, qjk + qir, qik + qjr;
    var sijkr, sjkir, sikjr := qij - qkr, qjk - qir, qik - qjr;
    [ -(qjjjj + qkkkk), aijkr + aijkr, sikjr + sikjr, 0.0,
      sijkr + sijkr, -(qiiii + qkkkk), ajkir + ajkir, 0.0,
      aikjr + aikjr, sjkir + sjkir, -(qiiii + qjjjj), 0.0,
      0.0, 0.0, 0.0, 1.0 ]
  }

  /** The matrix has last row and column (0, 0, 0, 1), is the identity matrix for
      (0, 0, 0, 1), is the same for q and -q, and agrees with `Quaternion::rotation`. */
  lemma Quat2MatrixProperties(q: Vector)
    requires |q| == 4
    ensures var m := Quat2Matrix(q);
      m[3] == 0.0 && m[7] == 0.0 && m[11] == 0.0 && m[12] == 0.0 && m[13] == 0.0 && m[14] == 0.0 && m[15] == 1.0
    ensures Quat2Matrix(Quaternions.Identity) == Quaternions.IdentityMatrix
    ensures Quat2Matrix(Neg(q)) == Quat2Matrix(q)
    ensures Quat2Matrix(q) == Quaternions.Rotation(q)
  {
    Quaternions.RotationEven(q);
    SameMatrix(q);
    SameMatrix(Neg(q));
  }

  lemma SameMatrix(q: Vector)
    requires |q| == 4
    ensures Quat2Matrix(q) == Quaternions.Rotation(q)
  {
    var m, r := Quat2Matrix(q), Quaternions.Rotation(q);
    forall k | 0 <= k < 16
      ensures m[k] == r[k]
    {
    }
  }

  /** `rotate(vec, quat)`: the 3-vector times the upper 3x3 block of the matrix. */
  function RotateVec(v: Vector, q: Vector): (r: Vector)
    requires |v| == 3 && |q| == 4
    ensures |r| == 3
  {
    var m := Quat2Matrix(q);
    [v[0] * m[0] + v[1] * m[4] + v[2] * m[8],
     v[0] * m[1] + v[1] * m[5] + v[2] * m[9],
     v[0] * m[2] + v[1] * m[6] + v[2] * m[10]]
  }

  /** Rotating by the identity quaternion changes nothing, and rotating by -q is
      the same as rotating by q. */
  lemma RotateVecProperties(v: Vector, q: Vector)
    requires |v| == 3 && |q| == 4
    ensures RotateVec(v, Quaternions.Identity) == v
    ensures RotateVec(v, Neg(q)) == RotateVec(v, q)
  {
    RotateVecIdentity(v);
    Quat2MatrixProperties(q);
    var a, b := RotateVec(v, Neg(q)), RotateVec(v, q);
    assert a[0] == b[0] && a[1] == b[1] && a[2] == b[2];
  }

  lemma RotateVecIdentity(v: Vector)
    requires |v| == 3
    ensures RotateVec(v, Quaternions.Identity) == v
  {
    Quat2MatrixProperties(Quaternions.Identity);
    var r := RotateVec(v, Quaternions.Identity);
    assert r[0] == v[0] && r[1] == v[1] && r[2] == v[2];
  }

  // ---------------------------------------------------------------- edges

  /** One edge `{ start, end }` of an edge list. */
  datatype Edge = Edge(from: Vector, to: Vector)

  /** An edge list whose every edge ends where the next one (cyclically) starts. */
  predicate ClosedLoop(edges: seq<Edge>)
  {
    && (forall k :: 0 <= k < |edges| - 1 ==> edges[k].to == edges[k + 1].from)
    && (|edges| > 0 ==> edges[|edges| - 1].to == edges[0].from)
  }

  /** `edgesTriangle2D(p1, p2, p3)`. */
  function EdgesTriangle2D(p1: Vector, p2: Vector, p3: Vector): (edges: seq<Edge>)
    ensures |edges| == 3 && ClosedLoop(edges)
    ensures edges[0].from == p1 && edges[1].from == p2 && edges[2].from == p3
  {
    [Edge(p1, p2), Edge(p2, p3), Edge(p3, p1)]
  }

  /** `edgesRectangle2D(top_left, bottom_left, bottom_right, top_right)`. */
  function EdgesRectangle2D(tl: Vector, bl: Vector, br: Vector, tr: Vector): (edges: seq<Edge>)
    ensures |edges| == 4 && ClosedLoop(edges)
    ensures edges[0].from == tl && edges[1].from == bl && edges[2].from == br && edges[3].from == tr
  {
    [Edge(tl, bl), Edge(bl, br), Edge(br, tr), Edge(tr, tl)]
  }

  // ---------------------------------------------------------------- point to segment

  /** Result of `distanceRayToPoint`: the parameter along the ray and `near_point`. */
  datatype Projection = Projection(t: real, near: Vector)

  /** `distanceRayToPoint(start, end, point, near_point, infinite)`: the nearest point
      of the segment (of the whole line when `infinite`) to `point`.  The returned
      distance is |point - near|, i.e. the root of `Distance2(point, near)`. */
  function DistanceRayToPoint(start: Vector, end: Vector, point: Vector, infinite: bool): (p: Projection)
    requires |start| == |end| == |point|
    ensures |p.near| == |start|
    ensures p.near == Add(start, Scale(Sub(end, start), p.t))
    ensures !infinite ==> 0.0 <= p.t <= 1.0
    ensures Length2(Sub(end, start)) == 0.0 ==> p.near == start
  {
    var delta := Sub(end, start);
    var length2 := Length2(delta);
    if length2 == 0.0 then
      AddZeroScale(start, delta);
      Projection(0.0, start)
    else
      var param := Dot(Sub(point, start), delta) / length2;
      var t := if infinite then param else Clamp(param, 0.0, 1.0);
      Projection(t, Add(start, Scale(delta, t)))
  }

  /** The point at parameter `s` along the ray from `start` towards `end`. */
  function OnRay(start: Vector, end: Vector, s: real): (r: Vector)
    requires |start| == |end|
    ensures |r| == |start|
  {
    Add(start, Scale(Sub(end, start), s))
  }

  /** The parameters the search covers: the segment, or the whole line. */
  predicate InRay(s: real, infinite: bool)
  {
    infinite || 0.0 <= s <= 1.0
  }

  /** The quadratic L - 2sD + s^2 N with N > 0 is least at s = D/N overall, and at
      D/N clamped to [0, 1] over that interval. */
  lemma QuadraticMinimum(l: real, d: real, n: real, s: real, t: real)
    requires n > 0.0
    requires t == d / n || (0.0 <= s <= 1.0 && t == Clamp(d / n, 0.0, 1.0))
    ensures Quadratic(l, d, n, t) <= Quadratic(l, d, n, s)
  {
    var q := d / n;
    assert d == q * n;
    assert (l - 2.0 * s * d + s * s * n) - (l - 2.0 * t * d + t * t * n) == n * ((s - t) * (s + t - 2.0 * q));
    if t == q {
      assert (s - t) * (s + t - 2.0 * q) == (s - q) * (s - q);
    } else if q > 1.0 {
      assert t == 1.0 && s - t <= 0.0 && s + t - 2.0 * q < 0.0;
    } else {
      assert q < 0.0 && t == 0.0 && s - t >= 0.0 && s + t - 2.0 * q > 0.0;
    }
    assert (s - t) * (s + t - 2.0 * q) >= 0.0;
  }

  /** `distanceRayToPoint` finds the nearest point: it lies on the segment (on
      the line when `infinite`) and no point there is closer to `point`. */
  lemma NearestOnRay(start: Vector, end: Vector, point: Vector, infinite: bool, s: real)
    requires |start| == |end| == |point| && InRay(s, infinite)
    ensures var p := DistanceRayToPoint(start, end, point, infinite);
      InRay(p.t, infinite) && p.near == OnRay(start, end, p.t) &&
      Distance2(point, p.near) <= Distance2(point, OnRay(start, end, s))
  {
    RayQuadratic(start, end, point, s);
    RayQuadratic(start, end, point, DistanceRayToPoint(start, end, point, infinite).t);
    NearestParameter(start, end, point, infinite, s);
  }

  /** The squared distance from `point` to the point at parameter `s` of the
      ray, as a quadratic in `s`. */
  function RayCost(start: Vector, end: Vector, point: Vector, s: real): real
    requires |start| == |end| == |point|
  {
    Quadratic(Length2(Sub(point, start)), Dot(Sub(point, start), Sub(end, start)), Length2(Sub(end, start)), s)
  }

  lemma RayQuadratic(start: Vector, end: Vector, point: Vector, s: real)
    requires |start| == |end| == |point|
    ensures Distance2(point, OnRay(start, end, s)) == RayCost(start, end, point, s)
  {
    Distance2Along(point, start, Sub(end, start), s);
  }

  /** The parameter `distanceRayToPoint` settles on minimises that quadratic. */
  lemma NearestParameter(start: Vector, end: Vector, point: Vector, infinite: bool, s: real)
    requires |start| == |end| == |point| && InRay(s, infinite)
    ensures RayCost(start, end, point, DistanceRayToPoint(start, end, point, infinite).t) <= RayCost(start, end, point, s)
  {
    RayParameter(start, end, point, infinite);
    if Length2(Sub(end, start)) == 0.0 {
      DotNullVector(Sub(point, start), Sub(end, start));
      FlatQuadratic(Length2(Sub(point, start)), Dot(Sub(point, start), Sub(end, start)), Length2(Sub(end, start)),
                    s, DistanceRayToPoint(start, end, point, infinite).t);
    } else {
      Length2NonNegative(Sub(end, start));
      QuadraticMinimum(Length2(Sub(point, start)), Dot(Sub(point, start), Sub(end, start)), Length2(Sub(end, start)),
                       s, DistanceRayToPoint(start, end, point, infinite).t);
    }
  }

  /** The parameter `distanceRayToPoint` settles on. */
  lemma RayParameter(start: Vector, end: Vector, point: Vector, infinite: bool)
    requires |start| == |end| == |point|
    ensures var d, p := Sub(end, start), DistanceRayToPoint(start, end, point, infinite);
      Length2(d) != 0.0 ==>
        p.t == if infinite then Dot(Sub(point, start), d) / Length2(d) else Clamp(Dot(Sub(point, start), d) / Length2(d), 0.0, 1.0)
  {
  }

  /** With no direction every parameter gives the same value. */
  lemma FlatQuadratic(l: real, d: real, n: real, s: real, t: real)
    requires d == 0.0 && n == 0.0
    ensures Quadratic(l, d, n, t) == Quadratic(l, d, n, s)
  {
  }

  /** A collision answer together with the out-parameter `near_point`/`point`
      as it stands when the predicate returns. */
  datatype Hit = Hit(hit: bool, point: Vector)

  /** `collisionRaySphere`: the segment's nearest point lies within `radius` of the
      centre.  For the exact root, sqrt(d2) <= r holds iff r >= 0 and d2 <= r * r. */
  function CollisionRaySphere(start: Vector, end: Vector, center: Vector, radius: real, infinite: bool): (h: Hit)
    requires |start| == |end| == |center|
    ensures h.point == DistanceRayToPoint(start, end, center, infinite).near
    ensures h.hit <==> radius >= 0.0 && Distance2(center, h.point) <= radius * radius
  {
    var near := DistanceRayToPoint(start, end, center, infinite).near;
    Hit(radius >= 0.0 && Distance2(center, near) <= radius * radius, near)
  }

  /** A ray meets the sphere iff the radius is not negative and some point of
      the segment (of the line when `infinite`) lies within it. */
  lemma CollisionRaySphereMeaning(start: Vector, end: Vector, center: Vector, radius: real, infinite: bool)
    requires |start| == |end| == |center|
    ensures CollisionRaySphere(start, end, center, radius, infinite).hit <==>
      radius >= 0.0 && exists s :: InRay(s, infinite) && Distance2(center, OnRay(start, end, s)) <= radius * radius
  {
    var p := DistanceRayToPoint(start, end, center, infinite);
    NearestOnRay(start, end, center, infinite, p.t);
    if radius >= 0.0 && exists s :: InRay(s, infinite) && Distance2(center, OnRay(start, end, s)) <= radius * radius {
      var s :| InRay(s, infinite) && Distance2(center, OnRay(start, end, s)) <= radius * radius;
      NearestOnRay(start, end, center, infinite, s);
    }
  }

  // ---------------------------------------------------------------- point in polygon

  /** The half-plane test of one edge: true when the point lies strictly on the side
      where A*x + B*y exceeds its value at the edge's start. */
  predicate OutsideEdge(point: Vector, e: Edge)
    requires |point| >= 2 && |e.from| >= 2 && |e.to| >= 2
  {
    var A := e.from[1] - e.to[1];
    var B := e.to[0] - e.from[0];
    A * point[0] + B * point[1] > A * e.from[0] + B * e.from[1]
  }

  predicate PlanarEdges(edges: seq<Edge>)
  {
    forall k :: 0 <= k < |edges| ==> |edges[k].from| >= 2 && |edges[k].to| >= 2
  }

  /** `collisionPointConvexPolygon2D(point, edges)`: no edge rejects the point. */
  predicate PointInConvexPolygon(point: Vector, edges: seq<Edge>)
    requires |point| >= 2 && PlanarEdges(edges)
  {
    forall k :: 0 <= k < |edges| ==> !OutsideEdge(point, edges[k])
  }

  /** The early-return loop of `collisionPointConvexPolygon2D`. */
  method CollisionPointConvexPolygon2D(point: Vector, edges: seq<Edge>) returns (inside: bool)
    requires |point| >= 2 && PlanarEdges(edges)
    ensures inside <==> forall k :: 0 <= k < |edges| ==> !OutsideEdge(point, edges[k])
  {
    for k := 0 to |edges|
      invariant forall j :: 0 <= j < k ==> !OutsideEdge(point, edges[j])
    {
      var e := edges[k];
      var A := e.from[1] - e.to[1];
      var B := e.to[0] - e.from[0];
      if A * point[0] + B * point[1] > A * e.from[0] + B * e.from[1] {
        return false;
      }
    }
    return true;
  }

  /** No edge rejects its own start point or end point, so a polygon's vertices
      (and the empty edge list's every point) are reported inside by the edges
      that meet there. */
  lemma EdgeKeepsItsEndpoints(e: Edge)
    requires |e.from| >= 2 && |e.to| >= 2
    ensures !OutsideEdge(e.from, e) && !OutsideEdge(e.to, e)
  {
    var A := e.from[1] - e.to[1];
    var B := e.to[0] - e.from[0];
    assert A * e.to[0] + B * e.to[1] == A * e.from[0] + B * e.from[1];
  }

  /** With the engine's corner order (top-left, bottom-left, bottom-right,
      top-right of a rectangle whose bottom lies `h` below its top), the half-plane
      test rejects every point once width and height are positive: the edges run
      counter-clockwise but the test keeps the right-hand side of each edge. */
  lemma RectangleCornerOrderRejectsEveryPoint(x: real, y: real, z: real, w: real, h: real, p: Vector)
    requires w > 0.0 && h > 0.0 && |p| == 3
    ensures !PointInConvexPolygon(p, EdgesRectangle2D([x, y, z], [x, y - h, z], [x + w, y - h, z], [x + w, y, z]))
  {
    var edges := EdgesRectangle2D([x, y, z], [x, y - h, z], [x + w, y - h, z], [x + w, y, z]);
    if p[0] > x {
      assert h * p[0] > h * x;
      assert OutsideEdge(p, edges[0]);
    } else {
      assert -h * p[0] > -h * (x + w);
      assert OutsideEdge(p, edges[2]);
    }
  }

  // ---------------------------------------------------------------- spheres / circles

  /** `collisionSpheres`: squared centre distance at most (r1 + r2)^2. */
  predicate CollisionSpheres(p1: Vector, r1: real, p2: Vector, r2: real)
    requires |p1| == |p2|
  {
    Distance2(p1, p2) <= (r1 + r2) * (r1 + r2)
  }

  lemma CollisionSpheresSymmetric(p1: Vector, r1: real, p2: Vector, r2: real)
    requires |p1| == |p2|
    ensures CollisionSpheres(p1, r1, p2, r2) <==> CollisionSpheres(p2, r2, p1, r1)
  {
    Distance2Properties(p1, p2);
  }

  /** For any two centres at distance `d`, the spheres collide exactly when `d` is
      at most the sum of the radii; since the sum is squared, a negative sum
      counts by its magnitude. */
  lemma CollisionSpheresByDistance(p1: Vector, r1: real, p2: Vector, r2: real, d: real)
    requires |p1| == |p2| && 0.0 <= d && d * d == Distance2(p1, p2)
    ensures CollisionSpheres(p1, r1, p2, r2) <==> d <= r1 + r2 || d <= -(r1 + r2)
    ensures r1 + r2 >= 0.0 ==> (CollisionSpheres(p1, r1, p2, r2) <==> d <= r1 + r2)
  {
    SquaresOrdered(d, if r1 + r2 >= 0.0 then r1 + r2 else -(r1 + r2));
  }

  /** For non-negative `x` and `y`, `x * x <= y * y` exactly when `x <= y`. */
  lemma SquaresOrdered(x: real, y: real)
    requires 0.0 <= x && 0.0 <= y
    ensures x * x <= y * y <==> x <= y
  {
    assert y * y - x * x == (y - x) * (y + x);
    if x <= y {
      assert (y - x) * (y + x) >= 0.0;
    } else {
      PositiveProduct(x - y, y + x);
    }
  }

  lemma PositiveProduct(a: real, b: real)
    requires a > 0.0 && b > 0.0
    ensures a * b > 0.0
  {
  }


  /** `collisionRectangleCircle2D` as written: the four edges are tried in the order
      top, right, bottom, left, each one overwriting `near_point`; then the point
      test is called with the top-left corner in the point slot and the circle
      centre as the polygon's fourth corner. */
  function CollisionRectangleCircle2D(tl: Vector, bl: Vector, br: Vector, tr: Vector,
                                      center: Vector, radius: real, point: Vector): (h: Hit)
    requires |tl| == 3 && |bl| == 3 && |br| == 3 && |tr| == 3 && |center| == 3
    ensures |h.point| == 3
  {
    var top := CollisionRaySphere(tl, tr, center, radius, false);
    if top.hit then top
    else
      var right := CollisionRaySphere(tr, br, center, radius, false);
      if right.hit then right
      else
        var bottom := CollisionRaySphere(bl, br, center, radius, false);
        if bottom.hit then bottom
        else
          var left := CollisionRaySphere(tl, bl, center, radius, false);
          if left.hit then left
          else if PointInConvexPolygon(tl, EdgesRectangle2D(bl, br, tr, center)) then Hit(true, center)
          else Hit(false, left.point)
  }

  /** The rectangle-circle test holds iff some edge comes within `radius` of the
      centre or the quirky point test holds; only in the latter case is the
      reported point the centre itself. */
  lemma CollisionRectangleCircle2DSpec(tl: Vector, bl: Vector, br: Vector, tr: Vector,
                                       center: Vector, radius: real, point: Vector)
    requires |tl| == 3 && |bl| == 3 && |br| == 3 && |tr| == 3 && |center| == 3
    ensures var h := CollisionRectangleCircle2D(tl, bl, br, tr, center, radius, point);
      var edgeHit := CollisionRaySphere(tl, tr, center, radius, false).hit ||
        CollisionRaySphere(tr, br, center, radius, false).hit ||
        CollisionRaySphere(bl, br, center, radius, false).hit ||
        CollisionRaySphere(tl, bl, center, radius, false).hit;
      && (h.hit <==> edgeHit || PointInConvexPolygon(tl, EdgesRectangle2D(bl, br, tr, center)))
      && (h.hit && !edgeHit ==> h.point == center)
      && (edgeHit ==> Distance2(center, h.point) <= radius * radius)
  {
  }
  /** The point test as `collisionRectangleCircle2D` (and the vertex fallback of
      `collisionRectangles2D`) calls it: the top-left corner stands in the point slot
      and the polygon is (bottom-left, bottom-right, top-right, c).  For a rectangle
      of positive width and height in the engine's corner order, the polygon's first
      edge, bottom-left to bottom-right, rejects the top-left corner, which lies `h`
      above it, whatever `c` is. */
  lemma TopLeftRejectedByBottomEdge(x: real, y: real, z: real, w: real, h: real, c: Vector)
    requires w > 0.0 && h > 0.0 && |c| == 3
    ensures !PointInConvexPolygon([x, y, z], EdgesRectangle2D([x, y - h, z], [x + w, y - h, z], [x + w, y, z], c))
  {
    var edges := EdgesRectangle2D([x, y - h, z], [x + w, y - h, z], [x + w, y, z], c);
    assert w * y > w * (y - h);
    assert OutsideEdge([x, y, z], edges[0]);
  }

  /** A segment that keeps coordinate `i` fixed, more than `radius` away from the
      centre's, is not hit by `collisionRaySphere`. */
  lemma SegmentClearOnAxis(start: Vector, end: Vector, center: Vector, radius: real, i: nat)
    requires |start| == 3 && |end| == 3 && |center| == 3 && i < 3
    requires start[i] == end[i]
    requires radius < center[i] - start[i] || radius < start[i] - center[i]
    ensures !CollisionRaySphere(start, end, center, radius, false).hit
  {
    if radius >= 0.0 {
      forall s | InRay(s, false)
        ensures Distance2(center, OnRay(start, end, s)) > radius * radius
      {
        var q := OnRay(start, end, s);
        assert q[i] == start[i];
        Distance3(center, q);
        SquaresBeyond(center[0] - q[0], center[1] - q[1], center[2] - q[2], radius, i);
      }
    }
    CollisionRaySphereMeaning(start, end, center, radius, false);
  }

  /** A sum of three squares exceeds radius^2 when one of its terms does. */
  lemma SquaresBeyond(a: real, b: real, c: real, radius: real, i: nat)
    requires radius >= 0.0 && i < 3
    requires var g := if i == 0 then a else if i == 1 then b else c; radius < g || radius < -g
    ensures a * a + b * b + c * c > radius * radius
  {
    var g := if i == 0 then a else if i == 1 then b else c;
    SquareBeyond(g, radius);
    assert a * a >= 0.0 && b * b >= 0.0 && c * c >= 0.0;
  }

  /** A gap wider than a non-negative radius has a larger square. */
  lemma SquareBeyond(g: real, radius: real)
    requires radius >= 0.0 && (radius < g || radius < -g)
    ensures g * g > radius * radius
  {
    if radius < g {
      assert g * g > g * radius >= radius * radius;
    } else {
      assert g * g == (-g) * (-g) > (-g) * radius >= radius * radius;
    }
  }

  /** The consequence for `collisionRectangleCircle2D`: a circle strictly inside an
      axis-aligned rectangle, clear of its four edges, is not detected, because no
      edge comes within `radius` and the point test rejects the top-left corner. */
  lemma CircleInsideRectangleMissed(x: real, y: real, z: real, w: real, h: real,
                                    center: Vector, radius: real, point: Vector)
    requires w > 0.0 && h > 0.0 && |center| == 3
    requires x + radius < center[0] < x + w - radius && y - h + radius < center[1] < y - radius
    ensures !CollisionRectangleCircle2D([x, y, z], [x, y - h, z], [x + w, y - h, z], [x + w, y, z], center, radius, point).hit
  {
    SegmentClearOnAxis([x, y, z], [x + w, y, z], center, radius, 1);
    SegmentClearOnAxis([x + w, y, z], [x + w, y - h, z], center, radius, 0);
    SegmentClearOnAxis([x, y - h, z], [x + w, y - h, z], center, radius, 1);
    SegmentClearOnAxis([x, y, z], [x, y - h, z], center, radius, 0);
    TopLeftRejectedByBottomEdge(x, y, z, w, h, center);
  }
}

=== FILE: motion.dfy ===
/** Heap-free facts behind `Object::move`: which children move, how far each one
    has travelled along its (unchanged) speed, and the ledger of the sub-stepped
    collision pass. */
module Motion {
  import opened Common
  import opened Vectors
  import opened Shapes
  import opened Records
  import opened Geometry

  // ---------------------------------------------------------------- displacement

  /** `after` is `before` with every object `o` moved by `steps[o]` steps of `m`
      times its speed, nothing else changed except that objects in `marked` may
      have been destroyed. */
  ghost predicate Shifted(after: map<Id, Record>, before: map<Id, Record>, steps: multiset<Id>, m: real, marked: set<Id>)
  {
    && after.Keys == before.Keys
    && forall o :: o in before ==> MovedBy(after[o], before[o], Units(steps[o], m), o in marked)
  }

  /** `after` is `before` moved by `x` times its speed, and possibly destroyed
      when `mayDestroy`. */
  ghost predicate MovedBy(after: Record, before: Record, x: real, mayDestroy: bool)
  {
    && WellFormedRecord(before)
    && after.position == Add(before.position, Scale(before.speed, x))
    && (after.(position := before.position) == before ||
        (after.(position := before.position) == Destroyed(before) && mayDestroy))
  }

  /** `n` steps of length `m`. */
  function Units(n: nat, m: real): real
  {
    m * (n as real)
  }

  /** Nothing has moved yet. */
  lemma ShiftedRefl(objects: map<Id, Record>, m: real, marked: set<Id>)
    requires forall o :: o in objects ==> WellFormedRecord(objects[o])
    ensures Shifted(objects, objects, multiset{}, m, marked)
  {
    forall o | o in objects
      ensures MovedBy(objects[o], objects[o], Units(multiset{}[o], m), o in marked)
    {
      AddZeroScale(objects[o].position, objects[o].speed);
    }
  }

  /** One more step of `c` along its speed. */
  lemma ShiftedMove(after: map<Id, Record>, before: map<Id, Record>, steps: multiset<Id>, m: real, marked: set<Id>, c: Id)
    requires Shifted(after, before, steps, m, marked) && c in after
    ensures Shifted(after[c := after[c].(position := Add(after[c].position, Scale(after[c].speed, m)))],
                    before, steps + multiset{c}, m, marked)
  {
    var after' := after[c := after[c].(position := Add(after[c].position, Scale(after[c].speed, m)))];
    var steps' := steps + multiset{c};
    forall o | o in before
      ensures MovedBy(after'[o], before[o], Units(steps'[o], m), o in marked)
    {
      if o == c {
        MovedByMove(after[c], before[c], Units(steps[c], m), o in marked, m);
        UnitsSucc(steps[c], m);
      }
    }
  }

  /** A handle without a record stays where it is, whatever its count. */
  lemma ShiftedSkip(after: map<Id, Record>, before: map<Id, Record>, steps: multiset<Id>, m: real, marked: set<Id>, c: Id)
    requires Shifted(after, before, steps, m, marked) && c !in before
    ensures Shifted(after, before, steps + multiset{c}, m, marked)
  {
    assert forall o :: o in before ==> (steps + multiset{c})[o] == steps[o];
  }

  /** `k` more steps of `c` at once, the speed being scaled by `q`, which is `k`. */
  lemma ShiftedLeap(after: map<Id, Record>, before: map<Id, Record>, steps: multiset<Id>, m: real, marked: set<Id>,
                    c: Id, k: nat, q: real)
    requires Shifted(after, before, steps, m, marked) && c in before && q == k as real
    ensures c in after
    ensures Shifted(after[c := after[c].(position := Add(after[c].position, Scale(Scale(after[c].speed, q), m)))],
                    before, steps[c := steps[c] + k], m, marked)
  {
    var after' := after[c := after[c].(position := Add(after[c].position, Scale(Scale(after[c].speed, q), m)))];
    var steps' := steps[c := steps[c] + k];
    ScaleScale(after[c].speed, q, m);
    forall o | o in before
      ensures MovedBy(after'[o], before[o], Units(steps'[o], m), o in marked)
    {
      if o == c {
        MovedByMove(after[c], before[c], Units(steps[c], m), o in marked, q * m);
        UnitsAdd(steps[c], k, q, m);
      }
    }
  }

  lemma MovedByMove(after: Record, before: Record, x: real, mayDestroy: bool, y: real)
    requires MovedBy(after, before, x, mayDestroy)
    ensures MovedBy(after.(position := Add(after.position, Scale(after.speed, y))), before, x + y, mayDestroy)
  {
    AddScaledTwice(before.position, before.speed, x, y);
  }

  lemma UnitsSucc(n: nat, m: real)
    ensures Units(n + 1, m) == Units(n, m) + m
  {
  }

  lemma UnitsSum(a: nat, b: nat, m: real)
    ensures Units(a + b, m) == Units(a, m) + Units(b, m)
  {
  }

  lemma UnitsAdd(n: nat, k: nat, q: real, m: real)
    requires q == k as real
    ensures Units(n + k, m) == Units(n, m) + q * m
  {
  }

  /** Without destruction, speeds and colliders are as they were. */
  lemma ShiftedKeeps(after: map<Id, Record>, before: map<Id, Record>, steps: multiset<Id>, m: real, o: Id)
    requires Shifted(after, before, steps, m, {})
    ensures o in after <==> o in before
    ensures o in before ==> after[o].speed == before[o].speed && after[o].collider == before[o].collider
  {
  }

  /** Moving and destroying keep the handles, the children and the speeds. */
  lemma ShiftedFrame(after: map<Id, Record>, before: map<Id, Record>, steps: multiset<Id>, m: real, marked: set<Id>, o: Id)
    requires Shifted(after, before, steps, m, marked)
    ensures o in after <==> o in before
    ensures o in before ==> after[o].children == before[o].children && after[o].speed == before[o].speed
  {
  }

  /** `destroy()` calls leave every position and speed alone. */
  lemma ShiftedDestroyed(after: map<Id, Record>, before: map<Id, Record>, steps: multiset<Id>, m: real, marked: set<Id>, ids: seq<Id>)
    requires Shifted(after, before, steps, m, marked)
    ensures Shifted(DestroyedAll(after, ids), before, steps, m, marked + MarkedBy(after, ids))
  {
    var d := DestroyedAll(after, ids);
    forall o | o in before
      ensures MovedBy(d[o], before[o], Units(steps[o], m), o in marked + MarkedBy(after, ids))
    {
      if o in ids {
        MovedByDestroyed(after[o], before[o], Units(steps[o], m), o in marked);
      }
    }
  }

  lemma MovedByDestroyed(after: Record, before: Record, x: real, mayDestroy: bool)
    requires MovedBy(after, before, x, mayDestroy)
    ensures MovedBy(Destroyed(after), before, x, true)
  {
    DestroyedIdempotent(before);
  }

  lemma ShiftedMoreMarks(after: map<Id, Record>, before: map<Id, Record>, steps: multiset<Id>, m: real, m1: set<Id>, m2: set<Id>)
    requires Shifted(after, before, steps, m, m1) && m1 <= m2
    ensures Shifted(after, before, steps, m, m2)
  {
  }

  /** Two moves in a row add up. */
  lemma ShiftedTrans(a: map<Id, Record>, b: map<Id, Record>, c: map<Id, Record>,
                     s1: multiset<Id>, s2: multiset<Id>, m: real, marked: set<Id>)
    requires Shifted(b, a, s1, m, marked) && Shifted(c, b, s2, m, marked)
    ensures Shifted(c, a, s1 + s2, m, marked)
  {
    forall o | o in a
      ensures MovedBy(c[o], a[o], Units((s1 + s2)[o], m), o in marked)
    {
      TransAt(a[o], b[o], c[o], s1[o], s2[o], (s1 + s2)[o], m, o in marked);
    }
  }

  lemma TransAt(a: Record, b: Record, c: Record, n1: nat, n2: nat, n: nat, m: real, mayDestroy: bool)
    requires MovedBy(b, a, Units(n1, m), mayDestroy) && MovedBy(c, b, Units(n2, m), mayDestroy) && n == n1 + n2
    ensures MovedBy(c, a, Units(n, m), mayDestroy)
  {
    MovedByTrans(a, b, c, Units(n1, m), Units(n2, m), mayDestroy);
    UnitsSum(n1, n2, m);
  }

  lemma MovedByTrans(a: Record, b: Record, c: Record, x: real, y: real, mayDestroy: bool)
    requires MovedBy(b, a, x, mayDestroy) && MovedBy(c, b, y, mayDestroy)
    ensures MovedBy(c, a, x + y, mayDestroy)
  {
    AddScaledTwice(a.position, a.speed, x, y);
    DestroyedIdempotent(a);
  }

  /** The count of an object at rest does not matter. */
  lemma ShiftedAgree(after: map<Id, Record>, before: map<Id, Record>, s1: multiset<Id>, s2: multiset<Id>, m: real, marked: set<Id>)
    requires Shifted(after, before, s1, m, marked)
    requires forall o :: o in before && IsNonZero(before[o].speed) ==> s1[o] == s2[o]
    ensures Shifted(after, before, s2, m, marked)
  {
    forall o | o in before && !IsNonZero(before[o].speed)
      ensures MovedBy(after[o], before[o], Units(s2[o], m), o in marked)
    {
      AtRestAnyShift(before[o].position, before[o].speed, Units(s1[o], m), Units(s2[o], m));
    }
  }

  /** p + 0 * x == p + 0 * y. */
  lemma AtRestAnyShift(p: Vector, s: Vector, x: real, y: real)
    requires |p| == |s| && !IsNonZero(s)
    ensures Add(p, Scale(s, x)) == Add(p, Scale(s, y))
  {
    ZeroIsAllZero(|s|);
    assert forall i :: 0 <= i < |p| ==> Add(p, Scale(s, x))[i] == p[i];
    assert forall i :: 0 <= i < |p| ==> Add(p, Scale(s, y))[i] == p[i];
  }

  /** `(speed * a) * b == speed * (a * b)`. */
  lemma ScaleScale(s: Vector, a: real, b: real)
    ensures Scale(Scale(s, a), b) == Scale(s, a * b)
  {
    assert forall i :: 0 <= i < |s| ==> Scale(Scale(s, a), b)[i] == Scale(s, a * b)[i];
  }

  /** `delta_time / collision_samples`: the length of one of the four sub-steps
      of the collision pass. */
  function QuarterStep(dt: real): real
  {
    dt / 4.0
  }

  /** Four quarter steps per occurrence make one whole step per occurrence. */
  lemma ShiftedQuarters(after: map<Id, Record>, before: map<Id, Record>, units: multiset<Id>, total: multiset<Id>,
                        dt: real, marked: set<Id>)
    requires Shifted(after, before, units, QuarterStep(dt), marked)
    requires forall o :: units[o] == 4 * total[o]
    ensures Shifted(after, before, total, dt, marked)
  {
    forall o | o in before
      ensures Units(units[o], QuarterStep(dt)) == Units(total[o], dt)
    {
      QuarterTimesFour(total[o], dt);
    }
  }

  lemma QuarterTimesFour(n: nat, dt: real)
    ensures Units(4 * n, QuarterStep(dt)) == Units(n, dt)
  {
  }

  // ---------------------------------------------------------------- who moves

  /** `isMoving()` on a live object. */
  predicate IsMover(objects: map<Id, Record>, c: Id)
  {
    c in objects && IsNonZero(objects[c].speed)
  }

  /** A child that `move` queues on `moving`: moving and collidable. */
  predicate Sweeps(objects: map<Id, Record>, c: Id)
  {
    IsMover(objects, c) && objects[c].collider.Some?
  }

  /** A child that `move` advances straight away: moving but not collidable. */
  predicate Glides(objects: map<Id, Record>, c: Id)
  {
    IsMover(objects, c) && objects[c].collider.None?
  }

  /** The children that `move` puts on its `moving` list, in order. */
  function Sweepers(objects: map<Id, Record>, s: seq<Id>): (r: seq<Id>)
    ensures forall c :: c in r ==> Sweeps(objects, c) && c in s
  {
    if s == [] then []
    else
      var init, c := s[..|s| - 1], s[|s| - 1];
      assert s == init + [c];
      Sweepers(objects, init) + if Sweeps(objects, c) then [c] else []
  }

  /** The children that `move` advances before the collision pass, in order. */
  function Gliders(objects: map<Id, Record>, s: seq<Id>): seq<Id>
  {
    if s == [] then []
    else Gliders(objects, s[..|s| - 1]) + if Glides(objects, s[|s| - 1]) then [s[|s| - 1]] else []
  }

  /** Each queued or gliding child occurs as often as in the children list, the
      others not at all. */
  lemma {:induction false} FilterCounts(objects: map<Id, Record>, s: seq<Id>, o: Id)
    ensures multiset(Sweepers(objects, s))[o] == if Sweeps(objects, o) then multiset(s)[o] else 0
    ensures multiset(Gliders(objects, s))[o] == if Glides(objects, o) then multiset(s)[o] else 0
  {
    if s != [] {
      var init, c := s[..|s| - 1], s[|s| - 1];
      assert s == init + [c];
      FilterCounts(objects, init, o);
    }
  }

  lemma SweepersStep(objects: map<Id, Record>, s: seq<Id>, k: nat)
    requires k < |s|
    ensures Sweeps(objects, s[k]) ==> Sweepers(objects, s[..k + 1]) == Sweepers(objects, s[..k]) + [s[k]]
    ensures !Sweeps(objects, s[k]) ==> Sweepers(objects, s[..k + 1]) == Sweepers(objects, s[..k])
    ensures Glides(objects, s[k]) ==> Gliders(objects, s[..k + 1]) == Gliders(objects, s[..k]) + [s[k]]
    ensures !Glides(objects, s[k]) ==> Gliders(objects, s[..k + 1]) == Gliders(objects, s[..k])
  {
    assert s[..k + 1][..k] == s[..k];
    assert Sweepers(objects, s[..k]) + [] == Sweepers(objects, s[..k]);
    assert Gliders(objects, s[..k]) + [] == Gliders(objects, s[..k]);
  }

  /** Every moving child is either collidable or not, so the two groups together
      hold each moving child as often as the children list does. */
  lemma MoversSplit(objects: map<Id, Record>, s: seq<Id>)
    ensures forall o :: IsMover(objects, o) ==> (multiset(Gliders(objects, s)) + multiset(Sweepers(objects, s)))[o] == multiset(s)[o]
  {
    forall o | IsMover(objects, o)
      ensures (multiset(Gliders(objects, s)) + multiset(Sweepers(objects, s)))[o] == multiset(s)[o]
    {
      FilterCounts(objects, s, o);
    }
  }

  /** `move` with detection: the gliders advance by a whole step first, then
      the sweepers in quarter steps; together every moving child has advanced
      once per occurrence in the children list. */
  lemma CollectThenSweep(before: map<Id, Record>, collected: map<Id, Record>, after: map<Id, Record>,
                         kids: seq<Id>, m: real, marked: set<Id>)
    requires Shifted(collected, before, multiset(Gliders(before, kids)), m, {})
    requires Shifted(after, collected, multiset(Sweepers(before, kids)), m, marked)
    ensures Shifted(after, before, multiset(kids), m, marked)
  {
    var glided, swept := multiset(Gliders(before, kids)), multiset(Sweepers(before, kids));
    ShiftedMoreMarks(collected, before, glided, m, {}, marked);
    ShiftedTrans(before, collected, after, glided, swept, m, marked);
    MoversSplit(before, kids);
    ShiftedAgree(after, before, glided + swept, multiset(kids), m, marked);
  }

  // ---------------------------------------------------------------- sub-step ledger

  /** The quarter steps still owed to `o`: `left - 1` per occurrence in `done`,
      `left` per occurrence in `todo`. */
  function Debt(done: seq<Id>, todo: seq<Id>, left: int, o: Id): int
  {
    (left - 1) * multiset(done)[o] + left * multiset(todo)[o]
  }

  /** The ledger of the sub-steps: the quarters each handle has been paid
      (`units`) and those it is still owed make four per occurrence of `total`. */
  ghost predicate Owed(units: multiset<Id>, done: seq<Id>, todo: seq<Id>, left: int, total: multiset<Id>)
  {
    forall o {:trigger Debt(done, todo, left, o)} :: units[o] + Debt(done, todo, left, o) == 4 * total[o]
  }

  lemma OwedStart(moving: seq<Id>)
    ensures Owed(multiset{}, [], moving, 4, multiset(moving))
  {
  }

  /** The occurrence at `idx` leaves the queue after a leap of `left` quarters:
      the displacement, the ledger and the memo all still hold. */
  lemma DropLedger(objects: map<Id, Record>, base: map<Id, Record>, units: multiset<Id>, m: real, marked: set<Id>,
                   moving: seq<Id>, idx: nat, left: nat, q: real, total: multiset<Id>,
                   cs: seq<Contact>, collided: map<Id, set<Id>>)
    requires Shifted(objects, base, units, m, marked) && idx < |moving| && moving[idx] in base
    requires Owed(units, [], moving, left, total) && Remembered(cs, collided, objects) && q == left as real
    ensures moving[idx] in objects
    ensures var c := moving[idx];
      var after := objects[c := objects[c].(position := Add(objects[c].position, Scale(Scale(objects[c].speed, q), m)))];
      Shifted(after, base, units[c := units[c] + left], m, marked) && Remembered(cs, collided, after)
    ensures Owed(units[moving[idx] := units[moving[idx]] + left], [], moving[..idx] + moving[idx + 1..], left, total)
  {
    var c := moving[idx];
    assert moving == moving[..idx] + [c] + moving[idx + 1..];
    OwedDrop(units, moving[..idx], c, moving[idx + 1..], left, total);
    ShiftedLeap(objects, base, units, m, marked, c, left, q);
    RememberedMoved(cs, collided, objects, c, Add(objects[c].position, Scale(Scale(objects[c].speed, q), m)));
  }

  lemma OwedDrop(units: multiset<Id>, kept: seq<Id>, c: Id, rest: seq<Id>, left: nat, total: multiset<Id>)
    requires Owed(units, [], kept + [c] + rest, left, total)
    ensures Owed(units[c := units[c] + left], [], kept + rest, left, total)
  {
    forall o
      ensures units[c := units[c] + left][o] + Debt([], kept + rest, left, o) == 4 * total[o]
    {
      DebtDrop(kept, c, rest, left, o);
    }
  }

  lemma DebtDrop(kept: seq<Id>, c: Id, rest: seq<Id>, left: int, o: Id)
    ensures Debt([], kept + [c] + rest, left, o) == Debt([], kept + rest, left, o) + if o == c then left else 0
  {
    assert multiset(kept + [c] + rest) == multiset(kept + rest) + multiset{c};
    if o == c {
      MulPred(left, multiset(kept + rest)[o]);
    }
  }

  /** Advancing one occurrence pays it one quarter. */
  lemma OwedAdvance(units: multiset<Id>, done: seq<Id>, c: Id, todo: seq<Id>, left: int, total: multiset<Id>)
    requires Owed(units, done, [c] + todo, left, total)
    ensures Owed(units + multiset{c}, done + [c], todo, left, total)
  {
    forall o
      ensures (units + multiset{c})[o] + Debt(done + [c], todo, left, o) == 4 * total[o]
    {
      DebtAdvance(done, c, todo, left, o);
    }
  }

  lemma DebtAdvance(done: seq<Id>, c: Id, todo: seq<Id>, left: int, o: Id)
    ensures Debt(done, [c] + todo, left, o) == Debt(done + [c], todo, left, o) + if o == c then 1 else 0
  {
    assert multiset(done + [c]) == multiset(done) + multiset{c};
    assert multiset([c] + todo) == multiset(todo) + multiset{c};
    if o == c {
      MulPred(left - 1, multiset(done)[o]);
      MulPred(left, multiset(todo)[o]);
    }
  }

  lemma OwedNext(units: multiset<Id>, moving: seq<Id>, left: int, total: multiset<Id>)
    requires Owed(units, moving, [], left, total)
    ensures Owed(units, [], moving, left - 1, total)
  {
    forall o
      ensures units[o] + Debt([], moving, left - 1, o) == 4 * total[o]
    {
      assert Debt([], moving, left - 1, o) == Debt(moving, [], left, o);
    }
  }

  lemma OwedSame(units: multiset<Id>, todo: seq<Id>, a: int, b: int, total: multiset<Id>)
    requires Owed(units, [], todo, a, total) && a == b
    ensures Owed(units, [], todo, b, total)
  {
  }

  /** With nothing left to pay, every occurrence has had its four quarters. */
  lemma OwedEnd(units: multiset<Id>, moving: seq<Id>, total: multiset<Id>)
    requires Owed(units, [], moving, 0, total)
    ensures forall o :: units[o] == 4 * total[o]
  {
    forall o
      ensures units[o] == 4 * total[o]
    {
      assert Debt([], moving, 0, o) == 0;
    }
  }

  /** One quarter more for the occurrence `c` at the end of a sub-step. */
  lemma AdvanceStep(after: map<Id, Record>, before: map<Id, Record>, units: multiset<Id>, m: real, marked: set<Id>,
                    done: seq<Id>, c: Id, todo: seq<Id>, left: int, total: multiset<Id>)
    requires Shifted(after, before, units, m, marked) && c in after
    requires Owed(units, done, [c] + todo, left, total)
    ensures Shifted(after[c := after[c].(position := Add(after[c].position, Scale(after[c].speed, m)))],
                    before, units + multiset{c}, m, marked)
    ensures Owed(units + multiset{c}, done + [c], todo, left, total)
  {
    OwedAdvance(units, done, c, todo, left, total);
    ShiftedMove(after, before, units, m, marked, c);
  }

  lemma MulPred(a: int, n: int)
    ensures a * (n + 1) == a * n + a
  {
  }

  // ---------------------------------------------------------------- contacts

  /** One collision found in a sub-step: `mover` ran into `other` at `point`.  The
      test that found it had the mover at `moverAt`, the other at `otherAt`, and
      was passed `probe` as the point to report on a miss. */
  datatype Contact = Contact(mover: Id, other: Id, point: Vector, probe: Vector, moverAt: Vector, otherAt: Vector)

  /** The hook calls of a run of contacts: the mover's `onCollision`, then the other's. */
  function ContactLog(cs: seq<Contact>): (log: seq<Event>)
  {
    if cs == [] then []
    else
      var c := cs[|cs| - 1];
      ContactLog(cs[..|cs| - 1]) + [OnCollision(c.mover, c.other, c.point), OnCollision(c.other, c.mover, c.point)]
  }

  /** Contact `k` fires `onCollision` on the mover at entry `2k` of the log and on
      the other object right after it. */
  lemma {:induction false} ContactLogEntries(cs: seq<Contact>)
    ensures |ContactLog(cs)| == 2 * |cs|
    ensures forall k :: 0 <= k < |cs| ==>
      ContactLog(cs)[2 * k] == OnCollision(cs[k].mover, cs[k].other, cs[k].point) &&
      ContactLog(cs)[2 * k + 1] == OnCollision(cs[k].other, cs[k].mover, cs[k].point)
  {
    if cs != [] {
      var init := cs[..|cs| - 1];
      ContactLogEntries(init);
      forall k | 0 <= k < |init|
        ensures ContactLog(cs)[2 * k] == ContactLog(init)[2 * k]
        ensures ContactLog(cs)[2 * k + 1] == ContactLog(init)[2 * k + 1]
      {
      }
    }
  }

  lemma ContactLogStep(cs: seq<Contact>, c: Contact)
    ensures ContactLog(cs + [c]) == ContactLog(cs) + [OnCollision(c.mover, c.other, c.point), OnCollision(c.other, c.mover, c.point)]
  {
    assert (cs + [c])[..|cs|] == cs;
  }

  lemma ContactLogAppend(a: seq<Contact>, b: seq<Contact>)
    ensures ContactLog(a + b) == ContactLog(a) + ContactLog(b)
    decreases |b|
  {
    if b == [] {
      assert a + b == a;
    } else {
      var init, last := b[..|b| - 1], b[|b| - 1];
      assert a + b == (a + init) + [last];
      assert b == init + [last];
      ContactLogStep(a + init, last);
      ContactLogStep(init, last);
      ContactLogAppend(a, init);
    }
  }

  /** A log that ends with the calls of `cs` and then gains those of `c`. */
  lemma ContactLogPush(log0: seq<Event>, cs: seq<Contact>, c: Contact)
    ensures (log0 + ContactLog(cs)) + [OnCollision(c.mover, c.other, c.point), OnCollision(c.other, c.mover, c.point)]
            == log0 + ContactLog(cs + [c])
  {
    ContactLogStep(cs, c);
  }

  /** A log that ends with the calls of `a` and then gains those of `b`. */
  lemma ContactLogExtend(log0: seq<Event>, a: seq<Contact>, b: seq<Contact>)
    ensures (log0 + ContactLog(a)) + ContactLog(b) == log0 + ContactLog(a + b)
  {
    ContactLogAppend(a, b);
  }

  /** The hook calls of a run of sub-steps. */
  function RoundsLog(rounds: seq<seq<Contact>>): (log: seq<Event>)
  {
    if rounds == [] then [] else RoundsLog(rounds[..|rounds| - 1]) + ContactLog(rounds[|rounds| - 1])
  }

  lemma RoundsLogStep(rounds: seq<seq<Contact>>, r: seq<Contact>)
    ensures RoundsLog(rounds + [r]) == RoundsLog(rounds) + ContactLog(r)
  {
    assert (rounds + [r])[..|rounds|] == rounds;
  }

  /** A log that ends with the calls of `rounds` and then gains those of `r`. */
  lemma RoundsLogExtend(log0: seq<Event>, rounds: seq<seq<Contact>>, r: seq<Contact>)
    ensures (log0 + RoundsLog(rounds)) + ContactLog(r) == log0 + RoundsLog(rounds + [r])
  {
    RoundsLogStep(rounds, r);
  }

  /** The contacts of one more sub-step keep every round one-sided and between
      queued movers and children. */
  lemma RoundsGrow(rounds: seq<seq<Contact>>, cs: seq<Contact>, queue: seq<Id>, pool: seq<Id>, kids: seq<Id>)
    requires forall r :: r in rounds ==> OneSided(r)
    requires forall r, c :: r in rounds && c in r ==> c.mover in pool && c.other in kids
    requires OneSided(cs)
    requires forall k :: 0 <= k < |cs| ==> cs[k].mover in queue && cs[k].other in kids
    requires forall c :: c in queue ==> c in pool
    ensures forall r :: r in rounds + [cs] ==> OneSided(r)
    ensures forall r, c :: r in rounds + [cs] && c in r ==> c.mover in pool && c.other in kids
  {
  }

  /** The contacts a mover from `pool` makes extend a list of contacts between
      movers from `pool` and children. */
  lemma ContactsGrow(cs: seq<Contact>, found: seq<Contact>, child: Id, pool: seq<Id>, kids: seq<Id>)
    requires forall k :: 0 <= k < |cs| ==> cs[k].mover in pool && cs[k].other in kids
    requires forall k :: 0 <= k < |found| ==> found[k].mover == child && found[k].other in kids
    requires child in pool
    ensures forall k :: 0 <= k < |cs + found| ==> (cs + found)[k].mover in pool && (cs + found)[k].other in kids
  {
  }

  /** Removing the entry at `idx` of the queue leaves only entries it had. */
  lemma RemovedAt(queue: seq<Id>, idx: nat)
    requires idx < |queue|
    ensures forall c :: c in queue[..idx] + queue[idx + 1..] ==> c in queue
  {
  }

  /** No object collides with itself, and no pair is found from both sides. */
  predicate OneSided(cs: seq<Contact>)
  {
    forall j, k :: 0 <= j < |cs| && 0 <= k < |cs| ==> !(cs[j].mover == cs[k].other && cs[j].other == cs[k].mover)
  }

  /** The `collided` memo of one sub-step: each contact so far is remembered under
      its `other` (so that `other` will not test it back), unless one of the two
      can no longer collide at all. */
  ghost predicate Remembered(cs: seq<Contact>, collided: map<Id, set<Id>>, objects: map<Id, Record>)
  {
    forall k :: 0 <= k < |cs| ==>
      (cs[k].other in collided && cs[k].mover in collided[cs[k].other])
      || !CanCollide(objects, cs[k].mover) || !CanCollide(objects, cs[k].other)
  }

  /** A live object with a collider. */
  predicate CanCollide(objects: map<Id, Record>, o: Id)
  {
    o in objects && objects[o].collider.Some?
  }

  /** `destroy()` calls only take colliders away. */
  lemma RememberedDestroyed(cs: seq<Contact>, collided: map<Id, set<Id>>, objects: map<Id, Record>, ids: seq<Id>)
    requires Remembered(cs, collided, objects)
    ensures Remembered(cs, collided, DestroyedAll(objects, ids))
  {
  }

  /** Moving an object does not change what can collide. */
  lemma RememberedMoved(cs: seq<Contact>, collided: map<Id, set<Id>>, objects: map<Id, Record>, o: Id, p: Vector)
    requires Remembered(cs, collided, objects) && o in objects
    ensures Remembered(cs, collided, objects[o := objects[o].(position := p)])
  {
  }

  /** After a contact of a mover that can still collide, `collided[other]` gains the mover. */
  lemma RememberedInsert(cs: seq<Contact>, collided: map<Id, set<Id>>, objects: map<Id, Record>, c: Contact)
    requires Remembered(cs, collided, objects)
    ensures Remembered(cs + [c], collided[c.other := (if c.other in collided then collided[c.other] else {}) + {c.mover}], objects)
  {
  }

  /** After a contact that left the mover unable to collide, its own memo is cleared. */
  lemma RememberedClear(cs: seq<Contact>, collided: map<Id, set<Id>>, objects: map<Id, Record>, c: Contact)
    requires Remembered(cs, collided, objects) && !CanCollide(objects, c.mover)
    ensures Remembered(cs + [c], collided[c.mover := {}], objects)
  {
  }

  /** A new contact whose pair the memo has not seen keeps the contacts one-sided. */
  lemma OneSidedStep(cs: seq<Contact>, collided: map<Id, set<Id>>, objects: map<Id, Record>, c: Contact)
    requires OneSided(cs) && Remembered(cs, collided, objects)
    requires c.mover != c.other && CanCollide(objects, c.mover) && CanCollide(objects, c.other)
    requires !(c.mover in collided && c.other in collided[c.mover])
    ensures OneSided(cs + [c])
  {
    var cs' := cs + [c];
    forall j, k | 0 <= j < |cs'| && 0 <= k < |cs'|
      ensures !(cs'[j].mover == cs'[k].other && cs'[j].other == cs'[k].mover)
    {
      if j < |cs| && k == |cs| {
        assert cs'[j] == cs[j];
      } else if j == |cs| && k < |cs| {
        assert cs'[k] == cs[k];
      }
    }
  }
  // ---------------------------------------------------------------- what a contact means

  /** `m` and `o` can be tested against each other with `m` at `mAt` and `o` at `oAt`. */
  predicate Testable(w: map<Id, Record>, m: Id, o: Id, mAt: Vector, oAt: Vector)
  {
    && CanCollide(w, m) && CanCollide(w, o)
    && WellFormedRecord(w[m]) && WellFormedRecord(w[o]) && |mAt| == 3 && |oAt| == 3
  }

  /** `m->detectCollision(o, speed_m * mult, speed_o * mult, probe)` with `m` at
      `mAt` and `o` at `oAt`. */
  function Probed(w: map<Id, Record>, m: Id, o: Id, mAt: Vector, oAt: Vector, mult: real, probe: Vector, trig: Trig): Hit
    requires Testable(w, m, o, mAt, oAt)
  {
    DetectCollision(w[m].collider.value, w[o].collider.value, mAt, Scale(w[m].speed, mult),
                    oAt, Scale(w[o].speed, mult), probe, true, trig)
  }

  /** Whether the test reports a hit does not depend on the point passed in. */
  lemma ProbedIgnoresPoint(w: map<Id, Record>, m: Id, o: Id, mAt: Vector, oAt: Vector, mult: real, p: Vector, q: Vector, trig: Trig)
    requires Testable(w, m, o, mAt, oAt)
    ensures Probed(w, m, o, mAt, oAt, mult, p, trig).hit == Probed(w, m, o, mAt, oAt, mult, q, trig).hit
  {
    DetectCollisionHitIgnoresPoint(w[m].collider.value, w[o].collider.value, mAt, Scale(w[m].speed, mult),
                                   oAt, Scale(w[o].speed, mult), p, q, true, trig);
  }

  /** `m` and `o` collide when tested with `m` at `mAt` and `o` at `oAt`. */
  predicate DetectsAt(w: map<Id, Record>, m: Id, o: Id, mAt: Vector, oAt: Vector, mult: real, trig: Trig)
  {
    Testable(w, m, o, mAt, oAt) && Probed(w, m, o, mAt, oAt, mult, ZeroVec, trig).hit
  }

  /** `m` and `o` collide where they stand in `w`. */
  predicate Detects(w: map<Id, Record>, m: Id, o: Id, mult: real, trig: Trig)
  {
    m in w && o in w && DetectsAt(w, m, o, w[m].position, w[o].position, mult, trig)
  }

  /** The contact `c` is the hit the test reports at the positions and with the
      point it records. */
  predicate Caught(w: map<Id, Record>, c: Contact, mult: real, trig: Trig)
  {
    && Testable(w, c.mover, c.other, c.moverAt, c.otherAt) && |c.probe| == 3
    && Probed(w, c.mover, c.other, c.moverAt, c.otherAt, mult, c.probe, trig) == Hit(true, c.point)
  }

  /** Where `o` stands after `n` steps of `m` times its speed from `w`. */
  function Spot(w: map<Id, Record>, o: Id, n: nat, m: real): Vector
    requires o in w && WellFormedRecord(w[o])
  {
    Add(w[o].position, Scale(w[o].speed, Units(n, m)))
  }

  /** Every contact of `cs` is a hit caught with its two objects where `units`
      steps from `w` put them. */
  ghost predicate CaughtAt(cs: seq<Contact>, w: map<Id, Record>, units: multiset<Id>, mult: real, trig: Trig)
  {
    forall c :: c in cs ==>
      && Caught(w, c, mult, trig)
      && c.moverAt == Spot(w, c.mover, units[c.mover], mult)
      && c.otherAt == Spot(w, c.other, units[c.other], mult)
  }

  /** `p` is a point `o` reaches in whole steps of `m` times its speed from `w`. */
  ghost predicate OnPath(w: map<Id, Record>, o: Id, p: Vector, m: real)
  {
    o in w && WellFormedRecord(w[o]) && exists n: nat :: p == Spot(w, o, n, m)
  }

  /** Every contact of `cs` is a hit caught with its two objects on their paths from `w`. */
  ghost predicate CaughtOnPaths(cs: seq<Contact>, w: map<Id, Record>, mult: real, trig: Trig)
  {
    forall c :: c in cs ==> Caught(w, c, mult, trig) && OnPath(w, c.mover, c.moverAt, mult) && OnPath(w, c.other, c.otherAt, mult)
  }

  lemma CaughtAtOnPaths(cs: seq<Contact>, w: map<Id, Record>, units: multiset<Id>, mult: real, trig: Trig)
    requires CaughtAt(cs, w, units, mult, trig)
    ensures CaughtOnPaths(cs, w, mult, trig)
  {
    forall c | c in cs
      ensures OnPath(w, c.mover, c.moverAt, mult) && OnPath(w, c.other, c.otherAt, mult)
    {
      assert c.moverAt == Spot(w, c.mover, units[c.mover], mult);
      assert c.otherAt == Spot(w, c.other, units[c.other], mult);
    }
  }

  /** Contacts between objects whose records agree in two worlds mean the same in both. */
  lemma CaughtOnPathsRebase(cs: seq<Contact>, w: map<Id, Record>, v: map<Id, Record>, mult: real, trig: Trig)
    requires CaughtOnPaths(cs, w, mult, trig)
    requires forall o :: CanCollide(w, o) ==> o in v && v[o] == w[o]
    ensures CaughtOnPaths(cs, v, mult, trig)
  {
    forall c | c in cs
      ensures Caught(v, c, mult, trig) && OnPath(v, c.mover, c.moverAt, mult) && OnPath(v, c.other, c.otherAt, mult)
    {
      var n1: nat :| c.moverAt == Spot(w, c.mover, n1, mult);
      var n2: nat :| c.otherAt == Spot(w, c.other, n2, mult);
      assert c.moverAt == Spot(v, c.mover, n1, mult);
      assert c.otherAt == Spot(v, c.other, n2, mult);
    }
  }

  /** Some contact of `cs` is between `m` and `o`, found from either side. */
  predicate Paired(cs: seq<Contact>, m: Id, o: Id)
  {
    exists c :: c in cs && ((c.mover == m && c.other == o) || (c.mover == o && c.other == m))
  }

  lemma PairedGrow(cs: seq<Contact>, more: seq<Contact>, m: Id, o: Id)
    requires Paired(cs, m, o)
    ensures Paired(cs + more, m, o)
  {
    var c :| c in cs && ((c.mover == m && c.other == o) || (c.mover == o && c.other == m));
    assert c in cs + more;
  }

  /** Every pair in the `collided` memo was met: `y` in `collided[x]` means a
      contact with `y` moving into `x`. */
  ghost predicate Recalled(cs: seq<Contact>, collided: map<Id, set<Id>>)
  {
    forall x, y :: x in collided && y in collided[x] ==> exists c :: c in cs && c.mover == y && c.other == x
  }

  lemma RecalledInsert(cs: seq<Contact>, collided: map<Id, set<Id>>, c: Contact)
    requires Recalled(cs, collided)
    ensures Recalled(cs + [c], collided[c.other := (if c.other in collided then collided[c.other] else {}) + {c.mover}])
  {
    var cs', collided' := cs + [c], collided[c.other := (if c.other in collided then collided[c.other] else {}) + {c.mover}];
    forall x, y | x in collided' && y in collided'[x]
      ensures exists d :: d in cs' && d.mover == y && d.other == x
    {
      if x == c.other && y == c.mover {
        assert c in cs';
      } else {
        var d :| d in cs && d.mover == y && d.other == x;
        assert d in cs';
      }
    }
  }

  lemma RecalledClear(cs: seq<Contact>, collided: map<Id, set<Id>>, c: Contact, o: Id)
    requires Recalled(cs, collided)
    ensures Recalled(cs + [c], collided[o := {}])
  {
    var cs', collided' := cs + [c], collided[o := {}];
    forall x, y | x in collided' && y in collided'[x]
      ensures exists d :: d in cs' && d.mover == y && d.other == x
    {
      var d :| d in cs && d.mover == y && d.other == x;
      assert d in cs';
    }
  }

  /** A memo entry met earlier is a pairing. */
  lemma RecalledPaired(cs: seq<Contact>, collided: map<Id, set<Id>>, x: Id, y: Id)
    requires Recalled(cs, collided) && x in collided && y in collided[x]
    ensures Paired(cs, x, y)
  {
    var c :| c in cs && c.mover == y && c.other == x;
  }

  /** Objects in `after` are those of `before`; any that can still collide is
      exactly as it was. */
  ghost predicate OnlyDisarmed(after: map<Id, Record>, before: map<Id, Record>)
  {
    after.Keys == before.Keys && forall o :: CanCollide(after, o) ==> after[o] == before[o]
  }

  lemma OnlyDisarmedTrans(a: map<Id, Record>, b: map<Id, Record>, c: map<Id, Record>)
    requires OnlyDisarmed(b, a) && OnlyDisarmed(c, b)
    ensures OnlyDisarmed(c, a)
  {
    forall o | CanCollide(c, o)
      ensures c[o] == a[o]
    {
      assert CanCollide(b, o);
    }
  }

  /** `destroy()` calls only take colliders away. */
  lemma DisarmedAll(objects: map<Id, Record>, ids: seq<Id>)
    ensures OnlyDisarmed(DestroyedAll(objects, ids), objects)
  {
  }

  /** A shifted object that can still collide stands where its steps put it, and
      is otherwise as it was. */
  lemma ShiftedCollider(after: map<Id, Record>, before: map<Id, Record>, steps: multiset<Id>, m: real, marked: set<Id>, o: Id)
    requires Shifted(after, before, steps, m, marked) && CanCollide(after, o)
    ensures CanCollide(before, o)
    ensures after[o] == before[o].(position := Spot(before, o, steps[o], m))
  {
  }

  /** In a world shifted from `base`, `m` and `o` collide where they stand iff
      they collide where their steps put them. */
  lemma DetectsShifted(w: map<Id, Record>, base: map<Id, Record>, steps: multiset<Id>, mult: real, marked: set<Id>,
                       m: Id, o: Id, trig: Trig)
    requires Shifted(w, base, steps, mult, marked) && CanCollide(w, m) && CanCollide(w, o)
    ensures Detects(w, m, o, mult, trig) <==>
            DetectsAt(base, m, o, Spot(base, m, steps[m], mult), Spot(base, o, steps[o], mult), mult, trig)
  {
    ShiftedCollider(w, base, steps, mult, marked, m);
    ShiftedCollider(w, base, steps, mult, marked, o);
  }
  /** A miss where the two stand in `w` is a miss where they stood in `w0`, when
      neither has changed since. */
  lemma MissedAt(w: map<Id, Record>, w0: map<Id, Record>, m: Id, o: Id, mult: real, probe: Vector, trig: Trig)
    requires OnlyDisarmed(w, w0) && CanCollide(w, m) && CanCollide(w, o)
    requires Testable(w, m, o, w[m].position, w[o].position)
    requires !Probed(w, m, o, w[m].position, w[o].position, mult, probe, trig).hit
    ensures !Detects(w0, m, o, mult, trig)
  {
    ProbedIgnoresPoint(w, m, o, w[m].position, w[o].position, mult, probe, ZeroVec, trig);
  }

  /** Contacts caught where the objects stood in a world shifted from `base` were
      caught where their steps from `base` put them. */
  lemma CaughtFound(found: seq<Contact>, w: map<Id, Record>, base: map<Id, Record>, steps: multiset<Id>,
                    units0: multiset<Id>, mult: real, marked: set<Id>, trig: Trig)
    requires Shifted(w, base, steps, mult, marked)
    requires forall x :: CanCollide(w, x) ==> steps[x] == units0[x]
    requires forall c :: c in found ==> Caught(w, c, mult, trig) && c.moverAt == w[c.mover].position && c.otherAt == w[c.other].position
    ensures CaughtAt(found, base, units0, mult, trig)
  {
    forall c | c in found
      ensures Caught(base, c, mult, trig)
      ensures c.moverAt == Spot(base, c.mover, units0[c.mover], mult) && c.otherAt == Spot(base, c.other, units0[c.other], mult)
    {
      ShiftedCollider(w, base, steps, mult, marked, c.mover);
      ShiftedCollider(w, base, steps, mult, marked, c.other);
    }
  }

  lemma PairedPrefix(cs: seq<Contact>, cs': seq<Contact>, m: Id, o: Id)
    requires Paired(cs, m, o) && cs <= cs'
    ensures Paired(cs', m, o)
  {
    var c :| c in cs && ((c.mover == m && c.other == o) || (c.mover == o && c.other == m));
    var k :| 0 <= k < |cs| && cs[k] == c;
    assert cs'[k] == c;
  }

  /** The first `n` movers of `queue` have each been paired with every collidable
      object of `kids` it collides with where they stand in `w`. */
  ghost predicate Met(cs: seq<Contact>, queue: seq<Id>, n: int, kids: seq<Id>, w: map<Id, Record>, mult: real, trig: Trig)
  {
    forall i, o ::
      0 <= i < n && i < |queue| && o in kids && queue[i] != o && CanCollide(w, o) && Detects(w, queue[i], o, mult, trig)
      ==> Paired(cs, queue[i], o)
  }

  lemma MetGrow(cs: seq<Contact>, cs': seq<Contact>, queue: seq<Id>, n: int, kids: seq<Id>, w: map<Id, Record>, mult: real, trig: Trig)
    requires Met(cs, queue, n, kids, w, mult, trig) && cs <= cs'
    ensures Met(cs', queue, n, kids, w, mult, trig)
  {
    forall i, o | 0 <= i < n && i < |queue| && o in kids && queue[i] != o && CanCollide(w, o) && Detects(w, queue[i], o, mult, trig)
      ensures Paired(cs', queue[i], o)
    {
      PairedPrefix(cs, cs', queue[i], o);
    }
  }

  lemma MetAll(cs: seq<Contact>, queue: seq<Id>, kids: seq<Id>, w: map<Id, Record>, mult: real, trig: Trig)
    requires Met(cs, queue, |queue|, kids, w, mult, trig)
    ensures forall m, o :: m in queue && o in kids && m != o && CanCollide(w, o) && Detects(w, m, o, mult, trig) ==> Paired(cs, m, o)
  {
    forall m, o | m in queue && o in kids && m != o && CanCollide(w, o) && Detects(w, m, o, mult, trig)
      ensures Paired(cs, m, o)
    {
      var i :| 0 <= i < |queue| && queue[i] == m;
    }
  }

  /** Round `cs`, the `r`-th of the collision pass, pairs every mover of `pool`
      with every collidable object of `kids` it collides with once each has moved
      `r` steps of `mult` per occurrence in `total` from `base`. */
  ghost predicate RoundThorough(cs: seq<Contact>, r: nat, pool: seq<Id>, kids: seq<Id>, base: map<Id, Record>,
                                total: multiset<Id>, mult: real, trig: Trig)
  {
    forall m, o {:trigger Paired(cs, m, o)} :: m in pool && o in kids && m != o && CanCollide(base, m) && CanCollide(base, o)
      && WellFormedRecord(base[m]) && WellFormedRecord(base[o])
      && DetectsAt(base, m, o, Spot(base, m, r * total[m], mult), Spot(base, o, r * total[o], mult), mult, trig)
      ==> Paired(cs, m, o)
  }

  /** A sub-step that pairs every collision where the objects stand, run after
      `r` steps per occurrence, is the `r`-th thorough round. */
  lemma RoundFromStep(cs: seq<Contact>, r: nat, pool: seq<Id>, kids: seq<Id>, w: map<Id, Record>, base: map<Id, Record>,
                      units: multiset<Id>, total: multiset<Id>, mult: real, trig: Trig)
    requires Shifted(w, base, units, mult, {}) && forall x :: units[x] == r * total[x]
    requires forall m, o :: m in pool && o in kids && m != o && CanCollide(w, o) && Detects(w, m, o, mult, trig) ==> Paired(cs, m, o)
    ensures RoundThorough(cs, r, pool, kids, base, total, mult, trig)
  {
    forall m, o | m in pool && o in kids && m != o && CanCollide(base, m) && CanCollide(base, o)
      && WellFormedRecord(base[m]) && WellFormedRecord(base[o])
      && DetectsAt(base, m, o, Spot(base, m, r * total[m], mult), Spot(base, o, r * total[o], mult), mult, trig)
      ensures Paired(cs, m, o)
    {
      ShiftedKeeps(w, base, units, mult, m);
      ShiftedKeeps(w, base, units, mult, o);
      DetectsShifted(w, base, units, mult, {}, m, o, trig);
    }
  }

  /** `RoundFromStep`, stated for any sub-step: the round is thorough if the
      objects stood where `units` steps took them and the sub-step paired them all. */
  lemma RoundFromCalm(cs: seq<Contact>, r: nat, pool: seq<Id>, kids: seq<Id>, w: map<Id, Record>, base: map<Id, Record>,
                      units: multiset<Id>, total: multiset<Id>, mult: real, trig: Trig)
    ensures
      && Shifted(w, base, units, mult, {}) && (forall x :: units[x] == r * total[x])
      && (forall m, o :: m in pool && o in kids && m != o && CanCollide(w, o) && Detects(w, m, o, mult, trig) ==> Paired(cs, m, o))
      ==> RoundThorough(cs, r, pool, kids, base, total, mult, trig)
  {
    if && Shifted(w, base, units, mult, {}) && (forall x :: units[x] == r * total[x])
       && (forall m, o :: m in pool && o in kids && m != o && CanCollide(w, o) && Detects(w, m, o, mult, trig) ==> Paired(cs, m, o))
    {
      RoundFromStep(cs, r, pool, kids, w, base, units, total, mult, trig);
    }
  }

  /** Objects that could collide still can once moved without being destroyed. */
  lemma ShiftedCollidable(after: map<Id, Record>, before: map<Id, Record>, steps: multiset<Id>, m: real, queue: seq<Id>)
    ensures
      && Shifted(after, before, steps, m, {}) && (forall c :: c in queue ==> CanCollide(before, c))
      ==> forall c :: c in queue ==> CanCollide(after, c)
  {
    if Shifted(after, before, steps, m, {}) {
      forall c | c in queue
        ensures CanCollide(before, c) ==> CanCollide(after, c)
      {
        ShiftedKeeps(after, before, steps, m, c);
      }
    }
  }

  /** A thorough round stays thorough in a world whose collidable objects have
      the same records. */
  lemma RoundThoroughRebase(cs: seq<Contact>, r: nat, pool: seq<Id>, kids: seq<Id>, w: map<Id, Record>, v: map<Id, Record>,
                            total: multiset<Id>, mult: real, trig: Trig)
    requires RoundThorough(cs, r, pool, kids, w, total, mult, trig)
    requires forall o :: CanCollide(v, o) ==> o in w && w[o] == v[o]
    ensures RoundThorough(cs, r, pool, kids, v, total, mult, trig)
  {
    forall m, o | m in pool && o in kids && m != o && CanCollide(v, m) && CanCollide(v, o)
      && WellFormedRecord(v[m]) && WellFormedRecord(v[o])
      && DetectsAt(v, m, o, Spot(v, m, r * total[m], mult), Spot(v, o, r * total[o], mult), mult, trig)
      ensures Paired(cs, m, o)
    {
      assert Spot(v, m, r * total[m], mult) == Spot(w, m, r * total[m], mult);
      assert Spot(v, o, r * total[o], mult) == Spot(w, o, r * total[o], mult);
    }
  }

  /** After the first pass of `move`, which advances only children without a
      collider, every collidable object is as it was. */
  lemma CollectedAgree(before: map<Id, Record>, collected: map<Id, Record>, kids: seq<Id>, m: real)
    requires Shifted(collected, before, multiset(Gliders(before, kids)), m, {})
    ensures forall o :: CanCollide(before, o) ==> o in collected && collected[o] == before[o]
    ensures forall o :: CanCollide(collected, o) ==> o in before && before[o] == collected[o]
  {
    forall o | CanCollide(before, o) || CanCollide(collected, o)
      ensures o in collected && o in before && collected[o] == before[o]
    {
      CollectedAgreeAt(before, collected, kids, m, o);
    }
  }

  /** Every child `collect` queues can still collide once `collect` is done. */
  lemma SweepersCollidable(before: map<Id, Record>, collected: map<Id, Record>, kids: seq<Id>, m: real)
    requires Shifted(collected, before, multiset(Gliders(before, kids)), m, {})
    ensures forall c :: c in Sweepers(before, kids) ==> CanCollide(collected, c)
  {
    CollectedAgree(before, collected, kids, m);
  }

  /** Every round's contacts are hits caught on the objects' paths from `w`;
      stated round by round, the last one first (see `AllCaughtMeans`). */
  ghost predicate AllCaught(rounds: seq<seq<Contact>>, w: map<Id, Record>, mult: real, trig: Trig)
    decreases |rounds|
  {
    rounds == [] || (AllCaught(rounds[..|rounds| - 1], w, mult, trig) && CaughtOnPaths(rounds[|rounds| - 1], w, mult, trig))
  }

  lemma {:induction false} AllCaughtMeans(rounds: seq<seq<Contact>>, w: map<Id, Record>, mult: real, trig: Trig)
    ensures AllCaught(rounds, w, mult, trig) <==> forall r :: r in rounds ==> CaughtOnPaths(r, w, mult, trig)
    decreases |rounds|
  {
    if rounds != [] {
      var prev := rounds[..|rounds| - 1];
      AllCaughtMeans(prev, w, mult, trig);
      assert rounds == prev + [rounds[|rounds| - 1]];
    }
  }

  lemma AllCaughtGrow(rounds: seq<seq<Contact>>, cs: seq<Contact>, w: map<Id, Record>, mult: real, trig: Trig)
    requires AllCaught(rounds, w, mult, trig) && CaughtOnPaths(cs, w, mult, trig)
    ensures AllCaught(rounds + [cs], w, mult, trig)
  {
    assert (rounds + [cs])[..|rounds|] == rounds;
  }

  /** The rounds of the collision pass so far, against the log and the marks:
      each round is one-sided and between movers of `pool` and objects of
      `kids`, its contacts are caught on the objects' paths from `base`, their
      hook calls follow `log0` in `log`, and every live target of them is marked. */
  ghost predicate RoundsKept(rounds: seq<seq<Contact>>, pool: seq<Id>, kids: seq<Id>, base: map<Id, Record>, mult: real,
                             trig: Trig, hooks: Hooks, log0: seq<Event>, log: seq<Event>, marked: set<Id>)
  {
    && log == log0 + RoundsLog(rounds)
    && (forall r :: r in rounds ==> OneSided(r))
    && (forall r, c :: r in rounds && c in r ==> c.mover in pool && c.other in kids)
    && AllCaught(rounds, base, mult, trig)
    && Honoured(hooks, RoundsLog(rounds), base.Keys, marked)
  }

  /** The contacts of one more sub-step, caught where the objects stand after
      `units` steps, logged and with their hooks' live targets marked, extend
      the rounds by one. */
  lemma RoundsKeptGrow(rounds: seq<seq<Contact>>, cs: seq<Contact>, queue: seq<Id>, pool: seq<Id>, kids: seq<Id>,
                       base: map<Id, Record>, units: multiset<Id>, mult: real, trig: Trig, hooks: Hooks,
                       log0: seq<Event>, log: seq<Event>, marked: set<Id>, log': seq<Event>, marked': set<Id>)
    requires RoundsKept(rounds, pool, kids, base, mult, trig, hooks, log0, log, marked)
    requires OneSided(cs) && log' == log + ContactLog(cs)
    requires forall k :: 0 <= k < |cs| ==> cs[k].mover in queue && cs[k].other in kids
    requires forall c :: c in queue ==> c in pool
    requires CaughtAt(cs, base, units, mult, trig)
    requires Honoured(hooks, ContactLog(cs), base.Keys, marked') && marked <= marked'
    ensures RoundsKept(rounds + [cs], pool, kids, base, mult, trig, hooks, log0, log', marked')
  {
    CaughtAtOnPaths(cs, base, units, mult, trig);
    RoundsGrow(rounds, cs, queue, pool, kids);
    RoundsLogExtend(log0, rounds, cs);
    HonouredJoin(hooks, RoundsLog(rounds), ContactLog(cs), base.Keys, marked, marked', marked');
    RoundsLogStep(rounds, cs);
    AllCaughtGrow(rounds, cs, base, mult, trig);
  }

  /** Round `r` of `rounds` is the `r`-th thorough round, for every `r`; stated
      round by round, the last one first (see `AllThoroughMeans`). */
  ghost predicate AllThorough(rounds: seq<seq<Contact>>, pool: seq<Id>, kids: seq<Id>, base: map<Id, Record>,
                              total: multiset<Id>, mult: real, trig: Trig)
    decreases |rounds|
  {
    rounds == [] || (AllThorough(rounds[..|rounds| - 1], pool, kids, base, total, mult, trig)
      && RoundThorough(rounds[|rounds| - 1], |rounds| - 1, pool, kids, base, total, mult, trig))
  }

  lemma {:induction false} AllThoroughMeans(rounds: seq<seq<Contact>>, pool: seq<Id>, kids: seq<Id>, base: map<Id, Record>,
                                            total: multiset<Id>, mult: real, trig: Trig)
    ensures AllThorough(rounds, pool, kids, base, total, mult, trig)
            <==> forall r :: 0 <= r < |rounds| ==> RoundThorough(rounds[r], r, pool, kids, base, total, mult, trig)
    decreases |rounds|
  {
    if rounds != [] {
      var prev := rounds[..|rounds| - 1];
      AllThoroughMeans(prev, pool, kids, base, total, mult, trig);
      assert forall r :: 0 <= r < |prev| ==> prev[r] == rounds[r];
    }
  }

  /** One more thorough round, numbered after those before it. */
  lemma RoundsThoroughGrow(prev: seq<seq<Contact>>, rounds: seq<seq<Contact>>, n: nat, pool: seq<Id>, kids: seq<Id>,
                           base: map<Id, Record>, total: multiset<Id>, mult: real, trig: Trig)
    requires |rounds| == |prev| + 1 && rounds[..|prev|] == prev && n == |prev|
    ensures AllThorough(prev, pool, kids, base, total, mult, trig)
            && RoundThorough(rounds[|prev|], n, pool, kids, base, total, mult, trig)
            ==> AllThorough(rounds, pool, kids, base, total, mult, trig)
  {
  }

  /** What the collision pass establishes about the world `collect` left behind
      holds of the world before it. */
  lemma CollectedRounds(before: map<Id, Record>, collected: map<Id, Record>, kids: seq<Id>, m: real,
                        rounds: seq<seq<Contact>>, pool: seq<Id>, total: multiset<Id>, mult: real, trig: Trig)
    requires Shifted(collected, before, multiset(Gliders(before, kids)), m, {})
    ensures AllCaught(rounds, collected, mult, trig) ==> AllCaught(rounds, before, mult, trig)
    ensures AllThorough(rounds, pool, kids, collected, total, mult, trig) ==> AllThorough(rounds, pool, kids, before, total, mult, trig)
  {
    CollectedAgree(before, collected, kids, m);
    AllCaughtMeans(rounds, collected, mult, trig);
    AllCaughtMeans(rounds, before, mult, trig);
    if AllCaught(rounds, collected, mult, trig) {
      forall r | r in rounds
        ensures CaughtOnPaths(r, before, mult, trig)
      {
        CaughtOnPathsRebase(r, collected, before, mult, trig);
      }
    }
    AllThoroughMeans(rounds, pool, kids, collected, total, mult, trig);
    AllThoroughMeans(rounds, pool, kids, before, total, mult, trig);
    if AllThorough(rounds, pool, kids, collected, total, mult, trig) {
      forall r | 0 <= r < |rounds|
        ensures RoundThorough(rounds[r], r, pool, kids, before, total, mult, trig)
      {
        RoundThoroughRebase(rounds[r], r, pool, kids, collected, before, total, mult, trig);
      }
    }
  }

  lemma CollectedAgreeAt(before: map<Id, Record>, collected: map<Id, Record>, kids: seq<Id>, m: real, o: Id)
    requires Shifted(collected, before, multiset(Gliders(before, kids)), m, {})
    requires CanCollide(before, o) || CanCollide(collected, o)
    ensures o in collected && o in before && collected[o] == before[o]
  {
    assert o in before;
    var r, r' := before[o], collected[o];
    assert MovedBy(r', r, Units(multiset(Gliders(before, kids))[o], m), false);
    assert r'.collider == r.collider;
    FilterCounts(before, kids, o);
    assert !Glides(before, o);
    assert Units(multiset(Gliders(before, kids))[o], m) == 0.0;
    AddZeroScale(r.position, r.speed);
    assert r'.position == r.position;
  }

  /** A calm quarter: when the queue is the whole pool, one more quarter per
      occurrence takes every object where `5 - left` quarters take it. */
  lemma CalmQuarter(base: map<Id, Record>, mid: map<Id, Record>, after: map<Id, Record>, units: multiset<Id>,
                    pool: seq<Id>, total: multiset<Id>, mult: real, left: int)
    ensures
      && Shifted(mid, base, units, mult, {}) && (forall o :: units[o] == (4 - left) * total[o])
      && total == multiset(pool) && Shifted(after, mid, multiset(pool), mult, {})
      ==> && Shifted(after, base, units + multiset(pool), mult, {})
          && forall o :: (units + multiset(pool))[o] == (4 - (left - 1)) * total[o]
  {
    if && Shifted(mid, base, units, mult, {}) && (forall o :: units[o] == (4 - left) * total[o])
       && total == multiset(pool) && Shifted(after, mid, multiset(pool), mult, {})
    {
      ShiftedTrans(base, mid, after, units, multiset(pool), mult, {});
      forall o
        ensures (units + multiset(pool))[o] == (4 - (left - 1)) * total[o]
      {
        StepsSucc(4 - left, total[o]);
      }
    }
  }

  /** `a` quarters per occurrence and one more. */
  lemma StepsSucc(a: int, t: int)
    ensures a * t + t == (a + 1) * t
  {
  }

  /** The quarters paid once `4 - left` sub-steps have kept every occurrence queued. */
  lemma OwedKept(units: multiset<Id>, moving: seq<Id>, left: int, total: multiset<Id>)
    requires Owed(units, [], moving, left, total) && total == multiset(moving)
    ensures forall o :: units[o] == (4 - left) * total[o]
  {
    forall o
      ensures units[o] == (4 - left) * total[o]
    {
      assert units[o] + Debt([], moving, left, o) == 4 * total[o];
    }
  }
  /** What the inner loop of a sub-step keeps once it has tested the first `j`
      children `kids` against the mover `child`, the world having gone from `w0`
      to `w` and the mover's memo having been `memo0`: nothing collidable has
      changed; `found` lists the contacts in loop order and `at` the indices of
      the children hit; each contact is the hit reported where the two stood;
      and every child before `j` that can still collide, was not in the memo and
      collides with the mover has been hit. */
  ghost predicate Scanned(w: map<Id, Record>, child: Id, kids: seq<Id>, j: nat, w0: map<Id, Record>, memo0: set<Id>,
                          found: seq<Contact>, at: seq<nat>, mult: real, trig: Trig)
  {
    && j <= |kids| && OnlyDisarmed(w, w0)
    && Listed(found, at, child, kids, j)
    && CaughtWhere(found, w0, mult, trig)
    && Complete(w, child, kids, j, w0, memo0, at, mult, trig)
  }

  /** `found` are contacts of `child` with the children at the ascending indices
      `at`, all before `j`. */
  ghost predicate Listed(found: seq<Contact>, at: seq<nat>, child: Id, kids: seq<Id>, j: nat)
  {
    && |at| == |found| && (forall k, l :: 0 <= k < l < |at| ==> at[k] < at[l])
    && (forall k :: 0 <= k < |at| ==> at[k] < j && at[k] < |kids| && found[k].mover == child && found[k].other == kids[at[k]])
  }

  /** Each contact of `found` is the hit reported where the two stood in `w0`. */
  ghost predicate CaughtWhere(found: seq<Contact>, w0: map<Id, Record>, mult: real, trig: Trig)
  {
    forall c :: c in found ==> Caught(w0, c, mult, trig) && c.moverAt == w0[c.mover].position && c.otherAt == w0[c.other].position
  }

  /** Every child before `j` that can still collide in `w`, was not in the memo
      and collides with `child` where they stood in `w0` is at an index of `at`. */
  ghost predicate Complete(w: map<Id, Record>, child: Id, kids: seq<Id>, j: nat, w0: map<Id, Record>, memo0: set<Id>,
                           at: seq<nat>, mult: real, trig: Trig)
  {
    forall i ::
      0 <= i < j && i < |kids| && kids[i] != child && CanCollide(w, kids[i]) && kids[i] !in memo0 && Detects(w0, child, kids[i], mult, trig)
      ==> i in at
  }

  /** A child that is not tested, or is tested and missed, keeps `Scanned`. */
  lemma ScannedSkip(w: map<Id, Record>, child: Id, kids: seq<Id>, j: nat, w0: map<Id, Record>, memo0: set<Id>,
                    found: seq<Contact>, at: seq<nat>, mult: real, trig: Trig)
    requires Scanned(w, child, kids, j, w0, memo0, found, at, mult, trig) && j < |kids|
    requires kids[j] == child || !CanCollide(w, kids[j]) || kids[j] in memo0 || !Detects(w0, child, kids[j], mult, trig)
    ensures Scanned(w, child, kids, j + 1, w0, memo0, found, at, mult, trig)
  {
  }

  /** A hit on `kids[j]`, after which only colliders were taken away, keeps
      `Scanned` with the contact and its index appended. */
  lemma ScannedHit(w: map<Id, Record>, w': map<Id, Record>, child: Id, kids: seq<Id>, j: nat, w0: map<Id, Record>,
                   memo0: set<Id>, found: seq<Contact>, at: seq<nat>, mult: real, trig: Trig, c: Contact)
    requires Scanned(w, child, kids, j, w0, memo0, found, at, mult, trig) && j < |kids|
    requires c.mover == child && c.other == kids[j] && CanCollide(w, child) && CanCollide(w, kids[j])
    requires c.moverAt == w[child].position && c.otherAt == w[kids[j]].position && Caught(w, c, mult, trig)
    requires OnlyDisarmed(w', w)
    ensures Scanned(w', child, kids, j + 1, w0, memo0, found + [c], at + [j], mult, trig)
  {
    OnlyDisarmedTrans(w0, w, w');
    assert w[child] == w0[child] && w[kids[j]] == w0[kids[j]];
    assert Caught(w0, c, mult, trig);
    ListedHit(found, at, child, kids, j, c);
    CaughtWhereHit(found, w0, mult, trig, c);
    CompleteHit(w, w', child, kids, j, w0, memo0, at, mult, trig);
  }

  lemma ListedHit(found: seq<Contact>, at: seq<nat>, child: Id, kids: seq<Id>, j: nat, c: Contact)
    requires Listed(found, at, child, kids, j) && j < |kids| && c.mover == child && c.other == kids[j]
    ensures Listed(found + [c], at + [j], child, kids, j + 1)
  {
  }

  lemma CaughtWhereHit(found: seq<Contact>, w0: map<Id, Record>, mult: real, trig: Trig, c: Contact)
    requires CaughtWhere(found, w0, mult, trig)
    requires Caught(w0, c, mult, trig) && c.moverAt == w0[c.mover].position && c.otherAt == w0[c.other].position
    ensures CaughtWhere(found + [c], w0, mult, trig)
  {
  }

  lemma CompleteHit(w: map<Id, Record>, w': map<Id, Record>, child: Id, kids: seq<Id>, j: nat, w0: map<Id, Record>,
                    memo0: set<Id>, at: seq<nat>, mult: real, trig: Trig)
    requires Complete(w, child, kids, j, w0, memo0, at, mult, trig) && OnlyDisarmed(w', w)
    ensures Complete(w', child, kids, j + 1, w0, memo0, at + [j], mult, trig)
  {
    var at' := at + [j];
    forall i | 0 <= i < j + 1 && i < |kids| && kids[i] != child && CanCollide(w', kids[i]) && kids[i] !in memo0
                && Detects(w0, child, kids[i], mult, trig)
      ensures i in at'
    {
      if i < j {
        assert CanCollide(w, kids[i]);
        var k :| 0 <= k < |at| && at[k] == i;
        assert at'[k] == i;
      } else {
        assert at'[|at|] == j;
      }
    }
  }
}

=== FILE: objects.dfy ===
/** `Object`: the scene tree, the validity registry (`invalid`, `marked`), deferred
    destruction and the sub-stepped move/update scheduler.  Objects live in an
    arena: the class `World` maps handles to records, handle 0 is `nullptr`, and
    the engine's static members are fields of the world.  The user's virtual
    hooks are supplied as `Hooks`: each hook returns the handles it calls
    `destroy()` on, and the world logs every hook call. */
module Objects {
  import opened Common
  import opened Vectors
  import opened Shapes
  import opened Records
  import opened Geometry
  import opened Motion

  class World {
    /** The live objects. */
    var objects: map<Id, Record>
    /** `Object::invalid`: starts as { nullptr }; an object joins it when torn down. */
    var invalid: set<Id>
    /** `Object::marked`: destroyed but not yet torn down. */
    var marked: set<Id>
    /** `destroy_shared` of `Object::update`. */
    var destroyShared: bool
    /** The next handle the allocator returns. */
    var nextId: Id
    /** The static `moving` list and `collided` memo of `Object::move`. */
    var moving: seq<Id>
    var collided: map<Id, set<Id>>
    /** Every hook call so far. */
    var log: seq<Event>

    const hooks: Hooks
    const trig: Trig

    /** Every handle ever handed out is either live or invalid, never both; null is
        invalid; records are well formed. */
    ghost predicate Valid()
      reads this
    {
      Registry(objects, invalid, marked, nextId)
    }

    /** `Object::isValid(obj, is_marked)`. */
    predicate IsValid(o: Id, isMarked: bool)
      reads this
    {
      o !in invalid || (isMarked && o in marked)
    }

    /** The static initial state: `invalid = { nullptr }`, `marked = {}`. */
    constructor(hooks: Hooks, trig: Trig)
      ensures Valid()
      ensures objects == map[] && invalid == {0} && marked == {} && destroyShared
      ensures moving == [] && collided == map[] && log == []
      ensures this.hooks == hooks && this.trig == trig
    {
      objects := map[];
      invalid := {0};
      marked := {};
      destroyShared := true;
      nextId := 1;
      moving := [];
      collided := map[];
      log := [];
      this.hooks := hooks;
      this.trig := trig;
    }

    /** `Object(position, orientation, display, mesh, collider, background, speed,
        acceleration)`: a fresh object, removed from `invalid`.  The allocator may
        hand out the address of an object already deleted: `reuse` is that
        address (a handle in `invalid`), `None` a never-used one.  A reused
        handle leaves `invalid`, so stale handles equal to it pass `isValid`
        again and a stale entry of `marked` or of a child list now means the
        new object. */
    method NewObject(position: Vector, orientation: Vector, display: bool, collider: Option<Shape>,
                     speed: Vector, acceleration: Vector, reuse: Option<Id>) returns (id: Id)
      requires Valid()
      requires |position| == 3 && |orientation| == 4 && |speed| == 3 && |acceleration| == 3
      requires collider.Some? ==> WellFormed(collider.value)
      requires reuse.Some? ==> reuse.value in invalid && reuse.value != 0
      modifies this`objects, this`invalid, this`nextId
      ensures Valid()
      ensures id == (if reuse.Some? then reuse.value else old(nextId))
      ensures id !in old(objects) && IsValid(id, false)
      ensures objects == old(objects)[id := Record(display, collider, [], 0, position, speed, acceleration, orientation)]
      ensures invalid == old(invalid) - {id}
      ensures nextId == if reuse.Some? then old(nextId) else old(nextId) + 1
    {
      if reuse.Some? {
        id := reuse.value;
      } else {
        id := nextId;
        nextId := nextId + 1;
      }
      objects := objects[id := Record(display, collider, [], 0, position, speed, acceleration, orientation)];
      invalid := invalid - {id};
    }

    /** `collides()`. */
    predicate Collides(o: Id)
      requires o in objects
      reads this
    {
      objects[o].collider.Some?
    }

    /** `isMoving()`: the speed is not the zero vector. */
    predicate IsMoving(o: Id)
      requires o in objects
      reads this
    {
      IsNonZero(objects[o].speed)
    }

    /** `destroy()`: a valid object is hidden, loses its collider and is marked.
        Handles without a record (null, torn down) are left alone. */
    method Destroy(o: Id)
      requires Valid()
      modifies this`objects, this`marked
      ensures Valid()
      ensures o in old(objects) ==> objects == old(objects)[o := Destroyed(old(objects)[o])] && marked == old(marked) + {o}
      ensures o !in old(objects) ==> objects == old(objects) && marked == old(marked)
    {
      if o in objects && IsValid(o, true) {
        UpdateKeepsRegistry(objects, invalid, marked, nextId, o, Destroyed(objects[o]));
        objects := objects[o := Destroyed(objects[o])];
        marked := marked + {o};
      }
    }

    /** Calls `destroy()` on each handle in turn, as a hook does. */
    method DestroyAll(ids: seq<Id>)
      requires Valid()
      modifies this`objects, this`marked
      ensures Valid()
      ensures objects == DestroyedAll(old(objects), ids)
      ensures marked == old(marked) + MarkedBy(old(objects), ids)
      ensures KeptBut(old(objects), marked)
    {
      for k := 0 to |ids|
        invariant Valid()
        invariant objects == DestroyedAll(old(objects), ids[..k])
        invariant marked == old(marked) + MarkedBy(old(objects), ids[..k])
      {
        DestroyedAllStep(old(objects), ids, k);
        Destroy(ids[k]);
      }
      assert ids[..|ids|] == ids;
      DestroyedAllKept(old(objects), old(marked), ids);
    }

    /** `addChild(obj)`: when both are valid, obj's parent becomes `p` and obj is
        appended to `p`'s children (an old parent keeps its entry). */
    method AddChild(p: Id, c: Id)
      requires Valid()
      modifies this`objects
      ensures Valid()
      ensures objects.Keys == old(objects).Keys
      ensures objects == if p in old(objects) && c in old(objects) then Linked(old(objects), p, c) else old(objects)
    {
      if p in objects && c in objects && IsValid(p, true) && IsValid(c, true) {
        LinkedKeepsRegistry(objects, invalid, marked, nextId, p, c);
        objects := Linked(objects, p, c);
      }
    }

    /** `removeChild(obj)`: when both are valid, obj's parent is cleared and every
        occurrence of obj leaves `p`'s children, the others keeping their order. */
    method RemoveChild(p: Id, c: Id)
      requires Valid()
      modifies this`objects
      ensures Valid()
      ensures objects.Keys == old(objects).Keys
      ensures objects == if p in old(objects) && c in old(objects) then Unlinked(old(objects), p, c) else old(objects)
    {
      if p in objects && c in objects && IsValid(p, true) && IsValid(c, true) {
        UnlinkedKeepsRegistry(objects, invalid, marked, nextId, p, c);
        objects := Unlinked(objects, p, c);
      }
    }

    /** `setParent(obj)`: as written it asks this object's own parent to adopt obj. */
    method SetParent(self: Id, obj: Id)
      requires Valid()
      modifies this`objects
      ensures Valid()
      ensures objects.Keys == old(objects).Keys
      ensures self in old(objects) && obj in old(objects) && old(objects)[self].parent in old(objects) ==>
        objects == Linked(old(objects), old(objects)[self].parent, obj)
      ensures self in old(objects) && obj in old(objects) && old(objects)[self].parent in old(objects) ==>
        objects[obj].parent == old(objects)[self].parent &&
        objects[old(objects)[self].parent].children == old(objects)[old(objects)[self].parent].children + [obj]
      ensures !(self in old(objects) && obj in old(objects) && old(objects)[self].parent in old(objects)) ==>
        objects == old(objects)
    {
      if self in objects && obj in objects && IsValid(self, true) && IsValid(obj, true) {
        AddChild(objects[self].parent, obj);
      }
    }

    /** `removeParent()`: only when the parent is still valid does it detach this
        object; otherwise (null or torn-down parent) nothing changes, and in
        particular the back-reference stays. */
    method RemoveParent(self: Id)
      requires Valid()
      modifies this`objects
      ensures Valid()
      ensures objects.Keys == old(objects).Keys
      ensures KeptBut(old(objects), {self})
      ensures self in old(objects) && old(objects)[self].parent in old(objects) ==>
        objects == Unlinked(old(objects), old(objects)[self].parent, self)
      ensures !(self in old(objects) && old(objects)[self].parent in old(objects)) ==> objects == old(objects)
    {
      if self in objects && IsValid(self, true) {
        var p := objects[self].parent;
        if p in objects && IsValid(p, true) {
          RemoveChild(p, self);
        }
      }
    }

    /** Children lists aside, every live object outside `exempt` has the record
        it had in `before`. */
    ghost predicate KeptBut(before: map<Id, Record>, exempt: set<Id>)
      reads this
    {
      Kept(objects, before, exempt)
    }

    /** `children.clear()` on a live object. */
    method ClearChildren(obj: Id)
      requires Valid() && obj in objects
      modifies this`objects
      ensures Valid()
      ensures objects == old(objects)[obj := old(objects)[obj].(children := [])]
    {
      UpdateKeepsRegistry(objects, invalid, marked, nextId, obj, objects[obj].(children := []));
      objects := objects[obj := objects[obj].(children := [])];
    }

    /** The first half of tearing down one valid object: `beforeDestroy`,
        `removeParent`, `destroy` on every child and clearing the children.
        `kids` are the children that received `destroy()`. */
    method Detach(obj: Id) returns (kids: seq<Id>)
      requires Valid() && obj in objects
      modifies this`objects, this`marked, this`log
      ensures Valid()
      ensures objects.Keys == old(objects).Keys
      ensures old(marked) <= marked && marked <= old(marked) + old(objects).Keys
      ensures forall c :: c in kids && c in objects ==> c in marked
      ensures KeptBut(old(objects), marked + {obj})
      ensures Detached(objects, old(objects), obj, kids)
      ensures log == old(log) + [BeforeDestroy(obj)]
    {
      ghost var o0 := objects;
      Orphan(obj);
      ghost var o1, m1 := objects, marked;
      kids := DestroyChildren(obj);
      KeptTrans(o0, o1, objects, m1 + {obj}, marked + {obj});
      KeptShrink(o0, objects, m1 + {obj} + (marked + {obj}), marked + {obj});
      DetachLinks(o0, o1, objects, obj, kids);
    }

    /** `beforeDestroy()` and `removeParent()`. */
    method Orphan(obj: Id)
      requires Valid() && obj in objects
      modifies this`objects, this`marked, this`log
      ensures Valid()
      ensures objects.Keys == old(objects).Keys
      ensures old(marked) <= marked && marked <= old(marked) + old(objects).Keys
      ensures KeptBut(old(objects), marked + {obj})
      ensures Unparented(objects, old(objects), obj)
      ensures log == old(log) + [BeforeDestroy(obj)]
    {
      log := log + [BeforeDestroy(obj)];
      ghost var o0 := objects;
      DestroyAll(hooks.beforeDestroy(obj));
      ghost var o1 := objects;
      DestroyedAllLinks(o0, hooks.beforeDestroy(obj));
      RemoveParent(obj);
      KeptTrans(o0, o1, objects, marked, {obj});
      OrphanLinks(o0, o1, objects, obj);
    }

    /** `destroy()` on every child, then `children.clear()`; returns the children. */
    method DestroyChildren(obj: Id) returns (kids: seq<Id>)
      requires Valid() && obj in objects
      modifies this`objects, this`marked
      ensures Valid()
      ensures objects.Keys == old(objects).Keys
      ensures old(marked) <= marked && marked <= old(marked) + old(objects).Keys
      ensures forall c :: c in kids && c in objects ==> c in marked
      ensures KeptBut(old(objects), marked + {obj})
      ensures kids == old(objects)[obj].children
      ensures SameLinks(objects, old(objects)[obj := old(objects)[obj].(children := [])])
    {
      ghost var o0 := objects;
      kids := objects[obj].children;
      DestroyAll(kids);
      ghost var o1 := objects;
      DestroyedAllLinks(o0, kids);
      ClearChildren(obj);
      KeptTrans(o0, o1, objects, marked, {obj});
      ClearedLinks(o0, o1, obj);
    }

    /** One teardown of `delayedDestroy`'s inner loop: `Detach`, then the object
        joins `invalid`, `afterDestroy` runs and the object is deleted.  The model
        deletes the record before running the hook.  The orders differ only when the
        hook calls `destroy()` on the object itself: `isValid` defaults to
        `is_marked = true`, so an object marked again earlier in the same round still
        passes, and `destroy()` clears the display flag and collider of an object that
        is deleted next; nothing observes those fields afterwards. */
    method TearDown(obj: Id) returns (ghost kids: seq<Id>)
      requires Valid() && obj in objects
      modifies this`objects, this`marked, this`log, this`invalid
      ensures Valid()
      ensures objects.Keys == old(objects).Keys - {obj}
      ensures invalid == old(invalid) + {obj}
      ensures old(marked) <= marked && marked <= old(marked) + old(objects).Keys
      ensures forall c :: c in kids && c in objects ==> c in marked
      ensures KeptBut(old(objects), marked)
      ensures TornLinks(objects, old(objects), obj, kids)
      ensures log == old(log) + [BeforeDestroy(obj), AfterDestroy(obj)]
    {
      var children := Detach(obj);
      kids := children;
      ghost var detached := objects;
      ghost var o1, m1 := objects - {obj}, marked;
      RetireKeepsRegistry(objects, invalid, marked, nextId, obj);
      KeptRetire(objects, old(objects), marked + {obj}, obj);
      invalid := invalid + {obj};
      objects := objects - {obj};
      log := log + [AfterDestroy(obj)];
      DestroyAll(hooks.afterDestroy(obj));
      DestroyedAllLinks(o1, hooks.afterDestroy(obj));
      KeptTrans(old(objects), o1, objects, m1 + {obj}, marked);
      KeptShrink(old(objects), objects, m1 + {obj} + marked, marked);
      TeardownLinks(old(objects), detached, objects, obj, kids);
    }

    /** Progress of `delayedDestroy` from the state `start`: `torn` lists the
        objects torn down so far, `kidsOf` the children each of them destroyed,
        and `pending` the objects still marked or still to be visited this round. */
    ghost predicate Progress(start: Snapshot, torn: seq<Id>, kidsOf: map<Id, seq<Id>>, pending: set<Id>)
      reads this
    {
      Valid() && Tracked(objects, invalid, log, nextId, start, torn, kidsOf, pending)
    }

    /** One visit of `delayedDestroy`'s inner loop: tear `obj` down if it is still
        valid. */
    method Visit(obj: Id, rest: set<Id>, ghost pending: set<Id>, ghost start: Snapshot, ghost torn: seq<Id>,
                 ghost kidsOf: map<Id, seq<Id>>)
      returns (ghost torn': seq<Id>, ghost kidsOf': map<Id, seq<Id>>, ghost removed: bool)
      requires Progress(start, torn, kidsOf, pending) && pending == marked + rest + {obj}
      modifies this`objects, this`marked, this`log, this`invalid
      ensures Progress(start, torn', kidsOf', marked + rest)
      ensures removed ==> obj in old(objects) && objects.Keys == old(objects).Keys - {obj}
      ensures !removed ==> objects == old(objects) && marked == old(marked)
    {
      torn', kidsOf', removed := torn, kidsOf, false;
      if IsValid(obj, false) {
        removed := true;
        assert obj in objects;
        ghost var o0, i0, m0, l0 := objects, invalid, marked, log;
        ghost var kids := TearDown(obj);
        torn' := torn + [obj];
        kidsOf' := kidsOf[obj := kids];
        TrackedTeardown(o0, i0, m0, l0, objects, invalid, marked, log, nextId, start, torn, kidsOf, rest, obj, kids);
      } else {
        TrackedSkip(objects, invalid, log, nextId, start, torn, kidsOf, marked, rest, obj);
      }
    }

    /** The swap that opens a round: `marked` is handed over and left empty. */
    method TakeMarked(ghost start: Snapshot, ghost torn: seq<Id>, ghost kidsOf: map<Id, seq<Id>>)
      returns (swapper: set<Id>)
      requires Progress(start, torn, kidsOf, marked)
      modifies this`marked
      ensures swapper == old(marked) && marked == {}
      ensures Progress(start, torn, kidsOf, marked + swapper)
    {
      swapper := marked;
      marked := {};
      assert marked + swapper == swapper;
    }

    /** One round of `delayedDestroy`: swap `marked` out for the empty set and visit
        every swapped object, in an order left open (pointer order in the source). */
    method Round(ghost start: Snapshot, ghost torn: seq<Id>, ghost kidsOf: map<Id, seq<Id>>)
      returns (ghost torn': seq<Id>, ghost kidsOf': map<Id, seq<Id>>)
      requires Progress(start, torn, kidsOf, marked)
      modifies this`objects, this`marked, this`log, this`invalid
      ensures Progress(start, torn', kidsOf', marked)
      ensures |objects.Keys| <= |old(objects).Keys|
      ensures |objects.Keys| == |old(objects).Keys| ==> marked == {}
    {
      var swapper := TakeMarked(start, torn, kidsOf);
      torn', kidsOf' := VisitAll(swapper, start, torn, kidsOf);
    }

    /** The loop of a round over the swapped-out objects. */
    method VisitAll(swapper: set<Id>, ghost start: Snapshot, ghost torn: seq<Id>, ghost kidsOf: map<Id, seq<Id>>)
      returns (ghost torn': seq<Id>, ghost kidsOf': map<Id, seq<Id>>)
      requires Progress(start, torn, kidsOf, marked + swapper)
      modifies this`objects, this`marked, this`log, this`invalid
      ensures Progress(start, torn', kidsOf', marked)
      ensures |objects.Keys| <= |old(objects).Keys|
      ensures |objects.Keys| == |old(objects).Keys| ==> marked == old(marked)
    {
      torn', kidsOf' := torn, kidsOf;
      var rest := swapper;
      while rest != {}
        invariant Progress(start, torn', kidsOf', marked + rest)
        invariant |objects.Keys| <= |old(objects).Keys|
        invariant |objects.Keys| == |old(objects).Keys| ==> marked == old(marked)
        decreases |rest|
      {
        var obj :| obj in rest;
        ghost var live := objects.Keys;
        ghost var removed;
        SplitPending(marked, rest, obj);
        torn', kidsOf', removed := Visit(obj, rest - {obj}, marked + rest, start, torn', kidsOf');
        rest := rest - {obj};
        if removed {
          RemoveOneSmaller(live, obj);
        }
      }
      NothingPending(marked, rest);
    }

    /** `delayedDestroy()`: rounds of swapping `marked` out and tearing down every
        swapped object that is still valid, until no object is marked.  `torn`
        lists the torn-down objects in order; `kidsOf` the children each of them
        destroyed. */
    method DelayedDestroy() returns (ghost torn: seq<Id>, ghost kidsOf: map<Id, seq<Id>>)
      requires Valid()
      modifies this`objects, this`marked, this`log, this`invalid
      ensures Valid()
      ensures marked == {}
      ensures NoDup(torn)
      ensures forall o :: o in torn ==> o in old(objects) && o in invalid
      ensures objects.Keys == old(objects).Keys - (set o | o in torn)
      ensures invalid == old(invalid) + (set o | o in torn)
      ensures forall o :: o in old(marked) && o in old(objects) ==> o in torn
      ensures forall t, c :: t in torn && t in old(objects) && c in old(objects)[t].children ==> c !in objects
      ensures forall o :: o in objects ==> o in old(objects) && objects[o] == old(objects)[o].(children := objects[o].children)
      ensures forall o :: o in objects ==> o in old(objects) && Pruned(objects[o].children, old(objects)[o].children, torn)
      ensures forall o, t :: o in objects && t in torn && t in old(objects) && old(objects)[t].parent == o ==>
        t !in objects[o].children
      ensures kidsOf.Keys == set o | o in torn
      ensures forall t :: t in kidsOf ==> t in old(objects) && Pruned(kidsOf[t], old(objects)[t].children, torn)
      ensures log == old(log) + TeardownLog(torn)
    {
      ghost var start := Snapshot(objects, invalid, marked, log);
      torn, kidsOf := Drain(start, [], map[]);
      TrackedComplete(objects, invalid, log, nextId, start, torn, kidsOf);
    }

    /** The outer loop of `delayedDestroy`: rounds until no object is marked. */
    method Drain(ghost start: Snapshot, ghost torn0: seq<Id>, ghost kidsOf0: map<Id, seq<Id>>)
      returns (ghost torn: seq<Id>, ghost kidsOf: map<Id, seq<Id>>)
      requires Progress(start, torn0, kidsOf0, marked)
      modifies this`objects, this`marked, this`log, this`invalid
      ensures Progress(start, torn, kidsOf, {}) && marked == {}
      decreases |objects.Keys|, |marked|
    {
      if marked == {} {
        torn, kidsOf := torn0, kidsOf0;
      } else {
        torn, kidsOf := Round(start, torn0, kidsOf0);
        torn, kidsOf := Drain(start, torn, kidsOf);
      }
    }

    // ---------------------------------------------------------------- move

    /** `setPosition(getPosition() + delta)` on a live object. */
    method Nudge(o: Id, delta: Vector)
      requires Valid() && o in objects && |delta| == 3
      modifies this`objects
      ensures Valid()
      ensures objects == old(objects)[o := old(objects)[o].(position := Add(old(objects)[o].position, delta))]
    {
      var r := objects[o].(position := Add(objects[o].position, delta));
      UpdateKeepsRegistry(objects, invalid, marked, nextId, o, r);
      objects := objects[o := r];
    }

    /** `move` without collision detection: every child advances by its speed
        times `dt`, once per occurrence in the children list. */
    method Glide(self: Id, dt: real)
      requires Valid() && self in objects
      modifies this`objects
      ensures Valid()
      ensures Shifted(objects, old(objects), multiset(old(objects)[self].children), dt, {})
    {
      var kids := objects[self].children;
      ShiftedRefl(objects, dt, {});
      for k := 0 to |kids|
        invariant Valid()
        invariant Shifted(objects, old(objects), multiset(kids[..k]), dt, {})
        modifies this`objects
      {
        var child := kids[k];
        assert multiset(kids[..k + 1]) == multiset(kids[..k]) + multiset{child} by {
          assert kids[..k + 1] == kids[..k] + [child];
        }
        if child in objects {
          ShiftedMove(objects, old(objects), multiset(kids[..k]), dt, {}, child);
          Nudge(child, Scale(objects[child].speed, dt));
        } else {
          ShiftedSkip(objects, old(objects), multiset(kids[..k]), dt, {}, child);
        }
      }
      assert kids[..|kids|] == kids;
    }

    /** The first pass of `move` with collision detection: moving children that
        collide are queued on `moving`; the other moving children advance by their
        speed times `dt` straight away. */
    method Collect(self: Id, dt: real)
      requires Valid() && self in objects && moving == []
      modifies this`objects, this`moving
      ensures Valid()
      ensures moving == Sweepers(old(objects), old(objects)[self].children)
      ensures Shifted(objects, old(objects), multiset(Gliders(old(objects), old(objects)[self].children)), dt, {})
    {
      var kids := objects[self].children;
      ShiftedRefl(objects, dt, {});
      for k := 0 to |kids|
        invariant Valid()
        invariant moving == Sweepers(old(objects), kids[..k])
        invariant Shifted(objects, old(objects), multiset(Gliders(old(objects), kids[..k])), dt, {})
        modifies this`objects, this`moving
      {
        SweepersStep(old(objects), kids, k);
        Queue(kids[k], dt, old(objects), multiset(Gliders(old(objects), kids[..k])));
      }
      assert kids[..|kids|] == kids;
    }

    /** One child of the first pass: queued when it moves and collides, advanced
        by its speed times `dt` when it moves without colliding. */
    method Queue(child: Id, dt: real, ghost base: map<Id, Record>, ghost glided: multiset<Id>)
      requires Valid() && Shifted(objects, base, glided, dt, {})
      modifies this`objects, this`moving
      ensures Valid()
      ensures moving == if Sweeps(base, child) then old(moving) + [child] else old(moving)
      ensures Shifted(objects, base, if Glides(base, child) then glided + multiset{child} else glided, dt, {})
    {
      ShiftedKeeps(objects, base, glided, dt, child);
      if child in objects && IsMoving(child) {
        if Collides(child) {
          moving := moving + [child];
        } else {
          ShiftedMove(objects, base, glided, dt, {}, child);
          Nudge(child, Scale(objects[child].speed, dt));
        }
      }
    }

    /** `collided[o]`, empty when absent. */
    function Memo(o: Id): set<Id>
      reads this
    {
      if o in collided then collided[o] else {}
    }

    /** The inner loop of one sub-step for the mover `child`, which can collide: it
        is checked against every other collidable child it has not been paired with
        in this sub-step; on a hit both `onCollision` hooks run.  The result is false
        when the mover can no longer collide, which ends the loop early.  `found`
        lists the contacts in loop order and `at` the indices of the children hit:
        each contact is the hit `detectCollision` reports where the two stood, and,
        while the mover can still collide, every child that still can, was not in
        the mover's memo and collides with it has been hit. */
    method Encounter(self: Id, child: Id, mult: real, point: Vector, ghost cs: seq<Contact>,
                     ghost base: map<Id, Record>, ghost units: multiset<Id>)
      returns (valid: bool, point': Vector, ghost found: seq<Contact>, ghost at: seq<nat>)
      requires Valid() && self in base && |point| == 3
      requires CanCollide(objects, child)
      requires OneSided(cs) && Remembered(cs, collided, objects) && Recalled(cs, collided)
      requires Shifted(objects, base, units, mult, marked)
      modifies this`objects, this`marked, this`log, this`collided
      ensures Valid() && |point'| == 3
      ensures Shifted(objects, base, units, mult, marked) && old(marked) <= marked
      ensures valid <==> CanCollide(objects, child)
      ensures OneSided(cs + found) && Remembered(cs + found, collided, objects) && Recalled(cs + found, collided)
      ensures log == old(log) + ContactLog(found) && Honoured(hooks, ContactLog(found), objects.Keys, marked)
      ensures OnlyDisarmed(objects, old(objects))
      ensures |at| == |found| && forall k, l :: 0 <= k < l < |at| ==> at[k] < at[l]
      ensures forall k :: 0 <= k < |at| ==>
        at[k] < |base[self].children| && found[k].mover == child && found[k].other == base[self].children[at[k]]
      ensures forall c :: c in found ==>
        Caught(old(objects), c, mult, trig) && c.moverAt == old(objects)[c.mover].position && c.otherAt == old(objects)[c.other].position
      ensures valid ==> forall j ::
        0 <= j < |base[self].children| && base[self].children[j] != child && CanCollide(objects, base[self].children[j])
        && base[self].children[j] !in old(Memo(child)) && Detects(old(objects), child, base[self].children[j], mult, trig)
        ==> j in at
      ensures Harmless(hooks) ==> valid && objects == old(objects) && marked == old(marked)
    {
      ShiftedFrame(objects, base, units, mult, marked, self);
      var kids := objects[self].children;
      valid, point', found, at := true, point, [], [];
      assert cs + found == cs;
      for j := 0 to |kids|
        invariant Valid() && |point'| == 3
        invariant Shifted(objects, base, units, mult, marked) && old(marked) <= marked
        invariant valid && CanCollide(objects, child) && Memo(child) == old(Memo(child))
        invariant OneSided(cs + found) && Remembered(cs + found, collided, objects) && Recalled(cs + found, collided)
        invariant log == old(log) + ContactLog(found) && Honoured(hooks, ContactLog(found), objects.Keys, marked)
        invariant Scanned(objects, child, kids, j, old(objects), old(Memo(child)), found, at, mult, trig)
        invariant Harmless(hooks) ==> objects == old(objects) && marked == old(marked)
        modifies this`objects, this`marked, this`log, this`collided
      {
        var other := kids[j];
        if child != other && IsValid(other, true) && other in objects && Collides(other) && other !in Memo(child) {
          var hit;
          ghost var probe := point';
          hit, point' := Probe(child, other, mult, point');
          if hit {
            valid, found, at := Meet(child, other, point', probe, j, kids, cs, found, at, old(objects), old(Memo(child)),
                                     old(log), base, units, mult);
            if !valid {
              break;
            }
          } else {
            MissedAt(objects, old(objects), child, other, mult, probe, trig);
            ScannedSkip(objects, child, kids, j, old(objects), old(Memo(child)), found, at, mult, trig);
          }
        } else {
          ScannedSkip(objects, child, kids, j, old(objects), old(Memo(child)), found, at, mult, trig);
        }
      }
    }

    /** A hit found by `Encounter` on the child `kids[j]`: the contact, recorded
        with the point passed to the test and the positions it was made at, joins
        `found`, and `Engage` runs. */
    method Meet(child: Id, other: Id, point: Vector, ghost probe: Vector, ghost j: nat, ghost kids: seq<Id>,
                ghost cs: seq<Contact>, ghost found: seq<Contact>, ghost at: seq<nat>,
                ghost w0: map<Id, Record>, ghost memo0: set<Id>, ghost log0: seq<Event>,
                ghost base: map<Id, Record>, ghost units: multiset<Id>, ghost mult: real)
      returns (valid: bool, ghost found': seq<Contact>, ghost at': seq<nat>)
      requires Valid() && child != other && CanCollide(objects, child) && CanCollide(objects, other)
      requires j < |kids| && kids[j] == other && other !in Memo(child)
      requires Scanned(objects, child, kids, j, w0, memo0, found, at, mult, trig)
      requires Testable(objects, child, other, objects[child].position, objects[other].position) && |probe| == 3
      requires Probed(objects, child, other, objects[child].position, objects[other].position, mult, probe, trig) == Geometry.Hit(true, point)
      requires OneSided(cs + found) && Remembered(cs + found, collided, objects) && Recalled(cs + found, collided)
      requires log == log0 + ContactLog(found) && Honoured(hooks, ContactLog(found), objects.Keys, marked)
      requires Shifted(objects, base, units, mult, marked)
      modifies this`objects, this`marked, this`log, this`collided
      ensures Valid() && Shifted(objects, base, units, mult, marked) && old(marked) <= marked
      ensures found' == found + [Contact(child, other, point, probe, old(objects)[child].position, old(objects)[other].position)]
      ensures at' == at + [j]
      ensures Scanned(objects, child, kids, j + 1, w0, memo0, found', at', mult, trig)
      ensures OneSided(cs + found') && Remembered(cs + found', collided, objects) && Recalled(cs + found', collided)
      ensures log == log0 + ContactLog(found') && Honoured(hooks, ContactLog(found'), objects.Keys, marked)
      ensures valid <==> CanCollide(objects, child)
      ensures valid ==> Memo(child) == old(Memo(child))
      ensures Harmless(hooks) ==> valid && objects == old(objects) && marked == old(marked)
    {
      ghost var c := Contact(child, other, point, probe, objects[child].position, objects[other].position);
      found', at' := found + [c], at + [j];
      assert (cs + found) + [c] == cs + found';
      ContactLogPush(log0, found, c);
      ContactLogAppend(found, [c]);
      assert ContactLog([c]) == [OnCollision(child, other, point), OnCollision(other, child, point)] by {
        ContactLogStep([], c);
        assert [] + [c] == [c];
      }
      ghost var m0 := marked;
      valid := Engage(child, other, point, c, cs + found, base, units, mult);
      HonouredJoin(hooks, ContactLog(found), ContactLog([c]), objects.Keys, m0, marked, marked);
      ScannedHit(old(objects), objects, child, kids, j, w0, memo0, found, at, mult, trig, c);
    }

    /** A hit between the mover `child` and `other`, recorded as `c`: both
        `onCollision` hooks run; then the mover's memo is cleared if it can no
        longer collide, or else `collided[other]` remembers the mover.  The result
        says whether the mover can still collide. */
    method Engage(child: Id, other: Id, point: Vector, ghost c: Contact, ghost prior: seq<Contact>,
                  ghost base: map<Id, Record>, ghost units: multiset<Id>, ghost mult: real) returns (valid: bool)
      requires Valid() && child != other && CanCollide(objects, child) && CanCollide(objects, other)
      requires c.mover == child && c.other == other && c.point == point
      requires other !in Memo(child)
      requires OneSided(prior) && Remembered(prior, collided, objects) && Recalled(prior, collided)
      requires Shifted(objects, base, units, mult, marked)
      modifies this`objects, this`marked, this`log, this`collided
      ensures Valid() && Shifted(objects, base, units, mult, marked) && old(marked) <= marked
      ensures OnlyDisarmed(objects, old(objects))
      ensures OneSided(prior + [c]) && Remembered(prior + [c], collided, objects) && Recalled(prior + [c], collided)
      ensures log == old(log) + [OnCollision(child, other, point), OnCollision(other, child, point)]
      ensures Honoured(hooks, [OnCollision(child, other, point), OnCollision(other, child, point)], objects.Keys, marked)
      ensures valid <==> CanCollide(objects, child)
      ensures valid ==> collided == old(collided)[other := old(Memo(other)) + {child}]
      ensures !valid ==> collided == old(collided)[child := {}]
      ensures Harmless(hooks) ==> valid && objects == old(objects) && marked == old(marked)
    {
      OneSidedStep(prior, collided, objects, c);
      Collide(child, other, point, prior, base, units, mult);
      valid := IsValid(child, true) && child in objects && Collides(child);
      if !valid {
        RememberedClear(prior, collided, objects, c);
        RecalledClear(prior, collided, c, child);
        collided := collided[child := {}];
      } else {
        RememberedInsert(prior, collided, objects, c);
        RecalledInsert(prior, collided, c);
        collided := collided[other := Memo(other) + {child}];
      }
    }

    /** `child->detectCollision(other, child_speed * mult, other_speed * mult,
        point)` between two live objects with colliders: whether they collide, and
        the contact point (or the point passed in when nothing is found). */
    method Probe(child: Id, other: Id, mult: real, point: Vector) returns (hit: bool, point': Vector)
      requires Valid() && CanCollide(objects, child) && CanCollide(objects, other) && |point| == 3
      ensures |point'| == 3
      ensures Testable(objects, child, other, objects[child].position, objects[other].position)
      ensures Geometry.Hit(hit, point') == Probed(objects, child, other, objects[child].position, objects[other].position, mult, point, trig)
    {
      var found := DetectCollision(objects[child].collider.value, objects[other].collider.value,
                                   objects[child].position, Scale(objects[child].speed, mult),
                                   objects[other].position, Scale(objects[other].speed, mult), point, true, trig);
      hit, point' := found.hit, found.point;
    }

    /** `child->onCollision(other, point)`, then `other->onCollision(child, point)`
        when `other` is still valid, which a live object always is. */
    method Collide(child: Id, other: Id, point: Vector, ghost cs: seq<Contact>,
                   ghost base: map<Id, Record>, ghost units: multiset<Id>, ghost mult: real)
      requires Valid() && other in objects
      requires Remembered(cs, collided, objects) && Shifted(objects, base, units, mult, marked)
      modifies this`objects, this`marked, this`log
      ensures Valid()
      ensures Remembered(cs, collided, objects) && Shifted(objects, base, units, mult, marked) && old(marked) <= marked
      ensures log == old(log) + [OnCollision(child, other, point), OnCollision(other, child, point)]
      ensures OnlyDisarmed(objects, old(objects))
      ensures Honoured(hooks, [OnCollision(child, other, point), OnCollision(other, child, point)], objects.Keys, marked)
      ensures Harmless(hooks) ==> objects == old(objects) && marked == old(marked)
    {
      var first, second := OnCollision(child, other, point), OnCollision(other, child, point);
      React(first, cs, base, units, mult);
      if IsValid(other, true) {
        ghost var m1, o1 := marked, objects;
        React(second, cs, base, units, mult);
        AppendTwo(old(log), first, second);
        HonouredJoin(hooks, [first], [second], objects.Keys, m1, marked, marked);
        assert [first] + [second] == [first, second];
        OnlyDisarmedTrans(old(objects), o1, objects);
      }
    }

    /** One `onCollision` call: logged, then the objects it destroys are destroyed. */
    method React(e: Event, ghost cs: seq<Contact>, ghost base: map<Id, Record>, ghost units: multiset<Id>, ghost mult: real)
      requires Valid() && e.OnCollision?
      requires Remembered(cs, collided, objects) && Shifted(objects, base, units, mult, marked)
      modifies this`objects, this`marked, this`log
      ensures Valid()
      ensures Remembered(cs, collided, objects) && Shifted(objects, base, units, mult, marked) && old(marked) <= marked
      ensures log == old(log) + [e] && OnlyDisarmed(objects, old(objects))
      ensures Honoured(hooks, [e], objects.Keys, marked)
      ensures Targets(hooks, e) == [] ==> objects == old(objects) && marked == old(marked)
    {
      log := log + [e];
      Hit(Targets(hooks, e), cs, base, units, mult);
      HonouredCall(hooks, e, old(objects), old(marked), marked);
      DisarmedAll(old(objects), Targets(hooks, e));
    }

    /** The `destroy()` calls of one `onCollision` hook. */
    method Hit(ids: seq<Id>, ghost cs: seq<Contact>, ghost base: map<Id, Record>, ghost units: multiset<Id>, ghost mult: real)
      requires Valid()
      requires Remembered(cs, collided, objects) && Shifted(objects, base, units, mult, marked)
      modifies this`objects, this`marked
      ensures Valid()
      ensures Remembered(cs, collided, objects) && Shifted(objects, base, units, mult, marked) && old(marked) <= marked
      ensures objects == DestroyedAll(old(objects), ids)
      ensures marked == old(marked) + MarkedBy(old(objects), ids)
    {
      RememberedDestroyed(cs, collided, objects, ids);
      ShiftedDestroyed(objects, base, units, mult, marked, ids);
      DestroyAll(ids);
    }

    /** Sub-step `4 - left` of `move` (`left` quarters still to go): each queued
        mover that can still collide runs `Encounter`; a mover that cannot is
        advanced by the `left` quarters it is still owed and leaves the queue.
        Every contact is a hit caught where `units` quarters from `base` put the
        two objects.  When no `onCollision` hook destroys anything and every
        queued mover can collide, nothing changes but the memo and the log, and
        every queued mover has been paired with every collidable child it
        collides with. */
    method SubStep(self: Id, left: nat, mult: real, point: Vector,
                   ghost base: map<Id, Record>, ghost units: multiset<Id>, ghost total: multiset<Id>)
      returns (point': Vector, ghost units': multiset<Id>, ghost cs: seq<Contact>)
      requires Valid() && self in base && |point| == 3 && collided == map[] && 0 < left
      requires Shifted(objects, base, units, mult, marked)
      requires Owed(units, [], moving, left, total)
      requires forall c :: c in moving ==> c in base
      modifies this`objects, this`marked, this`log, this`collided, this`moving
      ensures Valid() && |point'| == 3
      ensures Shifted(objects, base, units', mult, marked) && old(marked) <= marked
      ensures Owed(units', [], moving, left, total)
      ensures forall c :: c in moving ==> c in old(moving)
      ensures OneSided(cs) && log == old(log) + ContactLog(cs)
      ensures forall k :: 0 <= k < |cs| ==> cs[k].mover in old(moving) && cs[k].other in base[self].children
      ensures CaughtAt(cs, base, units, mult, trig) && Honoured(hooks, ContactLog(cs), objects.Keys, marked)
      ensures Harmless(hooks) && (forall c :: c in old(moving) ==> CanCollide(old(objects), c)) ==>
        && objects == old(objects) && marked == old(marked) && moving == old(moving) && units' == units
        && forall m, o ::
             m in old(moving) && o in base[self].children && m != o && CanCollide(old(objects), o)
             && Detects(old(objects), m, o, mult, trig)
             ==> Paired(cs, m, o)
    {
      var idx := 0;
      point', units', cs := point, units, [];
      ghost var calm := Harmless(hooks) && forall c :: c in moving ==> CanCollide(objects, c);
      while idx < |moving|
        invariant Valid() && |point'| == 3
        invariant Shifted(objects, base, units', mult, marked) && old(marked) <= marked
        invariant Owed(units', [], moving, left, total)
        invariant idx <= |moving|
        invariant forall c :: c in moving ==> c in old(moving)
        invariant OneSided(cs) && Remembered(cs, collided, objects) && Recalled(cs, collided) && log == old(log) + ContactLog(cs)
        invariant forall k :: 0 <= k < |cs| ==> cs[k].mover in old(moving) && cs[k].other in base[self].children
        invariant CaughtAt(cs, base, units, mult, trig) && Honoured(hooks, ContactLog(cs), objects.Keys, marked)
        invariant forall x :: CanCollide(objects, x) ==> units'[x] == units[x]
        invariant calm ==> objects == old(objects) && marked == old(marked) && moving == old(moving) && units' == units
        invariant calm ==> Met(cs, moving, idx, base[self].children, objects, mult, trig)
        decreases |moving| - idx
        modifies this`objects, this`marked, this`log, this`collided, this`moving
      {
        var stays;
        ghost var cs0 := cs;
        stays, point', units', cs := Turn(self, idx, left, mult, point', base, units', units, total, cs, old(moving), old(log));
        if calm {
          MetGrow(cs0, cs, moving, idx, base[self].children, objects, mult, trig);
        }
        if stays {
          idx := idx + 1;
        }
      }
      if calm {
        MetAll(cs, moving, base[self].children, objects, mult, trig);
      }
    }

    /** The turn of the queued mover at `idx` within a sub-step: it runs
        `Encounter` if it can collide, and if it then cannot it leaves the queue
        with the quarters it is still owed.  The result says whether it stays;
        the contacts it makes are appended to `cs`. */
    method Turn(self: Id, idx: nat, left: nat, mult: real, point: Vector, ghost base: map<Id, Record>,
                ghost units: multiset<Id>, ghost units0: multiset<Id>, ghost total: multiset<Id>, ghost cs: seq<Contact>,
                ghost pool: seq<Id>, ghost log0: seq<Event>)
      returns (stays: bool, point': Vector, ghost units': multiset<Id>, ghost cs': seq<Contact>)
      requires Valid() && self in base && |point| == 3 && 0 < left && idx < |moving|
      requires moving[idx] in base && moving[idx] in pool
      requires Shifted(objects, base, units, mult, marked)
      requires forall x :: CanCollide(objects, x) ==> units[x] == units0[x]
      requires Owed(units, [], moving, left, total)
      requires OneSided(cs) && Remembered(cs, collided, objects) && Recalled(cs, collided) && log == log0 + ContactLog(cs)
      requires Honoured(hooks, ContactLog(cs), objects.Keys, marked) && CaughtAt(cs, base, units0, mult, trig)
      requires forall k :: 0 <= k < |cs| ==> cs[k].mover in pool && cs[k].other in base[self].children
      modifies this`objects, this`marked, this`log, this`collided, this`moving
      ensures Valid() && |point'| == 3 && cs <= cs'
      ensures Shifted(objects, base, units', mult, marked) && old(marked) <= marked
      ensures forall x :: CanCollide(objects, x) ==> units'[x] == units0[x]
      ensures Owed(units', [], moving, left, total)
      ensures stays ==> moving == old(moving)
      ensures !stays ==> moving == old(moving)[..idx] + old(moving)[idx + 1..]
      ensures forall c :: c in moving ==> c in old(moving)
      ensures OneSided(cs') && Remembered(cs', collided, objects) && Recalled(cs', collided) && log == log0 + ContactLog(cs')
      ensures Honoured(hooks, ContactLog(cs'), objects.Keys, marked) && CaughtAt(cs', base, units0, mult, trig)
      ensures forall k :: 0 <= k < |cs'| ==> cs'[k].mover in pool && cs'[k].other in base[self].children
      ensures stays ==> forall o ::
        o in base[self].children && o != old(moving)[idx] && CanCollide(objects, o)
        && Detects(old(objects), old(moving)[idx], o, mult, trig)
        ==> Paired(cs', old(moving)[idx], o)
      ensures Harmless(hooks) && CanCollide(old(objects), old(moving)[idx]) ==>
        stays && objects == old(objects) && marked == old(marked) && units' == units
    {
      var child := moving[idx];
      stays, point', units', cs' := IsValid(child, true) && child in objects && Collides(child), point, units, cs;
      if stays {
        stays, point', cs' := Try(self, child, mult, point, base, units, units0, cs, pool, log0);
      }
      if !stays {
        ghost var before := objects;
        Drop(child, idx, left, mult, base, units, total, cs');
        units' := units[child := units[child] + left];
        assert objects.Keys == before.Keys;
        forall x | CanCollide(objects, x)
          ensures units'[x] == units0[x]
        {
          assert x != child;
        }
      }
    }

    /** The turn of a queued mover `child` that can collide: `Encounter` runs and
        its contacts are appended to `cs`.  The result says whether the mover can
        still collide; if it can, it has been paired with every collidable child
        it collides with. */
    method Try(self: Id, child: Id, mult: real, point: Vector, ghost base: map<Id, Record>, ghost units: multiset<Id>,
               ghost units0: multiset<Id>, ghost cs: seq<Contact>, ghost pool: seq<Id>, ghost log0: seq<Event>)
      returns (stays: bool, point': Vector, ghost cs': seq<Contact>)
      requires Valid() && self in base && |point| == 3 && CanCollide(objects, child) && child in pool
      requires Shifted(objects, base, units, mult, marked)
      requires forall x :: CanCollide(objects, x) ==> units[x] == units0[x]
      requires OneSided(cs) && Remembered(cs, collided, objects) && Recalled(cs, collided) && log == log0 + ContactLog(cs)
      requires Honoured(hooks, ContactLog(cs), objects.Keys, marked) && CaughtAt(cs, base, units0, mult, trig)
      requires forall k :: 0 <= k < |cs| ==> cs[k].mover in pool && cs[k].other in base[self].children
      modifies this`objects, this`marked, this`log, this`collided
      ensures Valid() && |point'| == 3 && cs <= cs'
      ensures Shifted(objects, base, units, mult, marked) && old(marked) <= marked && OnlyDisarmed(objects, old(objects))
      ensures stays <==> CanCollide(objects, child)
      ensures OneSided(cs') && Remembered(cs', collided, objects) && Recalled(cs', collided) && log == log0 + ContactLog(cs')
      ensures Honoured(hooks, ContactLog(cs'), objects.Keys, marked) && CaughtAt(cs', base, units0, mult, trig)
      ensures forall k :: 0 <= k < |cs'| ==> cs'[k].mover in pool && cs'[k].other in base[self].children
      ensures stays ==> forall o ::
        o in base[self].children && o != child && CanCollide(objects, o)
        && Detects(old(objects), child, o, mult, trig)
        ==> Paired(cs', child, o)
      ensures Harmless(hooks) ==> stays && objects == old(objects) && marked == old(marked)
    {
      ghost var found, at;
      stays, point', found, at := Encounter(self, child, mult, point, cs, base, units);
      ContactLogExtend(log0, cs, found);
      ContactsGrow(cs, found, child, pool, base[self].children);
      ContactLogAppend(cs, found);
      HonouredJoin(hooks, ContactLog(cs), ContactLog(found), objects.Keys, old(marked), marked, marked);
      CaughtFound(found, old(objects), base, units, units0, mult, old(marked), trig);
      cs' := cs + found;
      if stays {
        forall o | o in base[self].children && o != child && CanCollide(objects, o) && Detects(old(objects), child, o, mult, trig)
          ensures Paired(cs', child, o)
        {
          var j :| 0 <= j < |base[self].children| && base[self].children[j] == o;
          if o in old(Memo(child)) {
            RecalledPaired(cs, old(collided), child, o);
            PairedPrefix(cs, cs', child, o);
          } else {
            var k :| 0 <= k < |at| && at[k] == j;
            assert cs'[|cs| + k] == found[k];
          }
        }
      }
    }

    /** A mover that can no longer collide leaves the queue, advanced by the
        `left` quarters it is still owed. */
    method Drop(child: Id, idx: nat, left: nat, mult: real, ghost base: map<Id, Record>, ghost units: multiset<Id>,
                ghost total: multiset<Id>, ghost cs: seq<Contact>)
      requires Valid() && idx < |moving| && moving[idx] == child && 0 < left
      requires Shifted(objects, base, units, mult, marked) && child in base
      requires Owed(units, [], moving, left, total) && Remembered(cs, collided, objects)
      modifies this`objects, this`moving
      ensures Valid()
      ensures child in old(objects)
      ensures objects == old(objects)[child := old(objects)[child].(position :=
        Add(old(objects)[child].position, Scale(Scale(old(objects)[child].speed, left as real), mult)))]
      ensures Shifted(objects, base, units[child := units[child] + left], mult, marked)
      ensures Owed(units[child := units[child] + left], [], moving, left, total)
      ensures Remembered(cs, collided, objects)
      ensures moving == old(moving)[..idx] + old(moving)[idx + 1..]
      ensures forall c :: c in moving ==> c in old(moving)
    {
      RemovedAt(moving, idx);
      var quarters := left as real;
      DropLedger(objects, base, units, mult, marked, moving, idx, left, quarters, total, cs, collided);
      Nudge(child, Scale(Scale(objects[child].speed, quarters), mult));
      moving := moving[..idx] + moving[idx + 1..];
    }

    /** The end of a sub-step: every mover still queued advances by one quarter. */
    method AdvanceAll(mult: real, ghost left: int, ghost base: map<Id, Record>, ghost units: multiset<Id>, ghost total: multiset<Id>)
      returns (ghost units': multiset<Id>)
      requires Valid()
      requires Shifted(objects, base, units, mult, marked)
      requires Owed(units, [], moving, left, total)
      requires forall c :: c in moving ==> c in base
      modifies this`objects
      ensures Valid()
      ensures Shifted(objects, base, units', mult, marked)
      ensures Owed(units', [], moving, left - 1, total)
      ensures Shifted(objects, old(objects), multiset(moving), mult, {}) && units' == units + multiset(moving)
    {
      units' := units;
      ShiftedRefl(objects, mult, {});
      for j := 0 to |moving|
        invariant Valid()
        invariant Shifted(objects, base, units', mult, marked)
        invariant Owed(units', moving[..j], moving[j..], left, total)
        invariant Shifted(objects, old(objects), multiset(moving[..j]), mult, {}) && units' == units + multiset(moving[..j])
        modifies this`objects
      {
        var child := moving[j];
        assert moving[j..] == [child] + moving[j + 1..];
        assert moving[..j + 1] == moving[..j] + [child];
        ShiftedFrame(objects, base, units', mult, marked, child);
        AdvanceStep(objects, base, units', mult, marked, moving[..j], child, moving[j + 1..], left, total);
        ShiftedMove(objects, old(objects), multiset(moving[..j]), mult, {}, child);
        Nudge(child, Scale(objects[child].speed, mult));
        units' := units' + multiset{child};
      }
      assert moving[..|moving|] == moving && moving[|moving|..] == [];
      OwedNext(units', moving, left, total);
    }

    /** The collision pass of `move`: when any mover is queued, four sub-steps of a
        quarter of `dt` each, the `collided` memo being cleared after each.  Every
        queued occurrence ends up advanced by its speed times `dt` in all; every
        contact is a hit caught on the two objects' paths; and when no
        `onCollision` hook destroys anything, round `r` pairs every queued mover
        with every collidable child it collides with after `r` quarter steps. */
    method Sweep(self: Id, dt: real) returns (ghost rounds: seq<seq<Contact>>)
      requires Valid() && self in objects && collided == map[]
      requires forall c :: c in moving ==> c in objects
      modifies this`objects, this`marked, this`log, this`collided, this`moving
      ensures Valid() && collided == map[]
      ensures Shifted(objects, old(objects), multiset(old(moving)), dt, marked) && old(marked) <= marked
      ensures log == old(log) + RoundsLog(rounds) && |rounds| <= 4
      ensures forall r :: r in rounds ==> OneSided(r)
      ensures forall r, c :: r in rounds && c in r ==> c.mover in old(moving) && c.other in old(objects)[self].children
      ensures AllCaught(rounds, old(objects), QuarterStep(dt), trig)
      ensures Honoured(hooks, RoundsLog(rounds), objects.Keys, marked)
      ensures Harmless(hooks) && (forall c :: c in old(moving) ==> CanCollide(old(objects), c)) ==>
        && marked == old(marked) && |rounds| == (if old(moving) == [] then 0 else 4)
        && AllThorough(rounds, old(moving), old(objects)[self].children, old(objects), multiset(old(moving)), QuarterStep(dt), trig)
    {
      if moving != [] {
        var mult := QuarterStep(dt);
        ghost var total := multiset(moving);
        OwedStart(moving);
        ShiftedRefl(objects, mult, marked);
        ShiftedRefl(objects, mult, {});
        assert log + RoundsLog([]) == log;
        ghost var units;
        rounds, units := Rounds(self, mult, old(objects), total, multiset{});
        OwedEnd(units, moving, total);
        ShiftedQuarters(objects, old(objects), units, total, dt, marked);
      } else {
        rounds := [];
        ShiftedRefl(objects, dt, marked);
      }
    }

    /** What the collision pass keeps between sub-steps: every object has moved
        `units` quarter steps from `base`, the ledger has `left` quarters to go,
        the queue draws from `pool`, and the rounds so far, each one-sided, between
        queued movers and children of `self` and caught on the objects' paths,
        are logged after `log0`, every live target of their hooks being marked. */
    ghost predicate Sweeping(self: Id, base: map<Id, Record>, mult: real, total: multiset<Id>, units: multiset<Id>,
                             left: int, pool: seq<Id>, log0: seq<Event>, rounds: seq<seq<Contact>>)
      reads this
    {
      collided == map[] && Swept(self, base, mult, total, units, left, pool, log0, rounds)
    }

    /** `Sweeping`, the `collided` memo aside, which a sub-step fills. */
    ghost predicate Swept(self: Id, base: map<Id, Record>, mult: real, total: multiset<Id>, units: multiset<Id>,
                          left: int, pool: seq<Id>, log0: seq<Event>, rounds: seq<seq<Contact>>)
      reads this
    {
      && Valid() && self in base
      && Shifted(objects, base, units, mult, marked)
      && Owed(units, [], moving, left, total)
      && (forall c :: c in moving ==> c in pool)
      && (forall c :: c in pool ==> c in base)
      && RoundsKept(rounds, pool, base[self].children, base, mult, trig, hooks, log0, log, marked)
    }

    /** The collision pass when no `onCollision` hook destroys anything and every
        queued mover can collide: nothing is destroyed, every mover stays queued,
        and after `4 - left` sub-steps each has moved that many quarters per
        occurrence. */
    ghost predicate Calm(base: map<Id, Record>, mult: real, total: multiset<Id>, units: multiset<Id>, left: int, pool: seq<Id>)
      reads this
    {
      && Harmless(hooks) && moving == pool && total == multiset(pool)
      && (forall c :: c in pool ==> CanCollide(base, c))
      && Shifted(objects, base, units, mult, {})
      && forall o :: units[o] == (4 - left) * total[o]
    }

    /** The collision pass after `4 - left` sub-steps, the marks only grown since
        `marked0`; when `calm`, the pass is calm and every round so far thorough. */
    ghost predicate Passing(calm: bool, self: Id, base: map<Id, Record>, mult: real, total: multiset<Id>,
                            units: multiset<Id>, left: int, pool: seq<Id>, log0: seq<Event>,
                            rounds: seq<seq<Contact>>, marked0: set<Id>)
      reads this
    {
      && Sweeping(self, base, mult, total, units, left, pool, log0, rounds)
      && |rounds| == 4 - left && marked0 <= marked
      && (calm ==>
            && Calm(base, mult, total, units, left, pool) && marked == marked0
            && AllThorough(rounds, pool, base[self].children, base, total, mult, trig))
    }

    /** The four sub-steps of the collision pass, `mult` being a quarter of `dt`;
        `left` counts the quarters still to go (`collision_samples - i`), and every
        queued occurrence has been paid all four when it reaches zero. */
    method Rounds(self: Id, mult: real, ghost base: map<Id, Record>, ghost total: multiset<Id>, ghost units: multiset<Id>)
      returns (ghost rounds: seq<seq<Contact>>, ghost units': multiset<Id>)
      requires Sweeping(self, base, mult, total, units, 4, moving, log, [])
      modifies this`objects, this`marked, this`log, this`collided, this`moving
      ensures Sweeping(self, base, mult, total, units', 0, old(moving), old(log), rounds)
      ensures |rounds| == 4 && old(marked) <= marked
      ensures old(Calm(base, mult, total, units, 4, moving)) ==>
        && marked == old(marked)
        && AllThorough(rounds, old(moving), base[self].children, base, total, mult, trig)
    {
      ghost var calm := Calm(base, mult, total, units, 4, moving);
      var point := ZeroVec;
      rounds, units' := [], units;
      var left := 4;
      while left > 0
        // stated as an equation, so that it is matched whole rather than conjunct by conjunct
        invariant Passing(calm, self, base, mult, total, units', left, old(moving), old(log), rounds, old(marked)) == true
        invariant |point| == 3 && 0 <= left
      {
        point, units', rounds := Quarter(self, left, mult, point, base, units', total, rounds, old(moving), old(log), calm, old(marked));
        left := left - 1;
      }
    }

    /** One sub-step followed by the quarter step of every mover still queued and
        the clearing of the `collided` memo; `rounds` gains its contacts. */
    method Quarter(self: Id, left: nat, mult: real, point: Vector, ghost base: map<Id, Record>,
                   ghost units: multiset<Id>, ghost total: multiset<Id>, ghost rounds: seq<seq<Contact>>,
                   ghost pool: seq<Id>, ghost log0: seq<Event>, ghost calm: bool, ghost marked0: set<Id>)
      returns (point': Vector, ghost units': multiset<Id>, ghost rounds': seq<seq<Contact>>)
      requires Passing(calm, self, base, mult, total, units, left, pool, log0, rounds, marked0) && |point| == 3 && 0 < left
      modifies this`objects, this`marked, this`log, this`collided, this`moving
      ensures Passing(calm, self, base, mult, total, units', left - 1, pool, log0, rounds', marked0) && |point'| == 3
      ensures |rounds'| == |rounds| + 1 && rounds'[..|rounds|] == rounds
    {
      point', units', rounds' := Sample(self, left, mult, point, base, units, total, rounds, pool, log0, calm);
      RoundsThoroughGrow(rounds, rounds', 4 - left, pool, base[self].children, base, total, mult, trig);
      units' := CloseQuarter(self, mult, left, base, units', total, pool, log0, rounds', calm);
    }

    /** The sub-step of a quarter: `rounds` gains its contacts, the `collided`
        memo staying as the sub-step left it.  With no destroying hook and every
        mover collidable, the world is untouched and the round is the
        `4 - left`-th thorough one. */
    method Sample(self: Id, left: nat, mult: real, point: Vector, ghost base: map<Id, Record>,
                  ghost units: multiset<Id>, ghost total: multiset<Id>, ghost rounds: seq<seq<Contact>>,
                  ghost pool: seq<Id>, ghost log0: seq<Event>, ghost calm: bool)
      returns (point': Vector, ghost units': multiset<Id>, ghost rounds': seq<seq<Contact>>)
      requires Sweeping(self, base, mult, total, units, left, pool, log0, rounds) && |point| == 3 && 0 < left <= 4
      requires calm ==> Calm(base, mult, total, units, left, pool)
      modifies this`objects, this`marked, this`log, this`collided, this`moving
      ensures Swept(self, base, mult, total, units', left, pool, log0, rounds')
      ensures |point'| == 3 && old(marked) <= marked && |rounds'| == |rounds| + 1 && rounds'[..|rounds|] == rounds
      ensures calm ==>
        && Calm(base, mult, total, units', left, pool) && marked == old(marked)
        && RoundThorough(rounds'[|rounds|], 4 - left, pool, base[self].children, base, total, mult, trig)
    {
      ghost var cs;
      point', units', cs := Scan(self, left, mult, point, base, units, total, pool);
      RoundsKeptGrow(rounds, cs, old(moving), pool, base[self].children, base, units, mult, trig, hooks,
                     log0, old(log), old(marked), log, marked);
      rounds' := rounds + [cs];
      assert rounds'[|rounds|] == cs;
    }

    /** A sub-step read against the collision pass: with no destroying hook and
        every mover collidable, it changes neither the world nor the queue, and
        its contacts make the `4 - left`-th thorough round. */
    method Scan(self: Id, left: nat, mult: real, point: Vector, ghost base: map<Id, Record>,
                ghost units: multiset<Id>, ghost total: multiset<Id>, ghost pool: seq<Id>)
      returns (point': Vector, ghost units': multiset<Id>, ghost cs: seq<Contact>)
      requires Valid() && self in base && |point| == 3 && collided == map[] && 0 < left <= 4
      requires Shifted(objects, base, units, mult, marked)
      requires Owed(units, [], moving, left, total)
      requires forall c :: c in moving ==> c in base
      modifies this`objects, this`marked, this`log, this`collided, this`moving
      ensures Valid() && |point'| == 3
      ensures Shifted(objects, base, units', mult, marked) && old(marked) <= marked
      ensures Owed(units', [], moving, left, total)
      ensures forall c :: c in moving ==> c in old(moving)
      ensures OneSided(cs) && log == old(log) + ContactLog(cs)
      ensures forall k :: 0 <= k < |cs| ==> cs[k].mover in old(moving) && cs[k].other in base[self].children
      ensures CaughtAt(cs, base, units, mult, trig) && Honoured(hooks, ContactLog(cs), objects.Keys, marked)
      ensures old(Calm(base, mult, total, units, left, pool)) ==>
        && Calm(base, mult, total, units', left, pool) && marked == old(marked)
        && RoundThorough(cs, 4 - left, pool, base[self].children, base, total, mult, trig)
    {
      ShiftedCollidable(objects, base, units, mult, moving);
      point', units', cs := SubStep(self, left, mult, point, base, units, total);
      RoundFromCalm(cs, 4 - left, old(moving), base[self].children, old(objects), base, units, total, mult, trig);
    }

    /** The end of a sub-step: every mover still queued advances one quarter and
        the `collided` memo is cleared, which leaves one quarter fewer to go. */
    method CloseQuarter(self: Id, mult: real, ghost left: int, ghost base: map<Id, Record>, ghost units: multiset<Id>,
                        ghost total: multiset<Id>, ghost pool: seq<Id>, ghost log0: seq<Event>,
                        ghost rounds: seq<seq<Contact>>, ghost calm: bool)
      returns (ghost units': multiset<Id>)
      requires Swept(self, base, mult, total, units, left, pool, log0, rounds)
      requires calm ==> Calm(base, mult, total, units, left, pool)
      modifies this`objects, this`collided
      ensures Sweeping(self, base, mult, total, units', left - 1, pool, log0, rounds)
      ensures Shifted(objects, old(objects), multiset(moving), mult, {}) && units' == units + multiset(moving)
      ensures calm ==> Calm(base, mult, total, units', left - 1, pool)
    {
      units' := AdvanceAll(mult, left, base, units, total);
      collided := map[];
      CalmQuarter(base, old(objects), objects, units, pool, total, mult, left);
    }

    /** `move(delta_time, collision_detect)`: every moving child advances by its
        speed times `dt`, once per occurrence in the children list, whether or not
        collisions are detected.  With detection, collidable movers get there in
        quarter steps; every collision found calls both `onCollision` hooks, each
        pair being found from one side only within a sub-step; every contact is
        the hit `detectCollision` reports on the two objects' paths; and when no
        `onCollision` hook destroys anything, round `r` pairs every queued mover
        with every collidable child it collides with after `r` quarter steps. */
    method Move(self: Id, dt: real, detect: bool) returns (ghost rounds: seq<seq<Contact>>)
      requires Valid() && self in objects && moving == [] && collided == map[]
      modifies this`objects, this`marked, this`log, this`collided, this`moving
      ensures Valid() && moving == [] && collided == map[]
      ensures Shifted(objects, old(objects), multiset(old(objects)[self].children), dt, marked)
      ensures old(marked) <= marked
      ensures !detect ==> rounds == [] && marked == old(marked)
      ensures log == old(log) + RoundsLog(rounds) && |rounds| <= 4
      ensures forall r :: r in rounds ==> OneSided(r)
      ensures forall r, c :: r in rounds && c in r ==> c.mover in old(objects)[self].children && c.other in old(objects)[self].children
      ensures AllCaught(rounds, old(objects), QuarterStep(dt), trig)
      ensures Honoured(hooks, RoundsLog(rounds), objects.Keys, marked)
      ensures detect && Harmless(hooks) ==>
        && marked == old(marked)
        && |rounds| == (if Sweepers(old(objects), old(objects)[self].children) == [] then 0 else 4)
        && AllThorough(rounds, Sweepers(old(objects), old(objects)[self].children), old(objects)[self].children,
                       old(objects), multiset(Sweepers(old(objects), old(objects)[self].children)), QuarterStep(dt), trig)
    {
      ghost var kids := objects[self].children;
      if detect {
        Collect(self, dt);
        ghost var collected := objects;
        SweepersCollidable(old(objects), collected, kids, dt);
        ShiftedFrame(collected, old(objects), multiset(Gliders(old(objects), kids)), dt, {}, self);
        rounds := Sweep(self, dt);
        ghost var pool := Sweepers(old(objects), kids);
        CollectedRounds(old(objects), collected, kids, dt, rounds, pool, multiset(pool), QuarterStep(dt), trig);
        moving := [];
        CollectThenSweep(old(objects), collected, objects, kids, dt, marked);
      } else {
        rounds := [];
        Glide(self, dt);
        ShiftedMoreMarks(objects, old(objects), multiset(kids), dt, {}, marked);
      }
    }

    // ---------------------------------------------------------------- update

    /** `setSpeed(getSpeed() + acceleration * delta_time)`. */
    method Accelerate(o: Id, dt: real)
      requires Valid() && o in objects
      modifies this`objects
      ensures Valid()
      ensures objects == old(objects)[o := old(objects)[o].(speed := Add(old(objects)[o].speed, Scale(old(objects)[o].acceleration, dt)))]
    {
      var r := objects[o].(speed := Add(objects[o].speed, Scale(objects[o].acceleration, dt)));
      UpdateKeepsRegistry(objects, invalid, marked, nextId, o, r);
      objects := objects[o := r];
    }

    /** `update(now, delta_time, tick, collision_detect)` on `self`.  Only the
        outermost call (the one that finds `destroyShared` set) runs
        `delayedDestroy`, after the whole subtree has been updated: no object is
        torn down in between, so the handles met during the pass stay live or
        stay dangling.  `body` is the pass's own hook calls, `doomed` the objects
        marked when the pass ends (those marked before it and those the hooks
        destroyed), `torn` the objects the closing `delayedDestroy` tears down.
        `fuel` bounds the depth of the recursion, which the engine itself does
        not bound. */
    method Update(self: Id, dt: real, detect: bool, fuel: nat)
      returns (ghost body: seq<Event>, ghost doomed: set<Id>, ghost torn: seq<Id>)
      requires Valid() && moving == [] && collided == map[]
      modifies this`objects, this`marked, this`log, this`invalid, this`collided, this`moving, this`destroyShared
      ensures Valid() && moving == [] && collided == map[] && destroyShared == old(destroyShared)
      ensures log == old(log) + body + TeardownLog(torn)
      ensures self in old(objects) && fuel > 0 ==> |body| >= 2 && body[0] == BeforeUpdate(self) && body[|body| - 1] == AfterUpdate(self)
      ensures self in old(objects) && fuel > 0 ==>
        forall o :: o in old(objects) && (o in hooks.beforeUpdate(self) || o in hooks.afterUpdate(self)) ==> o in doomed
      ensures !(self in old(objects) && fuel > 0) ==> body == []
      ensures Honoured(hooks, body, old(objects).Keys, doomed)
      ensures !detect ==> NoCollisionCalls(body)
      ensures old(marked) <= doomed
      ensures objects.Keys == old(objects).Keys - (set o | o in torn) && invalid == old(invalid) + (set o | o in torn)
      ensures !old(destroyShared) ==> torn == [] && marked == doomed
      ensures old(destroyShared) ==> marked == {} && forall o :: o in doomed && o in old(objects) ==> o !in objects
      decreases fuel, 1
    {
      var destroyLocal := destroyShared;
      destroyShared := false;
      body, torn := [], [];
      if self in objects && fuel > 0 {
        body := Pass(self, dt, detect, fuel);
      }
      doomed := marked;
      if destroyLocal {
        torn := Settle();
      }
    }

    /** The close of the outermost `update`: `destroy_shared` is set again and
        every marked object is torn down. */
    method Settle() returns (ghost torn: seq<Id>)
      requires Valid()
      modifies this`objects, this`marked, this`log, this`invalid, this`destroyShared
      ensures Valid() && destroyShared && marked == {}
      ensures forall o :: o in old(marked) && o in old(objects) ==> o !in objects
      ensures objects.Keys == old(objects).Keys - (set o | o in torn) && invalid == old(invalid) + (set o | o in torn)
      ensures log == old(log) + TeardownLog(torn)
    {
      destroyShared := true;
      ghost var kidsOf;
      torn, kidsOf := DelayedDestroy();
    }

    /** The body of `update` on a valid object: `beforeUpdate`, `move`, the
        acceleration step, `update` on each child, `afterUpdate`. */
    method Pass(self: Id, dt: real, detect: bool, fuel: nat) returns (ghost body: seq<Event>)
      requires Valid() && moving == [] && collided == map[] && !destroyShared && self in objects && fuel > 0
      modifies this`objects, this`marked, this`log, this`invalid, this`collided, this`moving, this`destroyShared
      ensures Valid() && moving == [] && collided == map[] && !destroyShared
      ensures objects.Keys == old(objects).Keys && invalid == old(invalid) && old(marked) <= marked
      ensures forall o :: o in old(objects) && (o in hooks.beforeUpdate(self) || o in hooks.afterUpdate(self)) ==> o in marked
      ensures log == old(log) + body && |body| >= 2 && body[0] == BeforeUpdate(self) && body[|body| - 1] == AfterUpdate(self)
      ensures Honoured(hooks, body, objects.Keys, marked)
      ensures !detect ==> NoCollisionCalls(body)
      decreases fuel, 0
    {
      ghost var own := Advance(self, dt, detect);
      ghost var m1 := marked;
      var kids := objects[self].children;
      ghost var inner := UpdateAll(kids, dt, detect, fuel - 1);
      ghost var m2 := marked;
      Close(self);
      body := [BeforeUpdate(self)] + own + inner + [AfterUpdate(self)];
      HonouredJoin(hooks, [BeforeUpdate(self)] + own, inner, objects.Keys, m1, m2, m2);
      HonouredJoin(hooks, [BeforeUpdate(self)] + own + inner, [AfterUpdate(self)], objects.Keys, m2, marked, marked);
      if !detect {
        NoCollisionCallsConcat([BeforeUpdate(self)], own, inner, [AfterUpdate(self)]);
      }
    }

    /** `afterUpdate`: logged, then the objects it destroys are destroyed. */
    method Close(self: Id)
      requires Valid()
      modifies this`objects, this`marked, this`log
      ensures Valid() && objects.Keys == old(objects).Keys && old(marked) <= marked
      ensures forall o :: o in hooks.afterUpdate(self) && o in objects ==> o in marked
      ensures log == old(log) + [AfterUpdate(self)]
      ensures Honoured(hooks, [AfterUpdate(self)], objects.Keys, marked)
    {
      log := log + [AfterUpdate(self)];
      DestroyAll(hooks.afterUpdate(self));
      HonouredCall(hooks, AfterUpdate(self), old(objects), old(marked), marked);
    }

    /** `beforeUpdate`, `move` and the acceleration step of `update`; `own` is
        the collision hook calls `move` makes. */
    method Advance(self: Id, dt: real, detect: bool) returns (ghost own: seq<Event>)
      requires Valid() && moving == [] && collided == map[] && self in objects
      modifies this`objects, this`marked, this`log, this`collided, this`moving
      ensures Valid() && moving == [] && collided == map[] && self in objects
      ensures objects.Keys == old(objects).Keys && old(marked) <= marked
      ensures forall o :: o in hooks.beforeUpdate(self) && o in objects ==> o in marked
      ensures log == old(log) + [BeforeUpdate(self)] + own
      ensures Honoured(hooks, [BeforeUpdate(self)] + own, objects.Keys, marked)
      ensures !detect ==> own == []
    {
      log := log + [BeforeUpdate(self)];
      DestroyAll(hooks.beforeUpdate(self));
      HonouredCall(hooks, BeforeUpdate(self), old(objects), old(marked), marked);
      ghost var m1 := marked;
      own := Step(self, dt, detect);
      HonouredJoin(hooks, [BeforeUpdate(self)], own, objects.Keys, m1, marked, marked);
    }

    /** `move` followed by the acceleration step. */
    method Step(self: Id, dt: real, detect: bool) returns (ghost own: seq<Event>)
      requires Valid() && moving == [] && collided == map[] && self in objects
      modifies this`objects, this`marked, this`log, this`collided, this`moving
      ensures Valid() && moving == [] && collided == map[] && self in objects
      ensures objects.Keys == old(objects).Keys && old(marked) <= marked
      ensures log == old(log) + own
      ensures Honoured(hooks, own, objects.Keys, marked)
      ensures !detect ==> own == []
    {
      ghost var rounds := Move(self, dt, detect);
      own := RoundsLog(rounds);
      Accelerate(self, dt);
    }

    /** `update` on each of `kids` in turn, none of them the outermost call. */
    method UpdateAll(kids: seq<Id>, dt: real, detect: bool, fuel: nat) returns (ghost inner: seq<Event>)
      requires Valid() && moving == [] && collided == map[] && !destroyShared
      modifies this`objects, this`marked, this`log, this`invalid, this`collided, this`moving, this`destroyShared
      ensures Valid() && moving == [] && collided == map[] && !destroyShared
      ensures objects.Keys == old(objects).Keys && invalid == old(invalid) && old(marked) <= marked
      ensures log == old(log) + inner
      ensures Honoured(hooks, inner, objects.Keys, marked)
      ensures !detect ==> NoCollisionCalls(inner)
      decreases fuel, 2
    {
      inner := [];
      for k := 0 to |kids|
        invariant Valid() && moving == [] && collided == map[] && !destroyShared
        invariant objects.Keys == old(objects).Keys && invalid == old(invalid) && old(marked) <= marked
        invariant log == old(log) + inner
        invariant Honoured(hooks, inner, objects.Keys, marked)
        invariant !detect ==> NoCollisionCalls(inner)
      {
        ghost var m0 := marked;
        ghost var b, d, t := Update(kids[k], dt, detect, fuel);
        if !detect {
          NoCollisionCallsConcat(inner, b, [], []);
        }
        HonouredJoin(hooks, inner, b, objects.Keys, m0, marked, marked);
        inner := inner + b;
      }
    }
  }

  /** Two calls logged one after the other. */
  lemma AppendTwo(l: seq<Event>, a: Event, b: Event)
    ensures l + [a] + [b] == l + [a, b]
  {
  }

  lemma SplitPending(marked: set<Id>, rest: set<Id>, obj: Id)
    requires obj in rest
    ensures marked + rest == marked + (rest - {obj}) + {obj}
  {
  }

  lemma NothingPending(marked: set<Id>, rest: set<Id>)
    requires rest == {}
    ensures marked + rest == marked
  {
  }

  lemma RemoveOneSmaller(s: set<Id>, x: Id)
    requires x in s
    ensures |s - {x}| == |s| - 1
  {
  }

  /** With the registry intact, `isValid(o, false)` holds exactly for live objects,
      null is never valid, and a valid object stays valid when marks count. */
  lemma IsValidSpec(w: World, o: Id)
    requires w.Valid() && o < w.nextId
    ensures w.IsValid(o, false) <==> o in w.objects
    ensures w.IsValid(o, false) ==> w.IsValid(o, true)
    ensures !w.IsValid(0, false)
  {
  }
}

=== FILE: quaternion.dfy ===
/** `Quaternion`, a `Vec<4>` (x, y, z, w) used as an orientation.  Values that the
    source obtains through sqrt, sin or cos (normalisation, `axisAngle`) are kept
    symbolic in `QuatValue`. */
module Quaternions {
  import opened Vectors

  /** `Quaternion::identity`. */
  const Identity: Vector := [0.0, 0.0, 0.0, 1.0]

  /** What a quaternion factory returns. */
  datatype QuatValue =
    | Exact(q: Vector)        // a stored constant such as `identity`
    | Normalized(raw: Vector) // `Quaternion(x, y, z, w)`: `raw` after `normalize()`
    | HalfTurn(axis: Vector)  // `axisAngle(axis, DEG180)`

  /** `isIdentity()`: the stored 4-vector equals `identity`. */
  predicate IsIdentity(q: Vector)
  {
    q == Identity
  }

  /** `rotation()`: the column-major 4x4 rotation matrix of the quaternion. */
  function Rotation(q: Vector): (m: seq<real>)
    requires |q| == 4
    ensures |m| == 16
  {
    var qi, qj, qk, qr := q[0], q[1], q[2], q[3];
    RotationOfProducts(qi * qi, qj * qj, qk * qk, qi * qj, qi * qk, qi * qr, qj * qk, qj * qr, qk * qr)
  }

  /** The matrix of `rotation()` in terms of the pairwise products of the
      components it starts from. */
  function RotationOfProducts(qii: real, qjj: real, qkk: real, qij: real, qik: real, qir: real,
                              qjk: real, qjr: real, qkr: real): (m: seq<real>)
    ensures |m| == 16
  {
    var qiiii, qjjjj, qkkkk := (qii + qii) - 0.5, (qjj + qjj) - 0.5, (qkk + qkk) - 0.5;
    var aijkr, ajkir, aikjr := qij + qkr, qjk + qir, qik + qjr;
    var sijkr, sjkir, sikjr := qij - qkr, qjk - qir, qik - qjr;
    [ -(qjjjj + qkkkk), aijkr + aijkr, sikjr + sikjr, 0.0,
      sijkr + sijkr, -(qiiii + qkkkk), ajkir + ajkir, 0.0,
      aikjr + aikjr, sjkir + sjkir, -(qiiii + qjjjj), 0.0,
      0.0, 0.0, 0.0, 1.0 ]
  }

  const IdentityMatrix: seq<real> :=
    [1.0, 0.0, 0.0, 0.0,
     0.0, 1.0, 0.0, 0.0,
     0.0, 0.0, 1.0, 0.0,
     0.0, 0.0, 0.0, 1.0]

  /** The last row and column are (0, 0, 0, 1), and `identity` gives the identity matrix. */
  lemma RotationShape(q: Vector)
    requires |q| == 4
    ensures Rotation(q)[3] == 0.0 && Rotation(q)[7] == 0.0 && Rotation(q)[11] == 0.0
    ensures Rotation(q)[12] == 0.0 && Rotation(q)[13] == 0.0 && Rotation(q)[14] == 0.0
    ensures Rotation(q)[15] == 1.0
    ensures Rotation(Identity) == IdentityMatrix
  {
  }

  /** The matrix is quadratic in q, so q and -q give the same matrix. */
  lemma RotationEven(q: Vector)
    requires |q| == 4
    ensures Rotation(Neg(q)) == Rotation(q)
  {
    var p := Neg(q);
    assert p[0] == -q[0] && p[1] == -q[1] && p[2] == -q[2] && p[3] == -q[3];
    assert p[0] * p[0] == q[0] * q[0] && p[1] * p[1] == q[1] * q[1] && p[2] * p[2] == q[2] * q[2];
    assert p[0] * p[1] == q[0] * q[1] && p[0] * p[2] == q[0] * q[2] && p[0] * p[3] == q[0] * q[3];
    assert p[1] * p[2] == q[1] * q[2] && p[1] * p[3] == q[1] * q[3] && p[2] * p[3] == q[2] * q[3];
    RotationProducts(p);
    RotationProducts(q);
  }

  lemma RotationProducts(q: Vector)
    requires |q| == 4
    ensures Rotation(q) == RotationOfProducts(q[0] * q[0], q[1] * q[1], q[2] * q[2], q[0] * q[1], q[0] * q[2],
                                              q[0] * q[3], q[1] * q[2], q[1] * q[3], q[2] * q[3])
  {
  }

  /** The three output components of `rotated`/`rotate` for matrix `m`, offsets
      d0 = vec[0] - pivot[0] and d1 = vec[1] - pivot[1]: as written, the third
      summand of every component uses d1 where a matrix product would use
      vec[2] - pivot[2]. */
  function RotatedComponents(m: seq<real>, d0: real, d1: real, pivot: Vector): (r: Vector)
    requires |m| == 16 && |pivot| == 3
    ensures |r| == 3
  {
    [pivot[0] + d0 * m[0] + d1 * m[4] + d1 * m[8],
     pivot[1] + d0 * m[1] + d1 * m[5] + d1 * m[9],
     pivot[2] + d0 * m[2] + d1 * m[6] + d1 * m[10]]
  }

  /** `rotated(vec, pivot)`: the identity quaternion returns `vec` untouched. */
  function Rotated(q: Vector, v: Vector, pivot: Vector): (r: Vector)
    requires |q| == 4 && |v| == 3 && |pivot| == 3
    ensures |r| == 3
  {
    if !IsIdentity(q) then RotatedComponents(Rotation(q), v[0] - pivot[0], v[1] - pivot[1], pivot)
    else v
  }

  /** The identity quaternion leaves every vector where it is. */
  lemma RotatedIdentity(v: Vector, pivot: Vector)
    requires |v| == 3 && |pivot| == 3
    ensures Rotated(Identity, v, pivot) == v
  {
  }

  /** Outside the identity case the third component of the input has no effect. */
  lemma RotatedIgnoresThirdComponent(q: Vector, v: Vector, w: Vector, pivot: Vector)
    requires |q| == 4 && |v| == 3 && |w| == 3 && |pivot| == 3
    requires !IsIdentity(q) && v[0] == w[0] && v[1] == w[1]
    ensures Rotated(q, v, pivot) == Rotated(q, w, pivot)
  {
    var a, b := Rotated(q, v, pivot), Rotated(q, w, pivot);
    assert a[0] == b[0] && a[1] == b[1] && a[2] == b[2];
  }

  /** A half turn about x should send (0, 0, 1) to (0, 0, -1); as written it yields the origin. */
  lemma RotatedHalfTurnAboutX()
    ensures Rotated([1.0, 0.0, 0.0, 0.0], [0.0, 0.0, 1.0], [0.0, 0.0, 0.0]) == [0.0, 0.0, 0.0]
    ensures Rotation([1.0, 0.0, 0.0, 0.0])[10] == -1.0
  {
  }

  /** `-identity` stands for the same rotation as `identity`, yet as written it
      moves (0, 0, 1) to (0, 0, 0). */
  lemma RotatedNegIdentityMoves()
    ensures Rotation(Neg(Identity)) == IdentityMatrix
    ensures Rotated(Neg(Identity), [0.0, 0.0, 1.0], [0.0, 0.0, 0.0]) == [0.0, 0.0, 0.0]
  {
    RotationEven(Identity);
    RotationShape(Identity);
    assert Neg(Identity) == [-0.0, -0.0, -0.0, -1.0];
  }

  /** `rotated(vec, pivot)` as intended: the offset from the pivot times the
      rotation matrix, all three components of the offset taking part. */
  function RotatedIntended(q: Vector, v: Vector, pivot: Vector): (r: Vector)
    requires |q| == 4 && |v| == 3 && |pivot| == 3
    ensures |r| == 3
    ensures IsIdentity(q) ==> r == v
  {
    if !IsIdentity(q) then Turned(Rotation(q), v, pivot) else v
  }

  /** `v` turned about `pivot` by the column-major matrix `m`. */
  function Turned(m: seq<real>, v: Vector, pivot: Vector): (r: Vector)
    requires |m| == 16 && |v| == 3 && |pivot| == 3
  {
    var d0, d1, d2 := v[0] - pivot[0], v[1] - pivot[1], v[2] - pivot[2];
    [pivot[0] + d0 * m[0] + d1 * m[4] + d2 * m[8],
     pivot[1] + d0 * m[1] + d1 * m[5] + d2 * m[9],
     pivot[2] + d0 * m[2] + d1 * m[6] + d2 * m[10]]
  }

  /** As intended, q and -q rotate every vector alike. */
  lemma RotatedIntendedEven(q: Vector, v: Vector, pivot: Vector)
    requires |q| == 4 && |v| == 3 && |pivot| == 3
    ensures RotatedIntended(Neg(q), v, pivot) == RotatedIntended(q, v, pivot)
  {
    RotationEven(q);
    RotationShape(Identity);
    if IsIdentity(q) {
      RotatedByIdentityMatrix(Neg(q), v, pivot);
    } else if IsIdentity(Neg(q)) {
      RotatedByIdentityMatrix(q, v, pivot);
    }
  }

  /** A quaternion whose matrix is the identity leaves every vector in place. */
  lemma RotatedByIdentityMatrix(q: Vector, v: Vector, pivot: Vector)
    requires |q| == 4 && |v| == 3 && |pivot| == 3
    requires Rotation(q) == IdentityMatrix
    ensures RotatedIntended(q, v, pivot) == v
  {
  }

  /** As intended, a half turn about x sends (0, 0, 1) to (0, 0, -1). */
  lemma RotatedIntendedHalfTurnAboutX()
    ensures RotatedIntended([1.0, 0.0, 0.0, 0.0], [0.0, 0.0, 1.0], [0.0, 0.0, 0.0]) == [0.0, 0.0, -1.0]
  {
  }

  /** `rotate(vec, pivot)`: overwrites `vec` with what `rotated(vec, pivot)` returns. */
  method Rotate(q: Vector, v: array<real>, pivot: Vector)
    requires |q| == 4 && v.Length == 3 && |pivot| == 3
    modifies v
    ensures v[..] == Rotated(q, old(v[..]), pivot)
  {
    if !IsIdentity(q) {
      var r := RotatedComponents(Rotation(q), v[0] - pivot[0], v[1] - pivot[1], pivot);
      v[0], v[1], v[2] := r[0], r[1], r[2];
      assert v[..] == r;
    }
  }

  /** `difference(vec_1, vec_2)`: the rotation taking one direction to the other.
      `epsilon` is the EPSILON constant of the engine's defaults. */
  function Difference(v1: Vector, v2: Vector, epsilon: real): QuatValue
    requires |v1| == 3 && |v2| == 3
  {
    var border := 1.0 - epsilon;
    var d := Dot(v1, v2);
    if d > border then Exact(Identity)
    else if d < -border then
      var axis := Cross(Axis(3, 0), v1);
      if Length2(axis) < epsilon then HalfTurn(Cross(Axis(3, 1), v1)) else HalfTurn(axis)
    else
      var axis := Cross(v1, v2);
      Normalized([axis[0], axis[1], axis[2], 1.0 + d])
  }

  /** Nearly parallel directions give `identity`; otherwise the rotation axis is
      perpendicular to the first direction (and, in the general case, to both). */
  lemma DifferenceProperties(v1: Vector, v2: Vector, epsilon: real)
    requires |v1| == 3 && |v2| == 3
    ensures Dot(v1, v2) > 1.0 - epsilon ==> Difference(v1, v2, epsilon) == Exact(Identity)
    ensures Difference(v1, v2, epsilon).HalfTurn? ==>
      |Difference(v1, v2, epsilon).axis| == 3 && Dot(v1, Difference(v1, v2, epsilon).axis) == 0.0
    ensures Difference(v1, v2, epsilon).Normalized? ==>
      var raw := Difference(v1, v2, epsilon).raw;
      |raw| == 4 && Dot(v1, raw[..3]) == 0.0 && Dot(v2, raw[..3]) == 0.0 && raw[3] == 1.0 + Dot(v1, v2)
  {
    CrossProperties(Axis(3, 0), v1);
    CrossProperties(Axis(3, 1), v1);
    CrossProperties(v1, v2);
    var c := Cross(v1, v2);
    assert [c[0], c[1], c[2], 1.0 + Dot(v1, v2)][..3] == c;
    var cx, cy := Cross(Axis(3, 0), v1), Cross(Axis(3, 1), v1);
    DotSymmetric(cx, v1);
    DotSymmetric(cy, v1);
  }
}

=== FILE: records.dfy ===
/** The records behind `Object`: an object's own fields, the hooks the user
    overrides, the hook-call log, and the pure facts about the arena of objects
    that the world's operations keep. */
module Records {
  import opened Common
  import opened Vectors
  import opened Shapes

  /** An object pointer; 0 is `nullptr`. */
  type Id = nat

  /** The fields of one object that the core reads or writes. */
  datatype Record = Record(
    display: bool,
    collider: Option<Shape>,
    children: seq<Id>,
    parent: Id,
    position: Vector,
    speed: Vector,
    acceleration: Vector,
    orientation: Vector)

  predicate WellFormedRecord(r: Record)
  {
    && |r.position| == 3 && |r.speed| == 3 && |r.acceleration| == 3 && |r.orientation| == 4
    && (r.collider.Some? ==> WellFormed(r.collider.value))
  }

  /** What `destroy()` does to the object's own fields. */
  function Destroyed(r: Record): (d: Record)
    ensures !d.display && d.collider.None?
    ensures d.children == r.children && d.parent == r.parent && d.position == r.position
    ensures d.speed == r.speed && d.acceleration == r.acceleration && d.orientation == r.orientation
  {
    r.(display := false, collider := None)
  }

  /** Destroying twice is destroying once. */
  lemma DestroyedIdempotent(r: Record)
    ensures Destroyed(Destroyed(r)) == Destroyed(r)
  {
  }

  /** The arena after `destroy()` on each of `ids` in turn: every live object
      listed is destroyed (once or many times alike), the others are untouched. */
  function DestroyedAll(objects: map<Id, Record>, ids: seq<Id>): (r: map<Id, Record>)
    ensures r.Keys == objects.Keys
    ensures forall o :: o in r ==> r[o] == if o in ids then Destroyed(objects[o]) else objects[o]
  {
    if ids == [] then objects
    else
      var before, last := DestroyedAll(objects, ids[..|ids| - 1]), ids[|ids| - 1];
      assert forall o :: o in ids <==> o in ids[..|ids| - 1] || o == last by {
        assert ids == ids[..|ids| - 1] + [last];
      }
      if last in before then
        DestroyedIdempotent(objects[last]);
        before[last := Destroyed(before[last])]
      else before
  }

  /** The live objects among `ids`: the ones `destroy()` marks. */
  function MarkedBy(objects: map<Id, Record>, ids: seq<Id>): (m: set<Id>)
    ensures forall o :: o in m <==> o in ids && o in objects
  {
    set o | o in ids && o in objects
  }

  /** One more `destroy()` call. */
  lemma DestroyedAllStep(objects: map<Id, Record>, ids: seq<Id>, k: nat)
    requires k < |ids|
    ensures var before := DestroyedAll(objects, ids[..k]);
      DestroyedAll(objects, ids[..k + 1]) ==
        if ids[k] in before then before[ids[k] := Destroyed(before[ids[k]])] else before
    ensures MarkedBy(objects, ids[..k + 1]) ==
      MarkedBy(objects, ids[..k]) + if ids[k] in objects then {ids[k]} else {}
  {
    assert ids[..k + 1][..k] == ids[..k];
  }

  /** Outside the newly marked objects, `destroy()` calls change nothing. */
  lemma DestroyedAllKept(objects: map<Id, Record>, marked: set<Id>, ids: seq<Id>)
    ensures Kept(DestroyedAll(objects, ids), objects, marked + MarkedBy(objects, ids))
  {
  }

  /** The user-overridable hooks; each returns the objects it destroys. */
  datatype Hooks = Hooks(
    onCollision: (Id, Id, Vector) -> seq<Id>,
    beforeDestroy: Id -> seq<Id>,
    afterDestroy: Id -> seq<Id>,
    beforeUpdate: Id -> seq<Id>,
    afterUpdate: Id -> seq<Id>)

  /** One hook call, in the order the engine makes them. */
  datatype Event =
    | OnCollision(self: Id, other: Id, point: Vector)
    | BeforeDestroy(id: Id)
    | AfterDestroy(id: Id)
    | BeforeUpdate(id: Id)
    | AfterUpdate(id: Id)

  /** The objects the hook call `e` destroys. */
  function Targets(hooks: Hooks, e: Event): (ts: seq<Id>)
    ensures e.OnCollision? ==> ts == hooks.onCollision(e.self, e.other, e.point)
    ensures e.BeforeUpdate? ==> ts == hooks.beforeUpdate(e.id)
    ensures e.AfterUpdate? ==> ts == hooks.afterUpdate(e.id)
  {
    match e
    case OnCollision(self, other, point) => hooks.onCollision(self, other, point)
    case BeforeDestroy(id) => hooks.beforeDestroy(id)
    case AfterDestroy(id) => hooks.afterDestroy(id)
    case BeforeUpdate(id) => hooks.beforeUpdate(id)
    case AfterUpdate(id) => hooks.afterUpdate(id)
  }

  /** Every object of `live` that some hook call among `events` destroys is in
      `marked`. */
  ghost predicate Honoured(hooks: Hooks, events: seq<Event>, live: set<Id>, marked: set<Id>)
  {
    forall e, t :: e in events && t in Targets(hooks, e) && t in live ==> t in marked
  }

  /** No `onCollision` hook destroys anything. */
  ghost predicate Harmless(hooks: Hooks)
  {
    forall a, b, p :: hooks.onCollision(a, b, p) == []
  }

  lemma HonouredMore(hooks: Hooks, events: seq<Event>, live: set<Id>, m1: set<Id>, m2: set<Id>)
    requires Honoured(hooks, events, live, m1) && m1 <= m2
    ensures Honoured(hooks, events, live, m2)
  {
  }

  lemma HonouredCall(hooks: Hooks, e: Event, objects: map<Id, Record>, m0: set<Id>, marked: set<Id>)
    requires m0 + MarkedBy(objects, Targets(hooks, e)) <= marked
    ensures Honoured(hooks, [e], objects.Keys, marked)
  {
  }

  /** Two stretches of honoured calls make one, and more marks keep them honoured. */
  lemma HonouredJoin(hooks: Hooks, a: seq<Event>, b: seq<Event>, live: set<Id>, m1: set<Id>, m2: set<Id>, marked: set<Id>)
    requires Honoured(hooks, a, live, m1) && Honoured(hooks, b, live, m2)
    requires m1 <= marked && m2 <= marked
    ensures Honoured(hooks, a + b, live, marked)
  {
  }

  /** No `onCollision` call among `events`. */
  predicate NoCollisionCalls(events: seq<Event>)
  {
    forall k :: 0 <= k < |events| ==> !events[k].OnCollision?
  }

  /** Four stretches of calls, none of them a collision call, make one. */
  lemma NoCollisionCallsConcat(a: seq<Event>, b: seq<Event>, c: seq<Event>, d: seq<Event>)
    requires NoCollisionCalls(a) && NoCollisionCalls(b) && NoCollisionCalls(c) && NoCollisionCalls(d)
    ensures NoCollisionCalls(a + b + c + d)
  {
    var s := a + b + c + d;
    forall k | 0 <= k < |s|
      ensures !s[k].OnCollision?
    {
      if k < |a| {
        assert s[k] == a[k];
      } else if k < |a| + |b| {
        assert s[k] == b[k - |a|];
      } else if k < |a| + |b| + |c| {
        assert s[k] == c[k - |a| - |b|];
      } else {
        assert s[k] == d[k - |a| - |b| - |c|];
      }
    }
  }

  /** `std::list::remove(x)`: every occurrence of x goes, the rest keep their order. */
  function Without(s: seq<Id>, x: Id): (r: seq<Id>)
    ensures forall y :: y in r <==> y in s && y != x
    ensures forall y :: y != x ==> multiset(r)[y] == multiset(s)[y]
    ensures x !in s ==> r == s
  {
    if s == [] then []
    else
      assert s == [s[0]] + s[1..];
      if s[0] == x then Without(s[1..], x) else [s[0]] + Without(s[1..], x)
  }

  /** Removal keeps the order of what stays: it works on each part of a list alone. */
  lemma {:induction false} WithoutAppend(s: seq<Id>, t: seq<Id>, x: Id)
    ensures Without(s + t, x) == Without(s, x) + Without(t, x)
  {
    if s != [] {
      assert (s + t)[0] == s[0] && (s + t)[1..] == s[1..] + t;
      WithoutAppend(s[1..], t, x);
    } else {
      assert s + t == t;
    }
  }

  /** A one-entry list loses its entry exactly when it is the removed one. */
  lemma WithoutSingle(y: Id, x: Id)
    ensures Without([y], x) == if y == x then [] else [y]
  {
    assert [y][1..] == [];
  }

  /** The arena after `p.addChild(c)` between two live objects: c's parent is p and
      c is appended to p's children (also when p == c). */
  function Linked(objects: map<Id, Record>, p: Id, c: Id): (r: map<Id, Record>)
    requires p in objects && c in objects
    ensures r.Keys == objects.Keys
    ensures r[c].parent == p && r[p].children == objects[p].children + [c]
    ensures forall o :: o in r && o != p && o != c ==> r[o] == objects[o]
  {
    var withParent := objects[c := objects[c].(parent := p)];
    withParent[p := withParent[p].(children := withParent[p].children + [c])]
  }

  /** The arena after `p.removeChild(c)` between two live objects: c's parent is
      null and every occurrence of c has left p's children. */
  function Unlinked(objects: map<Id, Record>, p: Id, c: Id): (r: map<Id, Record>)
    requires p in objects && c in objects
    ensures r.Keys == objects.Keys
    ensures r[c].parent == 0 && r[p].children == Without(objects[p].children, c)
    ensures forall o :: o in r && o != p && o != c ==> r[o] == objects[o]
  {
    var orphan := objects[c := objects[c].(parent := 0)];
    orphan[p := orphan[p].(children := Without(orphan[p].children, c))]
  }

  /** The hook log of tearing down `ids` in turn: `beforeDestroy` then `afterDestroy`. */
  function TeardownLog(ids: seq<Id>): (log: seq<Event>)
    ensures |log| == 2 * |ids|
    ensures forall k :: 0 <= k < |ids| ==> log[2 * k] == BeforeDestroy(ids[k]) && log[2 * k + 1] == AfterDestroy(ids[k])
  {
    if ids == [] then [] else TeardownLog(ids[..|ids| - 1]) + [BeforeDestroy(ids[|ids| - 1]), AfterDestroy(ids[|ids| - 1])]
  }

  /** Every handle below `nextId` is either live or invalid, never both; null is
      invalid; marked handles were handed out; records are well formed. */
  ghost predicate Registry(objects: map<Id, Record>, invalid: set<Id>, marked: set<Id>, nextId: Id)
  {
    && 0 in invalid && 0 !in objects && nextId > 0
    && (forall id :: id in objects ==> id < nextId && id !in invalid && WellFormedRecord(objects[id]))
    && (forall id :: id in invalid ==> id < nextId)
    && (forall id :: id in marked ==> id < nextId)
    && (forall id :: 0 < id < nextId && id !in objects ==> id in invalid)
  }

  /** Replacing one live record by a well-formed one keeps the registry. */
  lemma UpdateKeepsRegistry(objects: map<Id, Record>, invalid: set<Id>, marked: set<Id>, nextId: Id, o: Id, r: Record)
    requires Registry(objects, invalid, marked, nextId) && o in objects && WellFormedRecord(r)
    ensures Registry(objects[o := r], invalid, marked, nextId)
  {
  }

  /** Tearing a live object down (its record goes, its handle joins `invalid`)
      keeps the registry. */
  lemma RetireKeepsRegistry(objects: map<Id, Record>, invalid: set<Id>, marked: set<Id>, nextId: Id, o: Id)
    requires Registry(objects, invalid, marked, nextId) && o in objects
    ensures Registry(objects - {o}, invalid + {o}, marked, nextId)
  {
  }

  /** Linking two live objects keeps the registry. */
  lemma LinkedKeepsRegistry(objects: map<Id, Record>, invalid: set<Id>, marked: set<Id>, nextId: Id, p: Id, c: Id)
    requires Registry(objects, invalid, marked, nextId) && p in objects && c in objects
    ensures Registry(Linked(objects, p, c), invalid, marked, nextId)
  {
    var withParent := objects[c := objects[c].(parent := p)];
    UpdateKeepsRegistry(objects, invalid, marked, nextId, c, objects[c].(parent := p));
    UpdateKeepsRegistry(withParent, invalid, marked, nextId, p, withParent[p].(children := withParent[p].children + [c]));
  }

  /** Unlinking two live objects keeps the registry. */
  lemma UnlinkedKeepsRegistry(objects: map<Id, Record>, invalid: set<Id>, marked: set<Id>, nextId: Id, p: Id, c: Id)
    requires Registry(objects, invalid, marked, nextId) && p in objects && c in objects
    ensures Registry(Unlinked(objects, p, c), invalid, marked, nextId)
  {
    var orphan := objects[c := objects[c].(parent := 0)];
    UpdateKeepsRegistry(objects, invalid, marked, nextId, c, objects[c].(parent := 0));
    UpdateKeepsRegistry(orphan, invalid, marked, nextId, p, orphan[p].(children := Without(orphan[p].children, c)));
  }

  // ---------------------------------------------------------------- links during a teardown

  /** Children lists and parent fields are as they were, and so are the live objects. */
  ghost predicate SameLinks(after: map<Id, Record>, before: map<Id, Record>)
  {
    && after.Keys == before.Keys
    && forall o :: o in after ==> after[o].children == before[o].children && after[o].parent == before[o].parent
  }

  /** `destroy()` calls leave every link alone. */
  lemma DestroyedAllLinks(objects: map<Id, Record>, ids: seq<Id>)
    ensures SameLinks(DestroyedAll(objects, ids), objects)
  {
  }

  /** The children `obj` destroys when it is torn down: its list once
      `removeParent()` has run, which drops `obj` itself when it is its own parent. */
  function ChildrenAtTeardown(objects: map<Id, Record>, obj: Id): (kids: seq<Id>)
    requires obj in objects
    ensures forall c :: c in kids <==> c in objects[obj].children && (c == obj ==> objects[obj].parent != obj)
  {
    if objects[obj].parent == obj then Without(objects[obj].children, obj) else objects[obj].children
  }

  /** The links after `removeParent()` on `obj`: a live parent no longer lists it
      and its parent field is null; every other list and field is as it was. */
  ghost predicate Unparented(after: map<Id, Record>, before: map<Id, Record>, obj: Id)
    requires obj in before
  {
    var p := before[obj].parent;
    && after.Keys == before.Keys
    && forall o :: o in after ==>
         && after[o].children == (if o == p then Without(before[o].children, obj) else before[o].children)
         && after[o].parent == (if o == obj && p in before then 0 else before[o].parent)
  }

  /** The links after tearing `obj` down, `kids` being the children it destroyed:
      its record is gone, its live parent no longer lists it, and every other list
      and parent field is as it was. */
  ghost predicate TornLinks(after: map<Id, Record>, before: map<Id, Record>, obj: Id, kids: seq<Id>)
    requires obj in before
  {
    var p := before[obj].parent;
    && after.Keys == before.Keys - {obj}
    && kids == ChildrenAtTeardown(before, obj)
    && forall o :: o in after ==>
         && after[o].children == (if o == p then Without(before[o].children, obj) else before[o].children)
         && after[o].parent == before[o].parent
  }

  /** `removeParent()` after some `destroy()` calls: `o1` is the arena after the
      calls, `o2` after `removeParent()`. */
  lemma OrphanLinks(o0: map<Id, Record>, o1: map<Id, Record>, o2: map<Id, Record>, obj: Id)
    requires obj in o0 && SameLinks(o1, o0)
    requires o1[obj].parent in o1 ==> o2 == Unlinked(o1, o1[obj].parent, obj)
    requires o1[obj].parent !in o1 ==> o2 == o1
    ensures Unparented(o2, o0, obj)
  {
  }

  /** The children list of `obj` after the `destroy()` calls on its children and
      `children.clear()`. */
  lemma ClearedLinks(o0: map<Id, Record>, o1: map<Id, Record>, obj: Id)
    requires obj in o0 && SameLinks(o1, o0)
    ensures SameLinks(o1[obj := o1[obj].(children := [])], o0[obj := o0[obj].(children := [])])
  {
  }

  /** The links after the first half of a teardown, `kids` being the children
      destroyed: `obj` has an empty list and, when its parent was live, a null
      parent; that parent no longer lists it; the rest is as it was. */
  ghost predicate Detached(after: map<Id, Record>, before: map<Id, Record>, obj: Id, kids: seq<Id>)
    requires obj in before
  {
    var p := before[obj].parent;
    && after.Keys == before.Keys
    && kids == ChildrenAtTeardown(before, obj)
    && forall o :: o in after ==>
         && after[o].children == (if o == obj then [] else if o == p then Without(before[o].children, obj) else before[o].children)
         && after[o].parent == (if o == obj && p in before then 0 else before[o].parent)
  }

  /** `removeParent()` (`o0` to `o1`), then destroying and clearing the
      children `kids` (`o1` to `o2`). */
  lemma DetachLinks(o0: map<Id, Record>, o1: map<Id, Record>, o2: map<Id, Record>, obj: Id, kids: seq<Id>)
    requires obj in o0 && Unparented(o1, o0, obj)
    requires kids == o1[obj].children
    requires SameLinks(o2, o1[obj := o1[obj].(children := [])])
    ensures Detached(o2, o0, obj, kids)
  {
  }

  /** The whole teardown: the first half (`o0` to `o1`), then deletion and the
      `afterDestroy` calls (`o2`). */
  lemma TeardownLinks(o0: map<Id, Record>, o1: map<Id, Record>, o2: map<Id, Record>, obj: Id, kids: seq<Id>)
    requires obj in o0 && Detached(o1, o0, obj, kids)
    requires SameLinks(o2, o1 - {obj})
    ensures TornLinks(o2, o0, obj, kids)
  {
  }

  /** A list `now` that only lost entries of `was`, and only torn-down ones. */
  ghost predicate Pruned(now: seq<Id>, was: seq<Id>, torn: seq<Id>)
  {
    && (forall c :: c in now ==> c in was)
    && (forall c :: c in was && c !in torn ==> c in now)
  }

  /** What `delayedDestroy` has done to the links since `start`: live objects keep
      their parent fields, their children lists lost only torn-down objects, and
      a torn-down object is no longer listed by the parent it had; `kidsOf[t]`
      is `t`'s list at the start but for torn-down objects. */
  ghost predicate Linkage(objects: map<Id, Record>, start: Snapshot, torn: seq<Id>, kidsOf: map<Id, seq<Id>>)
  {
    && (forall o :: o in objects ==>
          && o in start.objects && objects[o].parent == start.objects[o].parent
          && Pruned(objects[o].children, start.objects[o].children, torn))
    && (forall o, t :: o in objects && t in torn && t in start.objects && start.objects[t].parent == o ==>
          t !in objects[o].children)
    && (forall t :: t in kidsOf ==> t in start.objects && Pruned(kidsOf[t], start.objects[t].children, torn))
  }

  /** A teardown keeps the linkage. */
  lemma LinkageStep(o0: map<Id, Record>, o1: map<Id, Record>, start: Snapshot, torn: seq<Id>,
                    kidsOf: map<Id, seq<Id>>, obj: Id, kids: seq<Id>)
    requires obj in o0 && Linkage(o0, start, torn, kidsOf) && TornLinks(o1, o0, obj, kids)
    ensures Linkage(o1, start, torn + [obj], kidsOf[obj := kids])
  {
    var torn', p := torn + [obj], o0[obj].parent;
    forall o | o in o1
      ensures o in start.objects && o1[o].parent == start.objects[o].parent
      ensures Pruned(o1[o].children, start.objects[o].children, torn')
    {
      assert o in o0;
    }
    forall o, t | o in o1 && t in torn' && t in start.objects && start.objects[t].parent == o
      ensures t !in o1[o].children
    {
      if t == obj {
        assert o == p;
      } else {
        assert t in torn && o in o0;
      }
    }
    forall t | t in kidsOf[obj := kids]
      ensures t in start.objects && Pruned(kidsOf[obj := kids][t], start.objects[t].children, torn')
    {
      if t == obj {
        assert Pruned(o0[obj].children, start.objects[obj].children, torn);
      }
    }
  }

  /** Progress of `delayedDestroy` from the state `start`: `torn` lists the objects
      torn down so far, `kidsOf` the children each of them destroyed, and `pending`
      the objects still marked or still to be visited this round. */
  ghost predicate Tracked(objects: map<Id, Record>, invalid: set<Id>, log: seq<Event>, nextId: Id,
                          start: Snapshot, torn: seq<Id>, kidsOf: map<Id, seq<Id>>, pending: set<Id>)
  {
    && TornLogged(objects, invalid, log, start, torn, kidsOf)
    && Covered(objects, nextId, start, torn, kidsOf, pending)
    && Linkage(objects, start, torn, kidsOf)
  }

  /** The torn-down objects are distinct, were live at the start, are now
      invalid and gone, and each left its two destroy hooks in the log. */
  ghost predicate TornLogged(objects: map<Id, Record>, invalid: set<Id>, log: seq<Event>,
                             start: Snapshot, torn: seq<Id>, kidsOf: map<Id, seq<Id>>)
  {
    && NoDup(torn)
    && (forall o :: o in torn ==> o in start.objects && o in invalid)
    && objects.Keys == start.objects.Keys - (set o | o in torn)
    && invalid == start.invalid + (set o | o in torn)
    && kidsOf.Keys == (set o | o in torn)
    && log == start.log + TeardownLog(torn)
  }

  /** Every object still to be torn down is pending: those marked at the start
      and the children a teardown destroyed; the others kept their records. */
  ghost predicate Covered(objects: map<Id, Record>, nextId: Id,
                          start: Snapshot, torn: seq<Id>, kidsOf: map<Id, seq<Id>>, pending: set<Id>)
  {
    && (forall o :: o in start.marked && o in start.objects ==> o in pending || o in torn)
    && (forall t, c :: t in kidsOf && c in kidsOf[t] ==> c !in objects || c in pending)
    && Kept(objects, start.objects, pending)
    && (forall o :: o in pending ==> o < nextId)
  }

  /** Skipping a pending object that is already gone keeps the progress of
      `delayedDestroy`. */
  lemma TrackedSkip(objects: map<Id, Record>, invalid: set<Id>, log: seq<Event>, nextId: Id,
                    start: Snapshot, torn: seq<Id>, kidsOf: map<Id, seq<Id>>, m: set<Id>, rest: set<Id>, obj: Id)
    requires Tracked(objects, invalid, log, nextId, start, torn, kidsOf, m + rest + {obj})
    requires obj !in objects
    ensures Tracked(objects, invalid, log, nextId, start, torn, kidsOf, m + rest)
  {
    var gone := set t | t in torn;
    assert objects.Keys == start.objects.Keys - gone;
    CoveredSkip(objects, nextId, start, torn, gone, kidsOf, m + rest, obj);
  }

  /** The coverage half of `TrackedSkip`; `gone` is the set of torn-down objects. */
  lemma CoveredSkip(objects: map<Id, Record>, nextId: Id, start: Snapshot, torn: seq<Id>, gone: set<Id>,
                    kidsOf: map<Id, seq<Id>>, pending: set<Id>, obj: Id)
    requires Covered(objects, nextId, start, torn, kidsOf, pending + {obj})
    requires obj !in objects && objects.Keys == start.objects.Keys - gone
    requires forall t :: t in gone ==> t in torn
    ensures Covered(objects, nextId, start, torn, kidsOf, pending)
  {
    forall o | o in objects && o !in pending
      ensures o in start.objects && objects[o] == start.objects[o].(children := objects[o].children)
    {
      assert o !in pending + {obj};
    }
  }

  /** Tearing one more pending live object down keeps the progress of
      `delayedDestroy`: `o0`/`o1` etc. are the states before and after the teardown
      of `obj`, whose destroyed children are `kids`. */
  lemma TrackedTeardown(o0: map<Id, Record>, i0: set<Id>, m0: set<Id>, l0: seq<Event>,
                        o1: map<Id, Record>, i1: set<Id>, m1: set<Id>, l1: seq<Event>, nextId: Id,
                        start: Snapshot, torn: seq<Id>, kidsOf: map<Id, seq<Id>>, rest: set<Id>, obj: Id, kids: seq<Id>)
    requires Tracked(o0, i0, l0, nextId, start, torn, kidsOf, m0 + rest + {obj})
    requires obj in o0
    requires o1.Keys == o0.Keys - {obj} && i1 == i0 + {obj}
    requires m0 <= m1 && (forall o :: o in m1 ==> o < nextId)
    requires forall c :: c in kids && c in o1 ==> c in m1
    requires Kept(o1, o0, m1)
    requires l1 == l0 + [BeforeDestroy(obj), AfterDestroy(obj)]
    requires TornLinks(o1, o0, obj, kids)
    ensures Tracked(o1, i1, l1, nextId, start, torn + [obj], kidsOf[obj := kids], m1 + rest)
  {
    TornLoggedStep(o0, i0, l0, o1, i1, l1, start, torn, kidsOf, obj, kids);
    CoveredStep(o0, m0, o1, m1, nextId, start, torn, kidsOf, rest, obj, kids);
    LinkageStep(o0, o1, start, torn, kidsOf, obj, kids);
  }

  lemma TornLoggedStep(o0: map<Id, Record>, i0: set<Id>, l0: seq<Event>,
                       o1: map<Id, Record>, i1: set<Id>, l1: seq<Event>,
                       start: Snapshot, torn: seq<Id>, kidsOf: map<Id, seq<Id>>, obj: Id, kids: seq<Id>)
    requires TornLogged(o0, i0, l0, start, torn, kidsOf)
    requires obj in o0
    requires o1.Keys == o0.Keys - {obj} && i1 == i0 + {obj}
    requires l1 == l0 + [BeforeDestroy(obj), AfterDestroy(obj)]
    ensures TornLogged(o1, i1, l1, start, torn + [obj], kidsOf[obj := kids])
  {
    assert obj !in torn;
    TornSetsStep(o0, i0, o1, i1, start, torn, kidsOf, obj, kids);
    TornDistinctStep(i0, i1, start, torn, obj);
    TornLogStep(l0, l1, start, torn, obj);
  }

  lemma TornSetsStep(o0: map<Id, Record>, i0: set<Id>, o1: map<Id, Record>, i1: set<Id>,
                     start: Snapshot, torn: seq<Id>, kidsOf: map<Id, seq<Id>>, obj: Id, kids: seq<Id>)
    requires o0.Keys == start.objects.Keys - (set o | o in torn)
    requires i0 == start.invalid + (set o | o in torn)
    requires kidsOf.Keys == (set o | o in torn)
    requires obj in o0
    requires o1.Keys == o0.Keys - {obj} && i1 == i0 + {obj}
    ensures o1.Keys == start.objects.Keys - (set o | o in torn + [obj])
    ensures i1 == start.invalid + (set o | o in torn + [obj])
    ensures kidsOf[obj := kids].Keys == (set o | o in torn + [obj])
  {
    assert (set o | o in torn + [obj]) == (set o | o in torn) + {obj};
  }

  lemma TornDistinctStep(i0: set<Id>, i1: set<Id>, start: Snapshot, torn: seq<Id>, obj: Id)
    requires NoDup(torn) && forall o :: o in torn ==> o in start.objects && o in i0
    requires obj !in torn && obj in start.objects && i1 == i0 + {obj}
    ensures NoDup(torn + [obj]) && forall o :: o in torn + [obj] ==> o in start.objects && o in i1
  {
    forall o | o in torn + [obj]
      ensures o in start.objects && o in i1
    {
      if o != obj {
        assert o in torn;
      }
    }
  }

  lemma TornLogStep(l0: seq<Event>, l1: seq<Event>, start: Snapshot, torn: seq<Id>, obj: Id)
    requires l0 == start.log + TeardownLog(torn)
    requires l1 == l0 + [BeforeDestroy(obj), AfterDestroy(obj)]
    ensures l1 == start.log + TeardownLog(torn + [obj])
  {
    assert (torn + [obj])[..|torn|] == torn;
  }

  lemma CoveredStep(o0: map<Id, Record>, m0: set<Id>, o1: map<Id, Record>, m1: set<Id>, nextId: Id,
                    start: Snapshot, torn: seq<Id>, kidsOf: map<Id, seq<Id>>, rest: set<Id>, obj: Id, kids: seq<Id>)
    requires Covered(o0, nextId, start, torn, kidsOf, m0 + rest + {obj})
    requires o1.Keys == o0.Keys - {obj}
    requires m0 <= m1 && (forall o :: o in m1 ==> o < nextId)
    requires forall c :: c in kids && c in o1 ==> c in m1
    requires Kept(o1, o0, m1)
    ensures Covered(o1, nextId, start, torn + [obj], kidsOf[obj := kids], m1 + rest)
  {
    KeptTrans(start.objects, o0, o1, m0 + rest + {obj}, m1);
    KeptShrink(start.objects, o1, m0 + rest + {obj} + m1, m1 + rest);
  }

  /** With nothing pending, every object that was marked at the start and live has
      been torn down, and so has every child a torn-down object had at the start:
      destruction cascades down the whole subtree. */
  lemma TrackedComplete(objects: map<Id, Record>, invalid: set<Id>, log: seq<Event>, nextId: Id,
                        start: Snapshot, torn: seq<Id>, kidsOf: map<Id, seq<Id>>)
    requires Tracked(objects, invalid, log, nextId, start, torn, kidsOf, {})
    ensures forall o :: o in start.marked && o in start.objects ==> o in torn
    ensures forall t, c :: t in torn && t in start.objects && c in start.objects[t].children ==> c !in objects
    ensures forall o :: o in objects ==> o in start.objects && objects[o] == start.objects[o].(children := objects[o].children)
  {
    forall t, c | t in torn && t in start.objects && c in start.objects[t].children
      ensures c !in objects
    {
      assert t in kidsOf;
      if c !in torn {
        assert c in kidsOf[t];
      }
    }
  }

  /** The parts of the world's state that `delayedDestroy` is measured against. */
  datatype Snapshot = Snapshot(objects: map<Id, Record>, invalid: set<Id>, marked: set<Id>, log: seq<Event>)

  /** Children lists aside, every object of `after` outside `exempt` has the
      record it had in `before`. */
  ghost predicate Kept(after: map<Id, Record>, before: map<Id, Record>, exempt: set<Id>)
  {
    forall o :: o in after && o !in exempt ==> o in before && after[o] == before[o].(children := after[o].children)
  }

  lemma KeptTrans(a: map<Id, Record>, b: map<Id, Record>, c: map<Id, Record>, e1: set<Id>, e2: set<Id>)
    requires Kept(b, a, e1) && Kept(c, b, e2)
    ensures Kept(c, a, e1 + e2)
  {
  }

  /** Exempting fewer objects is fine when the ones dropped are not in `after`
      or are still covered. */
  lemma KeptRetire(after: map<Id, Record>, before: map<Id, Record>, exempt: set<Id>, o: Id)
    requires Kept(after, before, exempt)
    ensures Kept(after - {o}, before, exempt)
  {
  }

  lemma KeptShrink(before: map<Id, Record>, after: map<Id, Record>, e1: set<Id>, e2: set<Id>)
    requires Kept(after, before, e1)
    requires forall o :: o in e1 && o in after ==> o in e2
    ensures Kept(after, before, e2)
  {
  }
}

=== FILE: rectangle_pairs.dfy ===
/** The two out-of-line `Mesh` helpers: closest points of two finite segments
    (`distanceRays`) and the rectangle-rectangle test built on it
    (`collisionRectangles2D`).  Both write out-parameters; here they return them. */
module RectanglePairs {
  import opened Vectors
  import opened Geometry
  import Quaternions

  // ---------------------------------------------------------------- distanceRays

  /** The segment parameters `mua`, `mub` and the two closest points
      `ray_start`, `ray_end`.  The returned distance is the root of
      `Distance2(rayStart, rayEnd)`. */
  datatype SegmentPair = SegmentPair(mua: real, mub: real, rayStart: Vector, rayEnd: Vector)

  /** The branch structure of `distanceRays` on the scalar quantities it computes:
      the squared segment lengths, b = d1.d2, c = d1.(s1 - s2), f = d2.(s1 - s2). */
  function ClosestParameters(size1: real, size2: real, b: real, c: real, f: real): (p: (real, real))
    ensures 0.0 <= p.0 <= 1.0 && 0.0 <= p.1 <= 1.0
    ensures size1 <= EPSILON ==> p.0 == 0.0
    ensures size2 <= EPSILON ==> p.1 == 0.0
  {
    if size1 <= EPSILON then
      if size2 <= EPSILON then (0.0, 0.0)
      else (0.0, Clamp(f / size2, 0.0, 1.0))
    else if size2 <= EPSILON then (Clamp(-c / size1, 0.0, 1.0), 0.0)
    else FinishParameters(size1, size2, b, c, f, FirstParameter(size1, size2, b, c, f))
  }

  /** The general case's first guess `mua`: the first line's parameter of the
      closest points of the two infinite lines, clamped to [0, 1], or 0 when
      the lines are parallel (`denom == 0`). */
  function FirstParameter(size1: real, size2: real, b: real, c: real, f: real): (mua: real)
    ensures 0.0 <= mua <= 1.0
    ensures size1 * size2 == b * b ==> mua == 0.0
  {
    var denom := size1 * size2 - b * b;
    if denom != 0.0 then Clamp((b * f - c * size2) / denom, 0.0, 1.0) else 0.0
  }

  /** The rest of the general case: `mub` from `numer = b mua + f`, and, where
      it falls outside [0, 1], the clamped projection of the second segment's
      start (`numer <= 0`) or end (`numer >= size2`) onto the first segment. */
  function FinishParameters(size1: real, size2: real, b: real, c: real, f: real, mua: real): (p: (real, real))
    requires size1 > 0.0 && size2 > 0.0 && 0.0 <= mua <= 1.0
    ensures 0.0 <= p.0 <= 1.0 && 0.0 <= p.1 <= 1.0
    ensures 0.0 < b * mua + f < size2 ==> p.0 == mua && p.1 * size2 == b * mua + f
  {
    var numer := b * mua + f;
    if numer <= 0.0 then (Clamp(-c / size1, 0.0, 1.0), 0.0)
    else if numer >= size2 then (Clamp((b - c) / size1, 0.0, 1.0), 1.0)
    else
      FractionBounds(numer, size2);
      (mua, numer / size2)
  }

  /** A fraction of a larger positive denominator lies strictly between 0 and 1. */
  lemma FractionBounds(x: real, y: real)
    requires 0.0 < x < y
    ensures 0.0 < x / y < 1.0
  {
    FactorSign(y, x / y);
    FactorSign(y, 1.0 - x / y);
  }

  /** `distanceRays(ray_1_start, ray_1_end, ray_2_start, ray_2_end, ray_start, ray_end)`. */
  function DistanceRays(s1: Vector, e1: Vector, s2: Vector, e2: Vector): (sp: SegmentPair)
    requires |s1| == |e1| == |s2| == |e2|
    ensures 0.0 <= sp.mua <= 1.0 && 0.0 <= sp.mub <= 1.0
    ensures |sp.rayStart| == |s1|
    ensures sp.rayStart == Add(s1, Scale(Sub(e1, s1), sp.mua))
    ensures sp.rayEnd == Add(s2, Scale(Sub(e2, s2), sp.mub))
    ensures Length2(Sub(e1, s1)) <= EPSILON && Length2(Sub(e2, s2)) <= EPSILON ==>
      sp.rayStart == s1 && sp.rayEnd == s2
  {
    var d1, d2, rd := Sub(e1, s1), Sub(e2, s2), Sub(s1, s2);
    var p := ClosestParameters(Length2(d1), Length2(d2), Dot(d1, d2), Dot(d1, rd), Dot(d2, rd));
    AddZeroScale(s1, d1);
    AddZeroScale(s2, d2);
    SegmentPair(p.0, p.1, Add(s1, Scale(d1, p.0)), Add(s2, Scale(d2, p.1)))
  }

  /** When exactly one segment is degenerate, its own start point is used and the
      other segment contributes the clamped projection of that point onto it. */
  lemma DistanceRaysOneDegenerate(s1: Vector, e1: Vector, s2: Vector, e2: Vector)
    requires |s1| == |e1| == |s2| == |e2|
    ensures var sp := DistanceRays(s1, e1, s2, e2);
      Length2(Sub(e1, s1)) <= EPSILON < Length2(Sub(e2, s2)) ==>
        sp.mua == 0.0 && sp.rayStart == s1 &&
        sp.mub == DistanceRayToPoint(s2, e2, s1, false).t &&
        sp.rayEnd == DistanceRayToPoint(s2, e2, s1, false).near
    ensures var sp := DistanceRays(s1, e1, s2, e2);
      Length2(Sub(e2, s2)) <= EPSILON < Length2(Sub(e1, s1)) ==>
        sp.mub == 0.0 && sp.rayEnd == s2 &&
        sp.mua == DistanceRayToPoint(s1, e1, s2, false).t &&
        sp.rayStart == DistanceRayToPoint(s1, e1, s2, false).near
  {
    var d1, d2 := Sub(e1, s1), Sub(e2, s2);
    AddZeroScale(s1, d1);
    AddZeroScale(s2, d2);
    DotSymmetric(d2, Sub(s1, s2));
    DotSymmetric(d1, Sub(s2, s1));
    DotSub(d1, s1, s2);
    DotSub(d1, s2, s1);
  }

  /** Parameters strictly inside (0, 1) come only from the unclamped branch, where
      they solve the two normal equations of the closest-point problem. */
  lemma InteriorParameters(size1: real, size2: real, b: real, c: real, f: real)
    requires size1 > EPSILON && size2 > EPSILON
    requires var p := ClosestParameters(size1, size2, b, c, f); 0.0 < p.0 < 1.0 && 0.0 < p.1 < 1.0
    ensures var p := ClosestParameters(size1, size2, b, c, f);
      p.0 * (size1 * size2 - b * b) == b * f - c * size2 && p.1 * size2 == b * p.0 + f
  {
    var denom := size1 * size2 - b * b;
    var p := ClosestParameters(size1, size2, b, c, f);
    assert denom != 0.0;
    var raw := (b * f - c * size2) / denom;
    assert p.0 == Clamp(raw, 0.0, 1.0);
    assert p.0 == raw;
    var numer := b * p.0 + f;
    assert p.1 == numer / size2;
  }

  /** `mua` and `mub` are the scalar branch structure's parameters. */
  lemma DistanceRaysParameters(s1: Vector, e1: Vector, s2: Vector, e2: Vector)
    requires |s1| == |e1| == |s2| == |e2|
    ensures var sp := DistanceRays(s1, e1, s2, e2);
      var d1, d2, rd := Sub(e1, s1), Sub(e2, s2), Sub(s1, s2);
      var p := ClosestParameters(Length2(d1), Length2(d2), Dot(d1, d2), Dot(d1, rd), Dot(d2, rd));
      sp.mua == p.0 && sp.mub == p.1
  {
  }

  /** Away from the clamps `distanceRays` solves the two normal equations of the
      closest-point problem of the two lines, d1.(P - Q) = 0 and d2.(P - Q) = 0
      with P = s1 + mua d1 and Q = s2 + mub d2.  Written out in the scalars the
      function computes (c = d1.(s1 - s2), f = d2.(s1 - s2), b = d1.d2), so with
      `DistanceRaysParameters` the closest pair of the two lines is returned. */
  lemma InteriorResidualsVanish(size1: real, size2: real, b: real, c: real, f: real)
    requires size1 > EPSILON && size2 > EPSILON
    requires var p := ClosestParameters(size1, size2, b, c, f); 0.0 < p.0 < 1.0 && 0.0 < p.1 < 1.0
    ensures var p := ClosestParameters(size1, size2, b, c, f);
      c + p.0 * size1 - p.1 * b == 0.0 && f + p.0 * b - p.1 * size2 == 0.0
  {
    var p := ClosestParameters(size1, size2, b, c, f);
    InteriorParameters(size1, size2, b, c, f);
    NormalEquations(size1, size2, b, c, f, p.0, p.1);
  }

  /** The scalar step: the normal equations make both residuals vanish. */
  lemma NormalEquations(size1: real, size2: real, b: real, c: real, f: real, mua: real, mub: real)
    requires size2 > 0.0
    requires mua * (size1 * size2 - b * b) == b * f - c * size2 && mub * size2 == b * mua + f
    ensures c + mua * size1 - mub * b == 0.0
    ensures f + mua * b - mub * size2 == 0.0
  {
    var g := c + mua * size1 - mub * b;
    assert size2 * g == c * size2 + mua * (size1 * size2 - b * b) + mua * b * b - b * (mub * size2);
  }

  // ---------------------------------------------------------------- closest pair

  /** |r + s d1 - t d2|^2, the squared distance between the point at `s` on the
      first segment and the point at `t` on the second, as a quadratic in `s` and
      `t` with the dot products g = r.r, a = d1.d1, b = d1.d2, c = d1.r, e = d2.d2
      and f = d2.r, where r = s1 - s2. */
  function PairQuadratic(g: real, a: real, b: real, c: real, e: real, f: real, s: real, t: real): real
  {
    g + s * s * a + t * t * e + 2.0 * s * c - 2.0 * t * f - 2.0 * s * t * b
  }

  /** r + s d1 - t d2, component by component. */
  function Offset(r: Vector, d1: Vector, d2: Vector, s: real, t: real): (w: Vector)
    requires |r| == |d1| == |d2|
    ensures |w| == |r|
  {
    seq(|r|, i requires 0 <= i < |r| => r[i] + s * d1[i] - t * d2[i])
  }

  /** One more component adds its own square to the quadratic. */
  lemma PairQuadraticStep(g: real, a: real, b: real, c: real, e: real, f: real,
                          x: real, y: real, z: real, s: real, t: real)
    ensures PairQuadratic(g + x * x, a + y * y, b + z * y, c + x * y, e + z * z, f + x * z, s, t)
         == PairQuadratic(g, a, b, c, e, f, s, t) + (x + s * y - t * z) * (x + s * y - t * z)
  {
  }

  /** The last component of each vector split off its dot products. */
  lemma OffsetPeel(r: Vector, d1: Vector, d2: Vector, s: real, t: real)
    requires |r| == |d1| == |d2| > 0
    ensures var n, w := |r|, Offset(r, d1, d2, s, t);
      var r', d1', d2' := r[..n - 1], d1[..n - 1], d2[..n - 1];
      var x, y, z := r[n - 1], d1[n - 1], d2[n - 1];
      && Length2(r) == Length2(r') + x * x && Length2(d1) == Length2(d1') + y * y && Length2(d2) == Length2(d2') + z * z
      && Dot(d1, d2) == Dot(d1', d2') + z * y && Dot(d1, r) == Dot(d1', r') + x * y && Dot(d2, r) == Dot(d2', r') + x * z
      && Length2(w) == Length2(w[..n - 1]) + w[n - 1] * w[n - 1] && w[n - 1] == x + s * y - t * z
      && w[..n - 1] == Offset(r', d1', d2', s, t)
  {
    var n, w := |r|, Offset(r, d1, d2, s, t);
    var r', d1', d2' := r[..n - 1], d1[..n - 1], d2[..n - 1];
    forall i | 0 <= i < n - 1
      ensures w[i] == Offset(r', d1', d2', s, t)[i]
    {
    }
  }

  lemma {:induction false} OffsetLength2(r: Vector, d1: Vector, d2: Vector, s: real, t: real)
    requires |r| == |d1| == |d2|
    ensures Length2(Offset(r, d1, d2, s, t))
         == PairQuadratic(Length2(r), Length2(d1), Dot(d1, d2), Dot(d1, r), Length2(d2), Dot(d2, r), s, t)
  {
    if r != [] {
      var n := |r|;
      var r', d1', d2' := r[..n - 1], d1[..n - 1], d2[..n - 1];
      var w := Offset(r, d1, d2, s, t);
      OffsetPeel(r, d1, d2, s, t);
      OffsetLength2(r', d1', d2', s, t);
      PairQuadraticStep(Length2(r'), Length2(d1'), Dot(d1', d2'), Dot(d1', r'), Length2(d2'), Dot(d2', r'),
                        r[n - 1], d1[n - 1], d2[n - 1], s, t);
    } else {
      assert PairQuadratic(0.0, 0.0, 0.0, 0.0, 0.0, 0.0, s, t) == 0.0;
    }
  }

  /** The squared distance between the points at `s` and `t` of the two segments. */
  lemma SegmentsDistance2(s1: Vector, e1: Vector, s2: Vector, e2: Vector, s: real, t: real)
    requires |s1| == |e1| == |s2| == |e2|
    ensures var d1, d2, r := Sub(e1, s1), Sub(e2, s2), Sub(s1, s2);
      Distance2(Add(s1, Scale(d1, s)), Add(s2, Scale(d2, t)))
        == PairQuadratic(Length2(r), Length2(d1), Dot(d1, d2), Dot(d1, r), Length2(d2), Dot(d2, r), s, t)
  {
    var d1, d2, r := Sub(e1, s1), Sub(e2, s2), Sub(s1, s2);
    var p, q := Add(s1, Scale(d1, s)), Add(s2, Scale(d2, t));
    assert Sub(p, q) == Offset(r, d1, d2, s, t);
    Distance2Properties(p, q);
    OffsetLength2(r, d1, d2, s, t);
  }

  /** The quadratic form of two directions alone is never negative, so
      b^2 <= a e (the Cauchy-Schwarz inequality). */
  lemma GramForm(d1: Vector, d2: Vector, ds: real, dt: real)
    requires |d1| == |d2|
    ensures var a, b, e := Length2(d1), Dot(d1, d2), Length2(d2);
      PairQuadratic(0.0, a, b, 0.0, e, 0.0, ds, dt) >= 0.0 && (a > 0.0 ==> b * b <= a * e)
  {
    var a, b, e := Length2(d1), Dot(d1, d2), Length2(d2);
    var o := Zero(|d1|);
    DotAxis(d1, |d1|);
    DotAxis(d2, |d1|);
    DotAxis(o, |d1|);
    OffsetLength2(o, d1, d2, ds, dt);
    Length2NonNegative(Offset(o, d1, d2, ds, dt));
    OffsetLength2(o, d1, d2, b, a);
    Length2NonNegative(Offset(o, d1, d2, b, a));
    FormAtGram(a, b, e);
    if a > 0.0 {
      PositiveFactor(a, a * e - b * b);
    }
  }

  /** The pair quadratic is a squared distance, so it is never negative. */
  lemma PairQuadraticNonNegative(r: Vector, d1: Vector, d2: Vector, s: real, t: real)
    requires |r| == |d1| == |d2|
    ensures PairQuadratic(Length2(r), Length2(d1), Dot(d1, d2), Dot(d1, r), Length2(d2), Dot(d2, r), s, t) >= 0.0
  {
    OffsetLength2(r, d1, d2, s, t);
    Length2NonNegative(Offset(r, d1, d2, s, t));
  }

  /** For parallel directions (a e == b^2) a quadratic that is never negative
      has its offset projecting onto them in proportion: a f == b c.  Otherwise
      it would fall without bound along (b, a). */
  lemma ParallelProportional(g: real, a: real, b: real, c: real, e: real, f: real)
    requires a * e == b * b
    requires forall s, t :: PairQuadratic(g, a, b, c, e, f, s, t) >= 0.0
    ensures a * f == b * c
  {
    if a * f != b * c {
      var k := -(g + 1.0) / (2.0 * (b * c - a * f));
      AlongParallel(g, a, b, c, e, f, k);
      assert false;
    }
  }

  /** The form at (b, a) is a (a e - b^2). */
  lemma FormAtGram(a: real, b: real, e: real)
    ensures PairQuadratic(0.0, a, b, 0.0, e, 0.0, b, a) == a * (a * e - b * b)
  {
  }

  /** Along the direction (b, a) the quadratic of parallel directions is
      linear, with slope 2 (b c - a f): unless that slope is 0, it reaches -1. */
  lemma AlongParallel(g: real, a: real, b: real, c: real, e: real, f: real, k: real)
    requires a * e == b * b && a * f != b * c && k == -(g + 1.0) / (2.0 * (b * c - a * f))
    ensures PairQuadratic(g, a, b, c, e, f, k * b, k * a) == -1.0
  {
    assert PairQuadratic(g, a, b, c, e, f, k * b, k * a) == g + k * k * (a * (a * e - b * b)) + 2.0 * k * (b * c - a * f);
    assert 2.0 * k * (b * c - a * f) == -(g + 1.0);
  }

  /** A non-negative multiple of a positive number has a non-negative factor. */
  lemma PositiveFactor(a: real, x: real)
    requires a > 0.0 && a * x >= 0.0
    ensures x >= 0.0
  {
  }

  /** The first-order conditions for the least value of the pair quadratic over
      the unit square: in each parameter the slope at the chosen point vanishes,
      or points out of the square at the edge the point sits on. */
  ghost predicate BoxStationary(a: real, b: real, c: real, e: real, f: real, mua: real, mub: real)
  {
    var gs := c + mua * a - mub * b;
    var gt := f + mua * b - mub * e;
    && 0.0 <= mua <= 1.0 && 0.0 <= mub <= 1.0
    && (mua > 0.0 ==> gs <= 0.0) && (mua < 1.0 ==> gs >= 0.0)
    && (mub > 0.0 ==> gt >= 0.0) && (mub < 1.0 ==> gt <= 0.0)
  }

  /** The pair quadratic around (m, n): its value there, the two slopes times
      the displacement, and the quadratic form of the displacement. */
  lemma PairQuadraticShift(g: real, a: real, b: real, c: real, e: real, f: real, m: real, n: real, ds: real, dt: real)
    ensures PairQuadratic(g, a, b, c, e, f, m + ds, n + dt)
         == PairQuadratic(g, a, b, c, e, f, m, n) + 2.0 * (ds * (c + m * a - n * b)) - 2.0 * (dt * (f + m * b - n * e))
            + PairQuadratic(0.0, a, b, 0.0, e, 0.0, ds, dt)
  {
    assert (m + ds) * (m + ds) * a == m * m * a + 2.0 * m * ds * a + ds * ds * a;
    assert (n + dt) * (n + dt) * e == n * n * e + 2.0 * n * dt * e + dt * dt * e;
    assert (m + ds) * (n + dt) * b == m * n * b + m * dt * b + ds * n * b + ds * dt * b;
  }

  /** A stationary point of a quadratic whose form is never negative is its
      least value over the square. */
  lemma StationaryIsMinimal(g: real, a: real, b: real, c: real, e: real, f: real, mua: real, mub: real, s: real, t: real)
    requires BoxStationary(a, b, c, e, f, mua, mub)
    requires PairQuadratic(0.0, a, b, 0.0, e, 0.0, s - mua, t - mub) >= 0.0
    requires 0.0 <= s <= 1.0 && 0.0 <= t <= 1.0
    ensures PairQuadratic(g, a, b, c, e, f, mua, mub) <= PairQuadratic(g, a, b, c, e, f, s, t)
  {
    var ds, dt := s - mua, t - mub;
    var gs, gt := c + mua * a - mub * b, f + mua * b - mub * e;
    PairQuadraticShift(g, a, b, c, e, f, mua, mub, ds, dt);
    assert mua + ds == s && mub + dt == t;
    ProductSigns(ds, gs);
    ProductSigns(dt, gt);
  }

  /** A linear function of one parameter that is below (above) a bound at two
      points stays below (above) it between them. */
  lemma LinearBetween(b: real, f: real, x: real, y: real, z: real)
    requires x <= z <= y || y <= z <= x
    ensures b * x + f <= 0.0 && b * y + f <= 0.0 ==> b * z + f <= 0.0
    ensures b * x + f >= 0.0 && b * y + f >= 0.0 ==> b * z + f >= 0.0
  {
    if x <= z <= y {
      if b >= 0.0 {
        assert b * (z - x) >= 0.0 && b * (y - z) >= 0.0;
      } else {
        assert b * (z - x) <= 0.0 && b * (y - z) <= 0.0;
      }
    } else {
      if b >= 0.0 {
        assert b * (z - y) >= 0.0 && b * (x - z) >= 0.0;
      } else {
        assert b * (z - y) <= 0.0 && b * (x - z) <= 0.0;
      }
    }
  }

  /** Clamping into [0, 1] lands between the clamped value and any point of [0, 1]. */
  lemma ClampBetween(x: real, m: real)
    requires 0.0 <= m <= 1.0
    ensures var z := Clamp(x, 0.0, 1.0); m <= z <= x || x <= z <= m
  {
  }

  /** The first guess `mua` of the general branch: the s of the closest pair of
      the two lines, clamped into [0, 1], or 0 for parallel lines. */
  ghost predicate FirstGuess(a: real, b: real, c: real, e: real, f: real, m: real)
  {
    var denom := a * e - b * b;
    var k := b * f - c * e;
    || (denom == 0.0 && m == 0.0)
    || (denom > 0.0 && ((m == 0.0 && k < 0.0) || (m == 1.0 && k > denom) || (0.0 <= m <= 1.0 && m * denom == k)))
  }

  /** The signs of a product from the signs of its factors. */
  lemma ProductSigns(x: real, y: real)
    ensures x > 0.0 && y > 0.0 ==> x * y > 0.0
    ensures x > 0.0 && y < 0.0 ==> x * y < 0.0
    ensures x < 0.0 && y > 0.0 ==> x * y < 0.0
    ensures x >= 0.0 && y >= 0.0 ==> x * y >= 0.0
    ensures x <= 0.0 && y >= 0.0 ==> x * y <= 0.0
    ensures x >= 0.0 && y <= 0.0 ==> x * y <= 0.0
  {
  }

  /** The sign of x from that of a x, for a positive a. */
  lemma FactorSign(a: real, x: real)
    requires a > 0.0
    ensures a * x >= 0.0 ==> x >= 0.0
    ensures a * x <= 0.0 ==> x <= 0.0
  {
  }

  /** Identities between the scalars of the general branch, with
      denom = a e - b^2, k = b f - c e (so that the lines' closest s is k / denom)
      and a f - b c (denom times the lines' closest t). */
  lemma BranchIdentities(a: real, b: real, c: real, e: real, f: real)
    ensures a * (b * f - c * e) + c * (a * e - b * b) == b * (a * f - b * c)
    ensures a * (b * f - c * e) - (a * e - b * b) * (b - c) == b * (a * f - b * c - (a * e - b * b))
    ensures a * (c * e - b * f) == c * (a * e - b * b) - b * (a * f - b * c)
  {
  }

  /** At the lines' closest s, the second parameter's numerator is e times
      the lines' closest t. */
  lemma GuessNumerator(a: real, b: real, c: real, e: real, f: real, m: real)
    requires m * (a * e - b * b) == b * f - c * e
    ensures (b * m + f) * (a * e - b * b) == e * (a * f - b * c)
  {
    assert (b * m + f) * (a * e - b * b) == b * (m * (a * e - b * b)) + f * (a * e - b * b);
  }

  /** The first parameter clamped from the projection s0 (with s0 a == -c) has
      the slope c + mua a of an edge point that cannot be improved along the edge. */
  lemma ClampSlope(a: real, c: real, s0: real)
    requires a > 0.0 && s0 * a == -c
    ensures var z := Clamp(s0, 0.0, 1.0); (z > 0.0 ==> c + z * a <= 0.0) && (z < 1.0 ==> c + z * a >= 0.0)
  {
    if s0 < 0.0 {
      ProductSigns(s0, a);
    } else if s0 > 1.0 {
      ProductSigns(s0 - 1.0, a);
      assert (s0 - 1.0) * a == s0 * a - a;
    }
  }

  /** When the lines' closest t is not positive, the projection of the second
      segment's start keeps the second parameter from growing. */
  lemma StartProjectionSide(a: real, b: real, c: real, f: real, m: real, s0: real)
    requires a > 0.0 && a * f - b * c <= 0.0 && s0 * a == -c
    requires 0.0 <= m <= 1.0 && b * m + f <= 0.0
    ensures b * Clamp(s0, 0.0, 1.0) + f <= 0.0
  {
    assert a * (b * s0 + f) == b * (s0 * a) + a * f;
    FactorSign(a, b * s0 + f);
    ClampBetween(s0, m);
    LinearBetween(b, f, m, s0, Clamp(s0, 0.0, 1.0));
  }

  /** When the first guess is clamped up to 0 and the projection of the second
      segment's start lies past it, the segments slope towards each other. */
  lemma StartGuessLow(a: real, b: real, c: real, e: real, f: real, s0: real)
    requires a > 0.0 && a * e - b * b > 0.0 && a * f - b * c > 0.0
    requires b * f - c * e < 0.0 && s0 * a == -c && s0 > 0.0
    ensures b < 0.0
  {
    BranchIdentities(a, b, c, e, f);
    ProductSigns(a, b * f - c * e);
    ProductSigns(s0, a);
    ProductSigns(c, a * e - b * b);
    ProductSigns(b, a * f - b * c);
  }

  /** When the first guess is clamped down to 1 and the projection of the
      second segment's start lies before it, the segments slope apart. */
  lemma StartGuessHigh(a: real, b: real, c: real, e: real, f: real, s0: real)
    requires a > 0.0 && a * e - b * b > 0.0 && a * f - b * c > 0.0
    requires b * f - c * e > a * e - b * b && s0 * a == -c && s0 < 1.0
    ensures b > 0.0
  {
    var d, k := a * e - b * b, b * f - c * e;
    BranchIdentities(a, b, c, e, f);
    ProductSigns(a, k - d);
    assert (1.0 - s0) * a == a + c;
    ProductSigns(1.0 - s0, a);
    ProductSigns(a + c, d);
    assert a * k + c * d == a * (k - d) + (a + c) * d;
    ProductSigns(b, a * f - b * c);
  }

  /** An unclamped first guess has a positive numerator when the lines'
      closest t is positive. */
  lemma StartGuessExact(a: real, b: real, c: real, e: real, f: real, m: real)
    requires e > 0.0 && a * e - b * b > 0.0 && a * f - b * c > 0.0
    requires m * (a * e - b * b) == b * f - c * e
    ensures b * m + f > 0.0
  {
    GuessNumerator(a, b, c, e, f, m);
    ProductSigns(e, a * f - b * c);
    FactorSign(a * e - b * b, b * m + f);
  }

  /** The general branch when `numer <= 0`: at the clamped projection of the
      second segment's start, the second parameter cannot grow. */
  lemma StartEdgeSlope(a: real, b: real, c: real, e: real, f: real, m: real, s0: real)
    requires a > 0.0 && e > 0.0 && b * b <= a * e && (a * e == b * b ==> a * f == b * c)
    requires FirstGuess(a, b, c, e, f, m) && b * m + f <= 0.0 && s0 * a == -c
    ensures b * Clamp(s0, 0.0, 1.0) + f <= 0.0
  {
    var d, k, t0 := a * e - b * b, b * f - c * e, a * f - b * c;
    if d == 0.0 || t0 <= 0.0 {
      StartProjectionSide(a, b, c, f, m, s0);
    } else if m * d == k && 0.0 <= m <= 1.0 {
      StartGuessExact(a, b, c, e, f, m);
      assert false;
    } else if m == 0.0 {
      if s0 > 0.0 {
        StartGuessLow(a, b, c, e, f, s0);
        ProductSigns(b, Clamp(s0, 0.0, 1.0));
      }
    } else {
      if s0 < 1.0 {
        StartGuessHigh(a, b, c, e, f, s0);
        ProductSigns(b, 1.0 - Clamp(s0, 0.0, 1.0));
      }
    }
  }

  /** When the lines' closest t is not below 1, the projection of the second
      segment's end keeps the second parameter from shrinking. */
  lemma EndProjectionSide(a: real, b: real, c: real, e: real, f: real, m: real, s1: real)
    requires a > 0.0 && a * f - b * c - (a * e - b * b) >= 0.0 && s1 * a == b - c
    requires 0.0 <= m <= 1.0 && b * m + (f - e) >= 0.0
    ensures b * Clamp(s1, 0.0, 1.0) + (f - e) >= 0.0
  {
    assert a * (b * s1 + (f - e)) == b * (s1 * a) + a * f - a * e;
    FactorSign(a, b * s1 + (f - e));
    ClampBetween(s1, m);
    LinearBetween(b, f - e, m, s1, Clamp(s1, 0.0, 1.0));
  }

  /** When the first guess is clamped up to 0 and the projection of the second
      segment's end lies past it, the segments slope apart. */
  lemma EndGuessLow(a: real, b: real, c: real, e: real, f: real, s1: real)
    requires a > 0.0 && a * e - b * b > 0.0 && a * f - b * c - (a * e - b * b) < 0.0
    requires b * f - c * e < 0.0 && s1 * a == b - c && s1 > 0.0
    ensures b > 0.0
  {
    BranchIdentities(a, b, c, e, f);
    ProductSigns(a, b * f - c * e);
    ProductSigns(s1, a);
    ProductSigns(a * e - b * b, b - c);
    ProductSigns(b, a * f - b * c - (a * e - b * b));
  }

  /** When the first guess is clamped down to 1 and the projection of the
      second segment's end lies before it, the segments slope towards each
      other. */
  lemma EndGuessHigh(a: real, b: real, c: real, e: real, f: real, s1: real)
    requires a > 0.0 && a * e - b * b > 0.0 && a * f - b * c - (a * e - b * b) < 0.0
    requires b * f - c * e > a * e - b * b && s1 * a == b - c && s1 < 1.0
    ensures b < 0.0
  {
    var d, k := a * e - b * b, b * f - c * e;
    BranchIdentities(a, b, c, e, f);
    ProductSigns(a, k - d);
    assert (1.0 - s1) * a == a - (b - c);
    ProductSigns(1.0 - s1, a);
    ProductSigns(d, a - (b - c));
    assert a * k - d * (b - c) == a * (k - d) + d * (a - (b - c));
    ProductSigns(b, a * f - b * c - d);
  }

  /** An unclamped first guess has a numerator below e when the lines'
      closest t is below 1. */
  lemma EndGuessExact(a: real, b: real, c: real, e: real, f: real, m: real)
    requires e > 0.0 && a * e - b * b > 0.0 && a * f - b * c - (a * e - b * b) < 0.0
    requires m * (a * e - b * b) == b * f - c * e
    ensures b * m + f < e
  {
    var d := a * e - b * b;
    GuessNumerator(a, b, c, e, f, m);
    assert (b * m + f - e) * d == e * (a * f - b * c - d);
    ProductSigns(e, a * f - b * c - d);
    FactorSign(d, b * m + f - e);
  }

  /** A line b x + g, non-negative at the end m of the unit interval, stays so
      at the clamp of x when it slopes away from m towards x. */
  lemma SlopeFromEnd(b: real, g: real, m: real, x: real)
    requires m == 0.0 || m == 1.0
    requires b * m + g >= 0.0
    requires m == 0.0 && x > 0.0 ==> b > 0.0
    requires m == 1.0 && x < 1.0 ==> b < 0.0
    ensures b * Clamp(x, 0.0, 1.0) + g >= 0.0
  {
    var z := Clamp(x, 0.0, 1.0);
    if m == 0.0 && x > 0.0 {
      ProductSigns(b, z);
    } else if m == 1.0 && x < 1.0 {
      ProductSigns(b, 1.0 - z);
      assert b * z == b - b * (1.0 - z);
    }
  }

  /** The general branch when `numer >= ray_2_size2`: at the clamped projection
      of the second segment's end, the second parameter cannot shrink. */
  lemma EndEdgeSlope(a: real, b: real, c: real, e: real, f: real, m: real, s1: real)
    requires a > 0.0 && e > 0.0 && b * b <= a * e && (a * e == b * b ==> a * f == b * c)
    requires FirstGuess(a, b, c, e, f, m) && b * m + f >= e && s1 * a == b - c
    ensures b * Clamp(s1, 0.0, 1.0) + (f - e) >= 0.0
  {
    var d, k, t1 := a * e - b * b, b * f - c * e, a * f - b * c - (a * e - b * b);
    if d == 0.0 || t1 >= 0.0 {
      EndProjectionSide(a, b, c, e, f, m, s1);
    } else if m * d == k && 0.0 <= m <= 1.0 {
      EndGuessExact(a, b, c, e, f, m);
      assert false;
    } else if m == 0.0 {
      if s1 > 0.0 {
        EndGuessLow(a, b, c, e, f, s1);
      }
      SlopeFromEnd(b, f - e, 0.0, s1);
    } else {
      if s1 < 1.0 {
        EndGuessHigh(a, b, c, e, f, s1);
      }
      SlopeFromEnd(b, f - e, 1.0, s1);
    }
  }

  /** With the second parameter at the projection of the first guess, e times
      the first parameter's slope is denom m - k. */
  lemma InteriorSlope(a: real, b: real, c: real, e: real, f: real, m: real, mub: real)
    requires mub * e == b * m + f
    ensures e * (c + m * a - mub * b) == (a * e - b * b) * m - (b * f - c * e)
  {
    assert e * (c + m * a - mub * b) == c * e + m * (a * e) - b * (mub * e);
  }

  /** For parallel segments the lines' closest s is undetermined: k is 0. */
  lemma ParallelNumerator(a: real, b: real, c: real, e: real, f: real)
    requires a > 0.0 && a * e == b * b && a * f == b * c
    ensures b * f - c * e == 0.0
  {
    BranchIdentities(a, b, c, e, f);
    FactorSign(a, c * e - b * f);
  }

  /** The sign conditions on the first parameter's slope g, from e g == d m - k
      and the case of the first guess. */
  lemma InteriorSign(d: real, k: real, e: real, g: real, m: real)
    requires e > 0.0 && e * g == d * m - k
    requires (d == 0.0 && k == 0.0 && m == 0.0)
      || (d > 0.0 && ((m == 0.0 && k < 0.0) || (m == 1.0 && k > d) || (0.0 <= m <= 1.0 && m * d == k)))
    ensures (m > 0.0 ==> g <= 0.0) && (m < 1.0 ==> g >= 0.0)
  {
    FactorSign(e, g);
  }

  /** The general branch with `numer` strictly between 0 and `ray_2_size2`:
      the first guess cannot be improved once the second point is its
      projection. */
  lemma InteriorStationary(a: real, b: real, c: real, e: real, f: real, m: real, mub: real)
    requires a > 0.0 && e > 0.0 && b * b <= a * e && (a * e == b * b ==> a * f == b * c)
    requires FirstGuess(a, b, c, e, f, m) && 0.0 < b * m + f < e && mub * e == b * m + f
    ensures BoxStationary(a, b, c, e, f, m, mub)
  {
    var d, k := a * e - b * b, b * f - c * e;
    InteriorSlope(a, b, c, e, f, m, mub);
    if d == 0.0 {
      ParallelNumerator(a, b, c, e, f);
    }
    InteriorSign(d, k, e, c + m * a - mub * b, m);
    FactorSign(e, mub);
    FactorSign(e, 1.0 - mub);
  }

  /** The branch `numer <= 0` of the general case stops at a stationary point. */
  lemma StartEdgeStationary(a: real, b: real, c: real, e: real, f: real, m: real)
    requires a > 0.0 && e > 0.0 && b * b <= a * e && (a * e == b * b ==> a * f == b * c)
    requires FirstGuess(a, b, c, e, f, m) && b * m + f <= 0.0
    ensures BoxStationary(a, b, c, e, f, Clamp(-c / a, 0.0, 1.0), 0.0)
  {
    var s0 := -c / a;
    StartEdgeSlope(a, b, c, e, f, m, s0);
    ClampSlope(a, c, s0);
  }

  /** The branch `numer >= ray_2_size2` of the general case stops at a
      stationary point. */
  lemma EndEdgeStationary(a: real, b: real, c: real, e: real, f: real, m: real)
    requires a > 0.0 && e > 0.0 && b * b <= a * e && (a * e == b * b ==> a * f == b * c)
    requires FirstGuess(a, b, c, e, f, m) && b * m + f >= e
    ensures BoxStationary(a, b, c, e, f, Clamp((b - c) / a, 0.0, 1.0), 1.0)
  {
    var s1 := (b - c) / a;
    EndEdgeSlope(a, b, c, e, f, m, s1);
    ClampSlope(a, c - b, s1);
  }

  /** Whatever branch the general case takes after a first guess m, it stops
      at a stationary point. */
  lemma GeneralStationary(a: real, b: real, c: real, e: real, f: real, m: real)
    requires a > 0.0 && e > 0.0 && b * b <= a * e && (a * e == b * b ==> a * f == b * c)
    requires FirstGuess(a, b, c, e, f, m)
    ensures var p := FinishParameters(a, e, b, c, f, m); BoxStationary(a, b, c, e, f, p.0, p.1)
  {
    var numer := b * m + f;
    if numer <= 0.0 {
      StartEdgeStationary(a, b, c, e, f, m);
    } else if numer >= e {
      EndEdgeStationary(a, b, c, e, f, m);
    } else {
      InteriorStationary(a, b, c, e, f, m, numer / e);
    }
  }

  /** The first guess of `distanceRays` is one of the cases of `FirstGuess`. */
  lemma FirstGuessHolds(a: real, b: real, c: real, e: real, f: real)
    requires b * b <= a * e
    ensures FirstGuess(a, b, c, e, f, FirstParameter(a, e, b, c, f))
  {
    var d, k := a * e - b * b, b * f - c * e;
    if d != 0.0 {
      var raw := k / d;
      assert raw * d == k;
      if raw < 0.0 {
        ProductSigns(raw, d);
      } else if raw > 1.0 {
        ProductSigns(raw - 1.0, d);
        assert (raw - 1.0) * d == k - d;
      }
    }
  }

  /** Away from the degenerate branches, the parameters `distanceRays` picks
      satisfy the first-order conditions over the unit square. */
  lemma ClosestParametersStationary(size1: real, size2: real, b: real, c: real, f: real)
    requires size1 > EPSILON && size2 > EPSILON && b * b <= size1 * size2
    requires size1 * size2 == b * b ==> size1 * f == b * c
    ensures var p := ClosestParameters(size1, size2, b, c, f); BoxStationary(size1, b, c, size2, f, p.0, p.1)
  {
    FirstGuessHolds(size1, b, c, size2, f);
    GeneralStationary(size1, b, c, size2, f, FirstParameter(size1, size2, b, c, f));
  }

  /** What the general case needs of its scalars: both segments are longer
      than `EPSILON`, the Cauchy-Schwarz bound b^2 <= a e holds, and parallel
      directions see the start offset in proportion (a f == b c). */
  ghost predicate Admissible(a: real, b: real, c: real, e: real, f: real)
  {
    a > EPSILON && e > EPSILON && b * b <= a * e && (a * e == b * b ==> a * f == b * c)
  }

  /** The squared distance of two segment points is never negative, whatever
      the parameters. */
  lemma PairQuadraticEverywhere(r: Vector, d1: Vector, d2: Vector)
    requires |r| == |d1| == |d2|
    ensures forall s, t :: PairQuadratic(Length2(r), Length2(d1), Dot(d1, d2), Dot(d1, r), Length2(d2), Dot(d2, r), s, t) >= 0.0
  {
    forall s, t ensures PairQuadratic(Length2(r), Length2(d1), Dot(d1, d2), Dot(d1, r), Length2(d2), Dot(d2, r), s, t) >= 0.0 {
      PairQuadraticNonNegative(r, d1, d2, s, t);
    }
  }

  /** The scalars of two segments longer than `EPSILON` are admissible. */
  lemma SegmentsAdmissible(r: Vector, d1: Vector, d2: Vector)
    requires |r| == |d1| == |d2|
    requires Length2(d1) > EPSILON && Length2(d2) > EPSILON
    ensures Admissible(Length2(d1), Dot(d1, d2), Dot(d1, r), Length2(d2), Dot(d2, r))
  {
    GramForm(d1, d2, 0.0, 0.0);
    PairQuadraticEverywhere(r, d1, d2);
    ScalarsAdmissible(Length2(r), Length2(d1), Dot(d1, d2), Dot(d1, r), Length2(d2), Dot(d2, r));
  }

  /** The scalar step of `SegmentsAdmissible`. */
  lemma ScalarsAdmissible(g: real, a: real, b: real, c: real, e: real, f: real)
    requires a > EPSILON && e > EPSILON && (a > 0.0 ==> b * b <= a * e)
    requires forall s, t :: PairQuadratic(g, a, b, c, e, f, s, t) >= 0.0
    ensures Admissible(a, b, c, e, f)
  {
    if a * e == b * b {
      ParallelProportional(g, a, b, c, e, f);
    }
  }

  /** The general case's parameters minimise the pair quadratic over the unit
      square. */
  lemma ClosestParametersMinimal(g: real, a: real, b: real, c: real, e: real, f: real, s: real, t: real)
    requires Admissible(a, b, c, e, f)
    requires 0.0 <= s <= 1.0 && 0.0 <= t <= 1.0
    requires var p := ClosestParameters(a, e, b, c, f);
      PairQuadratic(0.0, a, b, 0.0, e, 0.0, s - p.0, t - p.1) >= 0.0
    ensures var p := ClosestParameters(a, e, b, c, f);
      PairQuadratic(g, a, b, c, e, f, p.0, p.1) <= PairQuadratic(g, a, b, c, e, f, s, t)
  {
    var p := ClosestParameters(a, e, b, c, f);
    ClosestParametersStationary(a, e, b, c, f);
    StationaryIsMinimal(g, a, b, c, e, f, p.0, p.1, s, t);
  }

  /** When neither segment is degenerate, `ray_start` and `ray_end` are a closest
      pair of the two segments: no point of the first segment is nearer to any
      point of the second. */
  lemma DistanceRaysClosest(s1: Vector, e1: Vector, s2: Vector, e2: Vector, s: real, t: real)
    requires |s1| == |e1| == |s2| == |e2|
    requires Length2(Sub(e1, s1)) > EPSILON && Length2(Sub(e2, s2)) > EPSILON
    requires 0.0 <= s <= 1.0 && 0.0 <= t <= 1.0
    ensures var sp := DistanceRays(s1, e1, s2, e2);
      Distance2(sp.rayStart, sp.rayEnd) <= Distance2(Add(s1, Scale(Sub(e1, s1), s)), Add(s2, Scale(Sub(e2, s2), t)))
  {
    var sp := DistanceRays(s1, e1, s2, e2);
    var d1, d2, r := Sub(e1, s1), Sub(e2, s2), Sub(s1, s2);
    DistanceRaysParameters(s1, e1, s2, e2);
    SegmentsDistance2(s1, e1, s2, e2, s, t);
    SegmentsDistance2(s1, e1, s2, e2, sp.mua, sp.mub);
    GramForm(d1, d2, s - sp.mua, t - sp.mub);
    SegmentsAdmissible(r, d1, d2);
    ClosestParametersMinimal(Length2(r), Length2(d1), Dot(d1, d2), Dot(d1, r), Length2(d2), Dot(d2, r), s, t);
  }

  // ---------------------------------------------------------------- collisionRectangles2D

  /** The four corners of a rectangle in the engine's order. */
  datatype Corners = Corners(tl: Vector, bl: Vector, br: Vector, tr: Vector)

  predicate Planar(r: Corners)
  {
    |r.tl| == 3 && |r.bl| == 3 && |r.br| == 3 && |r.tr| == 3
  }

  function Edges(r: Corners): (edges: seq<Edge>)
    ensures |edges| == 4
  {
    EdgesRectangle2D(r.tl, r.bl, r.br, r.tr)
  }

  predicate Edges3(edges: seq<Edge>)
  {
    forall k :: 0 <= k < |edges| ==> |edges[k].from| == 3 && |edges[k].to| == 3
  }

  /** The sixteen `distanceRays` calls of the two nested edge loops, in loop order:
      call 4 * i + j pairs edge i of rect_1 with edge j of rect_2. */
  function EdgeCalls(e1: seq<Edge>, e2: seq<Edge>): (calls: seq<SegmentPair>)
    requires |e1| == 4 && |e2| == 4 && Edges3(e1) && Edges3(e2)
    ensures |calls| == 16
    ensures forall k :: 0 <= k < 16 ==>
      calls[k] == DistanceRays(e1[k / 4].from, e1[k / 4].to, e2[k % 4].from, e2[k % 4].to)
  {
    seq(16, k requires 0 <= k < 16 => DistanceRays(e1[k / 4].from, e1[k / 4].to, e2[k % 4].from, e2[k % 4].to))
  }

  /** `distanceRays(...) <= EPSILON`; as EPSILON > 0 this is the squared distance
      against EPSILON squared. */
  predicate Close(sp: SegmentPair)
  {
    |sp.rayStart| == |sp.rayEnd| && Distance2(sp.rayStart, sp.rayEnd) <= EPSILON * EPSILON
  }

  /** The edge loops' early return: the first close call wins, and every call
      before it has overwritten `near_point` with its own `ray_start`. */
  function ScanCalls(calls: seq<SegmentPair>, near: Vector): (h: Hit)
    ensures h.hit <==> exists k :: 0 <= k < |calls| && Close(calls[k])
    ensures h.hit ==> exists k :: (0 <= k < |calls| && Close(calls[k]) && h.point == calls[k].rayStart &&
      forall k' :: 0 <= k' < k ==> !Close(calls[k']))
    ensures !h.hit ==> h.point == if calls == [] then near else calls[|calls| - 1].rayStart
  {
    if calls == [] then Hit(false, near)
    else if Close(calls[0]) then Hit(true, calls[0].rayStart)
    else
      var h := ScanCalls(calls[1..], calls[0].rayStart);
      assert forall k :: 1 <= k < |calls| ==> calls[k] == calls[1..][k - 1];
      h
  }

  /** The point test of the vertex fallback as written: rect_1's top-left corner
      against the polygon (bottom-left, bottom-right, top-right, vertex). */
  predicate VertexInside(r1: Corners, vertex: Vector)
    requires Planar(r1) && |vertex| == 3
  {
    PointInConvexPolygon(r1.tl, EdgesRectangle2D(r1.bl, r1.br, r1.tr, vertex))
  }

  /** The vertex fallback loop over rect_2's vertices in turn. */
  function ScanVertices(r1: Corners, vertices: seq<Vector>, near: Vector): (h: Hit)
    requires Planar(r1) && forall k :: 0 <= k < |vertices| ==> |vertices[k]| == 3
    ensures h.hit <==> exists k :: 0 <= k < |vertices| && VertexInside(r1, vertices[k])
    ensures h.hit ==> exists k :: (0 <= k < |vertices| && h.point == vertices[k] && VertexInside(r1, vertices[k]) &&
      forall k' :: 0 <= k' < k ==> !VertexInside(r1, vertices[k']))
    ensures !h.hit ==> h.point == near
  {
    if vertices == [] then Hit(false, near)
    else if VertexInside(r1, vertices[0]) then
      Hit(true, vertices[0])
    else
      var h := ScanVertices(r1, vertices[1..], near);
      assert forall k :: 1 <= k < |vertices| ==> vertices[k] == vertices[1..][k - 1];
      h
  }

  /** The strict four-way comparison of top-left / bottom-right coordinates. */
  predicate AxisOverlap(tl1: Vector, br1: Vector, tl2: Vector, br2: Vector)
    requires |tl1| >= 2 && |br1| >= 2 && |tl2| >= 2 && |br2| >= 2
  {
    tl1[0] < br2[0] && br1[0] > tl2[0] && tl1[1] < br2[1] && br1[1] > tl2[1]
  }

  /** `collisionRectangles2D(rect_1 corners, orientation_1, rect_2 corners,
      orientation_2, near_point)`, returning the answer and `near_point`. */
  function CollisionRectangles2D(r1: Corners, o1: Vector, r2: Corners, o2: Vector, near: Vector): (h: Hit)
    requires Planar(r1) && Planar(r2) && |o1| == 4 && |o2| == 4
    ensures Equal(o1, o2) ==> h.point == near
    ensures |near| == 3 ==> |h.point| == 3
  {
    if Equal(o1, o2) then
      if Equal(o1, Quaternions.Identity) then
        Hit(AxisOverlap(r1.tl, r1.br, r2.tl, r2.br), near)
      else
        var q := Neg(o1);
        Hit(AxisOverlap(RotateVec(r1.tl, q), RotateVec(r1.br, q), RotateVec(r2.tl, q), RotateVec(r2.br, q)), near)
    else
      var h := ScanCalls(RectangleCalls(r1, r2), near);
      if h.hit then h else ScanVertices(r1, Vertices(r2), h.point)
  }

  function RectangleCalls(r1: Corners, r2: Corners): (calls: seq<SegmentPair>)
    requires Planar(r1) && Planar(r2)
    ensures |calls| == 16
  {
    EdgeCalls(Edges(r1), Edges(r2))
  }

  function Vertices(r: Corners): (vs: seq<Vector>)
    requires Planar(r)
    ensures |vs| == 4 && forall k :: 0 <= k < 4 ==> |vs[k]| == 3
  {
    [r.tl, r.bl, r.br, r.tr]
  }

  /** With differing orientations the rectangles collide iff some edge pair comes
      within EPSILON or some vertex of rect_2 passes the point test as written. */
  lemma CollisionRectangles2DDifferingHit(r1: Corners, o1: Vector, r2: Corners, o2: Vector, near: Vector)
    requires Planar(r1) && Planar(r2) && |o1| == 4 && |o2| == 4 && o1 != o2
    ensures var calls, vs := RectangleCalls(r1, r2), Vertices(r2);
      CollisionRectangles2D(r1, o1, r2, o2, near).hit <==>
        (exists k :: 0 <= k < 16 && Close(calls[k])) || (exists k :: 0 <= k < 4 && VertexInside(r1, vs[k]))
  {
    EqualIsEquality(o1, o2);
  }

  /** Whether the rectangles collide does not depend on the point passed in: it
      only picks what is reported on a miss. */
  lemma CollisionRectangles2DHitIgnoresPoint(r1: Corners, o1: Vector, r2: Corners, o2: Vector, p: Vector, q: Vector)
    requires Planar(r1) && Planar(r2) && |o1| == 4 && |o2| == 4
    ensures CollisionRectangles2D(r1, o1, r2, o2, p).hit == CollisionRectangles2D(r1, o1, r2, o2, q).hit
  {
    if o1 != o2 {
      CollisionRectangles2DDifferingHit(r1, o1, r2, o2, p);
      CollisionRectangles2DDifferingHit(r1, o1, r2, o2, q);
    } else {
      EqualIsEquality(o1, o2);
    }
  }

  /** With differing orientations an edge hit reports the point found on rect_1's
      edge by the first close call, a vertex hit reports the first vertex of
      rect_2 that passes the point test,
      and on a total miss the point is the last call's `ray_start`. */
  lemma CollisionRectangles2DDifferingPoint(r1: Corners, o1: Vector, r2: Corners, o2: Vector, near: Vector)
    requires Planar(r1) && Planar(r2) && |o1| == 4 && |o2| == 4 && o1 != o2
    ensures var h := CollisionRectangles2D(r1, o1, r2, o2, near);
      var calls := RectangleCalls(r1, r2);
      && ((exists k :: 0 <= k < 16 && Close(calls[k])) ==>
           exists k :: 0 <= k < 16 && Close(calls[k]) && h.point == calls[k].rayStart &&
             forall k' :: 0 <= k' < k ==> !Close(calls[k']))
      && (h.hit && (forall k :: 0 <= k < 16 ==> !Close(calls[k])) ==>
           var vs := Vertices(r2);
           exists k :: 0 <= k < 4 && h.point == vs[k] && VertexInside(r1, vs[k]) &&
             forall k' :: 0 <= k' < k ==> !VertexInside(r1, vs[k']))
      && (!h.hit ==> h.point == calls[15].rayStart)
  {
    EqualIsEquality(o1, o2);
  }

  /** With both orientations the identity, rectangles whose bottom edge lies
      `height >= 0` below their top edge (as `Rectangle2D` builds them) never
      collide: the two y-conjuncts contradict each other. */
  lemma IdentityOrientationNeverCollides(r1: Corners, r2: Corners, h1: real, h2: real, near: Vector)
    requires Planar(r1) && Planar(r2)
    requires h1 >= 0.0 && h2 >= 0.0
    requires r1.br[1] == r1.tl[1] - h1 && r2.br[1] == r2.tl[1] - h2
    ensures CollisionRectangles2D(r1, Quaternions.Identity, r2, Quaternions.Identity, near) == Hit(false, near)
  {
    EqualIsEquality(Quaternions.Identity, Quaternions.Identity);
  }

  /** Rotating by the negated orientation gives the same corners as rotating by
      the orientation itself. */
  lemma SameOrientationSignIrrelevant(r1: Corners, o: Vector, r2: Corners, near: Vector)
    requires Planar(r1) && Planar(r2) && |o| == 4 && o != Quaternions.Identity
    ensures CollisionRectangles2D(r1, o, r2, o, near) ==
      Hit(AxisOverlap(RotateVec(r1.tl, o), RotateVec(r1.br, o), RotateVec(r2.tl, o), RotateVec(r2.br, o)), near)
  {
    EqualIsEquality(o, o);
    EqualIsEquality(o, Quaternions.Identity);
    RotateVecProperties(r1.tl, o);
    RotateVecProperties(r1.br, o);
    RotateVecProperties(r2.tl, o);
    RotateVecProperties(r2.br, o);
  }
  /** The vertex fallback never fires when rect_1 is an unrotated rectangle of
      positive width and height: the point test rejects rect_1's top-left corner
      against every vertex of rect_2, so `ScanVertices` always misses. */
  lemma VertexFallbackNeverFires(x: real, y: real, z: real, w: real, h: real, vertices: seq<Vector>, near: Vector)
    requires w > 0.0 && h > 0.0
    requires forall k :: 0 <= k < |vertices| ==> |vertices[k]| == 3
    ensures var r1 := Corners([x, y, z], [x, y - h, z], [x + w, y - h, z], [x + w, y, z]);
      forall k :: 0 <= k < |vertices| ==> !VertexInside(r1, vertices[k])
    ensures ScanVertices(Corners([x, y, z], [x, y - h, z], [x + w, y - h, z], [x + w, y, z]), vertices, near) == Hit(false, near)
  {
    forall k | 0 <= k < |vertices|
      ensures !VertexInside(Corners([x, y, z], [x, y - h, z], [x + w, y - h, z], [x + w, y, z]), vertices[k])
    {
      TopLeftRejectedByBottomEdge(x, y, z, w, h, vertices[k]);
    }
  }
}

=== FILE: shader.dfy ===
/** Shader program bookkeeping (`Engine::Shader::Program`): which compiled
    shaders are attached per shader type, the link flag, and the static
    binding state (`current_shader` and the `programs` stack).  GL objects are
    naturals; the GL calls themselves are left out. */
module Shaders {
  import opened Common

  /** `GL_FALSE`, also "no shader" and "no program". */
  const GlFalse: nat := 0

  /** The shader type enumerants of OpenGL 4.3. */
  const VertexShader: nat := 0x8B31
  const FragmentShader: nat := 0x8B30
  const GeometryShader: nat := 0x8DD9
  const ComputeShader: nat := 0x91B9
  const TessControlShader: nat := 0x8E88
  const TessEvaluationShader: nat := 0x8E87

  /** The types a program starts with an (empty) slot for. */
  const ShaderTypes: set<nat> :=
    {VertexShader, FragmentShader, GeometryShader, ComputeShader, TessControlShader, TessEvaluationShader}

  class Program {
    /** The GL program object, `0` until the first attach creates it. */
    var prog: nat
    /** The attached shaders per type. */
    var shaders: map<nat, set<nat>>
    var linked: bool
    /** Whether several shaders of one type may be attached. */
    const multiple: bool

    /** Every standard type keeps its slot: slots are only ever added. */
    ghost predicate Valid()
      reads this`shaders
    {
      ShaderTypes <= shaders.Keys
    }

    /** `operator bool`: at least one vertex and one fragment shader attached. */
    predicate Complete()
      reads this`shaders
    {
      && VertexShader in shaders && shaders[VertexShader] != {}
      && FragmentShader in shaders && shaders[FragmentShader] != {}
    }

    /** `Program(multiple)`: no GL program yet, an empty slot per standard type, not linked. */
    constructor(multiple: bool)
      ensures this.multiple == multiple && prog == GlFalse && !linked
      ensures shaders.Keys == ShaderTypes && forall t :: t in shaders ==> shaders[t] == {}
      ensures Valid() && !Complete()
    {
      this.multiple := multiple;
      prog := GlFalse;
      shaders := map t | t in ShaderTypes :: {};
      linked := false;
    }

    /** `attachShader(shader, type)`: creates the GL program on first use
        (`created` is the name GL hands out).  Refused with `GL_FALSE` once
        linked, for `GL_FALSE` itself and for a type without a slot; a second
        shader of one type throws unless `multiple`. */
    method AttachShader(shader: nat, shaderType: nat, created: nat) returns (r: Result<nat>)
      modifies this`prog, this`shaders
      ensures prog == if old(prog) == GlFalse then created else old(prog)
      ensures linked || shader == GlFalse || shaderType !in old(shaders) ==>
                r == Ok(GlFalse) && shaders == old(shaders)
      ensures !linked && shader != GlFalse && shaderType in old(shaders) && (multiple || old(shaders)[shaderType] == {}) ==>
                r == Ok(shader) && shaders == old(shaders)[shaderType := old(shaders)[shaderType] + {shader}]
      ensures !linked && shader != GlFalse && shaderType in old(shaders) && !multiple && old(shaders)[shaderType] != {} ==>
                r == Err(SingleShaderPerType) && shaders == old(shaders)
      ensures r.Ok? && r.value != GlFalse ==> r.value in shaders[shaderType]
      ensures old(Valid()) ==> Valid()
    {
      if prog == GlFalse {
        prog := created;
      }
      if !linked && shader != GlFalse && shaderType in shaders {
        if multiple || shaders[shaderType] == {} {
          shaders := shaders[shaderType := shaders[shaderType] + {shader}];
          return Ok(shader);
        }
        return Err(SingleShaderPerType);
      }
      return Ok(GlFalse);
    }

    /** `detachShader(shader)`, where `shaderType` is what GL reports as the
        shader's type: the shader leaves that type's slot, which is created
        empty when missing; the other slots and the link flag stay. */
    method DetachShader(shader: nat, shaderType: nat)
      modifies this`shaders
      ensures shaderType in shaders && shader !in shaders[shaderType]
      ensures shaderType in old(shaders) ==> shaders[shaderType] == old(shaders)[shaderType] - {shader}
      ensures shaders.Keys == old(shaders).Keys + {shaderType}
      ensures forall t :: t in old(shaders) && t != shaderType ==> shaders[t] == old(shaders)[t]
      ensures old(Valid()) ==> Valid()
    {
      var slot := if shaderType in shaders then shaders[shaderType] else {};
      shaders := shaders[shaderType := slot - {shader}];
    }

    /** `link()`: a complete program becomes linked, after which every attach
        is refused; an incomplete one throws and stays as it was. */
    method Link() returns (error: Option<Error>)
      modifies this`linked
      ensures Complete() ==> error == None && linked
      ensures !Complete() ==> error == Some(IncompleteProgram) && linked == old(linked)
    {
      if Complete() {
        linked := true;
        return None;
      }
      return Some(IncompleteProgram);
    }

    /** `use()`: a complete program becomes the current one; an incomplete
        one is refused and nothing changes. */
    method Use(binding: Binding) returns (ok: bool)
      modifies binding`current
      ensures ok == Complete()
      ensures ok ==> binding.current == this
      ensures !ok ==> binding.current == old(binding.current)
    {
      if Complete() {
        binding.current := this;
        return true;
      }
      return false;
    }
  }

  /** The static members `current_shader` and `programs` (top at the end). */
  class Binding {
    var current: Program?
    var stack: seq<Program?>

    constructor()
      ensures current == null && stack == []
    {
      current := null;
      stack := [];
    }

    /** `pushShader(shader)` as written: it calls `use()` on the current
        program rather than on the pushed one (a null current program would
        be dereferenced, hence the precondition), so the pushed program is
        never bound. */
    method PushShader(shader: Program?)
      requires shader == null || shader == current || current != null
      modifies this`current, this`stack
      ensures stack == old(stack) + [shader]
      ensures current == old(current)
    {
      if shader != null && shader != current {
        var ok := current.Use(this);
      }
      stack := stack + [shader];
    }

    /** `popShader()` as written: the program below is re-bound through the
        current one, so the current program only changes when the stack
        empties. */
    method PopShader()
      requires stack != []
      requires |stack| >= 2 && stack[|stack| - 2] != null && stack[|stack| - 2] != current ==> current != null
      modifies this`current, this`stack
      ensures stack == old(stack)[..|old(stack)| - 1]
      ensures stack == [] ==> current == null
      ensures stack != [] ==> current == old(current)
    {
      stack := stack[..|stack| - 1];
      if stack != [] {
        var top := stack[|stack| - 1];
        if top != null && top != current {
          var ok := current.Use(this);
        }
      } else {
        current := null;
      }
    }

    /** `pushShader(shader)` as intended: the pushed program is used. */
    method PushShaderIntended(shader: Program?)
      modifies this`current, this`stack
      ensures stack == old(stack) + [shader]
      ensures shader != null && shader.Complete() ==> current == shader
      ensures shader == null || !shader.Complete() ==> current == old(current)
    {
      if shader != null && shader != current {
        var ok := shader.Use(this);
      }
      stack := stack + [shader];
    }

    /** `popShader()` as intended: the program that becomes the top is used. */
    method PopShaderIntended()
      requires stack != []
      modifies this`current, this`stack
      ensures stack == old(stack)[..|old(stack)| - 1]
      ensures stack == [] ==> current == null
      ensures stack != [] && stack[|stack| - 1] != null && stack[|stack| - 1].Complete() ==>
                current == stack[|stack| - 1]
      ensures stack != [] && (stack[|stack| - 1] == null || !stack[|stack| - 1].Complete()) ==>
                current == old(current)
    {
      stack := stack[..|stack| - 1];
      if stack != [] {
        var top := stack[|stack| - 1];
        if top != null && top != current {
          var ok := top.Use(this);
        }
      } else {
        current := null;
      }
    }

    /** Pushing a program and popping it again re-binds the complete program
        that was on top before. */
    method PushThenPop(shader: Program?)
      requires stack != [] && stack[|stack| - 1] != null && stack[|stack| - 1].Complete()
      modifies this`current, this`stack
      ensures stack == old(stack) && current == stack[|stack| - 1]
    {
      PushShaderIntended(shader);
      PopShaderIntended();
      assert stack == old(stack);
    }

    /** `useShader(shader, clear)`: a non-null program is used and the stack
        emptied; a null one unbinds everything and empties the stack when
        `clear`, and does nothing otherwise. */
    method UseShader(shader: Program?, clear: bool)
      modifies this`current, this`stack
      ensures shader != null ==> stack == [] && current == if shader.Complete() then shader else old(current)
      ensures shader == null && clear ==> stack == [] && current == null
      ensures shader == null && !clear ==> stack == old(stack) && current == old(current)
    {
      if shader != null {
        var ok := shader.Use(this);
        stack := [];
      } else if clear {
        current := null;
        stack := [];
      }
    }
  }
}

=== FILE: shapes.dfy ===
/** The collidable meshes: the base `Mesh`, `Rectangle2D` (whose corner fields
    every setter recomputes), `Polygon2D` and `Sphere2D`, the swept collision space
    of a fast polygon and the double-dispatch `detectCollision`. */
module Shapes {
  import opened Common
  import opened Vectors
  import opened Geometry
  import opened RectanglePairs
  import Quaternions

  // ---------------------------------------------------------------- Rectangle2D corners

  /** `Rectangle2D::updatePositions`: the top-left corner is the position, the
      bottom-right one lies `width` to the right and `height` below it, and all
      four corners are then rotated about the origin by the orientation. */
  function RectCorners(position: Vector, orientation: Vector, width: real, height: real): (c: Corners)
    requires |position| == 3 && |orientation| == 4
    ensures Planar(c)
  {
    var br := [position[0] + width, position[1] - height, position[2]];
    Corners(RotateVec(position, orientation),
            RotateVec([position[0], br[1], position[2]], orientation),
            RotateVec(br, orientation),
            RotateVec([br[0], position[1], position[2]], orientation))
  }

  /** With the identity orientation the corners form the axis-aligned rectangle
      spanned by the position, `width` to the right and `height` downwards. */
  lemma RectCornersIdentity(position: Vector, width: real, height: real)
    requires |position| == 3
    ensures var c := RectCorners(position, Quaternions.Identity, width, height);
      var x, y, z := position[0], position[1], position[2];
      c == Corners([x, y, z], [x, y - height, z], [x + width, y - height, z], [x + width, y, z])
  {
    var x, y, z := position[0], position[1], position[2];
    RotateVecProperties(position, Quaternions.Identity);
    RotateVecProperties([x, y - height, z], Quaternions.Identity);
    RotateVecProperties([x + width, y - height, z], Quaternions.Identity);
    RotateVecProperties([x + width, y, z], Quaternions.Identity);
    assert position == [x, y, z];
  }

  /** A rectangle mesh.  `corners` is kept equal to what `updatePositions` derives
      from the other four fields. */
  class Rectangle2D {
    var position: Vector
    var orientation: Vector
    var width: real
    var height: real
    var corners: Corners

    predicate Valid()
      reads this
    {
      |position| == 3 && |orientation| == 4 && corners == RectCorners(position, orientation, width, height)
    }

    /** `Rectangle2D(position, width, height, orientation)`. */
    constructor(position: Vector, width: real, height: real, orientation: Vector)
      requires |position| == 3 && |orientation| == 4
      ensures Valid()
      ensures this.position == position && this.orientation == orientation
      ensures this.width == width && this.height == height
    {
      this.position := position;
      this.orientation := orientation;
      this.width := width;
      this.height := height;
      corners := RectCorners(position, orientation, width, height);
    }

    /** `updatePositions()`: recompute the corners from the current fields. */
    method UpdatePositions()
      requires |position| == 3 && |orientation| == 4
      modifies this
      ensures Valid()
      ensures position == old(position) && orientation == old(orientation)
      ensures width == old(width) && height == old(height)
    {
      corners := RectCorners(position, orientation, width, height);
    }

    method SetWidth(w: real)
      requires Valid()
      modifies this
      ensures Valid() && width == w
      ensures position == old(position) && orientation == old(orientation) && height == old(height)
    {
      width := w;
      UpdatePositions();
    }

    method SetHeight(h: real)
      requires Valid()
      modifies this
      ensures Valid() && height == h
      ensures position == old(position) && orientation == old(orientation) && width == old(width)
    {
      height := h;
      UpdatePositions();
    }

    method SetOrientation(o: Vector)
      requires Valid() && |o| == 4
      modifies this
      ensures Valid() && orientation == o
      ensures position == old(position) && width == old(width) && height == old(height)
    {
      orientation := o;
      UpdatePositions();
    }

    method SetPosition(p: Vector)
      requires Valid() && |p| == 3
      modifies this
      ensures Valid() && position == p
      ensures orientation == old(orientation) && width == old(width) && height == old(height)
    {
      position := p;
      UpdatePositions();
    }

    /** The mesh as a value, for collision dispatch. */
    function Value(): (s: Shape)
      requires Valid()
      reads this
      ensures WellFormed(s) && TypeName(s) == "rectangle2d"
      ensures s.position == position && s.orientation == orientation && s.width == width && s.height == height
      ensures CornersOf(s) == corners
    {
      Rect(position, orientation, width, height)
    }
  }

  // ---------------------------------------------------------------- meshes as values

  /** A mesh as the collision code sees it; the variant plays the part of `getType()`. */
  datatype Shape =
    | Plain(position: Vector, orientation: Vector)
    | Rect(position: Vector, orientation: Vector, width: real, height: real)
    | Poly(position: Vector, orientation: Vector, radius: real, sides: int, sphere: bool)

  predicate WellFormed(s: Shape)
  {
    && |s.position| == 3 && |s.orientation| == 4
  }

  /** The corner fields of a rectangle mesh, which every setter keeps equal to what
      `updatePositions` derives from the other fields. */
  function CornersOf(s: Shape): (c: Corners)
    requires WellFormed(s) && s.Rect?
    ensures Planar(c)
  {
    RectCorners(s.position, s.orientation, s.width, s.height)
  }

  /** `getType()`. */
  function TypeName(s: Shape): string
  {
    match s
    case Plain(_, _) => "mesh"
    case Rect(_, _, _, _) => "rectangle2d"
    case Poly(_, _, _, _, sphere) => if sphere then "sphere2d" else "polygon2d"
  }

  /** The conversion of a double to `int`: truncation toward zero. */
  function Trunc(x: real): (r: int)
    ensures x >= 0.0 ==> r as real <= x < r as real + 1.0
    ensures x < 0.0 ==> r as real - 1.0 < x <= r as real
  {
    if x >= 0.0 then x.Floor else -((-x).Floor)
  }

  /** `Polygon2D(position, radius, sides, orientation)`. */
  function Polygon2D(position: Vector, radius: real, sides: int, orientation: Vector): (s: Shape)
    requires |position| == 3 && |orientation| == 4
    ensures WellFormed(s) && TypeName(s) == "polygon2d"
    ensures s.Poly? && !s.sphere
    ensures s.position == position && s.orientation == orientation && s.radius == radius && s.sides == sides
  {
    Poly(position, orientation, radius, sides, false)
  }

  /** `Sphere2D(position, radius)`: a polygon with identity orientation and
      `radius * 20` sides. */
  function Sphere2D(position: Vector, radius: real): (s: Shape)
    requires |position| == 3
    ensures WellFormed(s) && TypeName(s) == "sphere2d"
    ensures s.Poly? && s.sphere && s.position == position
    ensures s.orientation == Quaternions.Identity && s.radius == radius
    ensures radius >= 0.0 ==> s.sides as real <= radius * 20.0 < s.sides as real + 1.0
  {
    Poly(position, Quaternions.Identity, radius, Trunc(radius * 20.0), true)
  }

  /** The values `getCollisionSpace` obtains through sqrt, atan2, sin and cos,
      as functions of the speed: `norm(speed)`, the unit vector at the speed's
      angle plus 90 degrees, and `rot2quat(unit(speed), axisX)`. */
  datatype Trig = Trig(
    norm: Vector -> real,
    perpendicular: Vector -> (real, real),
    heading: Vector -> (real, real, real, real))

  /** `getCollisionSpace(speed)`: only polygons have one, and only when they move
      more than their radius; it is the rectangle swept by the polygon. */
  function GetCollisionSpace(s: Shape, speed: Vector, trig: Trig): (space: Option<Shape>)
    requires WellFormed(s) && |speed| == 3
    ensures space.Some? ==> WellFormed(space.value) && space.value.Rect?
  {
    match s
    case Poly(position, _, radius, _, _) =>
      if Length2(speed) > radius * radius then
        var (cx, cy) := trig.perpendicular(speed);
        var top := Add(position, [radius * cx, radius * cy, 0.0]);
        var (q0, q1, q2, q3) := trig.heading(speed);
        var orientation := [q0, q1, q2, q3];
        Some(Rect(top, orientation, trig.norm(speed), radius * 2.0))
      else None
    case _ => None
  }

  /** A polygon's collision space exists iff the squared speed exceeds the squared
      radius; it is then a rectangle `norm(speed)` long and twice the radius high. */
  lemma GetCollisionSpaceSpec(s: Shape, speed: Vector, trig: Trig)
    requires WellFormed(s) && |speed| == 3
    ensures !s.Poly? ==> GetCollisionSpace(s, speed, trig).None?
    ensures s.Poly? ==> (GetCollisionSpace(s, speed, trig).None? <==> Length2(speed) <= s.radius * s.radius)
    ensures s.Poly? && GetCollisionSpace(s, speed, trig).Some? ==>
      var r := GetCollisionSpace(s, speed, trig).value;
      r.height == 2.0 * s.radius && r.width == trig.norm(speed) && TypeName(r) == "rectangle2d"
  {
  }

  // ---------------------------------------------------------------- _detectCollision

  function Shift(c: Corners, offset: Vector): (r: Corners)
    requires Planar(c) && |offset| == 3
    ensures Planar(r)
  {
    Corners(Add(offset, c.tl), Add(offset, c.bl), Add(offset, c.br), Add(offset, c.tr))
  }

  /** `_detectCollision(other, my_offset, other_offset, point)` of the mesh `me`,
      returning the answer and `point`. */
  function DetectPair(me: Shape, other: Shape, myOffset: Vector, otherOffset: Vector, point: Vector): (h: Hit)
    requires WellFormed(me) && WellFormed(other) && |myOffset| == 3 && |otherOffset| == 3
    ensures |point| == 3 ==> |h.point| == 3
  {
    match me
    case Plain(_, _) => Hit(false, point)
    case Rect(_, _, _, _) =>
      if other.Rect? then
        CollisionRectangles2D(Shift(CornersOf(me), myOffset), me.orientation,
                              Shift(CornersOf(other), otherOffset), other.orientation, point)
      else Hit(false, point)
    case Poly(_, _, _, _, _) =>
      if other.Poly? then
        if CollisionSpheres(Add(myOffset, me.position), me.radius, Add(otherOffset, other.position), other.radius)
        then Hit(true, Scale(Add(me.position, other.position), 0.5))
        else Hit(false, point)
      else if other.Rect? then
        var c := Shift(CornersOf(other), otherOffset);
        CollisionRectangleCircle2D(c.tl, c.bl, c.br, c.tr, Add(myOffset, me.position), me.radius, point)
      else Hit(false, point)
  }

  /** The pairs no override handles answer false and leave `point` alone: the base
      mesh against anything, a rectangle against a non-rectangle, and a polygon
      against a base mesh. */
  lemma DetectPairUnhandled(me: Shape, other: Shape, myOffset: Vector, otherOffset: Vector, point: Vector)
    requires WellFormed(me) && WellFormed(other) && |myOffset| == 3 && |otherOffset| == 3
    requires me.Plain? || (me.Rect? && !other.Rect?) || (me.Poly? && other.Plain?)
    ensures DetectPair(me, other, myOffset, otherOffset, point) == Hit(false, point)
  {
  }

  /** Two polygons (or spheres) collide iff their offset circles overlap, in
      either order, and the reported point is the midpoint of the two positions
      taken without their offsets. */
  lemma DetectPairCircles(me: Shape, other: Shape, myOffset: Vector, otherOffset: Vector, point: Vector)
    requires WellFormed(me) && WellFormed(other) && |myOffset| == 3 && |otherOffset| == 3
    requires me.Poly? && other.Poly?
    ensures var h := DetectPair(me, other, myOffset, otherOffset, point);
      && (h.hit <==> CollisionSpheres(Add(myOffset, me.position), me.radius, Add(otherOffset, other.position), other.radius))
      && (h.hit ==> h.point == Scale(Add(me.position, other.position), 0.5))
      && (!h.hit ==> h.point == point)
    ensures DetectPair(me, other, myOffset, otherOffset, point) ==
      DetectPair(other, me, otherOffset, myOffset, point)
  {
    CollisionSpheresSymmetric(Add(myOffset, me.position), me.radius, Add(otherOffset, other.position), other.radius);
    assert Add(me.position, other.position) == Add(other.position, me.position);
  }

  /** Two rectangles with the identity orientation and non-negative heights never
      collide, wherever they are placed: the same-orientation comparison of
      `collisionRectangles2D` cannot hold for them. */
  lemma IdentityRectanglesNeverCollide(me: Shape, other: Shape, myOffset: Vector, otherOffset: Vector, point: Vector)
    requires WellFormed(me) && WellFormed(other) && |myOffset| == 3 && |otherOffset| == 3
    requires me.Rect? && other.Rect?
    requires me.orientation == Quaternions.Identity && other.orientation == Quaternions.Identity
    requires me.height >= 0.0 && other.height >= 0.0
    ensures DetectPair(me, other, myOffset, otherOffset, point) == Hit(false, point)
  {
    RectCornersIdentity(me.position, me.width, me.height);
    RectCornersIdentity(other.position, other.width, other.height);
    var c1, c2 := Shift(CornersOf(me), myOffset), Shift(CornersOf(other), otherOffset);
    assert c1.br[1] == c1.tl[1] - me.height;
    assert c2.br[1] == c2.tl[1] - other.height;
    IdentityOrientationNeverCollides(c1, c2, me.height, other.height, point);
  }

  // ---------------------------------------------------------------- detectCollision

  /** The part of `detectCollision` before the inverse call: the direct test, then
      (for a moving mesh) its collision space against `other` and, when
      `tryInverse` and `other` moves too, against `other`'s collision space. */
  function DetectOneWay(me: Shape, other: Shape, myOffset: Vector, mySpeed: Vector,
                        otherOffset: Vector, otherSpeed: Vector, point: Vector,
                        tryInverse: bool, trig: Trig): (h: Hit)
    requires WellFormed(me) && WellFormed(other)
    requires |myOffset| == 3 && |mySpeed| == 3 && |otherOffset| == 3 && |otherSpeed| == 3
    ensures |point| == 3 ==> |h.point| == 3
  {
    var direct := DetectPair(me, other, myOffset, otherOffset, point);
    if direct.hit || !Diff(mySpeed, ZeroVec) then direct
    else match GetCollisionSpace(me, mySpeed, trig)
      case None => direct
      case Some(mySpace) =>
        var swept := DetectPair(mySpace, other, myOffset, otherOffset, direct.point);
        if swept.hit || !tryInverse || !Diff(otherSpeed, ZeroVec) then swept
        else match GetCollisionSpace(other, otherSpeed, trig)
          case None => swept
          case Some(otherSpace) => DetectPair(mySpace, otherSpace, myOffset, otherOffset, swept.point)
  }

  /** `detectCollision(other, my_offset, my_speed, other_offset, other_speed, point,
      try_inverse)`: on a miss with `try_inverse` the roles are swapped once. */
  function DetectCollision(me: Shape, other: Shape, myOffset: Vector, mySpeed: Vector,
                           otherOffset: Vector, otherSpeed: Vector, point: Vector,
                           tryInverse: bool, trig: Trig): (h: Hit)
    requires WellFormed(me) && WellFormed(other)
    requires |myOffset| == 3 && |mySpeed| == 3 && |otherOffset| == 3 && |otherSpeed| == 3
    ensures |point| == 3 ==> |h.point| == 3
    decreases if tryInverse then 1 else 0
  {
    var h := DetectOneWay(me, other, myOffset, mySpeed, otherOffset, otherSpeed, point, tryInverse, trig);
    if h.hit then h
    else if tryInverse then
      DetectCollision(other, me, otherOffset, otherSpeed, myOffset, mySpeed, h.point, false, trig)
    else h
  }

  /** The recursion is at most one level deep: without `tryInverse` nothing is
      retried, and with it the single retry swaps the roles and passes false. */
  lemma DetectCollisionInverseOnce(me: Shape, other: Shape, myOffset: Vector, mySpeed: Vector,
                                   otherOffset: Vector, otherSpeed: Vector, point: Vector, trig: Trig)
    requires WellFormed(me) && WellFormed(other)
    requires |myOffset| == 3 && |mySpeed| == 3 && |otherOffset| == 3 && |otherSpeed| == 3
    ensures DetectCollision(me, other, myOffset, mySpeed, otherOffset, otherSpeed, point, false, trig) ==
      DetectOneWay(me, other, myOffset, mySpeed, otherOffset, otherSpeed, point, false, trig)
    ensures var first := DetectOneWay(me, other, myOffset, mySpeed, otherOffset, otherSpeed, point, true, trig);
      DetectCollision(me, other, myOffset, mySpeed, otherOffset, otherSpeed, point, true, trig) ==
        if first.hit then first
        else DetectOneWay(other, me, otherOffset, otherSpeed, myOffset, mySpeed, first.point, false, trig)
  {
  }

  /** The point passed to `_detectCollision` only stands in for the reported point
      on a miss: whether the meshes collide does not depend on it. */
  lemma DetectPairHitIgnoresPoint(me: Shape, other: Shape, myOffset: Vector, otherOffset: Vector, p: Vector, q: Vector)
    requires WellFormed(me) && WellFormed(other) && |myOffset| == 3 && |otherOffset| == 3
    ensures DetectPair(me, other, myOffset, otherOffset, p).hit == DetectPair(me, other, myOffset, otherOffset, q).hit
  {
    if me.Rect? && other.Rect? {
      CollisionRectangles2DHitIgnoresPoint(Shift(CornersOf(me), myOffset), me.orientation,
                                           Shift(CornersOf(other), otherOffset), other.orientation, p, q);
    } else if me.Poly? && other.Rect? {
      var c := Shift(CornersOf(other), otherOffset);
      CollisionRectangleCircle2DSpec(c.tl, c.bl, c.br, c.tr, Add(myOffset, me.position), me.radius, p);
      CollisionRectangleCircle2DSpec(c.tl, c.bl, c.br, c.tr, Add(myOffset, me.position), me.radius, q);
    }
  }

  /** The same holds for the one-way part of `detectCollision`. */
  lemma DetectOneWayHitIgnoresPoint(me: Shape, other: Shape, myOffset: Vector, mySpeed: Vector,
                                    otherOffset: Vector, otherSpeed: Vector, p: Vector, q: Vector,
                                    tryInverse: bool, trig: Trig)
    requires WellFormed(me) && WellFormed(other)
    requires |myOffset| == 3 && |mySpeed| == 3 && |otherOffset| == 3 && |otherSpeed| == 3
    ensures DetectOneWay(me, other, myOffset, mySpeed, otherOffset, otherSpeed, p, tryInverse, trig).hit ==
            DetectOneWay(me, other, myOffset, mySpeed, otherOffset, otherSpeed, q, tryInverse, trig).hit
  {
    var dp, dq := DetectPair(me, other, myOffset, otherOffset, p), DetectPair(me, other, myOffset, otherOffset, q);
    DetectPairHitIgnoresPoint(me, other, myOffset, otherOffset, p, q);
    if !dp.hit && Diff(mySpeed, ZeroVec) {
      match GetCollisionSpace(me, mySpeed, trig)
      case None =>
      case Some(mySpace) =>
        var sp, sq := DetectPair(mySpace, other, myOffset, otherOffset, dp.point),
                      DetectPair(mySpace, other, myOffset, otherOffset, dq.point);
        DetectPairHitIgnoresPoint(mySpace, other, myOffset, otherOffset, dp.point, dq.point);
        if !sp.hit && tryInverse && Diff(otherSpeed, ZeroVec) {
          match GetCollisionSpace(other, otherSpeed, trig)
          case None =>
          case Some(otherSpace) =>
            DetectPairHitIgnoresPoint(mySpace, otherSpace, myOffset, otherOffset, sp.point, sq.point);
        }
    }
  }

  /** Whether `detectCollision` reports a hit does not depend on the point passed
      in; only the reported point does. */
  lemma DetectCollisionHitIgnoresPoint(me: Shape, other: Shape, myOffset: Vector, mySpeed: Vector,
                                       otherOffset: Vector, otherSpeed: Vector, p: Vector, q: Vector,
                                       tryInverse: bool, trig: Trig)
    requires WellFormed(me) && WellFormed(other)
    requires |myOffset| == 3 && |mySpeed| == 3 && |otherOffset| == 3 && |otherSpeed| == 3
    ensures DetectCollision(me, other, myOffset, mySpeed, otherOffset, otherSpeed, p, tryInverse, trig).hit ==
            DetectCollision(me, other, myOffset, mySpeed, otherOffset, otherSpeed, q, tryInverse, trig).hit
    decreases if tryInverse then 1 else 0
  {
    var hp := DetectOneWay(me, other, myOffset, mySpeed, otherOffset, otherSpeed, p, tryInverse, trig);
    var hq := DetectOneWay(me, other, myOffset, mySpeed, otherOffset, otherSpeed, q, tryInverse, trig);
    DetectOneWayHitIgnoresPoint(me, other, myOffset, mySpeed, otherOffset, otherSpeed, p, q, tryInverse, trig);
    if !hp.hit && tryInverse {
      DetectCollisionHitIgnoresPoint(other, me, otherOffset, otherSpeed, myOffset, mySpeed, hp.point, hq.point, false, trig);
    }
  }

  /** For two meshes at rest the answer is the direct test in either order. */
  lemma DetectCollisionAtRest(me: Shape, other: Shape, myOffset: Vector, otherOffset: Vector, point: Vector, trig: Trig)
    requires WellFormed(me) && WellFormed(other) && |myOffset| == 3 && |otherOffset| == 3
    ensures var first := DetectPair(me, other, myOffset, otherOffset, point);
      DetectCollision(me, other, myOffset, ZeroVec, otherOffset, ZeroVec, point, true, trig).hit <==>
        first.hit || DetectPair(other, me, otherOffset, myOffset, first.point).hit
  {
    EqualIsEquality(ZeroVec, ZeroVec);
  }
}

=== FILE: vec.dfy ===
/** The fixed-size numeric vector `Vec<SIZE>`: a vector is a sequence of reals whose
    length plays the part of SIZE.  Const operators are functions; the compound
    operators that rewrite `store` in place are methods of the class `Vec`. */
module Vectors {
  import opened Common

  type Vector = seq<real>

  // ---------------------------------------------------------------- constants

  /** `Vec::axis(position)`: the unit vector along `position`, or the zero vector
      when `position` is not below the size. */
  function Axis(size: nat, position: nat): (r: Vector)
    ensures |r| == size
  {
    seq(size, i => if i == position then 1.0 else 0.0)
  }

  /** `Vec::zero`, defined in the source as `axis(SIZE)`. */
  function Zero(size: nat): (r: Vector)
    ensures |r| == size
  {
    Axis(size, size)
  }

  lemma ZeroIsAllZero(size: nat)
    ensures forall i :: 0 <= i < size ==> Zero(size)[i] == 0.0
  {
  }

  /** An axis below the size has a single 1 at its own index; any other position gives `zero`. */
  lemma AxisShape(size: nat, position: nat)
    ensures position < size ==> Axis(size, position)[position] == 1.0
    ensures forall i :: 0 <= i < size && i != position ==> Axis(size, position)[i] == 0.0
    ensures position >= size ==> Axis(size, position) == Zero(size)
  {
  }

  // ---------------------------------------------------------------- element access

  /** `operator[](int)`: negative positions count from the end; anything outside
      [-SIZE, SIZE) throws `std::out_of_range`. */
  function Index(v: Vector, position: int): (r: Result<real>)
    ensures r.Ok? <==> -|v| <= position < |v|
    ensures r.Ok? && position >= 0 ==> r.value == v[position]
    ensures r.Ok? && position < 0 ==> r.value == v[position + |v|]
  {
    var p := if position < 0 then position + |v| else position;
    if p < 0 || p >= |v| then Err(OutOfRange(p)) else Ok(v[p])
  }

  /** `operator bool`: true when the vector differs from `zero`. */
  predicate IsNonZero(v: Vector)
  {
    v != Zero(|v|)
  }

  lemma IsNonZeroIffSomeComponent(v: Vector)
    ensures IsNonZero(v) <==> exists i :: 0 <= i < |v| && v[i] != 0.0
  {
    if IsNonZero(v) {
      var z := Zero(|v|);
      var i :| 0 <= i < |v| && v[i] != z[i];
      assert v[i] != 0.0;
    } else {
      assert forall i :: 0 <= i < |v| ==> v[i] == Zero(|v|)[i];
    }
  }

  // ---------------------------------------------------------------- construction

  /** The copy constructor `Vec(copy, fill)`: copies as many leading elements of
      `copy` as fit and fills the remaining places with `fill`. */
  method CopyFill(copy: seq<real>, size: nat, fill: real) returns (store: Vector)
    ensures |store| == size
    ensures forall i :: 0 <= i < size && i < |copy| ==> store[i] == copy[i]
    ensures forall i :: |copy| <= i < size ==> store[i] == fill
  {
    store := [];
    var k := 0;
    while k < size && k < |copy|
      invariant k <= size && k <= |copy|
      invariant store == copy[..k]
    {
      store := store + [copy[k]];
      k := k + 1;
    }
    while k < size
      invariant k <= size && |store| == k
      invariant forall i :: 0 <= i < k && i < |copy| ==> store[i] == copy[i]
      invariant forall i :: |copy| <= i < k ==> store[i] == fill
    {
      store := store + [fill];
      k := k + 1;
    }
  }

  // ---------------------------------------------------------------- range

  /** One `Filter::Range<START, END>`: the inclusive index span START..END (END > START). */
  datatype Span = Span(start: int, end: int)

  predicate WellFormedSpans(spans: seq<Span>)
  {
    forall k :: 0 <= k < |spans| ==> spans[k].start < spans[k].end
  }

  /** `Ranges::full_size`: the sum over the spans of (END - START + 1). */
  function FullSize(spans: seq<Span>): int
  {
    if spans == [] then 0 else FullSize(spans[..|spans| - 1]) + (spans[|spans| - 1].end - spans[|spans| - 1].start + 1)
  }

  /** The values read for positions `from..end` (inclusive), through `operator[]`. */
  function SpanValues(v: Vector, from: int, end: int): Result<seq<real>>
    decreases end - from + 1
  {
    if from > end then Ok([])
    else match Index(v, from)
      case Err(e) => Err(e)
      case Ok(x) =>
        match SpanValues(v, from + 1, end)
        case Err(e) => Err(e)
        case Ok(rest) => Ok([x] + rest)
  }

  /** `Vec::range<Ranges>()`: the spans' elements, span after span. */
  function Range(v: Vector, spans: seq<Span>): Result<seq<real>>
  {
    if spans == [] then Ok([])
    else match Range(v, spans[..|spans| - 1])
      case Err(e) => Err(e)
      case Ok(front) =>
        match SpanValues(v, spans[|spans| - 1].start, spans[|spans| - 1].end)
        case Err(e) => Err(e)
        case Ok(last) => Ok(front + last)
  }

  lemma {:induction false} SpanValuesOk(v: Vector, from: int, end: int)
    requires from <= end + 1
    ensures SpanValues(v, from, end).Ok? <==> (from > end || (-|v| <= from && end < |v|))
    ensures SpanValues(v, from, end).Ok? ==> |SpanValues(v, from, end).value| == end - from + 1
    ensures SpanValues(v, from, end).Ok? ==>
      forall j :: 0 <= j <= end - from ==> SpanValues(v, from, end).value[j] == Index(v, from + j).value
    decreases end - from + 1
  {
    if from <= end {
      SpanValuesOk(v, from + 1, end);
      if SpanValues(v, from, end).Ok? {
        var r := SpanValues(v, from, end).value;
        forall j | 0 <= j <= end - from
          ensures r[j] == Index(v, from + j).value
        {
          if j > 0 {
            assert r[j] == SpanValues(v, from + 1, end).value[j - 1];
          }
        }
      }
    }
  }

  /** A successful `range` has exactly `full_size` elements, and it succeeds exactly
      when every span lies within [-SIZE, SIZE). */
  lemma {:induction false} RangeSize(v: Vector, spans: seq<Span>)
    requires WellFormedSpans(spans)
    ensures Range(v, spans).Ok? <==>
      forall k :: 0 <= k < |spans| ==> -|v| <= spans[k].start && spans[k].end < |v|
    ensures Range(v, spans).Ok? ==> |Range(v, spans).value| == FullSize(spans)
  {
    if spans != [] {
      var front := spans[..|spans| - 1];
      var last := spans[|spans| - 1];
      RangeSize(v, front);
      SpanValuesOk(v, last.start, last.end);
      assert forall k :: 0 <= k < |front| ==> front[k] == spans[k];
    }
  }

  /** `Vec::range<Range>()` for one span: the value `range<Ranges<Range>>` builds,
      returned as a `Vec<Range::size>`, that is of END - START components.  The
      converting constructor keeps as many leading values as fit. */
  function RangeOne(v: Vector, span: Span): Result<seq<real>>
    requires span.start < span.end
  {
    match Range(v, [span])
    case Err(e) => Err(e)
    case Ok(all) => Ok(if |all| <= span.end - span.start then all else all[..span.end - span.start])
  }

  /** The single-span `range` reads the whole inclusive span, and so fails exactly
      when the two-span form would, but it returns one value fewer: the value read
      at END is dropped. */
  lemma RangeOneDropsEnd(v: Vector, span: Span)
    requires span.start < span.end
    ensures RangeOne(v, span).Ok? <==> -|v| <= span.start && span.end < |v|
    ensures RangeOne(v, span).Ok? ==>
      && |RangeOne(v, span).value| == span.end - span.start
      && Range(v, [span]).value == RangeOne(v, span).value + [Index(v, span.end).value]
      && forall j :: 0 <= j < span.end - span.start ==> RangeOne(v, span).value[j] == Index(v, span.start + j).value
  {
    RangeSingleOk(v, span);
    if RangeOne(v, span).Ok? {
      var all := Range(v, [span]).value;
      assert RangeOne(v, span).value == all[..span.end - span.start];
      SpanDropsEnd(all, v, span.start, span.end);
    }
  }

  /** With one span, `range` succeeds when both ends are valid indices and then
      reads every position of the span. */
  lemma RangeSingleOk(v: Vector, span: Span)
    requires span.start < span.end
    ensures Range(v, [span]).Ok? <==> -|v| <= span.start && span.end < |v|
    ensures Range(v, [span]).Ok? ==> |Range(v, [span]).value| == span.end - span.start + 1
    ensures Range(v, [span]).Ok? ==>
      forall j :: 0 <= j <= span.end - span.start ==> Range(v, [span]).value[j] == Index(v, span.start + j).value
  {
    RangeSingle(v, span);
    SpanValuesOk(v, span.start, span.end);
  }

  /** The values of an inclusive span, without the last one, and that last one. */
  lemma SpanDropsEnd(all: seq<real>, v: Vector, from: int, end: int)
    requires from < end && |all| == end - from + 1 && -|v| <= from && end < |v|
    requires forall j :: 0 <= j <= end - from ==> all[j] == Index(v, from + j).value
    ensures all == all[..end - from] + [Index(v, end).value]
  {
    assert all == all[..end - from] + [all[end - from]];
  }

  /** With one span, `range` is that span's values. */
  lemma RangeSingle(v: Vector, span: Span)
    ensures Range(v, [span]) == SpanValues(v, span.start, span.end)
  {
    assert [span][..0] == [];
    match SpanValues(v, span.start, span.end)
    case Err(_) =>
    case Ok(last) => assert [] + last == last;
  }

  // ---------------------------------------------------------------- reductions

  /** `sum()`: the components added in order. */
  function Sum(v: Vector): real
  {
    if v == [] then 0.0 else Sum(v[..|v| - 1]) + v[|v| - 1]
  }

  /** `prod()`: the components multiplied in order. */
  function Prod(v: Vector): real
  {
    if v == [] then 1.0 else Prod(v[..|v| - 1]) * v[|v| - 1]
  }

  /** `dot(other)`: the sum of the componentwise products. */
  function Dot(a: Vector, b: Vector): real
    requires |a| == |b|
  {
    if a == [] then 0.0 else Dot(a[..|a| - 1], b[..|b| - 1]) + b[|a| - 1] * a[|a| - 1]
  }

  /** `length2()`, defined in the source as `dot(*this)`. */
  function Length2(v: Vector): real
  {
    Dot(v, v)
  }

  /** `distance2(other)`: the sum of squared componentwise differences. */
  function Distance2(a: Vector, b: Vector): real
    requires |a| == |b|
  {
    if a == [] then 0.0 else Distance2(a[..|a| - 1], b[..|b| - 1]) + (a[|a| - 1] - b[|a| - 1]) * (a[|a| - 1] - b[|a| - 1])
  }

  lemma {:induction false} SumOfSum(a: Vector, b: Vector)
    requires |a| == |b|
    ensures Sum(Add(a, b)) == Sum(a) + Sum(b)
  {
    if a != [] {
      SumOfSum(a[..|a| - 1], b[..|b| - 1]);
      assert Add(a, b)[..|a| - 1] == Add(a[..|a| - 1], b[..|b| - 1]);
    }
  }

  lemma {:induction false} ProdWithZeroFactor(v: Vector, i: nat)
    requires i < |v| && v[i] == 0.0
    ensures Prod(v) == 0.0
  {
    if i < |v| - 1 {
      ProdWithZeroFactor(v[..|v| - 1], i);
    }
  }

  lemma {:induction false} DotSymmetric(a: Vector, b: Vector)
    requires |a| == |b|
    ensures Dot(a, b) == Dot(b, a)
  {
    if a != [] {
      DotSymmetric(a[..|a| - 1], b[..|b| - 1]);
    }
  }

  lemma {:induction false} Length2NonNegative(v: Vector)
    ensures Length2(v) >= 0.0
  {
    if v != [] {
      Length2NonNegative(v[..|v| - 1]);
    }
  }

  /** Dotting with `axis(p)` reads component p, or gives 0 for the zero axis. */
  lemma {:induction false} DotAxis(v: Vector, p: nat)
    ensures Dot(v, Axis(|v|, p)) == if p < |v| then v[p] else 0.0
  {
    if v != [] {
      var n := |v|;
      assert Axis(n, p)[..n - 1] == Axis(n - 1, p);
      DotAxis(v[..n - 1], p);
    }
  }

  /** `dot` is linear in its second argument: sums, differences and scalings. */
  lemma {:induction false} DotAdd(a: Vector, u: Vector, v: Vector)
    requires |a| == |u| == |v|
    ensures Dot(a, Add(u, v)) == Dot(a, u) + Dot(a, v)
  {
    if a != [] {
      var n := |a|;
      assert Add(u, v)[..n - 1] == Add(u[..n - 1], v[..n - 1]);
      DotAdd(a[..n - 1], u[..n - 1], v[..n - 1]);
    }
  }

  lemma {:induction false} DotSub(a: Vector, u: Vector, v: Vector)
    requires |a| == |u| == |v|
    ensures Dot(a, Sub(u, v)) == Dot(a, u) - Dot(a, v)
  {
    if a != [] {
      var n := |a|;
      assert Sub(u, v)[..n - 1] == Sub(u[..n - 1], v[..n - 1]);
      DotSub(a[..n - 1], u[..n - 1], v[..n - 1]);
    }
  }

  lemma {:induction false} DotScale(a: Vector, u: Vector, t: real)
    requires |a| == |u|
    ensures Dot(a, Scale(u, t)) == t * Dot(a, u)
  {
    if a != [] {
      var n := |a|;
      var front, scaled := Scale(u, t)[..n - 1], Scale(u[..n - 1], t);
      forall i | 0 <= i < n - 1
        ensures front[i] == scaled[i]
      {
      }
      assert front == scaled;
      DotScale(a[..n - 1], u[..n - 1], t);
      assert u[n - 1] * t * a[n - 1] == t * (u[n - 1] * a[n - 1]);
    }
  }

  /** The squared distance of two three-component vectors written out. */
  lemma Distance3(a: Vector, b: Vector)
    requires |a| == 3 && |b| == 3
    ensures Distance2(a, b) == (a[0] - b[0]) * (a[0] - b[0]) + (a[1] - b[1]) * (a[1] - b[1]) + (a[2] - b[2]) * (a[2] - b[2])
  {
    assert a[..2][..1] == a[..1] && b[..2][..1] == b[..1];
    assert a[..1][..0] == [] && b[..1][..0] == [];
    assert Distance2(a[..1], b[..1]) == (a[0] - b[0]) * (a[0] - b[0]);
    assert Distance2(a[..2], b[..2]) == Distance2(a[..1], b[..1]) + (a[1] - b[1]) * (a[1] - b[1]);
  }

  lemma {:induction false} Distance2Properties(a: Vector, b: Vector)
    requires |a| == |b|
    ensures Distance2(a, b) == Distance2(b, a)
    ensures Distance2(a, b) >= 0.0
    ensures Distance2(a, a) == 0.0
    ensures Distance2(a, b) == Length2(Sub(a, b))
  {
    if a != [] {
      var n := |a|;
      Distance2Properties(a[..n - 1], b[..n - 1]);
      assert Sub(a, b)[..n - 1] == Sub(a[..n - 1], b[..n - 1]);
    }
  }

  /** |u|^2 - 2 u.v + |v|^2 from its three dot products: the expansion of |u - v|^2. */
  function Polarised(uu: real, uv: real, vv: real): real
  {
    uu - 2.0 * uv + vv
  }

  /** L - 2sD + s^2 N: the squared distance to a point moving along a line,
      as a function of the parameter `s`. */
  function Quadratic(l: real, dot: real, n: real, s: real): real
  {
    Polarised(l, s * dot, s * s * n)
  }

  /** The squared distance from `p` to `a + s*d` as a quadratic in `s`. */
  lemma Distance2Along(p: Vector, a: Vector, d: Vector, s: real)
    requires |p| == |a| == |d|
    ensures Distance2(p, Add(a, Scale(d, s))) == Quadratic(Length2(Sub(p, a)), Dot(Sub(p, a), d), Length2(d), s)
  {
    DistanceFromShifted(p, a, Scale(d, s));
    ScaledPolarised(Length2(Sub(p, a)), Sub(p, a), d, s);
  }

  /** The expansion of |u - s d|^2 written as a quadratic in `s`. */
  lemma ScaledPolarised(l: real, u: Vector, d: Vector, s: real)
    requires |u| == |d|
    ensures Polarised(l, Dot(u, Scale(d, s)), Dot(Scale(d, s), Scale(d, s))) == Quadratic(l, Dot(u, d), Length2(d), s)
  {
    DotScale(u, d, s);
    DotSelfScaled(d, s);
  }

  /** The squared distance from `p` to `a + v`, expanded by linearity of `dot`:
      |u - v|^2 = |u|^2 - 2 u.v + |v|^2 with u = p - a. */
  lemma DistanceFromShifted(p: Vector, a: Vector, v: Vector)
    requires |p| == |a| == |v|
    ensures Distance2(p, Add(a, v)) == Polarised(Length2(Sub(p, a)), Dot(Sub(p, a), v), Dot(v, v))
  {
    var u := Sub(p, a);
    SubAdd(p, a, v);
    Distance2Properties(p, Add(a, v));
    SquareOfDifference(u, v);
  }

  /** p - (a + v) == (p - a) - v. */
  lemma SubAdd(p: Vector, a: Vector, v: Vector)
    requires |p| == |a| == |v|
    ensures Sub(p, Add(a, v)) == Sub(Sub(p, a), v)
  {
    assert forall i :: 0 <= i < |p| ==> Sub(p, Add(a, v))[i] == Sub(Sub(p, a), v)[i];
  }

  /** A scaled vector dotted with itself: (s d).(s d) = s^2 |d|^2. */
  lemma DotSelfScaled(d: Vector, s: real)
    ensures Dot(Scale(d, s), Scale(d, s)) == s * s * Length2(d)
  {
    DotScaledAgainst(d, s);
    DotScale(Scale(d, s), d, s);
    ScaleTwice(s, Dot(Scale(d, s), Scale(d, s)), Dot(Scale(d, s), d), Length2(d));
  }

  /** (s d).d = s |d|^2. */
  lemma DotScaledAgainst(d: Vector, s: real)
    ensures Dot(Scale(d, s), d) == s * Length2(d)
  {
    DotSymmetric(Scale(d, s), d);
    DotScale(d, d, s);
    MulEqual(s, Length2(d), Dot(d, d));
  }

  /** Equal factors give equal products. */
  lemma MulEqual(s: real, x: real, y: real)
    requires x == y
    ensures s * x == s * y
  {
  }

  /** Scaling by `s` twice is scaling by s^2. */
  lemma ScaleTwice(s: real, x: real, y: real, z: real)
    requires x == s * y && y == s * z
    ensures x == s * s * z
  {
  }

  /** |u - v|^2 expanded by linearity of `dot` in each argument. */
  lemma SquareOfDifference(u: Vector, v: Vector)
    requires |u| == |v|
    ensures Dot(Sub(u, v), Sub(u, v)) == (Dot(u, u) - Dot(u, v)) - (Dot(u, v) - Dot(v, v))
  {
    var w := Sub(u, v);
    DotSub(w, u, v);
    DotSymmetric(w, u);
    DotSymmetric(w, v);
    DotSub(u, u, v);
    DotSub(v, u, v);
    DotSymmetric(u, v);
  }

  /** A vector of squared length zero is orthogonal to everything. */
  lemma {:induction false} DotNullVector(w: Vector, d: Vector)
    requires |w| == |d| && Length2(d) == 0.0
    ensures Dot(w, d) == 0.0
  {
    if d != [] {
      var n := |d|;
      var x := d[n - 1];
      Length2NonNegative(d[..n - 1]);
      assert Length2(d) == Length2(d[..n - 1]) + x * x;
      assert x * x == 0.0;
      if x > 0.0 {
        assert x * x > 0.0;
      } else if x < 0.0 {
        assert (-x) * (-x) > 0.0;
      }
      DotNullVector(w[..n - 1], d[..n - 1]);
    }
  }

  // ---------------------------------------------------------------- const operators

  /** `cross(other)`: defined for three components; any other size throws. */
  function Cross(a: Vector, b: Vector): (r: Vector)
    requires |a| == 3 && |b| == 3
    ensures |r| == 3
  {
    [a[1] * b[2] - b[1] * a[2],
     a[2] * b[0] - b[2] * a[0],
     a[0] * b[1] - b[0] * a[1]]
  }

  /** The cross product is perpendicular to both factors and anti-commutes. */
  lemma CrossProperties(a: Vector, b: Vector)
    requires |a| == 3 && |b| == 3
    ensures Dot(a, Cross(a, b)) == 0.0 && Dot(b, Cross(a, b)) == 0.0
    ensures Cross(a, b) == Neg(Cross(b, a))
  {
    CrossPerpendicular(a, b);
    CrossAntiCommutes(a, b);
  }

  lemma CrossPerpendicular(a: Vector, b: Vector)
    requires |a| == 3 && |b| == 3
    ensures Dot(a, Cross(a, b)) == 0.0 && Dot(b, Cross(a, b)) == 0.0
  {
    var c := Cross(a, b);
    CrossComponentDots(a, b);
    Dot3Zero(a, c);
    Dot3Zero(b, c);
  }

  lemma CrossComponentDots(a: Vector, b: Vector)
    requires |a| == 3 && |b| == 3
    ensures var c := Cross(a, b);
      a[0] * c[0] + a[1] * c[1] + a[2] * c[2] == 0.0 && b[0] * c[0] + b[1] * c[1] + b[2] * c[2] == 0.0
  {
    var c := Cross(a, b);
    assert c == [a[1] * b[2] - b[1] * a[2], a[2] * b[0] - b[2] * a[0], a[0] * b[1] - b[0] * a[1]];
    TripleProductsVanish(a[0], a[1], a[2], b[0], b[1], b[2], c[0], c[1], c[2]);
  }

  lemma Dot3Zero(a: Vector, b: Vector)
    requires |a| == 3 && |b| == 3 && a[0] * b[0] + a[1] * b[1] + a[2] * b[2] == 0.0
    ensures Dot(a, b) == 0.0
  {
    Dot3(a, b);
  }

  lemma CrossAntiCommutes(a: Vector, b: Vector)
    requires |a| == 3 && |b| == 3
    ensures Cross(a, b) == Neg(Cross(b, a))
  {
    var c, d := Cross(a, b), Neg(Cross(b, a));
    assert c[0] == d[0] && c[1] == d[1] && c[2] == d[2];
  }

  /** The scalar identities behind `CrossProperties`: with z = x × y,
      x . z = 0 and y . z = 0. */
  lemma TripleProductsVanish(x0: real, x1: real, x2: real, y0: real, y1: real, y2: real, z0: real, z1: real, z2: real)
    requires z0 == x1 * y2 - y1 * x2 && z1 == x2 * y0 - y2 * x0 && z2 == x0 * y1 - y0 * x1
    ensures x0 * z0 + x1 * z1 + x2 * z2 == 0.0
    ensures y0 * z0 + y1 * z1 + y2 * z2 == 0.0
  {
    assert x0 * z0 == x0 * x1 * y2 - x0 * y1 * x2;
    assert x1 * z1 == x1 * x2 * y0 - x1 * y2 * x0;
    assert x2 * z2 == x2 * x0 * y1 - x2 * y0 * x1;
    assert y0 * z0 == y0 * x1 * y2 - y0 * y1 * x2;
    assert y1 * z1 == y1 * x2 * y0 - y1 * y2 * x0;
    assert y2 * z2 == y2 * x0 * y1 - y2 * y0 * x1;
  }

  /** The dot product of two three-component vectors written out. */
  lemma Dot3(a: Vector, b: Vector)
    requires |a| == 3 && |b| == 3
    ensures Dot(a, b) == a[0] * b[0] + a[1] * b[1] + a[2] * b[2]
  {
    assert a[..2][..1] == a[..1] && b[..2][..1] == b[..1];
    assert a[..1][..0] == [] && b[..1][..0] == [];
    assert Dot(a[..1], b[..1]) == b[0] * a[0];
    assert Dot(a[..2], b[..2]) == Dot(a[..1], b[..1]) + b[1] * a[1];
    assert Dot(a, b) == Dot(a[..2], b[..2]) + b[2] * a[2];
  }

  function Add(a: Vector, b: Vector): (r: Vector)
    requires |a| == |b|
    ensures |r| == |a|
  {
    seq(|a|, i requires 0 <= i < |a| => a[i] + b[i])
  }

  function AddScalar(a: Vector, x: real): (r: Vector)
    ensures |r| == |a|
  {
    seq(|a|, i requires 0 <= i < |a| => a[i] + x)
  }

  function Sub(a: Vector, b: Vector): (r: Vector)
    requires |a| == |b|
    ensures |r| == |a|
  {
    seq(|a|, i requires 0 <= i < |a| => a[i] - b[i])
  }

  function SubScalar(a: Vector, x: real): (r: Vector)
    ensures |r| == |a|
  {
    seq(|a|, i requires 0 <= i < |a| => a[i] - x)
  }

  /** `operator*(Vec)`: the componentwise product. */
  function Mul(a: Vector, b: Vector): (r: Vector)
    requires |a| == |b|
    ensures |r| == |a|
  {
    seq(|a|, i requires 0 <= i < |a| => a[i] * b[i])
  }

  /** `operator*(TYPE)`. */
  function Scale(a: Vector, x: real): (r: Vector)
    ensures |r| == |a|
  {
    seq(|a|, i requires 0 <= i < |a| => a[i] * x)
  }

  /** `operator/(TYPE)`; division by zero (an IEEE infinity) is not modelled. */
  function DivScalar(a: Vector, x: real): (r: Vector)
    requires x != 0.0
    ensures |r| == |a|
  {
    seq(|a|, i requires 0 <= i < |a| => a[i] / x)
  }

  function Neg(a: Vector): (r: Vector)
    ensures |r| == |a|
  {
    seq(|a|, i requires 0 <= i < |a| => -a[i])
  }

  /** `lerped(other, position)`: (1 - position) * this + position * other. */
  function Lerped(a: Vector, b: Vector, t: real): (r: Vector)
    requires |a| == |b|
    ensures |r| == |a|
  {
    seq(|a|, i requires 0 <= i < |a| => (1.0 - t) * a[i] + t * b[i])
  }

  lemma LerpedEndpoints(a: Vector, b: Vector)
    requires |a| == |b|
    ensures Lerped(a, b, 0.0) == a
    ensures Lerped(a, b, 1.0) == b
  {
    assert forall i :: 0 <= i < |a| ==> Lerped(a, b, 0.0)[i] == a[i];
    assert forall i :: 0 <= i < |a| ==> Lerped(a, b, 1.0)[i] == b[i];
  }

  /** Sub undoes Add. */
  lemma AddSubInverse(a: Vector, b: Vector)
    requires |a| == |b|
    ensures Sub(Add(a, b), b) == a
  {
    assert forall i :: 0 <= i < |a| ==> Sub(Add(a, b), b)[i] == a[i];
  }

  /** Two displacements along the same direction add up: p + s*x + s*y == p + s*(x + y). */
  lemma AddScaledTwice(p: Vector, s: Vector, x: real, y: real)
    requires |p| == |s|
    ensures Add(Add(p, Scale(s, x)), Scale(s, y)) == Add(p, Scale(s, x + y))
  {
    forall i | 0 <= i < |p|
      ensures Add(Add(p, Scale(s, x)), Scale(s, y))[i] == Add(p, Scale(s, x + y))[i]
    {
      calc {
        Add(Add(p, Scale(s, x)), Scale(s, y))[i];
        Add(p, Scale(s, x))[i] + Scale(s, y)[i];
        (p[i] + Scale(s, x)[i]) + s[i] * y;
        (p[i] + s[i] * x) + s[i] * y;
        { assert s[i] * x + s[i] * y == s[i] * (x + y); }
        p[i] + s[i] * (x + y);
        p[i] + Scale(s, x + y)[i];
        Add(p, Scale(s, x + y))[i];
      }
    }
  }

  lemma AddZeroScale(p: Vector, s: Vector)
    requires |p| == |s|
    ensures Add(p, Scale(s, 0.0)) == p
  {
    assert forall i :: 0 <= i < |p| ==> Add(p, Scale(s, 0.0))[i] == p[i];
  }

  // ---------------------------------------------------------------- in-place operators

  /** A `Vec` whose `store` the compound operators rewrite in place. */
  class Vec {
    var store: array<real>

    constructor (init: seq<real>)
      ensures store[..] == init && fresh(store)
    {
      store := new real[|init|](i requires 0 <= i < |init| => init[i]);
    }

    /** `operator+=(Vec)`. */
    method AddAssign(other: Vector)
      requires |other| == store.Length
      modifies store
      ensures store[..] == Add(old(store[..]), other)
    {
      for i := 0 to store.Length
        invariant forall k :: 0 <= k < i ==> store[k] == old(store[k]) + other[k]
        invariant forall k :: i <= k < store.Length ==> store[k] == old(store[k])
      {
        store[i] := store[i] + other[i];
      }
    }

    /** `operator+=(TYPE)`. */
    method AddAssignScalar(x: real)
      modifies store
      ensures store[..] == AddScalar(old(store[..]), x)
    {
      for i := 0 to store.Length
        invariant forall k :: 0 <= k < i ==> store[k] == old(store[k]) + x
        invariant forall k :: i <= k < store.Length ==> store[k] == old(store[k])
      {
        store[i] := store[i] + x;
      }
    }

    /** `operator-=(Vec)`. */
    method SubAssign(other: Vector)
      requires |other| == store.Length
      modifies store
      ensures store[..] == Sub(old(store[..]), other)
    {
      for i := 0 to store.Length
        invariant forall k :: 0 <= k < i ==> store[k] == old(store[k]) - other[k]
        invariant forall k :: i <= k < store.Length ==> store[k] == old(store[k])
      {
        store[i] := store[i] - other[i];
      }
    }

    /** `operator-=(TYPE)`. */
    method SubAssignScalar(x: real)
      modifies store
      ensures store[..] == SubScalar(old(store[..]), x)
    {
      for i := 0 to store.Length
        invariant forall k :: 0 <= k < i ==> store[k] == old(store[k]) - x
        invariant forall k :: i <= k < store.Length ==> store[k] == old(store[k])
      {
        store[i] := store[i] - x;
      }
    }

    /** `operator*=(Vec)` as written: it subtracts the other vector. */
    method MulAssign(other: Vector)
      requires |other| == store.Length
      modifies store
      ensures store[..] == Sub(old(store[..]), other)
    {
      for i := 0 to store.Length
        invariant forall k :: 0 <= k < i ==> store[k] == old(store[k]) - other[k]
        invariant forall k :: i <= k < store.Length ==> store[k] == old(store[k])
      {
        store[i] := store[i] - other[i];
      }
    }

    /** `operator*=(TYPE)` as written: it subtracts the scalar. */
    method MulAssignScalar(x: real)
      modifies store
      ensures store[..] == SubScalar(old(store[..]), x)
    {
      for i := 0 to store.Length
        invariant forall k :: 0 <= k < i ==> store[k] == old(store[k]) - x
        invariant forall k :: i <= k < store.Length ==> store[k] == old(store[k])
      {
        store[i] := store[i] - x;
      }
    }

    /** `operator*=(Vec)` as intended: the componentwise product, like `operator*`. */
    method MulAssignIntended(other: Vector)
      requires |other| == store.Length
      modifies store
      ensures store[..] == Mul(old(store[..]), other)
    {
      for i := 0 to store.Length
        invariant forall k :: 0 <= k < i ==> store[k] == old(store[k]) * other[k]
        invariant forall k :: i <= k < store.Length ==> store[k] == old(store[k])
      {
        store[i] := store[i] * other[i];
      }
      assert forall k :: 0 <= k < store.Length ==> store[..][k] == Mul(old(store[..]), other)[k];
    }

    /** `operator*=(TYPE)` as intended: scaling, like `operator*`. */
    method MulAssignScalarIntended(x: real)
      modifies store
      ensures store[..] == Scale(old(store[..]), x)
    {
      for i := 0 to store.Length
        invariant forall k :: 0 <= k < i ==> store[k] == old(store[k]) * x
        invariant forall k :: i <= k < store.Length ==> store[k] == old(store[k])
      {
        store[i] := store[i] * x;
      }
      assert forall k :: 0 <= k < store.Length ==> store[..][k] == Scale(old(store[..]), x)[k];
    }

    /** `operator/=(TYPE)`. */
    method DivAssign(x: real)
      requires x != 0.0
      modifies store
      ensures store[..] == DivScalar(old(store[..]), x)
    {
      for i := 0 to store.Length
        invariant forall k :: 0 <= k < i ==> store[k] == old(store[k]) / x
        invariant forall k :: i <= k < store.Length ==> store[k] == old(store[k])
      {
        store[i] := store[i] / x;
      }
    }

    /** Unary `operator-`: negates the store in place and returns the same object. */
    method Negate() returns (self: Vec)
      modifies store
      ensures self == this
      ensures store[..] == Neg(old(store[..]))
    {
      for i := 0 to store.Length
        invariant forall k :: 0 <= k < i ==> store[k] == -old(store[k])
        invariant forall k :: i <= k < store.Length ==> store[k] == old(store[k])
      {
        store[i] := -store[i];
      }
      assert forall k :: 0 <= k < store.Length ==> store[..][k] == Neg(old(store[..]))[k];
      self := this;
    }

    /** `lerp(other, position)`: becomes exactly what `lerped` returns. */
    method Lerp(other: Vector, t: real)
      requires |other| == store.Length
      modifies store
      ensures store[..] == Lerped(old(store[..]), other, t)
    {
      for i := 0 to store.Length
        invariant forall k :: 0 <= k < i ==> store[k] == (1.0 - t) * old(store[k]) + t * other[k]
        invariant forall k :: i <= k < store.Length ==> store[k] == old(store[k])
      {
        store[i] := (1.0 - t) * store[i] + t * other[i];
      }
      assert forall k :: 0 <= k < store.Length ==> store[..][k] == Lerped(old(store[..]), other, t)[k];
    }
  }

  /** `*=` as written is not a product: on (2) with (2) it yields (0), not (4),
      and scaling (2) by 2 yields (0), not (4). */
  lemma MulAssignIsNotProduct()
    ensures Sub([2.0], [2.0]) != Mul([2.0], [2.0])
    ensures SubScalar([2.0], 2.0) != Scale([2.0], 2.0)
  {
    assert Sub([2.0], [2.0])[0] == 0.0;
    assert Mul([2.0], [2.0])[0] == 4.0;
    assert SubScalar([2.0], 2.0)[0] == 0.0;
    assert Scale([2.0], 2.0)[0] == 4.0;
  }
}

=== FILE: window.dfy ===
/** `Window`: the timeout table, the tick counter and the two scene roots it
    updates every frame.  The clock (`glfwGetTime()`) is a `now` parameter, a
    callback is a handle and what it returns when called is an input, and the
    GLFW window itself (creation, drawing, buffers, framebuffer size, `sync`) is
    not modelled. */
module Windows {
  import opened Vectors
  import opened Shapes
  import opened Records
  import opened Objects
  import opened Common
  import Quaternions
  import Geometry

  /** `unsigned` wraps around at 2^32. */
  const UintLimit: nat := 0x1_0000_0000

  function Bump(n: nat): (r: nat)
    ensures r < UintLimit
    ensures n + 1 < UintLimit ==> r == n + 1
  {
    (n + 1) % UintLimit
  }

  /** A `std::function<bool()>` passed to `setTimeout`, or the closure `animate`
      builds around the user's function and easing. */
  datatype Callback =
    | Plain(f: nat)
    | Animation(func: nat, easing: nat, start: real, total: real)

  /** `(func, deadline, interval)`. */
  datatype Timeout = Timeout(callback: Callback, deadline: real, interval: real)

  /** A timeout whose callback returned true: due again one interval later. */
  function Rearmed(t: Timeout): (r: Timeout)
    ensures r.callback == t.callback && r.interval == t.interval && r.deadline == t.deadline + t.interval
  {
    t.(deadline := t.deadline + t.interval)
  }

  // ---------------------------------------------------------------- the sweep

  /** The least element of a non-empty set of naturals. */
  lemma Least(s: set<nat>) returns (m: nat)
    requires s != {}
    ensures m in s && forall x :: x in s ==> m <= x
    decreases s
  {
    var x :| x in s;
    var rest := s - {x};
    assert forall y :: y in s ==> y == x || y in rest;
    m := x;
    if rest != {} {
      var r := Least(rest);
      if r < x {
        m := r;
      }
    }
  }

  lemma HasMin(s: set<nat>)
    requires s != {}
    ensures exists m :: m in s && forall x :: x in s ==> m <= x
  {
    var m := Least(s);
  }

  /** The smallest key of a non-empty set. */
  function Min(s: set<nat>): (m: nat)
    requires s != {}
    ensures m in s && forall x :: x in s ==> m <= x
  {
    HasMin(s);
    var m :| m in s && forall x :: x in s ==> m <= x;
    m
  }

  /** The keys of a `std::map` in iteration order. */
  function Ascending(s: set<nat>): (r: seq<nat>)
    ensures forall i, j :: 0 <= i < j < |r| ==> r[i] < r[j]
    ensures forall x :: x in r <==> x in s
    decreases s
  {
    if s == {} then []
    else
      var m := Min(s);
      [m] + Ascending(s - {m})
  }

  /** Due at `now`. */
  predicate Due(ts: map<nat, Timeout>, id: nat, now: real)
  {
    id in ts && ts[id].deadline <= now
  }

  /** The table after `update`'s sweep has passed the keys in `done`: each due
      timeout among them has run once, and is re-armed if its callback returned
      true (`answer`) and erased otherwise; every other entry is as it was. */
  function SweptPart(ts: map<nat, Timeout>, now: real, answer: nat -> bool, done: seq<nat>): (r: map<nat, Timeout>)
    ensures forall id :: id in r ==> id in ts
    ensures forall id :: id in ts && !(id in done && Due(ts, id, now)) ==> id in r && r[id] == ts[id]
    ensures forall id :: id in done && Due(ts, id, now) ==> (id in r <==> answer(id))
    ensures forall id :: id in done && Due(ts, id, now) && answer(id) ==> r[id] == Rearmed(ts[id])
  {
    map id | id in ts && (id !in done || ts[id].deadline > now || answer(id)) ::
      if id in done && ts[id].deadline <= now then Rearmed(ts[id]) else ts[id]
  }

  /** One more key passed by the sweep. */
  lemma SweptStep(ts: map<nat, Timeout>, now: real, answer: nat -> bool, keys: seq<nat>, k: nat)
    requires k < |keys| && keys[k] !in keys[..k] && keys[k] in ts
    ensures var cur, id := SweptPart(ts, now, answer, keys[..k]), keys[k];
            && id in cur && cur[id] == ts[id]
            && SweptPart(ts, now, answer, keys[..k + 1]) ==
                 if !Due(ts, id, now) then cur
                 else if answer(id) then cur[id := Rearmed(cur[id])]
                 else cur - {id}
  {
    var cur, id := SweptPart(ts, now, answer, keys[..k]), keys[k];
    var next := SweptPart(ts, now, answer, keys[..k + 1]);
    assert keys[..k + 1] == keys[..k] + [id];
    assert forall x :: x in keys[..k + 1] <==> x in keys[..k] || x == id;
    if !Due(ts, id, now) {
      assert next == cur;
    } else if answer(id) {
      assert next == cur[id := Rearmed(cur[id])];
    } else {
      assert next == cur - {id};
    }
  }

  /** Walking a strictly increasing key list: the next key is new and above
      every key passed so far. */
  lemma AscendingStep(keys: seq<nat>, k: nat)
    requires k < |keys| && forall i, j :: 0 <= i < j < |keys| ==> keys[i] < keys[j]
    ensures keys[k] !in keys[..k] && forall x :: x in keys[..k] ==> x < keys[k]
    ensures forall x :: x in keys[..k + 1] <==> x in keys[..k] || x == keys[k]
  {
    assert keys[..k + 1] == keys[..k] + [keys[k]];
  }

  /** A sweep over `ts` that has passed the first `k` keys holds `cur` and has executed the due ones. */
  ghost predicate SweptTo(cur: map<nat, Timeout>, ts: map<nat, Timeout>, now: real, answer: nat -> bool, keys: seq<nat>, k: nat, executed: seq<nat>)
  {
    && k <= |keys|
    && cur == SweptPart(ts, now, answer, keys[..k])
    && (forall i, j :: 0 <= i < j < |executed| ==> executed[i] < executed[j])
    && (forall id :: id in executed <==> id in keys[..k] && Due(ts, id, now))
  }

  /** Before the first key the sweep has changed nothing. */
  lemma SweepStart(ts: map<nat, Timeout>, now: real, answer: nat -> bool, keys: seq<nat>)
    ensures SweptTo(ts, ts, now, answer, keys, 0, [])
  {
    assert keys[..0] == [];
  }

  /** Past the last key the sweep has handled every entry. */
  lemma SweepEnd(ts: map<nat, Timeout>, now: real, answer: nat -> bool, keys: seq<nat>, cur: map<nat, Timeout>, executed: seq<nat>)
    requires keys == Ascending(ts.Keys)
    requires SweptTo(cur, ts, now, answer, keys, |keys|, executed)
    ensures cur == SweptPart(ts, now, answer, keys)
    ensures forall i, j :: 0 <= i < j < |executed| ==> executed[i] < executed[j]
    ensures forall id :: id in executed <==> Due(ts, id, now)
  {
    assert keys[..|keys|] == keys;
  }

  /** The executed list after one more key of the sweep. */
  lemma ExecutedStep(ts: map<nat, Timeout>, now: real, keys: seq<nat>, k: nat, executed: seq<nat>, executed': seq<nat>)
    requires k < |keys| && forall i, j :: 0 <= i < j < |keys| ==> keys[i] < keys[j]
    requires forall i, j :: 0 <= i < j < |executed| ==> executed[i] < executed[j]
    requires forall id :: id in executed <==> id in keys[..k] && Due(ts, id, now)
    requires executed' == if Due(ts, keys[k], now) then executed + [keys[k]] else executed
    ensures forall i, j :: 0 <= i < j < |executed'| ==> executed'[i] < executed'[j]
    ensures forall id :: id in executed' <==> id in keys[..k + 1] && Due(ts, id, now)
  {
    AscendingStep(keys, k);
    if Due(ts, keys[k], now) {
      IncreasingPush(executed, keys[k]);
    }
  }

  /** A key above every key listed keeps the list strictly increasing. */
  lemma IncreasingPush(s: seq<nat>, x: nat)
    requires forall i, j :: 0 <= i < j < |s| ==> s[i] < s[j]
    requires forall y :: y in s ==> y < x
    ensures forall i, j :: 0 <= i < j < |s + [x]| ==> (s + [x])[i] < (s + [x])[j]
  {
    forall i, j | 0 <= i < j < |s + [x]|
      ensures (s + [x])[i] < (s + [x])[j]
    {
      assert (s + [x])[i] == s[i] && s[i] in s;
    }
  }

  // ---------------------------------------------------------------- animate

  /** `ceil(x)`. */
  function Ceil(x: real): (n: int)
    ensures (n - 1) as real < x <= n as real
  {
    -((-x).Floor)
  }

  /** The number of steps `animate` uses: `total_steps`, or when that is 0 one
      step per started hundredth of a second of `total_time`. */
  function Steps(totalTime: real, totalSteps: nat): (n: nat)
    requires totalSteps > 0 || totalTime > 0.0
    ensures n >= 1
    ensures totalSteps > 0 ==> n == totalSteps
    ensures totalSteps == 0 ==> (n - 1) as real < totalTime / 0.01 <= n as real
  {
    if totalSteps == 0 then Ceil(totalTime / 0.01) else totalSteps
  }

  /** The interval of the animation's timeout: `total_time * (1 / steps)`. */
  function Interval(totalTime: real, totalSteps: nat): real
    requires totalSteps > 0 || totalTime > 0.0
  {
    totalTime * (1.0 / Steps(totalTime, totalSteps) as real)
  }

  /** The steps of an animation span its whole duration. */
  lemma IntervalsSpan(totalTime: real, totalSteps: nat)
    requires totalSteps > 0 || totalTime > 0.0
    ensures Interval(totalTime, totalSteps) * Steps(totalTime, totalSteps) as real == totalTime
    ensures totalTime > 0.0 ==> 0.0 < Interval(totalTime, totalSteps) <= totalTime
  {
    var n := Steps(totalTime, totalSteps) as real;
    assert (1.0 / n) * n == 1.0;
    assert Interval(totalTime, totalSteps) * n == totalTime * ((1.0 / n) * n);
    if totalTime > 0.0 {
      assert 1.0 / n <= 1.0;
      assert totalTime * (1.0 / n) <= totalTime * 1.0;
    }
  }

  /** One call of the closure `animate` registers, at `now`: the value handed to
      the user's function, and what the closure returns.  `easing` and `func`
      stand for the two functions it captured. */
  function AnimationCall(a: Callback, now: real, easing: (real, real, real, real) -> real, func: real -> bool): (r: (real, bool))
    requires a.Animation?
    ensures now >= a.start + a.total ==> r == (1.0, false)
    ensures now < a.start + a.total ==> r.0 == easing(now - a.start, 0.0, 1.0, a.total) && r.1 == func(r.0)
  {
    if now < a.total + a.start then
      var x := easing(now - a.start, 0.0, 1.0, a.total);
      (x, func(x))
    else (1.0, false)
  }

  /** An animation whose time is up is erased by the next sweep that finds it
      due. */
  lemma AnimationRetires(ts: map<nat, Timeout>, id: nat, now: real, answer: nat -> bool,
                         easing: (real, real, real, real) -> real, func: real -> bool)
    requires Due(ts, id, now) && ts[id].callback.Animation?
    requires now >= ts[id].callback.start + ts[id].callback.total
    requires answer(id) == AnimationCall(ts[id].callback, now, easing, func).1
    ensures id !in SweptPart(ts, now, answer, Ascending(ts.Keys))
  {
  }

  // ---------------------------------------------------------------- the window

  class Window {
    /** `timeouts`, keyed by id. */
    var timeouts: map<nat, Timeout>
    var tickCounter: nat
    var timeoutCounter: nat
    /** The function-static `first_time` of `update`. */
    var firstTime: real
    /** How many ids `setTimeout` has handed out. */
    ghost var issued: nat

    /** The arena holding `object_root` and `gui_root`. */
    const world: World
    const objectRoot: Id
    const guiRoot: Id

    /** Counters stay unsigned; until the id counter wraps, every key is an id
        already handed out; the world is ready for an outermost `update`. */
    ghost predicate Valid()
      reads this, world
    {
      && tickCounter < UintLimit && timeoutCounter < UintLimit
      && timeoutCounter == issued % UintLimit
      && (issued < UintLimit ==> forall id :: id in timeouts ==> id < timeoutCounter)
      && world.Valid() && world.moving == [] && world.collided == map[] && world.destroyShared
    }

    /** `Window(...)`: the two roots are default objects, nothing is scheduled.
        `reuseObject` and `reuseGui` are the addresses the allocator hands the
        two roots, as for `World.NewObject`. */
    constructor(world: World, reuseObject: Option<Id>, reuseGui: Option<Id>)
      requires world.Valid() && world.moving == [] && world.collided == map[] && world.destroyShared
      requires reuseObject.Some? ==> reuseObject.value in world.invalid && reuseObject.value != 0
      requires reuseGui.Some? ==> reuseGui.value in world.invalid && reuseGui.value != 0 && reuseGui != reuseObject
      modifies world
      ensures Valid() && this.world == world
      ensures timeouts == map[] && tickCounter == 0 && timeoutCounter == 0 && issued == 0 && firstTime == 0.0
      ensures objectRoot in world.objects && guiRoot in world.objects && objectRoot != guiRoot
      ensures world.objects[objectRoot].children == [] && world.objects[guiRoot].children == []
    {
      var o := world.NewObject(Geometry.ZeroVec, Quaternions.Identity, true, None, Geometry.ZeroVec, Geometry.ZeroVec, reuseObject);
      var g := world.NewObject(Geometry.ZeroVec, Quaternions.Identity, true, None, Geometry.ZeroVec, Geometry.ZeroVec, reuseGui);
      this.world := world;
      objectRoot, guiRoot := o, g;
      timeouts, tickCounter, timeoutCounter, firstTime, issued := map[], 0, 0, 0.0, 0;
    }

    /** `getTick()`. */
    method GetTick() returns (t: nat)
      ensures t == tickCounter
    {
      t := tickCounter;
    }

    /** `addObject(obj)`: `object_root.addChild(obj)`. */
    method AddObject(obj: Id)
      requires Valid()
      modifies world`objects
      ensures Valid()
      ensures world.objects == if objectRoot in old(world.objects) && obj in old(world.objects)
                               then Linked(old(world.objects), objectRoot, obj) else old(world.objects)
    {
      world.AddChild(objectRoot, obj);
    }

    /** `addGUI(gui)`: `gui_root.addChild(gui)`. */
    method AddGui(gui: Id)
      requires Valid()
      modifies world`objects
      ensures Valid()
      ensures world.objects == if guiRoot in old(world.objects) && gui in old(world.objects)
                               then Linked(old(world.objects), guiRoot, gui) else old(world.objects)
    {
      world.AddChild(guiRoot, gui);
    }

    /** `setTimeout(func, interval)` at `now`: the id is the counter's old value;
        until the counter wraps it is fresh and one above the previous one. */
    method SetTimeout(callback: Callback, interval: real, now: real) returns (id: nat)
      requires Valid()
      modifies this`timeouts, this`timeoutCounter, this`issued
      ensures Valid()
      ensures id == old(timeoutCounter) && timeoutCounter == Bump(old(timeoutCounter)) && issued == old(issued) + 1
      ensures timeouts == old(timeouts)[id := Timeout(callback, now + interval, interval)]
      ensures old(issued) < UintLimit ==> id == old(issued) && id !in old(timeouts)
    {
      id := timeoutCounter;
      timeoutCounter := Bump(timeoutCounter);
      issued := issued + 1;
      timeouts := timeouts[id := Timeout(callback, now + interval, interval)];
      if issued < UintLimit {
        assert issued % UintLimit == issued;
        assert old(issued) % UintLimit == old(issued);
      } else if issued == UintLimit {
        assert timeoutCounter == 0;
      }
    }

    /** `clearTimeout(id)`. */
    method ClearTimeout(id: nat)
      requires Valid()
      modifies this`timeouts
      ensures Valid() && timeouts == old(timeouts) - {id}
    {
      timeouts := timeouts - {id};
    }

    /** The private `executeTimeout(iterator)`: `result` is what the callback
        returned; true re-arms the timeout, false erases it. */
    method Execute(id: nat, result: bool) returns (kept: bool)
      requires Valid() && id in timeouts
      modifies this`timeouts
      ensures Valid() && kept == result
      ensures timeouts == if result then old(timeouts)[id := Rearmed(old(timeouts)[id])] else old(timeouts) - {id}
    {
      if result {
        timeouts := timeouts[id := Rearmed(timeouts[id])];
        return true;
      }
      timeouts := timeouts - {id};
      return false;
    }

    /** `executeTimeout(id)`: false and no change when there is no such timeout. */
    method ExecuteTimeout(id: nat, result: bool) returns (kept: bool)
      requires Valid()
      modifies this`timeouts
      ensures Valid()
      ensures id !in old(timeouts) ==> !kept && timeouts == old(timeouts)
      ensures id in old(timeouts) ==> kept == result
      ensures id in old(timeouts) ==>
                timeouts == if result then old(timeouts)[id := Rearmed(old(timeouts)[id])] else old(timeouts) - {id}
    {
      if id in timeouts {
        kept := Execute(id, result);
      } else {
        kept := false;
      }
    }

    /** `completeAnimation(id)`: runs the timeout until its callback returns
        false; `results(k)` is what the k-th call returns, and some call returns
        false.  `calls` is the number of calls made. */
    method CompleteAnimation(id: nat, results: nat -> bool) returns (calls: nat)
      requires Valid() && exists n: nat :: !results(n)
      modifies this`timeouts
      ensures Valid() && timeouts == old(timeouts) - {id}
      ensures id !in old(timeouts) ==> calls == 0
      ensures id in old(timeouts) ==> calls > 0 && !results(calls - 1) && forall k :: 0 <= k < calls - 1 ==> results(k)
    {
      calls := 0;
      if id in timeouts {
        ghost var n: nat :| !results(n);
        var again := true;
        while again
          invariant Valid() && (again <==> id in timeouts) && calls <= n + 1
          invariant again ==> calls <= n && timeouts - {id} == old(timeouts) - {id}
          invariant !again ==> timeouts == old(timeouts) - {id} && calls > 0 && !results(calls - 1)
          invariant forall k :: 0 <= k < calls - 1 ==> results(k)
          invariant again ==> forall k :: 0 <= k < calls ==> results(k)
          decreases n + 1 - calls
        {
          ghost var before := timeouts;
          again := Execute(id, results(calls));
          calls := calls + 1;
          if again {
            assert timeouts - {id} == before - {id};
          }
        }
      }
    }

    /** The timeout sweep of `update`: the entries in ascending id order, each
        due one executed once (`answer(id)` is what its callback returns), the
        next entry located before the current one runs. */
    method Sweep(now: real, answer: nat -> bool) returns (executed: seq<nat>)
      requires Valid()
      modifies this`timeouts
      ensures Valid()
      ensures timeouts == SweptPart(old(timeouts), now, answer, Ascending(old(timeouts).Keys))
      ensures forall i, j :: 0 <= i < j < |executed| ==> executed[i] < executed[j]
      ensures forall id :: id in executed <==> Due(old(timeouts), id, now)
    {
      var keys := Ascending(timeouts.Keys);
      executed := [];
      SweepStart(timeouts, now, answer, keys);
      for k := 0 to |keys|
        invariant Valid() && SweptTo(timeouts, old(timeouts), now, answer, keys, k, executed)
      {
        executed := SweepOne(now, answer, old(timeouts), keys, k, executed);
      }
      SweepEnd(old(timeouts), now, answer, keys, timeouts, executed);
    }

    /** One iteration of the sweep: the entry with key `keys[k]` runs if due. */
    method SweepOne(now: real, answer: nat -> bool, ghost ts: map<nat, Timeout>, keys: seq<nat>, k: nat, executed: seq<nat>)
      returns (executed': seq<nat>)
      requires Valid() && SweptTo(timeouts, ts, now, answer, keys, k, executed) && k < |keys|
      requires keys[k] in ts && forall i, j :: 0 <= i < j < |keys| ==> keys[i] < keys[j]
      modifies this`timeouts
      ensures Valid() && SweptTo(timeouts, ts, now, answer, keys, k + 1, executed')
    {
      var id := keys[k];
      AscendingStep(keys, k);
      SweptStep(ts, now, answer, keys, k);
      executed' := executed;
      if timeouts[id].deadline <= now {
        var kept := Execute(id, answer(id));
        executed' := executed + [id];
      }
      ExecutedStep(ts, now, keys, k, executed, executed');
    }

    /** `update()` at `now`: `object_root` is updated with collision detection,
        then `gui_root` without, with `now - first_time` as the time step; then
        the timeout sweep; then the tick.  `fuel` bounds the depth of the scene
        updates; `b1`/`b2` and `t1`/`t2` are their hook calls and teardowns. */
    method Update(now: real, fuel: nat, answer: nat -> bool)
      returns (executed: seq<nat>, ghost b1: seq<Event>, ghost d1: set<Id>, ghost t1: seq<Id>,
               ghost b2: seq<Event>, ghost d2: set<Id>, ghost t2: seq<Id>)
      requires Valid()
      modifies this`timeouts, this`tickCounter, this`firstTime, world
      ensures Valid()
      ensures tickCounter == Bump(old(tickCounter)) && firstTime == now
      ensures timeouts == SweptPart(old(timeouts), now, answer, Ascending(old(timeouts).Keys))
      ensures forall i, j :: 0 <= i < j < |executed| ==> executed[i] < executed[j]
      ensures forall id :: id in executed <==> Due(old(timeouts), id, now)
      ensures world.log == old(world.log) + b1 + TeardownLog(t1) + b2 + TeardownLog(t2)
      ensures objectRoot in old(world.objects) && fuel > 0 ==>
        |b1| >= 2 && b1[0] == BeforeUpdate(objectRoot) && b1[|b1| - 1] == AfterUpdate(objectRoot)
      ensures guiRoot in old(world.objects) && guiRoot !in t1 && fuel > 0 ==>
        |b2| >= 2 && b2[0] == BeforeUpdate(guiRoot) && b2[|b2| - 1] == AfterUpdate(guiRoot)
      ensures NoCollisionCalls(b2)
      ensures Honoured(world.hooks, b1, old(world.objects).Keys, d1)
      ensures Honoured(world.hooks, b2, old(world.objects).Keys - (set o | o in t1), d2)
      ensures old(world.marked) <= d1
      ensures forall o :: o in old(world.marked) && o in old(world.objects) ==> o !in world.objects
      ensures forall o :: o in d1 + d2 && o in old(world.objects) ==> o !in world.objects
      ensures forall e, t :: e in b1 + b2 && t in Targets(world.hooks, e) && t in old(world.objects) ==> t !in world.objects
      ensures world.objects.Keys == old(world.objects).Keys - (set o | o in t1) - (set o | o in t2)
      ensures world.invalid == old(world.invalid) + (set o | o in t1) + (set o | o in t2)
      ensures world.marked == {}
    {
      var dt := now - firstTime;
      b1, d1, t1 := world.Update(objectRoot, dt, true, fuel);
      b2, d2, t2 := world.Update(guiRoot, dt, false, fuel);
      firstTime := now;
      executed := Sweep(now, answer);
      tickCounter := Bump(tickCounter);
    }

    /** `animate(func, total_time, total_steps, easing)` at `now`: a timeout whose
        closure captures the start time and the duration, due every
        `Interval(total_time, total_steps)`. */
    method Animate(func: nat, easing: nat, totalTime: real, totalSteps: nat, now: real) returns (id: nat)
      requires Valid() && (totalSteps > 0 || totalTime > 0.0)
      modifies this`timeouts, this`timeoutCounter, this`issued
      ensures Valid() && id == old(timeoutCounter)
      ensures timeouts == old(timeouts)[id := Timeout(Animation(func, easing, now, totalTime),
                                                      now + Interval(totalTime, totalSteps), Interval(totalTime, totalSteps))]
    {
      var steps := if totalSteps == 0 then Ceil(totalTime / 0.01) else totalSteps;
      var delta := 1.0 / steps as real;
      assert steps == Steps(totalTime, totalSteps) && totalTime * delta == Interval(totalTime, totalSteps);
      id := SetTimeout(Animation(func, easing, now, totalTime), totalTime * delta, now);
    }
  }
}
